=== FILE: README.md ===
# tylang core, modelled in Dafny

This project models the sequential core of the tylang compiler. tylang is a toy systems language written in Rust. The model covers:

- its text utilities: source positions, spans, string unescaping, the lossless CST lexer, the legacy lexer and the intern map;
- its generic data structures: arbitrary-precision integers, a graph with deduplicated edges, a hash-consing set and a sparse matrix;
- the event-based parser core: markers, `precede`, follow sets, Pratt binding powers, forward-parent replay and the green-tree builder;
- the legacy backtracking parser helpers;
- semantic checking: the marker unifier, the arena-and-namespace map and the older id-equality type database;
- IR bookkeeping: LIR value ids and type context, instruction arity tables, BIR builder id allocation;
- the toy statement interpreter.

Each Rust source file of the core becomes one Dafny module. A few further modules hold shared helpers with no source file of their own: `Wrappers` and `Slices` (option and result types, sequence facts, newline counting), `Decimal` (digit strings), and `Arith` and `Pow2s` (arithmetic facts for the `Ap` integers). Every mutable arena becomes an immutable record, and every `&mut self` method becomes a function from the old record to the new one. A panic that the source documents becomes an error outcome (`Result`/`Option`). A debug assertion or an internal `unwrap` becomes a `requires`.

The only type checking is the marker-based unifier in `crates/sema/src/check.rs`, plus the id-equality check in `crates/tyc/src/typeck.rs`.

## Model

| member | source | states |
|---|---|---|
| Spans.Size | crates/utils/src/span.rs:10-12 | the size added to the start offset gives the end offset |
| Spans.AnchorLeIsTotalOrder | crates/utils/src/span.rs:30-32 | anchor order, the order `contains` compares with, is reflexive, antisymmetric, transitive and total |
| Spans.Contains | crates/utils/src/span.rs:30-32 | a span that contains another covers every anchor the other covers |
| Spans.ContainsIffCovers | crates/utils/src/span.rs:30-32 | for a span whose start is not after its end, being contained is exactly having every covered anchor covered |
| Spans.ContainsReflexive | crates/utils/src/span.rs:30-32 | every span contains itself |
| Spans.ContainsTransitive | crates/utils/src/span.rs:30-32 | containment is transitive |
| Spans.ContainsAntisymmetric | crates/utils/src/span.rs:30-32 | two spans that contain each other are equal |
| SparseMatrix.NewValid | crates/utils/src/sparse_matrix.rs:11-17 | a new matrix is consistent: every index maps to a stored value |
| SparseMatrix.InsertAt | crates/utils/src/sparse_matrix.rs:19-28 | insert returns true iff the cell is already taken, and then changes nothing; otherwise it appends the value and points the cell at it |
| SparseMatrix.Insert | crates/utils/src/sparse_matrix.rs:19-28 | on cell (x, y): a taken cell is reported and nothing changes; a free one stores the value after the others; the dimensions stay; a consistent matrix stays consistent, and the cell counts as taken exactly when get finds a value there |
| SparseMatrix.Get | crates/utils/src/sparse_matrix.rs:30-37 | on cell (x, y): Some exactly when the cell was inserted, and then a stored value |
| SparseMatrix.GetAt | crates/utils/src/sparse_matrix.rs:30-37 | get is Some iff the cell was inserted, and then returns the stored value |
| SparseMatrix.InsertAtKeepsValid | crates/utils/src/sparse_matrix.rs:19-28 | insert keeps every index pointing at a stored value, so get's internal `expect` never fires |
| SparseMatrix.GetAfterInsertAt | crates/utils/src/sparse_matrix.rs:19-37 | after insert, get on that cell gives the new value if the cell was free and the old value otherwise; other cells are unchanged |
| SparseMatrix.CellIndexInjective | crates/utils/src/sparse_matrix.rs:19-37 | the corrected cell key x·height + y is distinct for distinct in-range coordinates |
| SparseMatrix.GetAfterInsert | crates/utils/src/sparse_matrix.rs:19-37 | the same get-after-insert law stated on (x, y) coordinates |
| SparseMatrix.TenByTen | crates/utils/src/sparse_matrix.rs:45-50 | the unit test: in a 10×10 matrix, after inserting 10 at (0, 9), get (0, 9) is 10 and get (1, 1) is None |
| SparseMatrix.CellIndex | crates/utils/src/sparse_matrix.rs:31 | the corrected key puts each row x in its own block of height cells, from x·height up to (x+1)·height |
| SparseMatrix.CellIndexAsWritten | crates/utils/src/sparse_matrix.rs:20 | the key as written agrees with the corrected one on square matrices |
| SparseMatrix.CellIndexAsWrittenCollides | crates/utils/src/sparse_matrix.rs:19-37 | in a 2×3 matrix, the key as written maps (0, 2) and (1, 0) to the same cell, so the second insert is refused; the corrected keys differ |
| SparseMatrix.SecondInsertRefused | crates/utils/src/sparse_matrix.rs:21-23 | inserting into a taken cell reports it as taken |
| SparseMatrix.WrittenIndicesMeet | crates/utils/src/sparse_matrix.rs:19-37 | with width 2, the key as written is 2 for both (0, 2) and (1, 0) |
| SparseMatrix.RowMajorIndicesDiffer | crates/utils/src/sparse_matrix.rs:19-37 | with height 3, the corrected keys of (0, 2) and (1, 0) are 2 and 3 |
| StringUtils.Fmt | crates/utils/src/string_utils.rs:27-35 | a separator prints nothing the first time and its text every later time; afterwards it is no longer "first" |
| StringUtils.WriteAllAfterFirst | crates/utils/src/string_utils.rs:27-35 | a separator already used prints its text before every item |
| StringUtils.SeparatorJoins | crates/utils/src/string_utils.rs:6-35 | printing a fresh separator before each item joins the items with the separator |
| StringUtils.Join | crates/utils/src/string_utils.rs:27-35 | the reference joining the separator is checked against: the text starts with the first item and ends with the last |
| StringUtils.TrimAndUnescape | crates/utils/src/string_utils.rs:43-66 | needs at least two characters, quoted at both ends; the result is no longer than the text between the quotes |
| StringUtils.Unescape | crates/utils/src/string_utils.rs:48-65 | every output character comes from the input, except a newline written for an escaped `n` and a backslash kept from an escape |
| StringUtils.UnescapeLength | crates/utils/src/string_utils.rs:48-65 | unescaping never lengthens the text (a pending backslash counts as one character) |
| StringUtils.UnescapePlain | crates/utils/src/string_utils.rs:50-64 | text without a backslash is returned unchanged |
| StringUtils.Escape | crates/utils/src/string_utils.rs:51-64 | the partner escaping: it writes each newline as a backslash followed by `n` and copies every other character; it never shortens the text |
| StringUtils.UnescapeEscape | crates/utils/src/string_utils.rs:51-64 | unescaping inverts escaping for any text whose backslashes the unescaper keeps (`\n` gives a newline, any other escaped character keeps its backslash) |
| StringUtils.QuotedRoundTrip | crates/utils/src/string_utils.rs:43-66 | trim_and_unescape of a quoted, escaped text returns the text |
| SourceUtils.Build | crates/utils/src/source_utils.rs:43-60 | a missing file name becomes `<err>`, "-" becomes `<stdin>`, others are kept; line_ends holds exactly the offsets of the newlines, in order |
| SourceUtils.NoNewlineInLine | crates/utils/src/source_utils.rs:134-157 | the text between a line's start and its end holds no newline |
| SourceUtils.LineAnchor | crates/utils/src/source_utils.rs:84-117 | the anchor for an offset inside a line is 1-based, keeps the offset, and its column counts from the line start |
| SourceUtils.AnchorAt | crates/utils/src/source_utils.rs:83-119 | None iff the offset lies past the last newline; otherwise the 1-based anchor of the offset |
| SourceUtils.AnchorColumnCountsFromLineStart | crates/utils/src/source_utils.rs:84-92 | an anchor's column counts the characters since the previous newline |
| SourceUtils.SpanFor | crates/utils/src/source_utils.rs:121-126 | Some iff both endpoints anchor, with the anchors of both endpoints |
| SourceUtils.NumLines | crates/utils/src/source_utils.rs:128-132 | for a built source, the number of newlines in the text plus one for a last line without one, and zero exactly for the empty text |
| SourceUtils.LineEndsCount | crates/utils/src/source_utils.rs:128-132 | the recorded line ends are exactly as many as the newlines of the text |
| SourceUtils.NumLinesTests | crates/utils/src/source_utils.rs:389-396 | the unit test: "" has 0 lines, "foo" and "foo\n" 1, "foo\nbar" and "foo\nbar\n" 2 |
| SourceUtils.Line | crates/utils/src/source_utils.rs:128-157 | Some iff 1 ≤ n ≤ num_lines (newline count, plus one when the text does not end in a newline); the line is the text between the line ends and holds no newline |
| InternMap.EmptyValid | src/util/intern_map.rs:35-39 | a new map is a consistent bijection |
| InternMap.Add | src/util/intern_map.rs:41-57 | an interned value returns its id; a new value is stored under its hash; a hash already used by another value is the "overwritten" panic |
| InternMap.Get | src/util/intern_map.rs:59-61 | get is Some iff the id is interned, and returns its value |
| InternMap.AddKeepsValid | src/util/intern_map.rs:41-57 | add keeps the two directions a bijection |
| InternMap.GetAfterAdd | src/util/intern_map.rs:41-61 | get(add(v)) is v |
| InternMap.AddIdempotent | src/util/intern_map.rs:44-45 | adding an equal value again returns the same id and changes nothing |
| InternMap.Len | src/util/intern_map.rs:63-65 | in a consistent map, the number of distinct values interned |
| InternMap.LenCountsValues | src/util/intern_map.rs:63-65 | len counts the distinct values, and add grows it by one exactly for a new value |
| InternMap.LenIsKeyCount | src/util/intern_map.rs:63-65 | len is the number of interned values |
| InternMap.AddNewGrowsByOne | src/util/intern_map.rs:46-55 | adding a new value adds exactly that value and grows len by one |
| CstLexer.MatchingRange | crates/cst/src/lexer.rs:106-116 | the run ends at the first rejected character or at the end; every character before it is accepted |
| CstLexer.SingleKindSpelled | crates/cst/src/lexer.rs:50-67 | each single-character token kind is spelled by exactly that character |
| CstLexer.LexKeywordSound | crates/cst/src/lexer.rs:131-145 | a word lexes as IDENT or as the keyword it spells |
| CstLexer.LexKeywordComplete | crates/cst/src/lexer.rs:131-145 | every keyword in the lexer's table lexes from its own spelling (`import` and `extern` are not in it) |
| CstLexer.LexOne | crates/cst/src/lexer.rs:44-82 | the token text is exactly the input consumed; it moves iff input remains; at the end it is EOF with empty text, and EOF nowhere else |
| CstLexer.LexAll | crates/cst/src/parser/input.rs:38-48 | lexing up to the end yields at most one token per character, and no tokens exactly when nothing remains |
| CstLexer.NumberIsMaximalDigitRun | crates/cst/src/lexer.rs:153-155 | a number is a non-empty, maximal run of ASCII digits |
| CstLexer.StringShape | crates/cst/src/lexer.rs:157-167 | a string token starts and ends with a quote and has none between; an unterminated one is ERROR and runs to the end |
| CstLexer.CommentShape | crates/cst/src/lexer.rs:69-76 | `//` starts a comment that stops before the next newline; a lone `/` is SLASH |
| CstLexer.IdentOrKeyword | crates/cst/src/lexer.rs:127-147 | a word is a keyword exactly when it is in the lexer's keyword table, otherwise IDENT, and it is maximal |
| CstLexer.LexAllLossless | crates/cst/src/lexer.rs:44-82 | the token texts, concatenated, are the input (lossless) |
| CstLexer.LexAllNoEof | crates/cst/src/lexer.rs:45-48 | EOF appears only at the end of input, never among the tokens of the text |
| CstLexer.Intern | crates/cst/src/lexer.rs:94-99 | a cached (kind, text) pair returns its token; a new pair is allocated the next id |
| CstLexer.InternKeepsValid | crates/cst/src/lexer.rs:94-99 | the cache keeps distinct pairs at distinct ids |
| CstLexer.InternSharesEqualTokens | crates/cst/src/lexer.rs:94-99 | two tokens get the same cached token iff they are equal |
| CstLexer.FooFoo | crates/cst/src/lexer.rs:247-254 | the unit test: "foo foo" lexes as IDENT, WHITESPACE, IDENT |
| Kinds.IsKeyword | crates/cst/src/green/kinds.rs:253-271 | the keyword kinds are exactly those with a keyword spelling |
| Kinds.IsOperator | crates/cst/src/green/kinds.rs:273-296 | every operator is punctuation of one to three characters, never a word |
| Kinds.IsTrivia | crates/cst/src/green/kinds.rs:298-303 | trivia kinds have neither a keyword nor a punctuation spelling |
| Kinds.KeywordsAreSpelled | crates/cst/src/green/kinds.rs:253-271 | is_keyword holds exactly for the kinds with a keyword spelling |
| Kinds.ClassesDisjoint | crates/cst/src/green/kinds.rs:253-303 | no kind is two of keyword, operator and trivia |
| Kinds.Subtokens | crates/cst/src/green/kinds.rs:305-319 | every kind splits into one to three subtokens |
| Kinds.SubtokensSpellKind | crates/cst/src/green/kinds.rs:305-319 | a compound operator's subtokens spell it character by character (`==` is `=`,`=`; `...` is `.`,`.`,`.`); every other kind is its own only subtoken |
| Kinds.TerminatedBySemicolon | crates/cst/src/green/kinds.rs:321-337 | defined only for expression kinds (any other is `unreachable!`); false exactly for IF, LOOP and WHILE |
| Green.NodeTextLength | crates/cst/src/green.rs:20-81 | in a well-formed node the text is exactly `len` characters long |
| Green.ChildrenTextLength | crates/cst/src/green.rs:20-81 | the children's texts together are as long as the sum of the children's lens |
| Green.ChildTextLength | crates/cst/src/green.rs:20-39 | a child's len is its node's len or its token's text length, and equals the length of its text |
| Green.ChildTextAtOffset | crates/cst/src/green.rs:160-166 | each child's relative offset locates its text inside its parent's text |
| Green.ChildrenTextSplit | crates/cst/src/green.rs:79-81 | node text is the concatenation of the children's texts, so it splits at any child |
| Green.NewBuilderWF | crates/cst/src/green.rs:139-141 | a new builder is well-formed |
| Green.AddToken | crates/cst/src/green.rs:149-166 | `token` appends a token child at the current relative offset and advances that offset by the text length |
| Green.StartNode | crates/cst/src/green.rs:168-172 | `start_node` records (kind, child count, offset) and restarts the relative offset at 0 |
| Green.FinishNode | crates/cst/src/green.rs:174-187 | `finish_node` fails without an open node; otherwise it replaces the children since the node's start with one node of that kind, whose len is the sum of their lens, at the recorded offset |
| Green.Finish | crates/cst/src/green.rs:189-195 | `finish` succeeds iff exactly one child remains and it is a node, and returns that node |
| Green.AddTokenKeepsWF | crates/cst/src/green.rs:149-166 | `token` keeps every frame's offsets equal to the sums of the earlier siblings' lens |
| Green.StartNodeKeepsWF | crates/cst/src/green.rs:168-172 | `start_node` keeps the builder well-formed |
| Green.FinishNodeKeepsWF | crates/cst/src/green.rs:174-187 | `finish_node` keeps the builder well-formed |
| Green.FinishIsWF | crates/cst/src/green.rs:174-195 | a finished node is well-formed: each node's len is the sum of its children's lens and each child's offset the sum of its earlier siblings' lens |
| Green.SingleNode | crates/cst/src/green.rs:202-215 | the unit test: a LET_ITEM node over "let", " ", "foo" has len 7 |
| ParserEvents.Step | crates/parser/src/types.rs:249-254 | a step counts one more and panics ("might be stuck") once the count reaches 1 000 000 |
| ParserEvents.StepsBudget | crates/parser/src/types.rs:249-254 | n steps succeed iff n is 0 or the count stays below the limit, and then add exactly n |
| ParserEvents.ReportError | crates/parser/src/types.rs:126-129 | `error` takes a step and appends one Error event |
| ParserEvents.Advance | crates/parser/src/types.rs:90-96 | `advance` moves one token, except at EOF, where it reports "unexpected EOF" and stays |
| ParserEvents.StartNode | crates/parser/src/types.rs:98-102 | `start_node` appends a tombstone and returns its index |
| ParserEvents.FinishNode | crates/parser/src/types.rs:256-259 | `finish_node` takes a step and appends NodeFinish |
| ParserEvents.Complete | crates/parser/src/types.rs:33-48 | `complete` panics unless the marker's event is a tombstone; otherwise it rewrites it to the kind and appends NodeFinish |
| ParserEvents.Precede | crates/parser/src/types.rs:57-67 | `precede` appends a tombstone and points the completed node's forward parent at it; it panics when the index is not a node start |
| ParserEvents.RemoveFollow | crates/parser/src/types.rs:187-189 | only the innermost follow set loses the kind; nothing else changes |
| ParserEvents.WithFollowSet | crates/parser/src/types.rs:175-185 | the action runs under a new innermost follow set; its panic is passed on; afterwards the top set is popped, and the run fails exactly when that leaves no set; nothing else differs from the action's result |
| ParserEvents.WithFollowSetRestores | crates/parser/src/types.rs:175-185 | for an action that keeps the follow-stack depth, `with_follow_set` succeeds iff the action does, and restores the caller's follow stack |
| ParserEvents.Round | crates/parser/src/types.rs:118-122 | one subtoken round moves one token, or at EOF records an error and stays |
| ParserEvents.TokenLoop | crates/parser/src/types.rs:118-122 | n rounds move over the non-EOF tokens ahead and record one error per round that meets EOF |
| ParserEvents.Token | crates/parser/src/types.rs:115-124 | `token(kind)` takes a step, runs one round per subtoken and appends Tokens(kind, n) |
| ParserEvents.TokenAdvancesBySubtokens | crates/parser/src/types.rs:115-124 | when no EOF lies ahead, `token(kind)` moves by the subtoken count and appends exactly Tokens(kind, n) |
| ParserEvents.EatTrivia | crates/parser/src/types.rs:261-265 | `eat_trivia` stops on the first non-trivia token and has passed only trivia |
| ParserEvents.PeekNextNonTrivia | crates/parser/src/types.rs:158-168 | returns the first non-trivia kind within 20 lookahead tokens and its distance; panics iff all 20 are trivia |
| ParserEvents.PeekFrom | crates/parser/src/types.rs:161-167 | the lookahead scan from a point before which all is trivia finds the same first non-trivia token |
| ParserEvents.MaybeMissLeavesPosition | crates/parser/src/types.rs:148-156 | a `maybe` miss only removes the kind from the follow set: no token moves and no event is added |
| ParserEvents.MaybeHitIs | crates/parser/src/types.rs:148-209 | a `maybe` hit means the kind's subtokens are at the first non-trivia position, and the trivia before it has been eaten |
| ParserEvents.MaybeHitSkipsTrivia | crates/parser/src/types.rs:148-156 | after a `maybe` hit only trivia was passed, the parser is at the kind, and the kind left the follow set |
| ParserEvents.SkipUntilExpected | crates/parser/src/types.rs:267-275 | recovery stops at EOF or on a token in the innermost follow set |
| ParserEvents.ExpectToken | crates/parser/src/types.rs:232-245 | found exactly when the kind is next after trivia; either way the parser only moves forward and appends events, and the kind leaves the innermost follow set |
| ParserEvents.ExpectFoundIs | crates/parser/src/types.rs:232-245 | a found `expect_token` is eat-trivia, then `token(kind)`, then removing the kind from the follow set |
| ParserEvents.ExpectTokenFound | crates/parser/src/types.rs:232-245 | when found, the kind sits after the trivia and is consumed as one Tokens event over its subtokens |
| ParserEvents.ExpectTokenMissed | crates/parser/src/types.rs:232-245 | when missed, the first event after the trivia is the "unexpected token (expected kind)" error |
| ParserEvents.ExpectTokenClearsFollow | crates/parser/src/types.rs:243 | either way the kind is no longer in the innermost follow set, whose depth is unchanged |
| ParserEvents.StartNodeKeepsForwardParents | crates/parser/src/types.rs:98-102 | a new tombstone keeps every forward parent pointing later in the event list |
| ParserEvents.CompleteKeepsForwardParents | crates/parser/src/types.rs:33-48 | `complete` keeps every forward parent pointing later |
| ParserEvents.PrecedeKeepsForwardParents | crates/parser/src/types.rs:57-67 | `precede` sets a forward parent that points later, so replay can follow the chain |
| ParserEvents.StartThenComplete | crates/parser/src/types.rs:33-102 | starting and completing a node yields exactly NodeStart(kind) followed by NodeFinish |
| ParserEvents.CompleteTwiceRefused | crates/parser/src/types.rs:39-44 | a marker completes once; completing it again is the non-marker panic |
| Pratt.InfixBindingShape | crates/parser/src/grammar/expressions.rs:236-247 | every infix operator binds one tighter on the right than on the left, so equal operators associate to the left |
| Pratt.InfixOperators | crates/parser/src/grammar/expressions.rs:236-247 | the infix operators are exactly the operator kinds other than `&`, `\|`, `::` and `...`, plus `as` |
| Pratt.InfixBindingPower | crates/parser/src/grammar/expressions.rs:236-247 | each infix operator binds one tighter on its right than on its left, with left powers from 0 to 5 |
| Pratt.PrefixBindingPower | crates/parser/src/grammar/expressions.rs:249-254 | a prefix operator is also an infix operator, and binds at least as tight as that operator's right side |
| Pratt.PostfixBindingPower | crates/parser/src/grammar/expressions.rs:256-261 | a postfix operator is never an infix operator, and binds exactly as tight as `.` on its left |
| Pratt.PrefixBindsTight | crates/parser/src/grammar/expressions.rs:236-261 | prefix `-`, `+`, `*` and postfix `(`, `[` bind at 5, above every infix operator except `.`, `->` and `as` |
| Pratt.FuseInfixSound | crates/parser/src/grammar/expressions.rs:220-230 | a fused pair is a two-subtoken operator spelled by the two tokens, or the first token is kept |
| Pratt.FuseInfixComplete | crates/parser/src/grammar/expressions.rs:220-230 | every two-subtoken operator but `::` is fused from its two subtokens |
| Pratt.Parse | crates/parser/src/grammar/expressions.rs:10-46 | a successful parse consumes at least one token |
| Pratt.Infix | crates/parser/src/grammar/expressions.rs:21-40 | the infix step never moves backwards or past the end |
| Pratt.ParseYield | crates/parser/src/grammar/expressions.rs:10-80 | the parsed expression's tokens, read left to right, are exactly the tokens consumed |
| Pratt.InfixBinIs | crates/parser/src/grammar/expressions.rs:32-39 | a binary operator wraps the left side, parses the right side at its right binding power, then continues the loop |
| Pratt.InfixAsIs | crates/parser/src/grammar/expressions.rs:317-322 | `as` wraps the left side with the following type and continues the loop |
| Pratt.ThreeOperands | crates/parser/src/grammar/expressions.rs:10-46 | `a o1 b o2 c` nests to the right iff o2's left binding is at least o1's right binding |
| Pratt.LeftAssociativeAndPrecedence | crates/parser/src/grammar/expressions.rs:236-247 | operators of equal level group to the left, and a tighter second operator groups to the right |
| Pratt.StarBeforePlus | crates/parser/src/grammar/expressions.rs:236-247 | `*` binds tighter than `+` on either side |
| Pratt.CallPlacement | crates/parser/src/grammar/expressions.rs:10-46 | a call binds after `.`, inside a prefix operator, and a second call directly after a first ends the expression |
| ParserOutput.StepPosAfter | crates/parser/src/output.rs:87-97 | one character of position tracking moves the byte offset, line and column exactly as reading that character from the source would |
| ParserOutput.UpdatePosAfter | crates/parser/src/output.rs:87-97 | advancing a position by a text, counting offsets in bytes, lands on the position of the concatenated prefix |
| ParserOutput.UpdatePosAsWritten | crates/parser/src/output.rs:87-97 | the update as written advances the offset by the number of characters and the line by the number of newlines |
| ParserOutput.UpdatePosAscii | crates/parser/src/output.rs:87-97 | on ASCII text the char-counting update and the byte-counting update agree |
| ParserOutput.UpdatePos | crates/parser/src/output.rs:87-97 | moving over a text advances the offset by its UTF-8 length and the line by its newline count |
| ParserOutput.ByteLenAppend | crates/parser/src/output.rs:77-85 | the UTF-8 length of a concatenation is the sum of the lengths |
| ParserOutput.CharIndexFinds | crates/parser/src/output.rs:77-85 | every character boundary's byte offset maps back to that boundary, so a slice at it succeeds |
| ParserOutput.StartNode | crates/parser/src/output.rs:14-17 | pushes the kind on the context stack and opens a node; position, errors and token index are unchanged |
| ParserOutput.FinishNode | crates/parser/src/output.rs:19-22 | pops the innermost context (nothing on an empty stack) and closes a node |
| ParserOutput.TextInRange | crates/parser/src/output.rs:77-85 | the byte slice succeeds exactly when both ends fall on character boundaries, and then is the source between them; otherwise it panics |
| ParserOutput.NTokens | crates/parser/src/output.rs:24-34 | consuming n tokens takes the text of their summed lengths, advances the position over it, adds one token unless the kind is ERROR, and moves the token index by n |
| ParserOutput.NTokensAsWritten | crates/parser/src/output.rs:24-97 | as written, the offset grows by the number of characters, not bytes, of the consumed text |
| ParserOutput.NTokensStaysAligned | crates/parser/src/output.rs:24-34 | a sink whose position is that of a source prefix stays at the position of the longer prefix after consuming tokens |
| ParserOutput.ReportError | crates/parser/src/output.rs:36-54 | an error at the same position as the last one is dropped; otherwise one diagnostic with the innermost context and the current token's length is added, and a missing current token panics |
| ParserOutput.ReportErrorNoStacking | crates/parser/src/output.rs:36-43 | no two consecutive diagnostics ever share a position |
| ParserOutput.WalkRetires | crates/parser/src/output.rs:126-163 | following forward parents only turns node starts into tombstones and keeps the nodes gathered so far as a prefix, conserving the live node starts |
| ParserOutput.WalkSucceeds | crates/parser/src/output.rs:153-162 | when every forward parent points later at a node start, the walk never hits the "parent was not a node" panic |
| ParserOutput.StartAllOpens | crates/parser/src/output.rs:164-169 | the gathered chain opens its non-tombstone nodes outermost first, the reverse of gathering order |
| ParserOutput.ReplayBalances | crates/parser/src/output.rs:117-176 | a successful replay opens one node per live node start and closes one per finish event |
| ParserOutput.Replay | crates/parser/src/output.rs:117-176 | replaying the events never changes the source text or the token lengths the sink reads from |
| ParserOutput.Run | crates/parser/src/output.rs:107-115 | a successful parse keeps the source and token lengths, opens one node per live node start and closes one per finish event |
| ParserOutput.BuildNested | crates/parser/src/output.rs:14-22 | node opens and closes that never close more than is open drive the green builder without a panic, keep it well formed, and leave the open count changed by opens minus closes |
| ParserOutput.NestedOpsBuild | crates/parser/src/output.rs:99-115 | balanced, properly nested ops from an empty green builder leave no node open, and whatever `finish` returns is a well-formed node |
| ParserOutput.ReplayFollowsParents | crates/parser/src/output.rs:117-176 | for events whose forward parents point forward, replay can fail only on a token-length or slice panic, never on a bad parent |
| ParserOutput.ForwardParentsNestOutward | crates/parser/src/output.rs:129-169 | the chain A→B→C from the comment in parse_impl opens C, then B, then A |
| ParserOutput.ReplayTombstones | crates/parser/src/output.rs:122-176 | events already retired to tombstones change nothing |
| ParserOutput.AccentCommentBytes | crates/parser/src/output.rs:77-85 | in `// é` plus newline the accented letter takes two bytes, so byte offset 4 falls inside it |
| ParserOutput.AccentCommentAsWritten | crates/parser/src/output.rs:87-97 | as written, after the five-byte comment token the offset is 4, and slicing the newline token then fails |
| ParserOutput.AccentCommentReplays | crates/parser/src/output.rs:24-97 | with byte offsets the same two tokens replay, yielding the comment and the newline and ending at the end of the source |
| Ap.Width | crates/utils/src/ap.rs:180-182 | the width is the unique bit length: the value is below 2^width and, when non-zero, at least 2^(width-1) |
| Ap.WidthUnique | crates/utils/src/ap.rs:180-182 | any k bracketing the value that way is the width |
| Ap.WidthMonotone | crates/utils/src/ap.rs:180-182 | a larger value never has a smaller width |
| Ap.LimbsValueSplit | crates/utils/src/ap.rs:16-28 | little-endian limbs: the value is the low k limbs plus 2^(64k) times the rest |
| Ap.LimbsBits | crates/utils/src/ap.rs:19-21 | the width `big` computes from the limbs bounds the value, and is exact when the top limb is non-zero |
| Ap.ValidFitsWidth | crates/utils/src/ap.rs:8-22 | every integer the constructors accept fits in its bit width |
| Ap.NewSmall | crates/utils/src/ap.rs:8-14 | a one-limb integer holds the given value and width |
| Ap.NewBig | crates/utils/src/ap.rs:16-28 | a limb-vector integer of at least two limbs whose bits fit holds their value |
| Ap.OverflowingAdd | crates/utils/src/ap.rs:43-72 | the wrapped sum plus 2^64 on carry is the exact sum |
| Ap.AddCommonLimbs | crates/utils/src/ap.rs:71-80 | adding the common limbs with carry gives the exact sum of the two low parts, the carry worth 2^(64n) |
| Ap.PropagateCarry | crates/utils/src/ap.rs:82-91 | running the carry through the longer operand's remaining limbs keeps the sum exact |
| Ap.AddPartsToParts | crates/utils/src/ap.rs:65-103 | the limb-wise sum is exact, has as many limbs as the longer operand or one more limb holding 1, with the width the source assigns in each case |
| Ap.AddSmall | crates/utils/src/ap.rs:43-51 | two one-limb values add exactly; without carry the result is one limb at the wider width, with carry it is two limbs at width 65 |
| Ap.StartWidth | crates/utils/src/ap.rs:34-41 | the width an addition starts from is one operand's: the Big operand's when the kinds differ, otherwise the larger |
| Ap.Add | crates/utils/src/ap.rs:31-63 | addition of any two valid integers is valid and exact and agrees with the one-limb case when both are small; with a Big operand the sum is Big, with as many limbs as the longer operand at the larger of the starting width and its bit length, or one more limb holding 1 at width 64n + 1 |
| Ap.AddBigBig | crates/utils/src/ap.rs:236-240 | the unit test: big([0, 1], 65) + big([0, 1], 96) is big([0, 2], 96) |
| Ap.AddSmallBig | crates/utils/src/ap.rs:220-223 | the unit test: 1 + big([2^64 - 1, 1], 65) is big([0, 2], 66) |
| Ap.ShiftLimbsRightValue | crates/utils/src/ap.rs:120-128 | the in-limb shift loop divides the limb vector's value by 2^s |
| Ap.ShrPartsAsWritten | crates/utils/src/ap.rs:114-130 | the limb shift as written keeps the limb count and agrees with the corrected one when less than a whole limb is shifted |
| Ap.ShrParts | crates/utils/src/ap.rs:114-130 | the corrected limb shift keeps the limb count and divides the value by 2^shift, dropping low limbs and filling with zeros |
| Ap.Shr | crates/utils/src/ap.rs:105-133 | right shift keeps the width and the storage form, stays valid, and divides the value by 2^shift |
| Ap.ShrRotatesDroppedLimbs | crates/utils/src/ap.rs:115-119 | as written, [1, 0, 1] shifted right by 64 becomes [0, 1, 1]: the dropped limb rotates back in at the top; the corrected shift gives [0, 1, 0] |
| Ap.ExtractHighBits | crates/utils/src/ap.rs:135-137 | the top n bits of a limb fit in n bits |
| Ap.ShlSplit | crates/utils/src/ap.rs:148-150 | the wrapped shifted limb plus 2^64 times the extracted high bits is the exact product |
| Ap.ShlAsWritten | crates/utils/src/ap.rs:139-163 | the shift as written gives a result exactly for a zero shift or a one-limb integer, and its value is the input times 2^shift |
| Ap.Shl | crates/utils/src/ap.rs:139-163 | shifting a one-limb integer (or by zero) yields a valid integer whose value is multiplied by 2^shift; a multi-limb shift is absent |
| Ap.ShlAgreesFromOneLimb | crates/utils/src/ap.rs:148-157 | the corrected and as-written left shifts agree once the width is at least 64 |
| Ap.ShlWidthTooSmall | crates/utils/src/ap.rs:151-153 | as written, 2^62 of width 63 shifted left by 2 becomes two limbs of width 64, though the value 2^64 needs 65 bits |
| FoldingSet.LeBytesRoundTrip | crates/utils/src/folding_set.rs:59-70 | reading back the little-endian bytes of a value of n bytes gives the value |
| FoldingSet.LeBytesInjective | crates/utils/src/folding_set.rs:59-70 | distinct values of the same width fold to distinct bytes |
| FoldingSet.FoldUnsigned | crates/utils/src/folding_set.rs:59-76 | folding an unsigned value appends its n little-endian bytes to the key and keeps the key's prefix |
| FoldingSet.FoldSigned | crates/utils/src/folding_set.rs:59-81 | folding a signed value appends its two's-complement bytes, from which the value reads back |
| FoldingSet.FoldAllAppend | crates/utils/src/folding_set.rs:89-95 | folding a concatenated slice is folding the first part and then the second |
| FoldingSet.EmptyValid | crates/utils/src/folding_set.rs:103-115 | the empty set maps no keys and is consistent |
| FoldingSet.FoldOrInsert | crates/utils/src/folding_set.rs:117-126 | a value whose key is present returns the stored id and changes nothing; otherwise the value is appended and its key mapped to the new index |
| FoldingSet.Get | crates/utils/src/folding_set.rs:132-134 | an id yields a value exactly when it is in range |
| FoldingSet.TryGetFromKey | crates/utils/src/folding_set.rs:128-130 | a key yields a value exactly when it is mapped, and that value folds to the key |
| FoldingSet.FoldOrInsertKeepsValid | crates/utils/src/folding_set.rs:117-126 | every mapped key keeps pointing at an in-range value that folds to it |
| FoldingSet.GetAfterFoldOrInsert | crates/utils/src/folding_set.rs:117-134 | the returned id fetches a value with the same key (the value itself when new), and looking up by key gives the same value |
| FoldingSet.FoldTwice | crates/utils/src/folding_set.rs:174-236 | two insertions share an id iff their keys are equal, and the second insertion never disturbs the first |
| Interpret.Lookup | src/interpret.rs:72-80 | a variable's value when it is bound, and otherwise the undefined-variable error carrying its name and position |
| Interpret.ArithMeaning | src/interpret.rs:82-97 | usize arithmetic succeeds exactly when the mathematical result exists and fits a 64-bit word, and then equals it; otherwise the operation panics |
| Interpret.Arith | src/interpret.rs:82-97 | every failure is a panic, and it is the division-by-zero panic exactly for a division by zero |
| Interpret.ExprValue | src/interpret.rs:82-107 | every value fits a usize; a constant is its value, a group its inner value and a variable its bound value; a binary operation reports the left operand's error first, then the right's, then an arithmetic panic, and otherwise yields the mathematical result of its operands' values |
| Interpret.InterpretStatement | src/interpret.rs:109-156 | a statement keeps all values within a usize and only appends to the output; a declaration without initializer binds zero |
| Interpret.DeclarationCases | src/interpret.rs:112-121 | a declaration binds the name to the initializer's value, keeps every other binding, writes nothing, and fails exactly when the initializer fails |
| Interpret.AssignmentCases | src/interpret.rs:122-148 | assigning to a bound name overwrites it; assigning to an unbound one binds nothing and writes the undeclared-variable message with its line and column |
| Interpret.PrintWritesValue | src/interpret.rs:149-152 | a print appends a digit string and a newline, the digits read back as the expression's value, and it fails exactly when the expression fails |
| Interpret.Run | src/interpret.rs:59-70 | running statements keeps every stored value within a usize |
| Interpret.Interpret | src/interpret.rs:59-70 | interpreting from no variables keeps every value within a usize, and a failing first statement stops the run with that error and nothing changed |
| Interpret.RunStopsAtFirstError | src/interpret.rs:62-66 | once a statement fails, the statements after it change nothing |
| Interpret.RunSequential | src/interpret.rs:59-70 | running two lists in a row without failure is running their concatenation |
| Interpret.DeclaredPrintsZero | src/interpret.rs:225-236 | declaring `x` without initializer and printing it outputs "0" and a newline |
| Interpret.SumPrintsTwenty | src/interpret.rs:248-257 | printing 10 + 10 outputs "20" and a newline |
| Decimal.Show | src/interpret.rs:151 | the shown numeral is a non-empty digit string without a leading zero |
| Decimal.ShowValue | src/interpret.rs:151 | parsing the shown numeral gives the number back |
| Decimal.ShowInjective | src/interpret.rs:151 | distinct numbers are shown differently |
| LegacyLexer.AdvanceOne | src/lexer.rs:464-474 | advancing over a newline moves to column 1 of the next line; over anything else, one column right |
| LegacyLexer.AdvanceTracks | src/lexer.rs:464-474 | the cursor's line and column always equal those reached by moving over the text consumed so far |
| LegacyLexer.AnchorAfterLines | src/lexer.rs:464-474 | the line grows by the number of newlines consumed; after a newline the column is 1, and without one it grows by the length |
| LegacyLexer.Advance | src/lexer.rs:464-474 | advancing n characters moves the position by exactly n |
| LegacyLexer.SingleKind | src/lexer.rs:389-429 | `-` is an operator unless a digit follows, and `/` unless a comment opener follows |
| LegacyLexer.DoubleKind | src/lexer.rs:431-457 | the first character of every two-character operator is itself a one-character token start |
| LegacyLexer.TakeWhile | src/lexer.rs:335-344 | `peeking_take_while` consumes the longest run of characters satisfying the predicate |
| LegacyLexer.ScanString | src/lexer.rs:229-239 | a string literal runs to the next double quote and holds the characters between; without a closing quote the lexer fails with "EOF while scanning string literal" |
| LegacyLexer.BlockEnd | src/lexer.rs:262-273 | the block-comment loop stops at the first `/` preceded by a `*` of the comment body |
| LegacyLexer.ScanBlockComment | src/lexer.rs:258-283 | a block comment ends at the first closing `*/` and holds the text between the delimiters; it fails exactly when no closer follows |
| LegacyLexer.ScanLineComment | src/lexer.rs:289-304 | a line comment holds the text up to the next newline, and consumes that newline when there is one |
| LegacyLexer.ScanCharacter | src/lexer.rs:310-329 | a character literal is one character between single quotes, stored as its code point, unsigned |
| LegacyLexer.CharacterCases | src/lexer.rs:310-319 | a literal without closing quote, an empty literal and an oversize literal each fail with their own error |
| LegacyLexer.ScanWhitespace | src/lexer.rs:335-344 | whitespace is the longest run of ASCII whitespace and is kept verbatim |
| LegacyLexer.ScanNumber | src/lexer.rs:350-365 | a number is an optional minus (making it signed) and the longest digit run; its value is the digits' decimal value, and a value above the usize maximum fails |
| LegacyLexer.ScanIdentifierOrKeyword | src/lexer.rs:371-387 | the longest run of identifier characters plus an optional `!` or `?`; a keyword's text yields the keyword, any other text an identifier carrying it |
| LegacyLexer.ScanToken | src/lexer.rs:198-223 | every successful scan consumes at least one character and stays within the input |
| LegacyLexer.ScanTokens | src/lexer.rs:186-191 | the end of input yields no tokens; otherwise a failing first token fails the scan, and a good one is followed by the scan of the rest or that scan's error |
| LegacyLexer.Lex | src/lexer.rs:132-191 | lexing empty text gives no tokens, and a successful lex gives at most one token per character |
| LegacyLexer.DoubleWins | src/lexer.rs:198-201 | a two-character operator is taken whole before any one-character reading |
| LegacyLexer.MinusBeforeDigit | src/lexer.rs:350-356 | a minus before a digit starts a signed number; a minus before neither a digit nor `>` is the minus operator |
| LegacyLexer.SlashCases | src/lexer.rs:245-252 | `//` starts a line comment, `/*` a block comment, and any other slash is the slash operator |
| LegacyLexer.ScanComment | src/lexer.rs:245-252 | a comment, line or block, that scans consumes at least its opener's first character and stays within the input |
| LegacyLexer.UnterminatedStringFails | src/lexer.rs:229-233 | an opening quote with no closing quote after it fails the token scan, and so the scan of the tokens from there |
| LegacyLexer.SingleWins | src/lexer.rs:202-204 | when no two-character operator matches, a one-character operator is taken |
| LegacyLexer.ScanTokensCons | src/lexer.rs:186-191 | scanning is one token followed by the scan of the rest |
| LegacyLexer.MixedSinglesAndDoubles | src/lexer.rs:1059-1075 | `!!====-->=>=` lexes to Bang, BangEquals, EqualsEquals, Equals, Minus, MinusArrow, EqualsArrow, Equals |
| LegacyLexer.SignedNumberExample | src/lexer.rs:950-964 | `-100` lexes to one signed number of value 100 |
| LegacyLexer.CharacterExample | src/lexer.rs:966-981 | `'c'` lexes to one character literal holding the code of `c` |
| LegacyParser.Peek | src/ast/parser.rs:38-41 | the current token exactly when the index is in range |
| LegacyParser.Eof | src/ast/parser.rs:43-46 | the parser is at the end exactly when the index has reached or passed the token count |
| LegacyParser.Advance | src/ast/parser.rs:48-51 | moves one token on, also past the end, changing nothing else |
| LegacyParser.EofMeansPastLast | src/ast/parser.rs:43-46 | end of input means the index has reached or passed the token count |
| LegacyParser.Maybe | src/ast/parser.rs:53-62 | consumes and returns the current token exactly when it has the kind; otherwise nothing changes |
| LegacyParser.Expect | src/ast/parser.rs:64-77 | a hit behaves as `maybe`; a miss records one diagnostic naming the wanted kind and the found one (none at the end) and skips the offending token unless input has ended |
| LegacyParser.SomeOrBacktrack | src/ast/parser.rs:79-90 | the action's result is returned; on failure the token index is restored while its diagnostics stay |
| LegacyParser.AdvanceWhile | src/ast/parser.rs:92-100 | skips exactly the maximal run of tokens satisfying the predicate, touching nothing else |
| LegacyParser.FirstOfKind | src/ast/parser.rs:102-110 | the first index at or after the start holding the kind, or none when no later token has it |
| LegacyParser.AdvanceUntil | src/ast/parser.rs:102-110 | keeps tokens and diagnostics, skips only tokens of other kinds, and stops on a token of the kind unless it runs off the end |
| LegacyParser.AdvancePast | src/ast/parser.rs:112-121 | moves at least one token, skips only tokens of other kinds before the last one taken, and that one has the kind unless it is past the end |
| LegacyParser.AdvanceUntilStopsAtFirst | src/ast/parser.rs:102-110 | `advance_until` stops on the first token of the kind, or at the end of input |
| LegacyParser.AdvancePastConsumesMatch | src/ast/parser.rs:112-121 | `advance_past` ends just after the first token of the kind, or one past the end when there is none |
| LegacyParser.BacktrackUndoesFailedExpect | src/ast/parser.rs:55-90 | a backtracked failed `maybe` leaves the parser unchanged; a backtracked failed `expect` restores the index but keeps its one diagnostic |
| LirTypes.NoLvalKinds | crates/lir/src/types.rs:65-90 | only returns and jumps have no result, and each takes exactly one operand |
| LirTypes.CanHaveLvals | crates/lir/src/types.rs:65-70 | a kind without a result takes exactly one operand |
| LirTypes.NumRvals | crates/lir/src/types.rs:72-90 | every operand range is non-empty, bounded by usize::MAX, and starts at zero exactly when it ends at zero |
| LirTypes.OperandlessKinds | crates/lir/src/types.rs:72-90 | exactly `var` and `nop` accept zero operands; every other kind needs at least one |
| LirTypes.ArityTable | crates/lir/src/types.rs:72-90 | calls and subscripts accept any operand count from 1 to usize::MAX; every other kind has a fixed count of at most 3, and arithmetic, offsets and comparisons take 2 |
| LirTypes.Full | crates/lir/src/types.rs:101-106 | a full context holds both the module and the function |
| LirTypes.FnOnly | crates/lir/src/types.rs:108-114 | a function context holds the function and no module |
| LirTypes.ModOnly | crates/lir/src/types.rs:116-122 | a module context holds the module and no function |
| LirTypes.AsFn | crates/lir/src/types.rs:125-127 | the function is returned exactly when present; otherwise the no-function error |
| LirTypes.AsMod | crates/lir/src/types.rs:130-132 | the module is returned exactly when present; otherwise the no-module error |
| LirTypes.ContextParts | crates/lir/src/types.rs:101-132 | each constructor's parts read back, and the missing part is an error |
| LirTy.ExtendsTransitive | crates/lir/src/types/ty.rs:254-355 | growing a type context twice is growing it once: types, interned profiles and caches are kept |
| LirTy.Get | crates/lir/src/types/ty.rs:259-261 | a type is found exactly for ids inside the table, and in a consistent table it carries its own id and is interned under its profile |
| LirTy.NewTyWithInner | crates/lir/src/types/ty.rs:267-291 | an already interned profile returns its id and changes nothing; otherwise the type is appended under the next id; the caches are untouched |
| LirTy.NewTyKeepsTable | crates/lir/src/types/ty.rs:267-291 | interning a new profile keeps the table consistent: ids match positions and profiles map to their types |
| LirTy.NewTyKeepsCaches | crates/lir/src/types/ty.rs:267-291 | interning a new profile keeps every cached void, string, integer and struct id valid |
| LirTy.NewTyExtends | crates/lir/src/types/ty.rs:267-291 | interning only grows the context |
| LirTy.NewTyFacts | crates/lir/src/types/ty.rs:267-291 | a consistent context stays consistent, only grows, and the returned id names a type with exactly the requested kind, inner types and name |
| LirTy.CacheVoid | crates/lir/src/types/ty.rs:301-308 | remembering the interned void id keeps the context consistent |
| LirTy.CacheInt | crates/lir/src/types/ty.rs:320-327 | remembering the interned integer id of a size keeps the context consistent |
| LirTy.CacheStr | crates/lir/src/types/ty.rs:310-318 | remembering the pointer to the 8-bit integer as the string type keeps the context consistent |
| LirTy.CacheStruct | crates/lir/src/types/ty.rs:344-355 | remembering a struct of that name under its name keeps the context consistent |
| LirTy.GetVoid | crates/lir/src/types/ty.rs:301-308 | the void id is cached afterwards, and a cached one is returned unchanged |
| LirTy.GetInt | crates/lir/src/types/ty.rs:320-327 | the integer id of the size is cached afterwards, and a cached one is returned unchanged |
| LirTy.GetPointerTo | crates/lir/src/types/ty.rs:329-331 | the result is interned under the pointer profile of the pointee |
| LirTy.GetStr | crates/lir/src/types/ty.rs:310-318 | the string id is cached afterwards, and a cached one is returned unchanged |
| LirTy.GetFn | crates/lir/src/types/ty.rs:333-342 | the result is interned under the function profile whose inner types are the return type followed by the parameters |
| LirTy.GetStruct | crates/lir/src/types/ty.rs:344-355 | the struct id is recorded under its name, and a name seen before returns its first id unchanged |
| LirTy.AsFnTy | crates/lir/src/types/ty.rs:99-111 | only function types convert; the view's return type followed by its parameters is the type's inner list, with the same id and variadic flag |
| LirTy.GetVoidFacts | crates/lir/src/types/ty.rs:301-308 | the context stays consistent and only grows, and the id names the void type |
| LirTy.GetIntFacts | crates/lir/src/types/ty.rs:320-327 | the context stays consistent and only grows, and the id names the integer type of that size |
| LirTy.GetPointerToFacts | crates/lir/src/types/ty.rs:329-331 | the context stays consistent and only grows, and the id names the pointer to the pointee |
| LirTy.StrIsPointerToInt8 | crates/lir/src/types/ty.rs:310-318 | the string type is the pointer to the cached 8-bit integer, and asking again returns it without change |
| LirTy.GetFnFacts | crates/lir/src/types/ty.rs:333-342 | the context stays consistent and only grows, and the id names the function type with the return type first |
| LirTy.FnTyRoundTrip | crates/lir/src/types/ty.rs:99-111 | viewing a created function type as a function gives back its return type, parameters and variadic flag |
| LirTy.GetStructFacts | crates/lir/src/types/ty.rs:344-355 | the context stays consistent and only grows, and the id names a struct type of that name |
| LirTy.StructFirstRegistrationWins | crates/lir/src/types/ty.rs:344-355 | a second struct of the same name returns the first id and leaves the context alone, whatever its members |
| LirTy.PointerHashConsed | crates/lir/src/types/ty.rs:267-291 | in any context grown from one that has a pointer type, asking for the same pointer returns the same id and changes nothing |
| LirTy.IntCached | crates/lir/src/types/ty.rs:320-327 | in any context grown from one that has an integer size cached, asking for it again returns the same id and changes nothing |
| LirTy.PointersDistinct | crates/lir/src/types/ty.rs:267-291 | pointers to different types get different ids |
| LirTy.IsPtrAsWritten | crates/lir/src/types/ty.rs:149-151 | the test as written never accepts a pointer type |
| LirTy.IsPtrAsWrittenMisses | crates/lir/src/types/ty.rs:149-151 | the pointer test as written rejects a pointer type and accepts void |
| LirTy.IsPtrCorrect | crates/lir/src/types/ty.rs:145-155 | the corrected pointer test accepts pointer types, which have a result, and rejects void and integer types |
| LirTy.HasLvalIffNotVoid | crates/lir/src/types/ty.rs:145-155 | a type can hold a result exactly when it is not void |
| VecGraph.NewValid | crates/utils/src/vec_graph.rs:14-20 | a new graph, with no vertices, no edges and no start, is consistent |
| VecGraph.AddVertex | crates/utils/src/vec_graph.rs:22-29 | the new node is the old vertex count, the vertex is appended, the edges are kept, and the first vertex added becomes the start |
| VecGraph.AddEdge | crates/utils/src/vec_graph.rs:43-49 | afterwards the edge is stored; an edge already stored leaves the graph unchanged, and a new one is appended at the end |
| VecGraph.AddSuccessor | crates/utils/src/vec_graph.rs:31-35 | a new vertex, and the edge from the given node to it added as `add_edge` adds it |
| VecGraph.AddPredecessor | crates/utils/src/vec_graph.rs:37-41 | a new vertex, and the edge from it to the given node added as `add_edge` adds it |
| VecGraph.AddNeighbourAppends | crates/utils/src/vec_graph.rs:31-49 | in a consistent graph the edge to or from a brand-new vertex is never a duplicate, so it is appended, and the graph stays consistent when the given node exists |
| VecGraph.NewNodeHasNoEdges | crates/utils/src/vec_graph.rs:22-49 | in a consistent graph no edge touches the id the next vertex will get |
| VecGraph.SetStart | crates/utils/src/vec_graph.rs:55-57 | the start becomes the given node, unchecked, and vertices and edges are kept |
| VecGraph.SetStartKeepsValid | crates/utils/src/vec_graph.rs:22-29 | moving the start to an existing vertex keeps the graph consistent; the first vertex added becomes the start and later ones do not move it |
| VecGraph.Last | crates/utils/src/vec_graph.rs:59-61 | there is a last node exactly when there is a vertex, and it is the most recently added one |
| VecGraph.FindVertex | crates/utils/src/vec_graph.rs:73-78 | the first node whose data equals the query; none exactly when no vertex holds it |
| VecGraph.SuccessorsAreEdges | crates/utils/src/vec_graph.rs:153-161 | a node is a successor of n exactly when the edge from n to it is stored |
| VecGraph.PredecessorsAreEdges | crates/utils/src/vec_graph.rs:163-171 | a node is a predecessor of n exactly when the edge from it to n is stored |
| VecGraph.Successors | crates/utils/src/vec_graph.rs:153-161 | a node is listed as a successor of n exactly when the edge from n to it is stored |
| VecGraph.Predecessors | crates/utils/src/vec_graph.rs:163-171 | a node is listed as a predecessor of n exactly when the edge from it to n is stored |
| VecGraph.InDegree | crates/utils/src/vec_graph.rs:141-143 | in a graph without duplicate edges, the number of stored edges entering the node |
| VecGraph.OutDegree | crates/utils/src/vec_graph.rs:145-147 | in a graph without duplicate edges, the number of stored edges leaving the node |
| VecGraph.InDegreeCountsEdges | crates/utils/src/vec_graph.rs:141-143 | with no duplicate edges, the in-degree is the number of distinct nodes with an edge into the node |
| VecGraph.OutDegreeCountsEdges | crates/utils/src/vec_graph.rs:145-161 | with no duplicate edges, the out-degree is the number of distinct edges leaving the node |
| VecGraph.AddEdgeKeepsValid | crates/utils/src/vec_graph.rs:43-49 | an edge between existing vertices keeps the graph consistent, and adding it again changes nothing |
| VecGraph.AddVertexKeepsValid | crates/utils/src/vec_graph.rs:22-29 | adding a vertex keeps the graph consistent |
| VecGraph.SuccessorsAfterAddEdge | crates/utils/src/vec_graph.rs:153-171 | a new edge appends its end to its start's successors and its start to its end's predecessors, and every other node's lists are unchanged |
| VecGraph.SuccessorsInOrder | crates/utils/src/vec_graph.rs:203-213 | the unit test: two successors of the start node come out in the order they were added, with their data |
| VecGraph.PredecessorsInOrder | crates/utils/src/vec_graph.rs:216-226 | the unit test: two predecessors of the start node come out in the order they were added, and the start has no successors |
| LirValues.Local | crates/lir/src/types/values.rs:20-23 | a local id is not global and its index reads back |
| LirValues.Global | crates/lir/src/types/values.rs:26-29 | a global id is global and its index reads back |
| LirValues.AsIdx | crates/lir/src/types/values.rs:42-44 | clearing bit 31 leaves an index below 2^31 |
| LirValues.IdFromParts | crates/lir/src/types/values.rs:32-44 | every id is exactly one of local and global, and is rebuilt from that flag and its index |
| LirValues.IdsDistinct | crates/lir/src/types/values.rs:20-29 | a local id never equals a global one, and each constructor is injective on indexes below 2^31 |
| LirValues.Show | crates/lir/src/types/values.rs:60-65 | the display form is not empty and starts with "G" exactly for a global id |
| LirValues.ShowInjective | crates/lir/src/types/values.rs:60-65 | two ids with the same display form are the same id |
| LirValues.ValueIdTests | crates/lir/src/types.rs:233-264 | the unit tests: flags and indexes of local 123, local 0, global 0 and global 234, and the display and debug forms of global 0 and local 123 |
| LirValues.NewRef | crates/lir/src/types/values.rs:76-78 | a new reference names the id and has no parent |
| LirValues.WithParent | crates/lir/src/types/values.rs:96-102 | the parent is set and the id is kept |
| LirValues.Dup | crates/lir/src/types/values.rs:208-213 | a duplicate names the same id without a parent |
| LirValues.DupOption | crates/lir/src/types/values.rs:218-220 | an optional reference is duplicated inside, and absence stays absence |
| LirValues.DupUndoesWithParent | crates/lir/src/types/values.rs:96-213 | duplicating undoes setting the parent, and duplicating twice is duplicating once |
| LirValues.AddVal | crates/lir/src/types/values.rs:281-302 | the new value's index is the old count and its flag is the requested one; the value, its type and its name when given are recorded; users are untouched |
| LirValues.AddUser | crates/lir/src/types/values.rs:305-307 | the user is appended to that value's users, and every other value's users are unchanged |
| LirValues.Ident | crates/lir/src/types/values.rs:158-164 | the recorded name, or ".v" followed by the raw id in decimal |
| LirValues.AddValIdent | crates/lir/src/types/values.rs:281-302 | a value added with a name reads back that name, and one added without a name keeps the name its id showed before |
| LirValues.AddValGet | crates/lir/src/types/values.rs:273-302 | adding a value keeps the table consistent; the new value reads back with its kind and type, and older values read back unchanged |
| LirValues.GetVal | crates/lir/src/types/values.rs:273-275 | in a consistent table the value found under an id carries that id's index and has a recorded type |
| LirValues.UsersInInsertionOrder | crates/lir/src/types/values.rs:305-312 | users come back in the order they were added |
| BirBuild.NewValid | crates/bir/src/build.rs:57-66 | a new builder is consistent |
| BirBuild.NewNode | crates/bir/src/build.rs:72-76 | the id is the old node count, the kind is appended, and nothing else changes |
| BirBuild.NewModule | crates/bir/src/build.rs:82-89 | a module node with no functions; the first module made becomes the root; nothing but the nodes, modules and root changes |
| BirBuild.NewModuleKeepsValid | crates/bir/src/build.rs:82-89 | making a module keeps the builder consistent, and the new module is recorded with no functions |
| BirBuild.NewTypeRef | crates/bir/src/build.rs:140-144 | a type-reference node, recorded among the type references; nothing but the nodes and type references changes |
| BirBuild.NewTypeRefKeepsValid | crates/bir/src/build.rs:140-144 | making a type reference keeps the builder consistent |
| BirBuild.SetCurrentModule | crates/bir/src/build.rs:246-249 | the current module becomes the given module node and nothing else changes |
| BirBuild.SetCurrentFunction | crates/bir/src/build.rs:251-254 | the current function becomes the given function node and nothing else changes |
| BirBuild.SetCurrentKeepsValid | crates/bir/src/build.rs:246-254 | selecting an existing module node as current module, or a function node as current function, keeps the builder consistent |
| BirBuild.NewFunction | crates/bir/src/build.rs:105-120 | a function node of the current module with its name and return type, appended to that module's function list; nothing but the nodes, functions and modules changes |
| BirBuild.NewFunctionKeepsValid | crates/bir/src/build.rs:105-120 | making a function keeps the builder consistent; the function records the current module as its parent and is the last in that module's list |
| BirBuild.LastOfKind | crates/bir/src/build.rs:37-45 | found exactly when some open scope has that kind, and then it is the innermost such scope |
| BirBuild.NewScope | crates/bir/src/build.rs:146-153 | a scope node of the current function, with no lets or items, whose parent is the innermost open scope, or none; the stack is not touched, and nothing other than the nodes and scopes changes |
| BirBuild.InNewScope | crates/bir/src/build.rs:155-166 | the body runs with the new scope pushed, and the top entry is popped afterwards |
| BirBuild.InNewScopeBalanced | crates/bir/src/build.rs:155-166 | a body that leaves the stack as it found it leaves it unchanged overall, and the new scope's parent is the scope open before |
| BirBuild.LastLoopLabel | crates/bir/src/build.rs:240-244 | the label of the innermost open loop scope: no loop scope is open above it |
| BirBuild.LoopLabelInsideScope | crates/bir/src/build.rs:155-166 | inside a new loop scope the last loop label is its tag; inside another kind of scope it is the label outside, and the builder stays consistent |
| BirBuild.PushNewScopeKeepsValid | crates/bir/src/build.rs:155-166 | opening a new scope and pushing it on the stack keeps the builder consistent |
| BirBuild.NewItem | crates/bir/src/build.rs:168-176 | an item node appended to the innermost scope's items, and a `let` item's let also to its lets; no other scope changes, and nothing but the nodes, items and scopes changes |
| BirBuild.NewItemKeepsValid | crates/bir/src/build.rs:168-176 | adding an item keeps the builder consistent and the scope stack as it was, and the item is recorded |
| BirBuild.NewLetItem | crates/bir/src/build.rs:178-182 | a let node followed by the item holding it, both listed in the innermost scope; nothing but the nodes, lets, items and scopes changes |
| BirBuild.NewLetItemKeepsValid | crates/bir/src/build.rs:178-182 | adding a `let` item keeps the builder consistent |
| BirBuild.NewLiteral | crates/bir/src/build.rs:196-219 | a literal seen before returns its id and changes nothing; a new one gets the next id and is recorded |
| BirBuild.NewLiteralKeepsValid | crates/bir/src/build.rs:196-219 | the builder stays consistent and the id returned holds the literal asked for |
| BirBuild.NewStringKeepsValid | crates/bir/src/build.rs:198-206 | a new string literal keeps the builder consistent |
| BirBuild.NewNumberKeepsValid | crates/bir/src/build.rs:207-215 | a new number literal keeps the builder consistent |
| BirBuild.NewNodeKeepsValid | crates/bir/src/build.rs:72-76 | a bare new node keeps the builder consistent |
| BirBuild.LiteralDeduplicated | crates/bir/src/build.rs:196-219 | asking for the same literal twice gives the same id, and the second request changes nothing |
| BirBuild.DistinctLiteralsDistinctIds | crates/bir/src/build.rs:196-219 | different literals get different ids |
| BirBuild.SequentialIds | crates/bir/src/build.rs:72-120 | a module, a type reference, a function and a second module get ids 0 to 3, the first module is the root and lists the function |
| SemaTypes.EmptyNamespace | crates/sema/src/types.rs:652-659 | an empty namespace carries its id and has no members, parameters or variables |
| SemaTypes.NewNode | crates/sema/src/types.rs:195-221 | the most recently freed id is reused and taken off the list; otherwise the node is appended; modules, functions and blocks get an empty namespace; nothing else changes |
| SemaTypes.NewNodeIsFresh | crates/sema/src/types.rs:190-221 | the id handed out was past the end or a tombstone, so it has no type record and no waiting list |
| SemaTypes.NewNodeTombstones | crates/sema/src/types.rs:195-221 | the remaining free list still holds distinct tombstoned ids |
| SemaTypes.NewNodeNamespaces | crates/sema/src/types.rs:195-221 | every namespace member stays named and every parent a namespace |
| SemaTypes.NewNodeTypes | crates/sema/src/types.rs:195-221 | a new node that is not a type leaves every type record on a type node |
| SemaTypes.NewNodeKeepsValid | crates/sema/src/types.rs:195-221 | a new node that is not a type keeps the arena consistent |
| SemaTypes.TyId | crates/sema/src/types.rs:135-140 | a type node is its own type; any other node has its assigned type, if any |
| SemaTypes.Ty | crates/sema/src/types.rs:123-128 | the type record of the node's type, present exactly when the type has one |
| SemaTypes.NewTy | crates/sema/src/types.rs:230-243 | a type node taking the id `new_node` gives; a marker gets an empty waiting list, an aggregate or prototype an empty namespace; nothing else changes |
| SemaTypes.NewTyTypes | crates/sema/src/types.rs:230-243 | type records stay on type nodes, and waiting lists stay exactly on the markers |
| SemaTypes.NewTyWaiting | crates/sema/src/types.rs:230-243 | every waiting id stays typed |
| SemaTypes.NewTyKeepsValid | crates/sema/src/types.rs:230-243 | a new type keeps the arena consistent |
| SemaTypes.SetTy | crates/sema/src/types.rs:245-251 | the assignment is recorded; a node given a marker type joins the end of that marker's waiting list; nothing else changes |
| SemaTypes.MarkerHasWaitingList | crates/sema/src/types.rs:230-251 | in a consistent arena a type node has a waiting list exactly when its type is a marker, so the list `set_ty` unwraps exists |
| SemaTypes.SetTyWaiting | crates/sema/src/types.rs:245-251 | every waiting id stays typed |
| SemaTypes.SetTyTypes | crates/sema/src/types.rs:245-251 | type records and waiting-list keys stay consistent |
| SemaTypes.SetTyThenTyId | crates/sema/src/types.rs:135-140 | a node other than a type node reads back the type just assigned to it |
| SemaTypes.SetTyKeepsValid | crates/sema/src/types.rs:245-251 | assigning a type node keeps the arena consistent |
| SemaTypes.Redirect | crates/sema/src/types.rs:179-181 | every listed id now has the given type, every other assignment is kept, and no id gains or loses one |
| SemaTypes.ResolveMarker | crates/sema/src/types.rs:173-188 | nodes waiting on the marker get the resolved type; the marker's waiting list moves onto a marker target; the marker is tombstoned and its record dropped; names, namespaces, parents, errors and BIR maps are kept |
| SemaTypes.ResolveMarkerFacts | crates/sema/src/types.rs:173-221 | resolving keeps the arena consistent, each waiting non-type node reads back the resolved type, and the next node made reuses the marker's id |
| SemaTypes.SetBir | crates/sema/src/types.rs:271-283 | a node already mapped is the overwrite panic; otherwise the mapping is recorded and the node joins the end of that BIR id's list |
| SemaTypes.BirToId | crates/sema/src/types.rs:112-117 | the first node associated with the BIR id, if any |
| SemaTypes.SetBirReadsBack | crates/sema/src/types.rs:271-283 | the mapping reads back both ways for a BIR id seen first here, an older association is kept, and mapping the node again panics |
| SemaTypes.AddName | crates/sema/src/types.rs:745-754 | the node is named and appended to the namespace's members; nodes, parents and types are kept |
| SemaTypes.AddNameKeepsValid | crates/sema/src/types.rs:745-754 | naming a node into an existing namespace keeps the arena consistent |
| SemaTypes.NsNewNode | crates/sema/src/types.rs:765-769 | the node `new_node` makes, with the namespace, which must exist as `ns_mut` demands, as its parent |
| SemaTypes.NsNewNodeNamespaces | crates/sema/src/types.rs:166-171 | making a node inside an existing namespace keeps every namespace's parent links consistent |
| SemaTypes.NsNewNodeKeepsValid | crates/sema/src/types.rs:765-769 | making a non-type node inside an existing namespace keeps the map consistent and records the namespace as its parent |
| SemaTypes.LastNamed | crates/sema/src/types.rs:687-692 | the position of the last member with that name, and none exactly when no member has it |
| SemaTypes.Lookup | crates/sema/src/types.rs:681-699 | the latest local member of that name wins; without one, the answer is the same search in the parent namespace when parents are checked and there is a parent, and none otherwise; any answer carries the name asked for |
| SemaTypes.LookupFindsNearest | crates/sema/src/types.rs:677-699 | following parents, the answer is the latest member named `ident` of the nearest ancestor that declares it |
| SemaTypes.LookupNoneIff | crates/sema/src/types.rs:677-699 | following parents, the answer is none exactly when no ancestor declares the name |
| SemaTypes.AddNameShadows | crates/sema/src/types.rs:681-699 | a name just added is what its spelling finds among the namespace's own members, and for a node not yet named, other spellings find what they found before |
| SemaTypes.OffsetOf | crates/sema/src/types.rs:515-520 | the position of the first occurrence of the member |
| SemaTypes.OffsetOfDistinct | crates/sema/src/types.rs:515-520 | with distinct members, the i-th member's offset is i |
| SemaCheck.ErrorIds | crates/sema/src/check.rs:182-197 | the first two ids for a unification or index-type error, the first one otherwise |
| SemaCheck.SetErr | crates/sema/src/check.rs:182-203 | the node's error is recorded with that kind and the leading ids, and nothing else changes |
| SemaCheck.Settle | crates/sema/src/check.rs:258-273 | fails exactly when neither side is an error or the never type; any answer is one of the two sides; an error sink yields the source, and otherwise an error source yields the sink |
| SemaCheck.UnifyTyped | crates/sema/src/check.rs:245-273 | a marker sink is resolved onto the source, else a marker source onto the sink, else the map is kept and the sides are settled |
| SemaCheck.Unify | crates/sema/src/check.rs:230-275 | an untyped side yields the other side's type, or the sink when neither is typed; equal types yield that type; distinct types are unified |
| SemaCheck.UnifyFailsIff | crates/sema/src/check.rs:230-275 | unification fails exactly when both sides have distinct types, neither can be resolved onto the other, and neither is an error or the never type; failure keeps the map |
| SemaCheck.UnifySucceedsSymmetric | crates/sema/src/check.rs:230-275 | whether unification succeeds does not depend on which side is the sink |
| SemaCheck.UnifyYieldsASide | crates/sema/src/check.rs:240-273 | a success yields one side's type, or the sink node when neither is typed |
| SemaCheck.UnifyKeepsValid | crates/sema/src/check.rs:230-275 | unification keeps the arena consistent, its node count and its errors |
| SemaCheck.UnifyTypedKeepsValid | crates/sema/src/check.rs:245-256 | resolving either marker keeps the arena consistent, its node count and its errors |
| SemaCheck.UnifyResolvesWaiting | crates/sema/src/check.rs:245-248 | when the sink's type is a resolvable marker, the source's type is the answer and every node that waited on the marker has it afterwards |
| SemaCheck.ResolveAsWritten | crates/sema/src/types.rs:173-188 | with its debug assertion and unwraps, `resolve_marker` succeeds only for a marker with a waiting list and a resolved type node with a record, and then agrees with the corrected resolution |
| SemaCheck.UnifyTypedAsWritten | crates/sema/src/check.rs:231-273 | as written, a side without a type record panics at its marker test, and any success agrees with the corrected unifier |
| SemaCheck.UnifyAsWritten | crates/sema/src/check.rs:230-275 | as written, every success agrees with the corrected unifier |
| SemaCheck.UnifyAsWrittenPanicsOnErrorType | crates/sema/src/check.rs:231-262 | as written, a variable typed with an error node unified with an `i32` expression panics on the missing type record, where the error should absorb the other side |
| SemaCheck.LookupIn | crates/sema/src/check.rs:122-124 | without following parents: none exactly when no member of the namespace has the name, otherwise a member with the name after which no member has it |
| SemaCheck.LookupRef | crates/sema/src/check.rs:102-111 | any answer carries the name asked for, and no current namespace finds nothing |
| SemaCheck.LookupRefIsLookupWithParents | crates/sema/src/check.rs:102-111 | walking the parents by hand finds what the namespace lookup finds when it follows parents |
| SemaCheck.LookupTy | crates/sema/src/check.rs:113-120 | the current namespace's own member wins; failing it, the global namespace's |
| SemaCheck.GlobalTypeNameVisible | crates/sema/src/check.rs:113-120 | a name the global namespace holds is found from everywhere, unless the current namespace's own lookup answers first |
| SemaCheck.FindBasedTy | crates/sema/src/check.rs:310-315 | the id of the first remembered type built on that type with that kind; none exactly when none matches |
| SemaCheck.AddBasedTy | crates/sema/src/check.rs:294-308 | a new pointer type whose parent is the global namespace, remembered at the end of the list |
| SemaCheck.GetBasedTy | crates/sema/src/check.rs:317-320 | the remembered type when there is one, a new one otherwise |
| SemaCheck.GetBasedTyMemo | crates/sema/src/check.rs:310-320 | asking twice gives the same id, and the second request changes nothing |
| SemaCheck.GetBasedTyPointsTo | crates/sema/src/check.rs:294-320 | the id handed out is a pointer to the requested type, and every remembered type stays a pointer to its base |
| SemaCheck.CallSigMismatch | crates/sema/src/check.rs:747-753 | the arity check fails exactly when the counts differ and the callee is not variadic, or it is variadic and too few arguments were given; a pass means at least as many arguments as parameters |
| SemaCheck.CallArg | crates/sema/src/check.rs:755-761 | one parameter: the flag is set exactly when unification fails, and then the argument carries a unification error naming it and the parameter type |
| SemaCheck.CallArgs | crates/sema/src/check.rs:755-761 | the loop keeps the arena consistent and its errors; a failure means some argument from the start position on carries an error, and no failure adds no error |
| TycTypeck.NewType | crates/tyc/src/typeck.rs:275-280 | the next id, with the type appended and the name recorded |
| TycTypeck.NewTypeKeepsValid | crates/tyc/src/typeck.rs:275-280 | a new type keeps the database consistent |
| TycTypeck.BuiltinsLayout | crates/tyc/src/typeck.rs:236-253 | the four builtins take ids 0 to 3 in order, so the error id 0 names the error type "<err>" |
| TycTypeck.FindIdentifier | crates/tyc/src/typeck.rs:282-290 | the lowest id from the start position whose name matches, none exactly when no such id exists |
| TycTypeck.TypeByIdentifier | crates/tyc/src/typeck.rs:282-290 | some id registered under exactly that name, and none exactly when no id has it |
| TycTypeck.TypeByIdentifierAfterNewType | crates/tyc/src/typeck.rs:275-290 | a type made under a fresh name is what that name finds afterwards; with the model's lowest-id search, names already taken find what they found before |
| TycTypeck.FindIdentifierExtends | crates/tyc/src/typeck.rs:282-290 | searching a database grown at the end finds the same first match, or the first new one |
| TycTypeck.FindBasedType | crates/tyc/src/typeck.rs:292-300 | a pointer type made for that type, none exactly when none was |
| TycTypeck.BasedTypeOf | crates/tyc/src/typeck.rs:302-313 | the remembered pointer type, or a new one named "*" and the base's name, remembered at the end |
| TycTypeck.BasedTypeOfMemo | crates/tyc/src/typeck.rs:292-313 | the id handed out is a pointer to the base; asking again gives the same id and changes nothing |
| TycTypeck.BasedTypeFoundFirst | crates/tyc/src/typeck.rs:292-300 | a pointer type added last, with none before, is what the search finds |
| TycTypeck.CheckType | crates/tyc/src/typeck.rs:208-220 | the error type, the type of that name falling back to the error type, or the pointer to the checked pointee; the database stays consistent |
| TycTypeck.Unify | crates/tyc/src/typeck.rs:36-42 | succeeds exactly for equal ids and yields that id; otherwise a unification error naming both |
| TycTypeck.UnifySymmetric | crates/tyc/src/typeck.rs:36-42 | success does not depend on the order, and a success yields the same id |
| TycTypeck.CheckArgumentsOkIff | crates/tyc/src/typeck.rs:159-175 | the arguments are accepted exactly when there are as many as parameters and each checks to its parameter's type |
| TycTypeck.CheckArgumentsArity | crates/tyc/src/typeck.rs:159-175 | with matching types, too few arguments is the "not enough" error and too many the "too many" error |
| TycTypeck.CheckArguments | crates/tyc/src/typeck.rs:159-175 | every failure is one of the arity errors, a unification error, or the error of one of the remaining arguments |
| TycTypeck.CheckFunctionCall | crates/tyc/src/typeck.rs:146-183 | an unknown name is the "no function" error; a callee that is not a function is the "is not a function" error naming it; a function callee gives its return type exactly when there are as many arguments as parameters and each argument has its parameter's type |
| TycTypeck.CheckFunctionCallArity | crates/tyc/src/typeck.rs:157-176 | at the call, missing arguments give the "not enough arguments" error and extra ones the "too many arguments" error |

## Left out

- Reading files, standard input, the terminal and process exit codes: the model starts from source text already in memory.
- Printing (`Display` impls, `println!`, the LIR and BIR printers): only the digit strings that the interpreter prints and that value ids show are modelled, as `Decimal.Show`.
- The interpreter's writer can fail with an I/O error, and errors are reported with `println!`. Neither is modelled: output is a string that always grows.
- Hash functions: the CST hasher, `FoldKey` hashing, the intern map's hashes and `HashMap` iteration order. A fold key is its byte sequence. Intern-map hashes are a parameter, and the collision panic is kept as an error outcome.
- Unicode character classes: `is_numeric`, `is_alphanumeric` and `is_whitespace` in src/lexer.rs accept non-ASCII characters. The model's classes are ASCII only.
- Byte lengths: Rust string lengths and slices count UTF-8 bytes. Everywhere except `ParserOutput`, which models bytes explicitly, the model counts characters.
- The legacy lexer's interned metadata tables (`TokenMap`): a token carries its text or number inline. `InternMap` models the interning on its own.
- Panics that the source documents become error outcomes; debug assertions and internal `unwrap`s become `requires`.
- Ap.Shr: requires a shift below 64 for a one-limb value, because the Rust `u64` shift overflows there (a panic in debug builds, a masked shift in release builds).
- Ap.Shl: a multi-limb value is `todo!()` in the source and gives `None`.
- SemaTypes.Lookup and SemaCheck.LookupRef: the walk up the parent namespaces is bounded by a fuel argument. Running out of fuel finds nothing. The source walks until it reaches a namespace without a parent.
- SemaCheck.LookupRef: `lookup_in` calls `Namespace::lookup` without following parents, and the model passes that flag the same way.
- SemaCheck.SetErr: only the error kinds that record two ids are singled out; the message formatting in crates/sema/src/errors.rs is not part of this model.
- TycTypeck.TypeByIdentifier: the source searches a `HashMap` in unspecified order. The model returns the lowest matching id, and its contract promises only some id registered under that name.
- TycTypeck.TypeByIdentifierAfterNewType: its statement that a name already taken keeps its answer after a new type holds of the model's lowest-id search. The source's `HashMap` search does not promise it once a name is registered twice, which `check_function` can do.
- TycTypeck.CheckFunctionCall: takes the results of checking the arguments as input instead of checking the argument expressions itself.
- Interpret: values are `usize`. Overflow, underflow and division by zero are errors, as in a debug build, and the release build's wrap-around is not modelled.
- Pratt.Infix: its own contract only bounds the position. What it builds is stated by Pratt.InfixBinIs, Pratt.InfixAsIs and Pratt.ParseYield.
- BIR builder operations other than modules, type references, functions, scopes, items, lets and literals: `new_typedef`, `new_param`, `new_va_param`, `new_expr`, `new_expr_item` and `set_ast` only allocate nodes whose payloads are not modelled, and `finish` only hands the map over.
- LIR type printing (`repr`) and the `as_struct_ty`, `as_ptr_ty` and `pointer_to` views: these are accessors over the modelled table.
- VecGraph: `to_dot_string` and `write_to_dot_file` only print the graph and write a file. The vertex and edge iterators are plain sequences.
- LirValues: the accessors `inst`, `block`, `is_var`, `inner_vals`, `ty`, `kind`, `repr`, `str_constant` and `int_constant` only read the instruction, block and type tables, which this part of the model does not hold.
- SemaTypes: the `NamespaceHandle` helpers `new_ty` with an identifier, `new_ty_member`, `new_fn_proto`, `new_param`, `new_var`, `new_block` and `new_module` each chain `NsNewNode`, `NewTy`, `AddName` and `SetTy`, which are modelled one by one. `new_constant`, `add_caller`, finishing a prototype and type printing are not modelled.
- SemaCheck: the `check_*` walkers over the syntax tree, the creation of error nodes by `err()`, and the setup of the builtin types are not modelled. Only the unifier, name lookup, pointer-type reuse and call-argument checks are.
- SemaCheck.SetErr: crates/sema/src/errors.rs defines more error kinds than `set_err` distinguishes. The model keeps only the distinction `set_err` makes.
- TycTypeck: the walkers `check_expression`, `check_scope` and `check_function` and the normalisation of error messages are not modelled. Their building blocks are: type checking, unification, argument checks and function calls.
- The item-level grammar, the red syntax tree, the LLVM back ends, the language server, the legacy statement parser and the translation passes between IRs: these are outside the core.
- LirTy: types are interned by their profile, not by the byte key the source folds the profile into. That key writes slices without a length prefix, so two different profiles could share a key in the source. The model keeps them apart.
- ParserOutput.Run: the replay's node opens and closes are applied to the green builder only through ParserOutput.NestedOpsBuild, which assumes the ops nest. That every successful replay of parser events produces properly nested ops is not proved.

## Findings

| source | as written | input that shows it | evidently intended | confidence | as-written member | corrected member |
|---|---|---|---|---|---|---|
| crates/utils/src/ap.rs:115-119 | a right shift of a multi-limb integer rotates the whole limbs it drops back in at the top | limbs [1, 0, 1] shifted right by 64 give [0, 1, 1] | the dropped limbs are discarded and zero limbs come in at the top, giving [0, 1, 0] | not executed | Ap.ShrPartsAsWritten, Ap.ShrRotatesDroppedLimbs | Ap.ShrParts, Ap.Shr |
| crates/utils/src/ap.rs:151-153 | when a left shift spills into a second limb, the width is max(bit width, width of the low limb) plus the width of the spilled bits, which can be smaller than the result's bit length | 2^62 with bit width 63, shifted left by 2, gives 2^64 with width 64, while 2^64 needs 65 bits | the low limb counts as a full 64 bits, so the width is max(bit width, 64) plus the width of the spilled bits | not executed | Ap.ShlAsWritten, Ap.ShlWidthTooSmall | Ap.Shl |
| crates/utils/src/sparse_matrix.rs:19-37 | the cell index is x * width + y, so two cells inside the matrix can share an index | in a 2-by-3 matrix, cells (0, 2) and (1, 0) both get index 2, and an insertion at (1, 0) after one at (0, 2) is refused | row-major x * height + y, which tells every cell apart | not executed | SparseMatrix.CellIndexAsWritten, SparseMatrix.CellIndexAsWrittenCollides | SparseMatrix.CellIndex, SparseMatrix.CellIndexInjective, SparseMatrix.GetAfterInsert |
| crates/parser/src/output.rs:87-97 | the position's offset grows by one per character, but it is used as a byte index into the source | the source "// é" followed by a newline: after the 5-byte comment the offset is 4, inside the two bytes of "é", and slicing out the newline panics | the offset grows by the character's UTF-8 length | not executed | ParserOutput.UpdatePosAsWritten, ParserOutput.NTokensAsWritten, ParserOutput.AccentCommentAsWritten | ParserOutput.UpdatePos, ParserOutput.NTokens, ParserOutput.AccentCommentReplays |
| crates/lir/src/types/ty.rs:149-151 | `is_ptr` compares the kind with `Void` | the void type is reported as a pointer, and every pointer type is reported as not one | the kind is `Pointer` | not executed | LirTy.IsPtrAsWritten, LirTy.IsPtrAsWrittenMisses | LirTy.IsPtrCorrect |
| crates/sema/src/check.rs:231-262 | `unify` asks each side for its type record with `map.get::<Type>` before it tests for an error, and an error node used as a type has no record, so it panics | a variable typed with an error node, unified with an expression of type `i32` | the error absorbs the other side, as the `is_err` branches mean, and the unification yields `i32` | not executed | SemaCheck.UnifyAsWritten, SemaCheck.UnifyAsWrittenPanicsOnErrorType | SemaCheck.Unify, SemaCheck.UnifyFailsIff |

=== FILE: ap.dfy ===
/**
  Arbitrary-precision unsigned integers: a value is either one 64-bit limb
  (`Small`) or a little-endian sequence of at least two limbs (`Big`),
  together with a bit width that is at least the value's bit length.
  Addition, right shift and the one-limb case of left shift are modelled.
 */
module Ap {
  import opened Wrappers
  import opened Arith
  import opened Pow2s

  /** 2^64, the radix of one limb. */
  const BASE: nat := 0x1_0000_0000_0000_0000

  type U64 = x: nat | x < BASE

  lemma Pow2Base()
    ensures Pow2(64) == BASE
  {
    Pow2SixtyFour();
  }

  /** BASE^n: the weight of limb n. */
  function Pow64(n: nat): (r: nat)
    ensures r >= 1
  {
    if n == 0 then 1 else BASE * Pow64(n - 1)
  }

  lemma {:induction false} Pow64IsPow2(n: nat)
    ensures Pow64(n) == Pow2(64 * n)
  {
    if n > 0 {
      Pow64IsPow2(n - 1);
      Pow2Base();
      Pow2Add(64, 64 * (n - 1));
    }
  }

  // ---------------------------------------------------------------------
  // Bit length.

  /** `64 - leading_zeros(v)`: the number of bits needed to write `v`. */
  function Width(v: U64): (r: nat)
    ensures r <= 64
    ensures v < Pow2(r)
    ensures r > 0 ==> Pow2(r - 1) <= v
  {
    if v == 0 then 0
    else
      var w := 1 + Width(v / 2);
      assert Pow2(w - 1) <= v by {
        if w - 1 > 0 {
          assert Pow2(w - 1) == 2 * Pow2(w - 2);
        }
      }
      assert w <= 64 by {
        if w > 64 {
          Pow2Monotone(64, w - 1);
          Pow2Base();
        }
      }
      w
  }

  /** The bit length is the only `k` with 2^(k-1) <= v < 2^k. */
  lemma WidthUnique(v: U64, k: nat)
    requires v < Pow2(k)
    requires k > 0 ==> Pow2(k - 1) <= v
    ensures Width(v) == k
  {
    var w := Width(v);
    if w < k {
      Pow2Monotone(w, k - 1);
    } else if w > k {
      Pow2Monotone(k, w - 1);
    }
  }

  lemma WidthMonotone(a: U64, b: U64)
    requires a <= b
    ensures Width(a) <= Width(b)
  {
    if Width(a) > 0 {
      var k: nat := Width(a) - 1;
      Pow2Ordered(Width(b), k);
    }
  }

  // ---------------------------------------------------------------------
  // Limb sequences.

  /** The value of little-endian limbs. */
  function LimbsValue(p: seq<U64>): nat
  {
    if |p| == 0 then 0 else p[0] + BASE * LimbsValue(p[1..])
  }

  lemma {:induction false} LimbsValueAppend(p: seq<U64>, x: U64)
    ensures LimbsValue(p + [x]) == LimbsValue(p) + x * Pow64(|p|)
  {
    if |p| > 0 {
      assert (p + [x])[1..] == p[1..] + [x];
      LimbsValueAppend(p[1..], x);
      assert BASE * (LimbsValue(p[1..]) + x * Pow64(|p| - 1))
          == BASE * LimbsValue(p[1..]) + x * (BASE * Pow64(|p| - 1));
    }
  }

  lemma {:induction false} LimbsValueBound(p: seq<U64>)
    ensures LimbsValue(p) < Pow64(|p|)
  {
    if |p| > 0 {
      LimbsValueBound(p[1..]);
      assert LimbsValue(p) <= BASE - 1 + BASE * (Pow64(|p| - 1) - 1) by {
        assert LimbsValue(p[1..]) <= Pow64(|p| - 1) - 1;
      }
    }
  }

  /** The prefix holds the low limbs: value = low + BASE^k * high. */
  lemma {:induction false} LimbsValueSplit(p: seq<U64>, k: nat)
    requires k <= |p|
    ensures LimbsValue(p) == LimbsValue(p[..k]) + Pow64(k) * LimbsValue(p[k..])
  {
    if k > 0 {
      LimbsValueSplit(p[1..], k - 1);
      assert p[1..][..k - 1] == p[..k][1..];
      assert p[1..][k - 1..] == p[k..];
      MulDistrib(BASE, LimbsValue(p[..k][1..]), Pow64(k - 1), LimbsValue(p[k..]));
    } else {
      assert p[..0] == [];
      assert p[0..] == p;
    }
  }

  function Zeros(n: nat): (r: seq<U64>)
    ensures |r| == n
    ensures forall i :: 0 <= i < n ==> r[i] == 0
  {
    if n == 0 then [] else [0] + Zeros(n - 1)
  }

  /** Zero limbs on top add nothing. */
  lemma {:induction false} LimbsValueZeroExtend(p: seq<U64>, n: nat)
    ensures LimbsValue(p + Zeros(n)) == LimbsValue(p)
  {
    LimbsValueSplit(p + Zeros(n), |p|);
    assert (p + Zeros(n))[..|p|] == p;
    assert (p + Zeros(n))[|p|..] == Zeros(n);
    ZerosValue(n);
  }

  lemma {:induction false} ZerosValue(n: nat)
    ensures LimbsValue(Zeros(n)) == 0
  {
    if n > 0 {
      assert Zeros(n)[1..] == Zeros(n - 1);
      ZerosValue(n - 1);
    }
  }

  /** Bits spanned by the limbs: full leading limbs plus the top limb's width. */
  function BitsOf(p: seq<U64>): nat
    requires |p| >= 1
  {
    64 * (|p| - 1) + Width(p[|p| - 1])
  }

  /** `BitsOf` bounds the value, and is its exact bit length when the top limb is not zero. */
  lemma LimbsBits(p: seq<U64>)
    requires |p| >= 1
    ensures LimbsValue(p) < Pow2(BitsOf(p))
    ensures p[|p| - 1] > 0 ==> Pow2(BitsOf(p) - 1) <= LimbsValue(p)
  {
    var n := |p|;
    var q, t := p[..n - 1], p[n - 1];
    var m, w := 64 * (n - 1), Width(t);
    assert p == q + [t];
    LimbsValueAppend(q, t);
    LimbsValueBound(q);
    Pow64IsPow2(n - 1);
    TopBits(LimbsValue(p), LimbsValue(q), t, m, w, BitsOf(p));
  }

  // ---------------------------------------------------------------------
  // The integer type.

  datatype IntStorage = Small(val: U64) | Big(parts: seq<U64>)

  datatype Int = Int(storage: IntStorage, bitWidth: nat)

  /** What the constructors' debug assertions guarantee of every `Int`. */
  predicate Valid(x: Int)
  {
    match x.storage
    case Small(v) => Width(v) <= x.bitWidth
    case Big(p) => |p| >= 2 && BitsOf(p) <= x.bitWidth
  }

  function Value(x: Int): nat
  {
    match x.storage
    case Small(v) => v
    case Big(p) => LimbsValue(p)
  }

  /** A valid integer's value fits in its bit width. */
  lemma ValidFitsWidth(x: Int)
    requires Valid(x)
    ensures Value(x) < Pow2(x.bitWidth)
  {
    match x.storage
    case Small(v) =>
      Pow2Monotone(Width(v), x.bitWidth);
    case Big(p) =>
      LimbsBits(p);
      Pow2Monotone(BitsOf(p), x.bitWidth);
  }

  function NewSmall(val: U64, bitWidth: nat): (r: Int)
    requires Width(val) <= bitWidth
    ensures Valid(r) && Value(r) == val && r.bitWidth == bitWidth
  {
    Int(Small(val), bitWidth)
  }

  function NewBig(parts: seq<U64>, bitWidth: nat): (r: Int)
    requires |parts| >= 2 && BitsOf(parts) <= bitWidth
    ensures Valid(r) && Value(r) == LimbsValue(parts) && r.bitWidth == bitWidth
  {
    Int(Big(parts), bitWidth)
  }

  // ---------------------------------------------------------------------
  // Addition.

  /** `u64::overflowing_add`: the wrapped sum and whether it carried. */
  function OverflowingAdd(a: U64, b: U64): (r: (U64, bool))
    ensures r.0 + (if r.1 then BASE else 0) == a + b
  {
    if a + b < BASE then (a + b, false) else (a + b - BASE, true)
  }

  function Max(a: nat, b: nat): nat { if a < b then b else a }

  function Min(a: nat, b: nat): nat { if a < b then a else b }

  lemma AddLimbStep(res: seq<U64>, a: nat, b: nat, x: U64, y: U64, cin: bool, part: U64, cout: bool)
    requires LimbsValue(res) + (if cin then Pow64(|res|) else 0) == a + b
    requires part + (if cout then BASE else 0) == x + y + (if cin then 1 else 0)
    ensures LimbsValue(res + [part]) + (if cout then Pow64(|res| + 1) else 0)
         == (a + x * Pow64(|res|)) + (b + y * Pow64(|res|))
  {
    var P := Pow64(|res|);
    var ci, co := if cin then 1 else 0, if cout then 1 else 0;
    LimbsValueAppend(res, part);
    assert Pow64(|res| + 1) == BASE * P;
    AddStep(LimbsValue(res), a, b, P, x, y, ci, part, co, BASE);
    assert (if cout then Pow64(|res| + 1) else 0) == co * (BASE * P);
  }

  lemma PrefixValueStep(v: seq<U64>, i: nat)
    requires i < |v|
    ensures LimbsValue(v[..i + 1]) == LimbsValue(v[..i]) + v[i] * Pow64(i)
  {
    assert v[..i + 1] == v[..i] + [v[i]];
    LimbsValueAppend(v[..i], v[i]);
  }

  /** The first loop of the limb addition: the common limbs, added with carry. */
  method AddCommonLimbs(v1: seq<U64>, v2: seq<U64>) returns (res: seq<U64>, carry: bool)
    ensures |res| == Min(|v1|, |v2|)
    ensures LimbsValue(res) + (if carry then Pow64(|res|) else 0)
         == LimbsValue(v1[..|res|]) + LimbsValue(v2[..|res|])
  {
    var smallest := Min(|v1|, |v2|);
    res, carry := [], false;
    var i := 0;
    while i < smallest
      invariant 0 <= i <= smallest
      invariant |res| == i
      invariant LimbsValue(res) + (if carry then Pow64(i) else 0)
             == LimbsValue(v1[..i]) + LimbsValue(v2[..i])
    {
      var t := OverflowingAdd(v1[i], v2[i]);
      var part, c := t.0, t.1;
      if carry {
        var u := OverflowingAdd(part, 1);
        part := u.0;
        c := c || u.1;
      }
      PrefixValueStep(v1, i);
      PrefixValueStep(v2, i);
      AddLimbStep(res, LimbsValue(v1[..i]), LimbsValue(v2[..i]), v1[i], v2[i], carry, part, c);
      res := res + [part];
      carry := c;
      i := i + 1;
    }
  }

  /** The second loop: the carry rippling through the longer operand's remaining limbs. */
  method PropagateCarry(larger: seq<U64>, other: nat, res0: seq<U64>, carry0: bool)
    returns (res: seq<U64>, carry: bool)
    requires |res0| <= |larger|
    requires LimbsValue(res0) + (if carry0 then Pow64(|res0|) else 0)
          == LimbsValue(larger[..|res0|]) + other
    ensures |res| == |larger|
    ensures LimbsValue(res) + (if carry then Pow64(|res|) else 0) == LimbsValue(larger) + other
  {
    res, carry := res0, carry0;
    var i := |res0|;
    while i < |larger|
      invariant |res0| <= i <= |larger|
      invariant |res| == i
      invariant LimbsValue(res) + (if carry then Pow64(i) else 0)
             == LimbsValue(larger[..i]) + other
    {
      var part, c;
      if carry {
        var u := OverflowingAdd(larger[i], 1);
        part, c := u.0, u.1;
      } else {
        part, c := larger[i], false;
      }
      PrefixValueStep(larger, i);
      AddLimbStep(res, LimbsValue(larger[..i]), other, larger[i], 0, carry, part, c);
      res := res + [part];
      carry := c;
      i := i + 1;
    }
    assert larger[..i] == larger;
  }

  /** Limb-wise addition with carry over the common limbs, then carry
      propagation through the longer operand; a final carry appends a limb
      holding 1 and sets the width to exactly the new bit length. */
  method AddPartsToParts(v1: seq<U64>, v2: seq<U64>, bitWidth: nat) returns (r: Int)
    requires |v1| >= 2 || |v2| >= 2
    ensures Valid(r) && r.storage.Big?
    ensures Value(r) == LimbsValue(v1) + LimbsValue(v2)
    ensures |r.storage.parts| == Max(|v1|, |v2|) ==>
      r.bitWidth == Max(bitWidth, BitsOf(r.storage.parts))
    ensures |r.storage.parts| == Max(|v1|, |v2|) + 1 ==>
      r.storage.parts[Max(|v1|, |v2|)] == 1 && r.bitWidth == 64 * Max(|v1|, |v2|) + 1
    ensures |r.storage.parts| == Max(|v1|, |v2|) || |r.storage.parts| == Max(|v1|, |v2|) + 1
  {
    var res, carry := AddCommonLimbs(v1, v2);
    var larger := if |v1| > |v2| then v1 else v2;
    var shorter := if |v1| > |v2| then v2 else v1;
    assert shorter[..|res|] == shorter;
    assert LimbsValue(res) + (if carry then Pow64(|res|) else 0)
        == LimbsValue(larger[..|res|]) + LimbsValue(shorter);
    res, carry := PropagateCarry(larger, LimbsValue(shorter), res, carry);

    var leading := 64 * (|res| - 1);
    var width := Max(bitWidth, leading + Width(res[|res| - 1]));
    if carry {
      CarryOut(res);
      res := res + [1];
      width := leading + 64 + 1;
    }
    r := NewBig(res, width);
  }

  /** A final carry is one more limb holding 1, worth 2^(64n), which makes
      the bit length exactly 64n + 1. */
  lemma CarryOut(res: seq<U64>)
    requires |res| >= 1
    ensures LimbsValue(res + [1]) == LimbsValue(res) + Pow64(|res|)
    ensures BitsOf(res + [1]) == 64 * |res| + 1
  {
    CarryOutValue(res);
    CarryOutBits(res);
  }

  lemma CarryOutValue(res: seq<U64>)
    ensures LimbsValue(res + [1]) == LimbsValue(res) + Pow64(|res|)
  {
    LimbsValueAppend(res, 1);
  }

  lemma CarryOutBits(res: seq<U64>)
    ensures BitsOf(res + [1]) == 64 * |res| + 1
  {
    var q := res + [1];
    assert q[|q| - 1] == 1 && |q| - 1 == |res|;
    assert Width(1) == 1;
  }

  /** The two limbs [lo, 1] span exactly 65 bits. */
  lemma CarryLimbBits(lo: U64)
    ensures BitsOf([lo, 1]) == 65
  {
    assert Width(1) == 1;
  }

  lemma LimbsValuePair(lo: U64, hi: U64)
    ensures LimbsValue([lo, hi]) == lo + BASE * hi
  {
    assert [lo, hi][1..] == [hi];
    assert [hi][1..] == [];
    assert LimbsValue([hi]) == hi;
  }

  /** Two one-limb operands: without a carry the result stays one limb and
      the width grows only as far as the sum needs; a carry gives the two
      limbs [sum mod 2^64, 1] with width 65. */
  function AddSmall(x: U64, y: U64, bitWidth: nat): (r: Int)
    requires Width(x) <= bitWidth && Width(y) <= bitWidth
    ensures Valid(r) && Value(r) == x + y
    ensures x + y < BASE ==> r == Int(Small(x + y), Max(bitWidth, Width(x + y)))
    ensures x + y >= BASE ==> r == Int(Big([x + y - BASE, 1]), 65)
  {
    var t := OverflowingAdd(x, y);
    var width := Max(bitWidth, Width(t.0));
    if t.1 then
      CarryLimbBits(t.0);
      LimbsValuePair(t.0, 1);
      NewBig([t.0, 1], 65)
    else
      NewSmall(t.0, width)
  }

  /** The limbs of an integer: a one-limb integer is the single limb. */
  function LimbsOf(x: Int): (r: seq<U64>)
    requires Valid(x)
    ensures |r| >= 1 && LimbsValue(r) == Value(x)
    ensures x.storage.Small? ==> |r| == 1
    ensures x.storage.Big? ==> r == x.storage.parts
  {
    match x.storage
    case Small(v) => assert LimbsValue([v]) == v; [v]
    case Big(p) => p
  }

  /** The bit width an addition starts from: the Big operand's, or the larger
      of the two when both have the same kind. */
  function StartWidth(a: Int, b: Int): (r: nat)
    ensures r == a.bitWidth || r == b.bitWidth
    ensures a.bitWidth <= r || b.bitWidth <= r
    ensures a.storage.Small? && b.storage.Big? ==> r == b.bitWidth
    ensures a.storage.Big? && b.storage.Small? ==> r == a.bitWidth
  {
    if a.storage.Small? && b.storage.Big? then b.bitWidth
    else if a.storage.Big? && b.storage.Small? then a.bitWidth
    else Max(a.bitWidth, b.bitWidth)
  }

  /** `Int + Int`. Two one-limb operands go through `AddSmall`; otherwise the
      sum is a limb vector with as many limbs as the longer operand, at the
      larger of the starting width and its bit length, or one more limb
      holding 1 at width 64n + 1. */
  method Add(a: Int, b: Int) returns (r: Int)
    requires Valid(a) && Valid(b)
    ensures Valid(r)
    ensures Value(r) == Value(a) + Value(b)
    ensures a.storage.Small? && b.storage.Small? ==>
      r == AddSmall(a.storage.val, b.storage.val, StartWidth(a, b))
    ensures a.storage.Big? || b.storage.Big? ==>
      var n := Max(|LimbsOf(a)|, |LimbsOf(b)|);
      && r.storage.Big?
      && (|r.storage.parts| == n || |r.storage.parts| == n + 1)
      && (|r.storage.parts| == n ==> r.bitWidth == Max(StartWidth(a, b), BitsOf(r.storage.parts)))
      && (|r.storage.parts| == n + 1 ==> r.storage.parts[n] == 1 && r.bitWidth == 64 * n + 1)
  {
    if a.storage.Small? && b.storage.Small? {
      r := AddSmall(a.storage.val, b.storage.val, Max(a.bitWidth, b.bitWidth));
    } else if a.storage.Big? && b.storage.Small? {
      r := AddPartsToParts(LimbsOf(b), a.storage.parts, a.bitWidth);
    } else if a.storage.Small? {
      r := AddPartsToParts(LimbsOf(a), b.storage.parts, b.bitWidth);
    } else {
      r := AddPartsToParts(a.storage.parts, b.storage.parts, Max(a.bitWidth, b.bitWidth));
    }
  }

  lemma ThreeLimbsAbove(p: seq<U64>)
    requires |p| == 3 && p[2] == 1
    ensures LimbsValue(p) >= BASE * BASE
  {
    assert p == p[..2] + [1];
    LimbsValueAppend(p[..2], 1);
    assert Pow64(2) == BASE * BASE;
  }

  lemma TwoLimbsBelow(lo: U64, hi: U64)
    ensures lo + BASE * hi < BASE * BASE
  {
    MulMonotone(BASE, hi, BASE - 1);
    assert BASE * (BASE - 1) == BASE * BASE - BASE;
  }

  /** A sum of two limbs' worth, held in two limbs or in three with a top
      limb of 1, is those two limbs: the third limb alone would be worth
      2^128. */
  lemma TwoLimbsFromValue(p: seq<U64>, lo: U64, hi: U64)
    requires |p| == 2 || (|p| == 3 && p[2] == 1)
    requires LimbsValue(p) == lo + BASE * hi
    ensures p == [lo, hi]
  {
    if |p| == 3 {
      ThreeLimbsAbove(p);
      TwoLimbsBelow(lo, hi);
      assert false;
    }
    assert p == [p[0], p[1]];
    LimbsValuePair(p[0], p[1]);
    DivMulUnique(lo + BASE * hi, BASE, hi, lo);
    DivMulUnique(lo + BASE * hi, BASE, p[1], p[0]);
  }

  /** Two limbs span 64 bits plus the top limb's width. */
  lemma BitsOfTwoLimbs(lo: U64, hi: U64)
    ensures BitsOf([lo, hi]) == 64 + Width(hi)
  {
  }

  lemma WidthTwo()
    ensures Width(2) == 2
  {
    assert Pow2(1) == 2 && Pow2(2) == 4;
    WidthUnique(2, 2);
  }

  /** The test of ap.rs adding two Big operands: a carry between limbs keeps
      the wider starting width. */
  method AddBigBig(a: Int, b: Int) returns (x: Int)
    requires a == Int(Big([0, 1]), 65) && b == Int(Big([0, 1]), 96)
    ensures x == Int(Big([0, 2]), 96)
  {
    LimbsValuePair(0, 1);
    x := Add(a, b);
    TwoLimbsFromValue(x.storage.parts, 0, 2);
    BitsOfTwoLimbs(0, 2);
    WidthTwo();
  }

  /** The test of ap.rs adding a one-limb and a Big operand: the sum's bit
      length outgrows the starting width. */
  method AddSmallBig(a: Int, b: Int) returns (y: Int)
    requires a == Int(Small(1), 1) && b == Int(Big([BASE - 1, 1]), 65)
    ensures y == Int(Big([0, 2]), 66)
  {
    LimbsValuePair(BASE - 1, 1);
    y := Add(a, b);
    TwoLimbsFromValue(y.storage.parts, 0, 2);
    BitsOfTwoLimbs(0, 2);
    WidthTwo();
  }

  // ---------------------------------------------------------------------
  // Right shift.

  /** 2^s * 2^(64-s) = 2^64. */
  /** The limb the bit-shift loop writes at one position: this limb's high
      bits moved down by `s`, and the low `s` bits of the next limb up (0 for
      the top limb) moved into its top. The loop ORs two bit ranges that do
      not overlap, which is their sum. */
  function ShiftedLimb(lo: U64, hi: U64, s: nat): (r: U64)
    requires 0 < s < 64
    ensures r == ShiftedBits(lo, hi, s)
  {
    ShiftedLimbFits(lo, hi, s);
    ShiftedBits(lo, hi, s)
  }

  /** The bits of `lo` above `s`, moved down, and the low `s` bits of `hi`
      placed above them. */
  function ShiftedBits(lo: U64, hi: U64, s: nat): nat
    requires s < 64
  {
    DropLowBits(lo, s) + LowBits(hi, s) * Pow2(64 - s)
  }

  lemma ShiftedLimbFits(lo: U64, hi: U64, s: nat)
    requires 0 < s < 64
    ensures ShiftedBits(lo, hi, s) < BASE
  {
    Pow2Base();
    ShiftedBitsBound(lo, hi, s, 64 - s);
  }

  /** The bit-shift loop, which walks the limbs from the top down carrying
      the low bits of the limb above. */
  function ShiftLimbsRight(p: seq<U64>, s: nat): (r: seq<U64>)
    requires 0 < s < 64
    ensures |r| == |p|
  {
    if |p| == 0 then []
    else [ShiftedLimb(p[0], if |p| > 1 then p[1] else 0, s)] + ShiftLimbsRight(p[1..], s)
  }

  /** The bit-shift loop divides the value by 2^s. */
  lemma {:induction false} ShiftLimbsRightValue(p: seq<U64>, s: nat)
    requires 0 < s < 64
    ensures LimbsValue(ShiftLimbsRight(p, s)) == DropLowBits(LimbsValue(p), s)
  {
    if |p| > 0 {
      Pow2Base();
      assert s + (64 - s) == 64;
      var n: U64 := if |p| > 1 then p[1] else 0;
      var w := if |p| > 1 then LimbsValue(p[2..]) else 0;
      var v1 := LimbsValue(p[1..]);
      assert v1 == n + BASE * w by {
        if |p| > 1 {
          assert p[1..][1..] == p[2..];
        }
      }
      ShiftLimbsRightValue(p[1..], s);
      var r := ShiftLimbsRight(p, s);
      assert r[1..] == ShiftLimbsRight(p[1..], s);
      assert r[0] == ShiftedLimb(p[0], n, s);
      ShiftStep(p[0], v1, n, w, s, 64 - s);
      assert LimbsValue(r) == r[0] + BASE * DropLowBits(v1, s);
    } else {
      DropLowBitsSmall(0, s);
    }
  }

  /** Right shift of the limbs as written: the whole limbs to drop are
      rotated to the top (`rotate_left`, which requires the count to be at
      most the length) instead of being replaced by zero limbs. */
  function ShrPartsAsWritten(p: seq<U64>, shift: nat): (r: seq<U64>)
    requires shift / 64 <= |p|
    ensures |r| == |p|
    ensures shift < 64 ==> r == ShrParts(p, shift)
  {
    assert shift < 64 ==> p[0..] + Zeros(0) == p;
    var drop := shift / 64;
    var rotated := if drop > 0 then p[drop..] + p[..drop] else p;
    var s := if drop > 0 then shift % 64 else shift;
    if s > 0 then ShiftLimbsRight(rotated, s) else rotated
  }

  /** Right shift of the limbs with the dropped low limbs discarded and zero
      limbs shifted in at the top. */
  function ShrParts(p: seq<U64>, shift: nat): (r: seq<U64>)
    ensures |r| == |p|
    ensures LimbsValue(r) == DropLowBits(LimbsValue(p), shift)
  {
    var drop := Min(shift / 64, |p|);
    var kept := p[drop..] + Zeros(drop);
    var s := shift % 64;
    var r := if s > 0 then ShiftLimbsRight(kept, s) else kept;
    ShrPartsValue(p, shift, drop, kept, s, r);
    r
  }

  /** Dropping the k lowest limbs divides the value by 2^(64k). */
  lemma DropLimbsValue(p: seq<U64>, k: nat)
    requires k <= |p|
    ensures LimbsValue(p[k..]) == DropLowBits(LimbsValue(p), 64 * k)
  {
    LimbsValueSplit(p, k);
    LimbsValueBound(p[..k]);
    Pow64IsPow2(k);
    DropLowBitsExact(LimbsValue(p), 64 * k, LimbsValue(p[k..]), LimbsValue(p[..k]));
  }

  lemma ShrPartsValue(p: seq<U64>, shift: nat, drop: nat, kept: seq<U64>, s: nat, r: seq<U64>)
    requires drop == Min(shift / 64, |p|) && kept == p[drop..] + Zeros(drop) && s == shift % 64
    requires r == if s > 0 then ShiftLimbsRight(kept, s) else kept
    ensures LimbsValue(r) == DropLowBits(LimbsValue(p), shift)
  {
    ShiftInLimbValue(kept, s, r);
    LimbsValueZeroExtend(p[drop..], drop);
    if drop == shift / 64 {
      ShrWholeLimbs(p, drop, s, shift);
    } else {
      ShrPastTop(p, shift);
      DropLowBitsSmall(0, s);
    }
  }

  /** Dropping whole limbs, then shifting the rest by s. */
  lemma ShrWholeLimbs(p: seq<U64>, drop: nat, s: nat, shift: nat)
    requires drop <= |p| && shift == 64 * drop + s
    ensures DropLowBits(LimbsValue(p[drop..]), s) == DropLowBits(LimbsValue(p), shift)
  {
    DropLimbsValue(p, drop);
    DropLowBitsTwice(LimbsValue(p), 64 * drop, s);
  }

  /** The bit-shift step, or none when the count is a whole number of limbs. */
  lemma ShiftInLimbValue(kept: seq<U64>, s: nat, r: seq<U64>)
    requires s < 64
    requires r == if s > 0 then ShiftLimbsRight(kept, s) else kept
    ensures LimbsValue(r) == DropLowBits(LimbsValue(kept), s)
  {
    if s > 0 {
      ShiftLimbsRightValue(kept, s);
    } else {
      DropNoBits(LimbsValue(kept));
    }
  }

  /** Shifting out more limbs than there are leaves zero. */
  lemma ShrPastTop(p: seq<U64>, shift: nat)
    requires 64 * |p| <= shift
    ensures DropLowBits(LimbsValue(p), shift) == 0
    ensures LimbsValue(p[|p|..]) == 0
  {
    assert p[|p|..] == [];
    LimbsValueBound(p);
    Pow64IsPow2(|p|);
    Pow2Monotone(64 * |p|, shift);
    DropLowBitsSmall(LimbsValue(p), shift);
  }

  /** Limbs of the same count and no larger value fit any width the first fits. */
  lemma SmallerLimbsFit(p: seq<U64>, q: seq<U64>, width: nat)
    requires |p| == |q| >= 1
    requires LimbsValue(q) <= LimbsValue(p) && BitsOf(p) <= width
    ensures BitsOf(q) <= width
  {
    if q[|q| - 1] > 0 {
      LimbsBits(p);
      Pow2Monotone(BitsOf(p), width);
      TopLimbFits(q, width);
    }
  }

  /** With a non-zero top limb, a value below 2^width has at most width bits. */
  lemma TopLimbFits(q: seq<U64>, width: nat)
    requires |q| >= 1 && q[|q| - 1] > 0 && LimbsValue(q) < Pow2(width)
    ensures BitsOf(q) <= width
  {
    LimbsBits(q);
    var k: nat := BitsOf(q) - 1;
    Pow2Ordered(width, k);
  }

  /** `Int >> shift`. A one-limb value needs `shift < 64` (a larger shift of
      a `u64` overflows); the bit width is kept. */
  function Shr(x: Int, shift: nat): (r: Int)
    requires Valid(x)
    requires x.storage.Small? ==> shift < 64
    ensures Valid(r) && r.bitWidth == x.bitWidth
    ensures r.storage.Small? <==> x.storage.Small?
    ensures Value(r) == DropLowBits(Value(x), shift)
  {
    if shift == 0 then x
    else match x.storage
      case Small(v) =>
        DropLowBitsLe(v, shift);
        var u: U64 := DropLowBits(v, shift);
        WidthMonotone(u, v);
        NewSmall(u, x.bitWidth)
      case Big(p) =>
        var q := ShrParts(p, shift);
        DropLowBitsLe(LimbsValue(p), shift);
        SmallerLimbsFit(p, q, x.bitWidth);
        NewBig(q, x.bitWidth)
  }

  /** The rotation brings a dropped limb back in at the top:
      [1, 0, 1] >> 64 gives [0, 1, 1] where [0, 1, 0] is meant. */
  lemma ShrRotatesDroppedLimbs()
    ensures ShrPartsAsWritten([1, 0, 1], 64) == [0, 1, 1]
    ensures LimbsValue(ShrPartsAsWritten([1, 0, 1], 64)) != DropLowBits(LimbsValue([1, 0, 1]), 64)
    ensures ShrParts([1, 0, 1], 64) == [0, 1, 0]
  {
    var p: seq<U64> := [1, 0, 1];
    assert p[1..] + p[..1] == [0, 1, 1];
    assert p[1..] + Zeros(1) == [0, 1, 0];
    Pow2Base();
    assert LimbsValue([0, 1, 1]) == BASE + BASE * BASE by {
      LimbsValuePair(1, 1);
      assert [0, 1, 1][1..] == [1, 1];
    }
    assert LimbsValue(p) == 1 + BASE * BASE by {
      LimbsValuePair(0, 1);
      assert p[1..] == [0, 1];
    }
    DropLowBitsExact(1 + BASE * BASE, 64, BASE, 1);
  }

  // ---------------------------------------------------------------------
  // Left shift.

  /** `extract_high_n_bits`: masking the top `bits` bits and shifting them
      down is `v >> (64 - bits)`. */
  function ExtractHighBits(v: U64, bits: nat): (r: U64)
    requires 0 < bits < 64
    ensures r < Pow2(bits)
  {
    HighBitsFit(v, bits);
    DropLowBits(v, 64 - bits)
  }

  lemma HighBitsFit(v: U64, bits: nat)
    requires 0 < bits < 64
    ensures DropLowBits(v, 64 - bits) < Pow2(bits) <= BASE
  {
    Pow2Base();
    assert (64 - bits) + bits == 64;
    DropLowBitsBelow(v, 64 - bits, bits);
    Pow2Monotone(bits, 64);
  }

  /** `Int << shift` as written, for `shift < 64` (a debug assertion). A
      multi-limb value is not implemented (`todo!()`), which is `None`. When
      bits spill into a second limb the width is computed as
      max(bit_width, width(low limb)) + width(spilled bits), which can fall
      below the result's bit length; the result is returned unchecked. */
  function ShlAsWritten(x: Int, shift: nat): (r: Option<Int>)
    requires shift < 64
    ensures r.Some? <==> shift == 0 || x.storage.Small?
    ensures r.Some? ==> Value(r.value) == Value(x) * Pow2(shift)
  {
    if shift == 0 then Some(x)
    else match x.storage
      case Big(_) => None
      case Small(v) =>
        var high := ExtractHighBits(v, shift);
        var res: U64 := (v * Pow2(shift)) % BASE;
        ShlSplit(v, shift);
        LimbsValuePair(res, high);
        var width := Max(x.bitWidth, Width(res));
        if high != 0 then Some(Int(Big([res, high]), width + Width(high)))
        else Some(Int(Small(res), width))
  }

  /** The one-limb shift as a product: the low limb and the spilled bits
      together hold v * 2^shift. */
  lemma ShlSplit(v: U64, shift: nat)
    requires 0 < shift < 64
    ensures (v * Pow2(shift)) % BASE + BASE * ExtractHighBits(v, shift) == v * Pow2(shift)
  {
    Pow2Base();
    assert shift + (64 - shift) == 64;
    ShiftLeftSplit(v, shift, 64 - shift);
  }

  /** `Int << shift` with the spilled-bits width corrected to
      max(bit_width, 64) + width(spilled bits), which is never below the
      result's bit length and equals the written formula whenever
      bit_width >= 64. */
  function Shl(x: Int, shift: nat): (r: Option<Int>)
    requires Valid(x) && shift < 64
    ensures r.Some? <==> shift == 0 || x.storage.Small?
    ensures r.Some? ==> Valid(r.value) && Value(r.value) == Value(x) * Pow2(shift)
  {
    if shift == 0 then Some(x)
    else match x.storage
      case Big(_) => None
      case Small(v) =>
        var high := ExtractHighBits(v, shift);
        var res: U64 := (v * Pow2(shift)) % BASE;
        ShlSplit(v, shift);
        if high != 0 then
          var width := Max(x.bitWidth, 64) + Width(high);
          LimbsValuePair(res, high);
          Some(NewBig([res, high], width))
        else
          Some(NewSmall(res, Max(x.bitWidth, Width(res))))
  }

  /** The corrected shift agrees with the written one whenever the declared
      width is at least one limb. */
  lemma ShlAgreesFromOneLimb(x: Int, shift: nat)
    requires Valid(x) && shift < 64 && x.bitWidth >= 64
    ensures Shl(x, shift) == ShlAsWritten(x, shift)
  {
  }

  const TWO_POW_62: U64 := 0x4000_0000_0000_0000

  lemma TwoPow62()
    ensures Pow2(62) == TWO_POW_62 && Width(TWO_POW_62) == 63
  {
    Pow2Base();
    assert Pow2(64) == 4 * Pow2(62);
    WidthUnique(TWO_POW_62, 63);
  }

  lemma ShlTwoPow62()
    ensures ShlAsWritten(Int(Small(TWO_POW_62), 63), 2) == Some(Int(Big([0, 1]), 64))
  {
    TwoPow62();
    Pow2Base();
    assert Pow2(2) == 4;
    assert ExtractHighBits(TWO_POW_62, 2) == 1;
    assert (TWO_POW_62 * Pow2(2)) % BASE == 0;
    WidthUnique(0, 0);
    WidthUnique(1, 1);
  }

  /** 2^62 fits in 63 bits, but shifted left by 2 the written width is 64
      for the value 2^64, whose bit length is 65. */
  lemma ShlWidthTooSmall()
    ensures Valid(Int(Small(TWO_POW_62), 63))
    ensures ShlAsWritten(Int(Small(TWO_POW_62), 63), 2) == Some(Int(Big([0, 1]), 64))
    ensures !Valid(Int(Big([0, 1]), 64))
  {
    TwoPow62();
    ShlTwoPow62();
    CarryLimbBits(0);
  }
}

=== FILE: arith.dfy ===
/**
  Facts about integer multiplication and Euclidean division that the
  solver does not find on its own once the operands are symbolic.
 */
module Arith {

  lemma MulNonneg(a: int, b: int)
    requires a >= 0 && b >= 0
    ensures a * b >= 0
  {
  }

  lemma MulPosGe(d: int, k: int)
    requires d > 0 && k >= 1
    ensures d * k >= d
  {
    MulNonneg(d, k - 1);
    assert d * k == d * (k - 1) + d;
  }

  lemma DivMulUnique(n: int, d: int, q: int, r: int)
    requires d > 0 && 0 <= r < d && n == d * q + r
    ensures n / d == q && n % d == r
  {
    var q0, r0 := n / d, n % d;
    assert n == d * q0 + r0;
    assert d * (q - q0) == r0 - r;
    if q > q0 {
      MulPosGe(d, q - q0);
    } else if q < q0 {
      MulPosGe(d, q0 - q);
    }
  }

  lemma DivAddMultiple(a: nat, d: nat, k: nat)
    requires d > 0
    ensures (a + d * k) / d == a / d + k
    ensures (a + d * k) % d == a % d
  {
    DivMulUnique(a + d * k, d, a / d + k, a % d);
  }

  lemma DivDiv(a: nat, b: nat, c: nat)
    requires b > 0 && c > 0
    ensures a / b / c == a / (b * c)
  {
    var q, r := a / b, a % b;
    var q2, r2 := q / c, q % c;
    assert a == b * (c * q2 + r2) + r;
    assert a == (b * c) * q2 + (b * r2 + r);
    assert b * r2 + r < b * c by {
      MulNonneg(b, c - 1 - r2);
      assert b * (c - 1 - r2) == b * c - b - b * r2;
    }
    DivMulUnique(a, b * c, q2, b * r2 + r);
  }

  lemma MulMonotone(d: int, x: int, y: int)
    requires d >= 0 && x <= y
    ensures d * x <= d * y
  {
    MulNonneg(d, y - x);
    assert d * y == d * x + d * (y - x);
  }

  lemma DivBelow(a: nat, d: nat, t: nat)
    requires d > 0 && a < d * t
    ensures a / d < t
  {
    var q := a / d;
    assert d * q + a % d == a;
    if q >= t {
      MulMonotone(d, t, q);
    }
  }

  lemma DivSmall(a: nat, d: nat)
    requires a < d
    ensures a / d == 0
  {
    DivMulUnique(a, d, 0, a);
  }

  lemma DivLe(a: nat, d: nat)
    requires d >= 1
    ensures a / d <= a
  {
    var q := a / d;
    assert d * q + a % d == a;
    MulMonotone(q, 1, d);
  }

  lemma MulDistrib(b: int, x: int, p: int, y: int)
    ensures b * (x + p * y) == b * x + (b * p) * y
  {
  }

  /** One step of a limb loop keeps "result + carry = operands so far",
      where P is the current limb's weight and B the limb base. */
  lemma AddStep(acc: nat, a: nat, b: nat, P: nat, x: nat, y: nat, cin: nat, part: nat, cout: nat, B: nat)
    requires acc + cin * P == a + b
    requires part + cout * B == x + y + cin
    ensures acc + part * P + cout * (B * P) == (a + x * P) + (b + y * P)
  {
    assert (part + cout * B) * P == (x + y + cin) * P;
    assert (part + cout * B) * P == part * P + cout * (B * P);
    assert (x + y + cin) * P == x * P + y * P + cin * P;
  }

  /** A low part below P under a top digit t below W stays below P * W. */
  lemma TopBelow(a: nat, t: nat, P: nat, W: nat)
    requires a < P && t < W
    ensures a + t * P < P * W
  {
    MulNonneg(W - 1 - t, P);
    assert (W - 1 - t) * P == W * P - P - t * P;
  }

  /** A top digit of at least L puts the number at or above P * L. */
  lemma TopAbove(a: nat, t: nat, P: nat, L: nat)
    requires L <= t
    ensures P * L <= a + t * P
  {
    MulNonneg(t - L, P);
    assert (t - L) * P == t * P - L * P;
  }
}

=== FILE: bir_build.dfy ===
/**
  The builder of the block IR (BIR). Every node gets the next id of one
  arena of node kinds, and its payload goes into the map of its kind. The
  builder tracks the current module and function and a stack of open
  scopes, and it deduplicates string and number literals.

  Payloads that only carry data through (type definitions, parameters,
  expressions, attached syntax trees) are not part of this model.
 */
module BirBuild {
  import opened Wrappers

  /** `ID`: an index into the node arena; `NONE` is `usize::MAX`. */
  type Id = nat

  const NONE: Id := 0xFFFF_FFFF_FFFF_FFFF

  datatype Kind = Module | Function | Parameter | TypeRef | TypeDef | Scope | Item | Let | Expr | Literal

  datatype ScopeKind = FunctionScope | Block | Loop

  datatype ItemKind = LetItem(letId: Id) | ExprItem(exprId: Id)

  datatype LiteralValue = Number(n: nat) | Str(s: string)

  datatype ModuleData = ModuleData(id: Id, functions: seq<Id>)

  datatype FunctionData = FunctionData(id: Id, parentModule: Id, identifier: string, returnType: Id)

  datatype ScopeData = ScopeData(
    id: Id, tag: string, kind: ScopeKind, parent: Option<Id>, fn: Id,
    lets: seq<Id>, items: seq<Id>)

  datatype LetData = LetData(id: Id, name: string, ty: Option<Id>, expr: Option<Id>)

  datatype Entry = Entry(id: Id, kind: ScopeKind)

  datatype Builder = Builder(
    nodes: seq<Kind>,
    modules: map<Id, ModuleData>,
    typerefs: set<Id>,
    functions: map<Id, FunctionData>,
    scopes: map<Id, ScopeData>,
    items: map<Id, ItemKind>,
    lets: map<Id, LetData>,
    literals: map<Id, LiteralValue>,
    rootModule: Id,
    currentModule: Option<Id>,
    currentFunction: Option<Id>,
    stack: seq<Entry>,
    stringLiterals: map<string, Id>,
    numberLiterals: map<nat, Id>)

  function New(): Builder
  {
    Builder([], map[], {}, map[], map[], map[], map[], map[], NONE, None, None, [], map[], map[])
  }

  /** Every id the builder hands out names a node of the right kind, every
      literal id holds the literal it was registered for, and every open
      scope is a scope. */
  predicate Valid(b: Builder)
  {
    KindsValid(b) && LiteralTables(b.stringLiterals, b.numberLiterals, b.literals) && StackValid(b)
  }

  /** Every id in a per-kind table names a node of that kind. */
  predicate KindsValid(b: Builder)
  {
    && (forall id :: id in b.modules ==> id < |b.nodes| && b.nodes[id] == Module)
    && (forall id :: id in b.functions ==> id < |b.nodes| && b.nodes[id] == Function)
    && (forall id :: id in b.scopes ==> id < |b.nodes| && b.nodes[id] == Scope)
    && (forall id :: id in b.items ==> id < |b.nodes| && b.nodes[id] == Item)
    && (forall id :: id in b.lets ==> id < |b.nodes| && b.nodes[id] == Let)
    && (forall id :: id in b.typerefs ==> id < |b.nodes| && b.nodes[id] == TypeRef)
    && (forall id :: id in b.literals ==> id < |b.nodes| && b.nodes[id] == Literal)
  }

  /** The deduplication tables point at literal ids holding that literal. */
  predicate LiteralTables(strs: map<string, Id>, nums: map<nat, Id>, lits: map<Id, LiteralValue>)
  {
    && (forall s :: s in strs ==> strs[s] in lits && lits[strs[s]] == Str(s))
    && (forall n :: n in nums ==> nums[n] in lits && lits[nums[n]] == Number(n))
  }

  /** Every open scope is a scope. */
  predicate StackValid(b: Builder)
  {
    forall i :: 0 <= i < |b.stack| ==> b.stack[i].id in b.scopes
  }

  lemma NewValid()
    ensures Valid(New())
  {
  }

  /** `new_node`: the next id of the arena. */
  function NewNode(b: Builder, kind: Kind): (r: (Builder, Id))
    ensures r.1 == |b.nodes| && r.0 == b.(nodes := b.nodes + [kind])
  {
    (b.(nodes := b.nodes + [kind]), |b.nodes|)
  }

  /** `new_module`: the first module created becomes the root module. */
  function NewModule(b: Builder): (r: (Builder, Id))
    ensures r.1 == |b.nodes| && r.0.nodes == b.nodes + [Module]
    ensures r.0.modules == b.modules[r.1 := ModuleData(r.1, [])]
    ensures r.0.rootModule == (if |b.modules| == 0 then r.1 else b.rootModule)
    ensures r.0 == b.(nodes := r.0.nodes, modules := r.0.modules, rootModule := r.0.rootModule)
  {
    var (b1, id) := NewNode(b, Module);
    var root := if |b.modules| == 0 then id else b.rootModule;
    (b1.(rootModule := root, modules := b.modules[id := ModuleData(id, [])]), id)
  }

  /** `new_typeref`: a node for a type reference; its payload is not modelled. */
  function NewTypeRef(b: Builder): (r: (Builder, Id))
    ensures r.1 == |b.nodes| && r.0.nodes == b.nodes + [TypeRef]
    ensures r.0.typerefs == b.typerefs + {r.1}
    ensures r.0 == b.(nodes := r.0.nodes, typerefs := r.0.typerefs)
  {
    var (b1, id) := NewNode(b, TypeRef);
    (b1.(typerefs := b.typerefs + {id}), id)
  }

  /** `set_current_module`: the source asserts (in debug builds) that the id
      names a module. */
  function SetCurrentModule(b: Builder, id: Id): (r: Builder)
    requires id < |b.nodes| && b.nodes[id] == Module
    ensures r.currentModule == Some(id)
    ensures r == b.(currentModule := r.currentModule)
  {
    b.(currentModule := Some(id))
  }

  /** `set_current_function`: the source asserts (in debug builds) that the
      id names a function. */
  function SetCurrentFunction(b: Builder, id: Id): (r: Builder)
    requires id < |b.nodes| && b.nodes[id] == Function
    ensures r.currentFunction == Some(id)
    ensures r == b.(currentFunction := r.currentFunction)
  {
    b.(currentFunction := Some(id))
  }

  /** `new_function`: a function of the current module, listed in it. The
      source unwraps the current module and asserts (in debug builds) that
      the return type is a type reference. */
  function NewFunction(b: Builder, identifier: string, returnType: Id): (r: (Builder, Id))
    requires returnType in b.typerefs
    requires b.currentModule.Some? && b.currentModule.value in b.modules
    ensures r.1 == |b.nodes| && r.0.nodes == b.nodes + [Function]
    ensures r.0.functions == b.functions[r.1 := FunctionData(r.1, b.modules[b.currentModule.value].id, identifier, returnType)]
    ensures var m := b.currentModule.value;
            r.0.modules == b.modules[m := b.modules[m].(functions := b.modules[m].functions + [r.1])]
    ensures r.0 == b.(nodes := r.0.nodes, functions := r.0.functions, modules := r.0.modules)
  {
    var (b1, id) := NewNode(b, Function);
    var m := b.currentModule.value;
    var md := b.modules[m];
    var f := FunctionData(id, md.id, identifier, returnType);
    (b1.(functions := b.functions[id := f], modules := b.modules[m := md.(functions := md.functions + [id])]), id)
  }

  /** A new module keeps the builder consistent and is listed as a module. */
  lemma NewModuleKeepsValid(b: Builder)
    requires Valid(b)
    ensures var (b1, id) := NewModule(b);
            Valid(b1) && id in b1.modules && b1.modules[id].functions == []
  {
    NewNodeKeepsValid(b, Module);
  }

  /** A new type reference keeps the builder consistent. */
  lemma NewTypeRefKeepsValid(b: Builder)
    requires Valid(b)
    ensures var (b1, id) := NewTypeRef(b); Valid(b1) && id in b1.typerefs
  {
    NewNodeKeepsValid(b, TypeRef);
  }

  /** Consistency does not depend on the current module and function. */
  lemma ValidIgnoresCurrent(b: Builder, m: Option<Id>, f: Option<Id>)
    requires Valid(b)
    ensures Valid(b.(currentModule := m, currentFunction := f))
  {
    var c := b.(currentModule := m, currentFunction := f);
    assert c.nodes == b.nodes && c.modules == b.modules && c.typerefs == b.typerefs;
    assert c.functions == b.functions && c.scopes == b.scopes && c.items == b.items;
    assert c.lets == b.lets && c.literals == b.literals && c.stack == b.stack;
    assert c.stringLiterals == b.stringLiterals && c.numberLiterals == b.numberLiterals;
  }

  /** Changing the current module or function keeps the builder consistent. */
  lemma SetCurrentKeepsValid(b: Builder, id: Id)
    requires Valid(b) && id < |b.nodes|
    ensures b.nodes[id] == Module ==> Valid(SetCurrentModule(b, id))
    ensures b.nodes[id] == Function ==> Valid(SetCurrentFunction(b, id))
  {
    ValidIgnoresCurrent(b, Some(id), b.currentFunction);
    ValidIgnoresCurrent(b, b.currentModule, Some(id));
  }

  /** A new function keeps the builder consistent; it is the last function
      listed in the current module, which stays a module. */
  lemma NewFunctionKeepsValid(b: Builder, identifier: string, returnType: Id)
    requires Valid(b) && returnType in b.typerefs
    requires b.currentModule.Some? && b.currentModule.value in b.modules
    ensures var (b1, id) := NewFunction(b, identifier, returnType);
            var m := b.currentModule.value;
            && Valid(b1) && id in b1.functions && b1.functions[id].parentModule == b.modules[m].id
            && b1.currentModule == b.currentModule && m in b1.modules
            && |b1.modules[m].functions| > 0 && b1.modules[m].functions[|b1.modules[m].functions| - 1] == id
  {
    NewNodeKeepsValid(b, Function);
  }

  // ---------------------------------------------------------------------
  // Scopes.

  /** The id of the innermost open scope of a kind. */
  function LastOfKind(stack: seq<Entry>, kind: ScopeKind): (r: Option<Id>)
    ensures r.Some? <==> exists i :: 0 <= i < |stack| && stack[i].kind == kind
    ensures r.Some? ==> exists i :: 0 <= i < |stack| && stack[i] == Entry(r.value, kind)
                          && forall j :: i < j < |stack| ==> stack[j].kind != kind
  {
    if stack == [] then None
    else if stack[|stack| - 1].kind == kind then Some(stack[|stack| - 1].id)
    else
      var init := stack[..|stack| - 1];
      assert stack == init + [stack[|stack| - 1]];
      LastOfKind(init, kind)
  }

  /** `new_scope`: a scope of the current function whose parent is the
      innermost open scope. The source unwraps the current function. */
  function NewScope(b: Builder, tag: string, kind: ScopeKind): (r: (Builder, Id))
    requires b.currentFunction.Some?
    ensures r.1 == |b.nodes| && r.0.nodes == b.nodes + [Scope]
    ensures r.1 in r.0.scopes
    ensures r.0.scopes[r.1].parent == (if b.stack == [] then None else Some(b.stack[|b.stack| - 1].id))
    ensures r.0.scopes[r.1].fn == b.currentFunction.value
    ensures r.0.scopes[r.1].tag == tag && r.0.scopes[r.1].kind == kind
    ensures r.0.scopes[r.1].items == [] && r.0.scopes[r.1].lets == []
    ensures r.0.scopes == b.scopes[r.1 := r.0.scopes[r.1]] && r.0.stack == b.stack
    ensures r.0 == b.(nodes := r.0.nodes, scopes := r.0.scopes)
  {
    var (b1, id) := NewNode(b, Scope);
    var parent := if b.stack == [] then None else Some(b.stack[|b.stack| - 1].id);
    var s := ScopeData(id, tag, kind, parent, b.currentFunction.value, [], []);
    (b1.(scopes := b.scopes[id := s]), id)
  }

  /** `in_new_scope`: opens a new scope, runs `body` inside it and closes
      it again. */
  function InNewScope(b: Builder, tag: string, kind: ScopeKind, body: Builder -> Builder): (r: (Builder, Id))
    requires b.currentFunction.Some?
    ensures r.1 == |b.nodes|
    ensures var inner := NewScope(b, tag, kind).0.(stack := b.stack + [Entry(r.1, kind)]);
            var after := body(inner);
            && r.0 == after.(stack := if after.stack == [] then [] else after.stack[..|after.stack| - 1])
  {
    var (b1, id) := NewScope(b, tag, kind);
    var b2 := body(b1.(stack := b1.stack + [Entry(id, kind)]));
    var popped := if b2.stack == [] then [] else b2.stack[..|b2.stack| - 1];
    (b2.(stack := popped), id)
  }

  /** A body that leaves the scope stack as it found it leaves the stack
      unchanged by `in_new_scope`; inside the body the new scope is on top,
      and its parent is the scope that was on top before. */
  lemma InNewScopeBalanced(b: Builder, tag: string, kind: ScopeKind, body: Builder -> Builder)
    requires b.currentFunction.Some?
    requires forall c :: body(c).stack == c.stack
    ensures var (b1, id) := InNewScope(b, tag, kind, body);
            && b1.stack == b.stack
            && id in NewScope(b, tag, kind).0.scopes
            && NewScope(b, tag, kind).0.scopes[id].parent == (if b.stack == [] then None else Some(b.stack[|b.stack| - 1].id))
  {
    var (b1, id) := NewScope(b, tag, kind);
    var inner := b1.(stack := b1.stack + [Entry(id, kind)]);
    assert body(inner).stack == b.stack + [Entry(id, kind)];
    assert (b.stack + [Entry(id, kind)])[..|b.stack|] == b.stack;
  }

  /** `last_loop_label`: the tag of the innermost open loop scope. The
      source unwraps the search. */
  function LastLoopLabel(b: Builder): (r: string)
    requires Valid(b) && LastOfKind(b.stack, Loop).Some?
    ensures exists i :: && 0 <= i < |b.stack| && b.stack[i].kind == Loop && r == b.scopes[b.stack[i].id].tag
                        && forall j :: i < j < |b.stack| ==> b.stack[j].kind != Loop
  {
    var id := LastOfKind(b.stack, Loop).value;
    b.scopes[id].tag
  }

  /** Pushing a scope makes it the last of its kind and leaves the last
      scope of any other kind as it was. */
  lemma LastOfKindPush(stack: seq<Entry>, e: Entry, kind: ScopeKind)
    ensures LastOfKind(stack + [e], kind) == if e.kind == kind then Some(e.id) else LastOfKind(stack, kind)
  {
    assert (stack + [e])[..|stack|] == stack;
  }

  /** A new scope pushed on the stack keeps the builder consistent. */
  lemma PushNewScopeKeepsValid(b: Builder, tag: string, kind: ScopeKind)
    requires Valid(b) && b.currentFunction.Some?
    ensures var (b1, id) := NewScope(b, tag, kind);
            Valid(b1.(stack := b.stack + [Entry(id, kind)]))
  {
    var (b1, id) := NewScope(b, tag, kind);
    NewNodeKeepsValid(b, Scope);
    var inner := b1.(stack := b.stack + [Entry(id, kind)]);
    assert KindsValid(inner);
    assert forall i :: 0 <= i < |inner.stack| ==> inner.stack[i].id in inner.scopes by {
      forall i | 0 <= i < |inner.stack|
        ensures inner.stack[i].id in inner.scopes
      {
        if i < |b.stack| {
          assert inner.stack[i] == b.stack[i];
        }
      }
    }
  }

  /** Inside a new loop scope the last loop label is that scope's tag;
      inside any other new scope it is the label outside. */
  lemma LoopLabelInsideScope(b: Builder, tag: string, kind: ScopeKind)
    requires Valid(b) && b.currentFunction.Some?
    ensures var (b1, id) := NewScope(b, tag, kind);
            var inner := b1.(stack := b.stack + [Entry(id, kind)]);
            && Valid(inner)
            && (kind == Loop ==> LastOfKind(inner.stack, Loop).Some? && LastLoopLabel(inner) == tag)
            && (kind != Loop ==> LastOfKind(inner.stack, Loop) == LastOfKind(b.stack, Loop))
            && (kind != Loop && LastOfKind(b.stack, Loop).Some? ==> LastLoopLabel(inner) == LastLoopLabel(b))
  {
    var (b1, id) := NewScope(b, tag, kind);
    PushNewScopeKeepsValid(b, tag, kind);
    LastOfKindPush(b.stack, Entry(id, kind), Loop);
  }

  /** `new_item`: an item of the innermost open scope. A `let` item is also
      listed among the scope's lets. The source unwraps the current scope. */
  function NewItem(b: Builder, kind: ItemKind): (r: (Builder, Id))
    requires b.stack != [] && b.stack[|b.stack| - 1].id in b.scopes
    ensures r.1 == |b.nodes| && r.0.nodes == b.nodes + [Item] && r.0.items == b.items[r.1 := kind]
    ensures var top := b.stack[|b.stack| - 1].id;
            var s := b.scopes[top];
            && top in r.0.scopes
            && r.0.scopes == b.scopes[top := r.0.scopes[top]]
            && r.0.scopes[top].items == s.items + [r.1]
            && r.0.scopes[top].lets == (if kind.LetItem? then s.lets + [kind.letId] else s.lets)
            && r.0.scopes[top] == s.(items := r.0.scopes[top].items, lets := r.0.scopes[top].lets)
    ensures r.0 == b.(nodes := r.0.nodes, items := r.0.items, scopes := r.0.scopes)
  {
    var (b1, id) := NewNode(b, Item);
    var top := b.stack[|b.stack| - 1].id;
    var s := b.scopes[top];
    var lets := if kind.LetItem? then s.lets + [kind.letId] else s.lets;
    (b1.(scopes := b.scopes[top := s.(items := s.items + [id], lets := lets)], items := b.items[id := kind]), id)
  }

  /** `new_let_item`: a `let` node and the item that holds it. */
  function NewLetItem(b: Builder, name: string, ty: Option<Id>, expr: Option<Id>): (r: (Builder, Id))
    requires b.stack != [] && b.stack[|b.stack| - 1].id in b.scopes
    ensures r.1 == |b.nodes| + 1
    ensures r.1 in r.0.items && r.0.items[r.1] == LetItem(|b.nodes|)
    ensures r.0.lets == b.lets[|b.nodes| := LetData(|b.nodes|, name, ty, expr)]
    ensures var top := b.stack[|b.stack| - 1].id;
            && top in r.0.scopes
            && r.0.scopes[top].items == b.scopes[top].items + [r.1]
            && r.0.scopes[top].lets == b.scopes[top].lets + [|b.nodes|]
            && r.0.scopes == b.scopes[top := r.0.scopes[top]]
            && r.0.scopes[top] == b.scopes[top].(items := r.0.scopes[top].items, lets := r.0.scopes[top].lets)
    ensures r.0.nodes == b.nodes + [Let, Item] && r.0.items == b.items[r.1 := LetItem(|b.nodes|)]
    ensures r.0 == b.(nodes := r.0.nodes, lets := r.0.lets, items := r.0.items, scopes := r.0.scopes)
  {
    var (b1, letId) := NewNode(b, Let);
    NewItem(b1.(lets := b.lets[letId := LetData(letId, name, ty, expr)]), LetItem(letId))
  }

  /** A new item keeps the builder consistent and stays inside the scope
      stack's frame: the same scopes are open. */
  lemma NewItemKeepsValid(b: Builder, kind: ItemKind)
    requires Valid(b) && b.stack != [] && b.stack[|b.stack| - 1].id in b.scopes
    ensures var (b1, id) := NewItem(b, kind); Valid(b1) && b1.stack == b.stack && id in b1.items
  {
    NewNodeKeepsValid(b, Item);
  }

  /** A new `let` item keeps the builder consistent; both of its nodes are
      recorded. */
  lemma NewLetItemKeepsValid(b: Builder, name: string, ty: Option<Id>, expr: Option<Id>)
    requires Valid(b) && b.stack != [] && b.stack[|b.stack| - 1].id in b.scopes
    ensures var (b1, id) := NewLetItem(b, name, ty, expr);
            Valid(b1) && b1.stack == b.stack && id in b1.items && |b.nodes| in b1.lets
  {
    var (b1, letId) := NewNode(b, Let);
    NewNodeKeepsValid(b, Let);
    NewItemKeepsValid(b1.(lets := b.lets[letId := LetData(letId, name, ty, expr)]), LetItem(letId));
  }

  // ---------------------------------------------------------------------
  // Literals.

  /** `new_literal`: the id already given to an equal literal, or a new
      node. */
  function NewLiteral(b: Builder, lit: LiteralValue): (r: (Builder, Id))
    ensures lit.Str? && lit.s in b.stringLiterals ==> r == (b, b.stringLiterals[lit.s])
    ensures lit.Number? && lit.n in b.numberLiterals ==> r == (b, b.numberLiterals[lit.n])
    ensures !Known(b, lit) ==>
              (r.1 == |b.nodes| && r.0.nodes == b.nodes + [Literal] && r.0.literals == b.literals[r.1 := lit])
  {
    match lit
    case Str(s) =>
      if s in b.stringLiterals then (b, b.stringLiterals[s])
      else
        var (b1, id) := NewNode(b, Literal);
        (b1.(stringLiterals := b.stringLiterals[s := id], literals := b.literals[id := lit]), id)
    case Number(n) =>
      if n in b.numberLiterals then (b, b.numberLiterals[n])
      else
        var (b1, id) := NewNode(b, Literal);
        (b1.(numberLiterals := b.numberLiterals[n := id], literals := b.literals[id := lit]), id)
  }

  /** Whether an equal literal was already given an id. */
  predicate Known(b: Builder, lit: LiteralValue)
  {
    match lit
    case Str(s) => s in b.stringLiterals
    case Number(n) => n in b.numberLiterals
  }

  lemma NewLiteralKeepsValid(b: Builder, lit: LiteralValue)
    requires Valid(b)
    ensures Valid(NewLiteral(b, lit).0)
    ensures var (b1, id) := NewLiteral(b, lit); id in b1.literals && b1.literals[id] == lit
  {
    if !Known(b, lit) {
      match lit
      case Str(s) => NewStringKeepsValid(b, s);
      case Number(n) => NewNumberKeepsValid(b, n);
    }
  }

  lemma NewStringKeepsValid(b: Builder, s: string)
    requires Valid(b) && s !in b.stringLiterals
    ensures Valid(NewLiteral(b, Str(s)).0)
  {
    var id := |b.nodes|;
    var b0 := NewNode(b, Literal).0;
    NewNodeKeepsValid(b, Literal);
    assert id !in b.literals;
    LiteralKeepsKinds(b0, id, Str(s));
    StringTableExtends(b.stringLiterals, b.numberLiterals, b.literals, id, s);
    assert NewLiteral(b, Str(s)).0 == b0.(stringLiterals := b.stringLiterals[s := id], literals := b.literals[id := Str(s)]);
  }

  lemma NewNumberKeepsValid(b: Builder, n: nat)
    requires Valid(b) && n !in b.numberLiterals
    ensures Valid(NewLiteral(b, Number(n)).0)
  {
    var id := |b.nodes|;
    var b0 := NewNode(b, Literal).0;
    NewNodeKeepsValid(b, Literal);
    assert id !in b.literals;
    LiteralKeepsKinds(b0, id, Number(n));
    NumberTableExtends(b.stringLiterals, b.numberLiterals, b.literals, id, n);
    assert NewLiteral(b, Number(n)).0 == b0.(numberLiterals := b.numberLiterals[n := id], literals := b.literals[id := Number(n)]);
  }

  /** Registering a literal node keeps every kind table sound. */
  lemma LiteralKeepsKinds(b: Builder, id: Id, lit: LiteralValue)
    requires KindsValid(b) && id < |b.nodes| && b.nodes[id] == Literal
    ensures KindsValid(b.(literals := b.literals[id := lit]))
  {
  }

  lemma StringTableExtends(strs: map<string, Id>, nums: map<nat, Id>, lits: map<Id, LiteralValue>, id: Id, s: string)
    requires LiteralTables(strs, nums, lits) && id !in lits
    ensures LiteralTables(strs[s := id], nums, lits[id := Str(s)])
  {
  }

  lemma NumberTableExtends(strs: map<string, Id>, nums: map<nat, Id>, lits: map<Id, LiteralValue>, id: Id, n: nat)
    requires LiteralTables(strs, nums, lits) && id !in lits
    ensures LiteralTables(strs, nums[n := id], lits[id := Number(n)])
  {
  }

  /** A plain new node enters no table, so the builder stays valid. */
  lemma NewNodeKeepsValid(b: Builder, kind: Kind)
    requires Valid(b)
    ensures Valid(NewNode(b, kind).0)
  {
  }

  /** A literal asked for twice gets the same id, and the second request
      changes nothing. */
  lemma LiteralDeduplicated(b: Builder, lit: LiteralValue)
    requires Valid(b)
    ensures var (b1, id) := NewLiteral(b, lit);
            NewLiteral(b1, lit) == (b1, id)
  {
  }

  /** Different literals get different ids. */
  lemma DistinctLiteralsDistinctIds(b: Builder, l1: LiteralValue, l2: LiteralValue)
    requires Valid(b) && l1 != l2
    ensures var (b1, id1) := NewLiteral(b, l1);
            var (b2, id2) := NewLiteral(b1, l2);
            id1 != id2
  {
    NewLiteralKeepsValid(b, l1);
    var (b1, id1) := NewLiteral(b, l1);
    NewLiteralKeepsValid(b1, l2);
    var (b2, id2) := NewLiteral(b1, l2);
    assert b1.literals[id1] == l1;
    if Known(b1, l2) {
      assert b2 == b1;
    } else {
      assert id1 < |b1.nodes| == id2;
    }
  }

  /** Ids come out one after the other: a module, a type reference and a
      function of that module get 0, 1 and 2, and the module is the root. */
  lemma SequentialIds()
    ensures var (b1, m) := NewModule(New());
            var b2 := SetCurrentModule(b1, m);
            var (b3, t) := NewTypeRef(b2);
            var (b4, f) := NewFunction(b3, "main", t);
            var (b5, m2) := NewModule(b4);
            && m == 0 && t == 1 && f == 2 && m2 == 3
            && b5.rootModule == 0
            && b5.modules[0].functions == [2]
  {
  }
}

=== FILE: cst_lexer.dfy ===
/**
  The lossless lexer: it splits the input into tokens whose texts, read in
  order, are the input again. Every character ends up in exactly one token;
  characters it does not know become one-character ERROR tokens.

  The input is a sequence of characters and positions count characters.
 */
module CstLexer {
  import opened Wrappers
  import opened Slices
  import opened Kinds

  datatype Token = Token(kind: SyntaxKind, text: string)

  predicate IsStartIdent(c: char)
  {
    ('a' <= c <= 'z') || ('A' <= c <= 'Z') || c == '_'
  }

  /** `char::is_ascii_alphanumeric`: note that `_` is not included. */
  predicate IsIdent(c: char)
  {
    ('a' <= c <= 'z') || ('A' <= c <= 'Z') || ('0' <= c <= '9')
  }

  predicate IsWhitespace(c: char)
  {
    c == ' ' || c == '\n' || c == '\r'
  }

  predicate IsNumber(c: char)
  {
    '0' <= c <= '9'
  }

  /** `matching_range`: the end of the longest run of accepted characters
      starting at `pos`. */
  function MatchingRange(input: seq<char>, pos: nat, accept: char -> bool): (r: nat)
    requires pos <= |input|
    ensures pos <= r <= |input|
    ensures forall i :: pos <= i < r ==> accept(input[i])
    ensures r == |input| || !accept(input[r])
    decreases |input| - pos
  {
    if pos < |input| && accept(input[pos]) then MatchingRange(input, pos + 1, accept) else pos
  }

  /** The one-character tokens of `lex_one`. */
  function SingleKind(c: char): Option<SyntaxKind>
  {
    match c
    case '(' => Some(LEFT_PAREN)
    case ')' => Some(RIGHT_PAREN)
    case '{' => Some(LEFT_CURLY)
    case '}' => Some(RIGHT_CURLY)
    case '[' => Some(LEFT_SQUARE)
    case ']' => Some(RIGHT_SQUARE)
    case '<' => Some(LEFT_ANGLE)
    case '>' => Some(RIGHT_ANGLE)
    case ':' => Some(COLON)
    case ';' => Some(SEMICOLON)
    case '=' => Some(EQUALS)
    case ',' => Some(COMMA)
    case '-' => Some(DASH)
    case '+' => Some(PLUS)
    case '*' => Some(STAR)
    case '.' => Some(DOT)
    case '&' => Some(AMPERSAND)
    case '|' => Some(BAR)
    case _ => None
  }

  /** Each one-character token kind is spelled by its character. */
  lemma SingleKindSpelled(c: char)
    ensures SingleKind(c).Some? ==> PunctText(SingleKind(c).value) == Some([c])
  {
  }

  /** `ident_or_keyword`'s table. `import` and `extern` are not in it, so
      they lex as identifiers. */
  function LexKeyword(text: string): SyntaxKind
  {
    match text
    case "mod" => MOD_KW
    case "type" => TYPE_KW
    case "fn" => FN_KW
    case "let" => LET_KW
    case "return" => RETURN_KW
    case "if" => IF_KW
    case "else" => ELSE_KW
    case "loop" => LOOP_KW
    case "while" => WHILE_KW
    case "break" => BREAK_KW
    case "continue" => CONTINUE_KW
    case "as" => AS_KW
    case _ => IDENT
  }

  /** A word lexes as a keyword only when it spells that keyword. */
  lemma LexKeywordSound(text: string)
    ensures LexKeyword(text) == IDENT || (IsKeyword(LexKeyword(text)) && KeywordText(LexKeyword(text)) == Some(text))
  {
    if text in {"mod", "type", "fn", "let", "return", "if"} {
      EarlyWordsSound(text);
    } else if text in {"else", "loop", "while", "break", "continue", "as"} {
      LateWordsSound(text);
    }
  }

  lemma EarlyWordsSound(text: string)
    requires text in {"mod", "type", "fn", "let", "return", "if"}
    ensures IsKeyword(LexKeyword(text)) && KeywordText(LexKeyword(text)) == Some(text)
  {
  }

  lemma LateWordsSound(text: string)
    requires text in {"else", "loop", "while", "break", "continue", "as"}
    ensures IsKeyword(LexKeyword(text)) && KeywordText(LexKeyword(text)) == Some(text)
  {
  }

  /** Every keyword's word lexes as that keyword, except `import` and `extern`. */
  lemma LexKeywordComplete(k: SyntaxKind)
    requires IsKeyword(k) && k != IMPORT_KW && k != EXTERN_KW
    ensures LexKeyword(KeywordText(k).value) == k
  {
    if k in {MOD_KW, TYPE_KW, FN_KW, LET_KW, RETURN_KW, IF_KW} {
      EarlyKeywordsLex(k);
    } else {
      LateKeywordsLex(k);
    }
  }

  lemma EarlyKeywordsLex(k: SyntaxKind)
    requires k in {MOD_KW, TYPE_KW, FN_KW, LET_KW, RETURN_KW, IF_KW}
    ensures KeywordText(k).Some? && LexKeyword(KeywordText(k).value) == k
  {
  }

  lemma LateKeywordsLex(k: SyntaxKind)
    requires k in {ELSE_KW, LOOP_KW, WHILE_KW, BREAK_KW, CONTINUE_KW, AS_KW}
    ensures KeywordText(k).Some? && LexKeyword(KeywordText(k).value) == k
  {
  }

  /** `lex_one` at position `pos`: the next token and the position after it.
      At the end of the input it is EOF with empty text and does not move. */
  function LexOne(input: seq<char>, pos: nat): (r: (Token, nat))
    requires pos <= |input|
    ensures pos <= r.1 <= |input|
    ensures r.0.text == Slice(input, pos, r.1)
    ensures r.1 == pos <==> pos == |input|
    ensures pos == |input| ==> r.0 == Token(EOF, "")
    ensures r.0.kind == EOF <==> pos == |input|
  {
    if pos == |input| then (Token(EOF, ""), pos)
    else
      var c := input[pos];
      assert input[pos..pos + 1] == [c];
      if SingleKind(c).Some? then (Token(SingleKind(c).value, [c]), pos + 1)
      else if c == '"' then
        var end := MatchingRange(input, pos + 1, (d: char) => d != '"');
        if end < |input| then (Token(STRING, input[pos..end + 1]), end + 1)
        else (Token(ERROR, input[pos..end]), end)
      else if c == '/' then
        if pos + 1 < |input| && input[pos + 1] == '/' then
          var end := MatchingRange(input, pos + 2, (d: char) => d != '\n');
          (Token(COMMENT, input[pos..end]), end)
        else (Token(SLASH, "/"), pos + 1)
      else if IsStartIdent(c) then
        var mid := MatchingRange(input, pos, IsStartIdent);
        var end := MatchingRange(input, mid, IsIdent);
        (Token(LexKeyword(input[pos..end]), input[pos..end]), end)
      else if IsNumber(c) then
        var end := MatchingRange(input, pos, IsNumber);
        (Token(NUMBER, input[pos..end]), end)
      else if IsWhitespace(c) then
        var end := MatchingRange(input, pos, IsWhitespace);
        (Token(WHITESPACE, input[pos..end]), end)
      else (Token(ERROR, [c]), pos + 1)
  }

  /** A number is a maximal non-empty run of ASCII digits. */
  lemma NumberIsMaximalDigitRun(input: seq<char>, pos: nat)
    requires pos <= |input|
    ensures var (t, end) := LexOne(input, pos);
            t.kind == NUMBER ==>
              && |t.text| >= 1
              && (forall i :: 0 <= i < |t.text| ==> IsNumber(t.text[i]))
              && (end == |input| || !IsNumber(input[end]))
  {
  }

  /** A string token starts and ends with a quote and has none in between;
      a quote left open makes an ERROR token that runs to the end. */
  lemma StringShape(input: seq<char>, pos: nat)
    requires pos < |input| && input[pos] == '"'
    ensures var (t, end) := LexOne(input, pos);
            && (t.kind == STRING || t.kind == ERROR)
            && t.text[0] == '"'
            && (forall i :: 0 < i < |t.text| - 1 ==> t.text[i] != '"')
            && (t.kind == STRING ==> |t.text| >= 2 && t.text[|t.text| - 1] == '"')
            && (t.kind == ERROR ==> end == |input| && (forall i :: 0 < i < |t.text| ==> t.text[i] != '"'))
  {
  }

  /** `//` starts a comment that runs up to, not including, the next newline;
      a `/` not followed by another is SLASH. */
  lemma CommentShape(input: seq<char>, pos: nat)
    requires pos < |input| && input[pos] == '/'
    ensures var (t, end) := LexOne(input, pos);
            && (t.kind == COMMENT <==> pos + 1 < |input| && input[pos + 1] == '/')
            && (t.kind == COMMENT ==>
                  && t.text[..2] == "//"
                  && (forall i :: 0 <= i < |t.text| ==> t.text[i] != '\n')
                  && (end == |input| || input[end] == '\n'))
            && (t.kind != COMMENT ==> t == Token(SLASH, "/"))
  {
  }

  /** A word starting with a letter or `_` lexes as a keyword when it spells
      one from the lexer's table and as IDENT otherwise. */
  lemma IdentOrKeyword(input: seq<char>, pos: nat)
    requires pos < |input| && IsStartIdent(input[pos])
    ensures var (t, end) := LexOne(input, pos);
            && (t.kind == IDENT || (IsKeyword(t.kind) && KeywordText(t.kind) == Some(t.text)))
            && (t.kind == IDENT <==> LexKeyword(t.text) == IDENT)
            && (end == |input| || !IsIdent(input[end]))
  {
    var (t, end) := LexOne(input, pos);
    LexKeywordSound(t.text);
  }

  // ---------------------------------------------------------------------
  // The whole input.

  /** The tokens from `pos` to the end of the input, EOF excluded. */
  function LexAll(input: seq<char>, pos: nat): (r: seq<Token>)
    requires pos <= |input|
    ensures |r| <= |input| - pos
    ensures r == [] <==> pos == |input|
    decreases |input| - pos
  {
    if pos == |input| then []
    else
      var (t, next) := LexOne(input, pos);
      [t] + LexAll(input, next)
  }

  function Texts(ts: seq<Token>): string
  {
    if |ts| == 0 then "" else ts[0].text + Texts(ts[1..])
  }

  lemma TextsCons(t: Token, rest: seq<Token>)
    ensures Texts([t] + rest) == t.text + Texts(rest)
  {
    assert ([t] + rest)[1..] == rest;
  }

  /** Lossless: the token texts put back together are the input. */
  lemma {:induction false} LexAllLossless(input: seq<char>, pos: nat)
    requires pos <= |input|
    ensures Texts(LexAll(input, pos)) == input[pos..]
    decreases |input| - pos
  {
    if pos < |input| {
      var t, next := LexAllStep(input, pos);
      LexAllLossless(input, next);
      TextsStep(input, pos, next, t, LexAll(input, next));
    } else {
      LexAllEnd(input);
    }
  }

  /** A token covering `input[pos..next]` followed by tokens covering the
      rest covers everything from `pos`. */
  lemma TextsStep(input: seq<char>, pos: nat, next: nat, t: Token, rest: seq<Token>)
    requires pos <= next <= |input| && t.text == input[pos..next] && Texts(rest) == input[next..]
    ensures Texts([t] + rest) == input[pos..]
  {
    TextsCons(t, rest);
    assert input[pos..] == input[pos..next] + input[next..];
  }

  /** One step of `LexAll`, with what the lossless proof needs of it. */
  lemma LexAllStep(input: seq<char>, pos: nat) returns (t: Token, next: nat)
    requires pos < |input|
    ensures pos < next <= |input| && t.text == Slice(input, pos, next)
    ensures LexAll(input, pos) == [t] + LexAll(input, next)
  {
    t, next := LexOne(input, pos).0, LexOne(input, pos).1;
    LexAllCons(input, pos, t, next);
  }

  /** EOF is never among the tokens of the input itself. */
  lemma {:induction false} LexAllNoEof(input: seq<char>, pos: nat)
    requires pos <= |input|
    ensures forall i :: 0 <= i < |LexAll(input, pos)| ==> LexAll(input, pos)[i].kind != EOF
    decreases |input| - pos
  {
    if pos < |input| {
      var (t, next) := LexOne(input, pos);
      var rest := LexAll(input, next);
      LexAllNoEof(input, next);
      LexAllCons(input, pos, t, next);
      forall i | 0 <= i < |[t] + rest|
        ensures ([t] + rest)[i].kind != EOF
      {
        if i > 0 {
          assert ([t] + rest)[i] == rest[i - 1];
        }
      }
    }
  }

  // ---------------------------------------------------------------------
  // The token cache.

  /** The cache maps a (kind, text) pair to the token allocated for it; an
      allocation is named by the number of tokens allocated before it. The
      source keys the cache by a hash of the text, taken here to be
      injective. */
  datatype Cache = Cache(ids: map<(SyntaxKind, string), nat>)

  predicate CacheValid(c: Cache)
  {
    && (forall k :: k in c.ids ==> c.ids[k] < |c.ids|)
    && (forall k1, k2 :: k1 in c.ids && k2 in c.ids && k1 != k2 ==> c.ids[k1] != c.ids[k2])
  }

  /** `token`: the cached token for (kind, text), allocated on first use. */
  function Intern(c: Cache, t: Token): (r: (Cache, nat))
    ensures (t.kind, t.text) in c.ids ==> r == (c, c.ids[(t.kind, t.text)])
    ensures (t.kind, t.text) !in c.ids ==> r.1 == |c.ids| && r.0.ids == c.ids[(t.kind, t.text) := r.1]
  {
    var key := (t.kind, t.text);
    if key in c.ids then (c, c.ids[key])
    else (Cache(c.ids[key := |c.ids|]), |c.ids|)
  }

  lemma InternKeepsValid(c: Cache, t: Token)
    requires CacheValid(c)
    ensures CacheValid(Intern(c, t).0)
  {
    var key := (t.kind, t.text);
    if key !in c.ids {
      assert |c.ids[key := |c.ids|]| == |c.ids| + 1;
    }
  }

  /** Two tokens share one cached allocation exactly when their kinds and
      texts are equal. */
  lemma InternSharesEqualTokens(c: Cache, a: Token, b: Token)
    requires CacheValid(c)
    ensures var (c1, ia) := Intern(c, a);
            var (c2, ib) := Intern(c1, b);
            ia == ib <==> a == b
  {
    var (c1, ia) := Intern(c, a);
    InternKeepsValid(c, a);
    var (c2, ib) := Intern(c1, b);
    assert c1.ids[(a.kind, a.text)] == ia;
    assert c2.ids[(b.kind, b.text)] == ib;
  }

  /** The `interning` unit test: the two `foo`s of "foo foo" are the same
      token. The input is a parameter so that the solver does not evaluate
      the lexer on the literal eagerly. */
  lemma FooFoo(input: string)
    requires input == "foo foo"
    ensures LexAll(input, 0) == [Token(IDENT, "foo"), Token(WHITESPACE, " "), Token(IDENT, "foo")]
  {
    var foo, space := Token(IDENT, "foo"), Token(WHITESPACE, " ");
    FooFooWord(input, 0);
    FooFooSpace(input);
    FooFooWord(input, 4);
    LexAllCons(input, 4, foo, 7);
    LexAllCons(input, 3, space, 4);
    LexAllCons(input, 0, foo, 3);
    LexAllEnd(input);
    assert [foo] + ([space] + ([foo] + [])) == [foo, space, foo];
  }

  lemma LexAllEnd(input: seq<char>)
    ensures LexAll(input, |input|) == []
  {
  }

  lemma LexAllCons(input: seq<char>, pos: nat, t: Token, next: nat)
    requires pos < |input| && LexOne(input, pos) == (t, next)
    ensures LexAll(input, pos) == [t] + LexAll(input, next)
  {
  }

  lemma FooFooWord(input: string, pos: nat)
    requires input == "foo foo"
    requires pos == 0 || pos == 4
    ensures LexOne(input, pos) == (Token(IDENT, "foo"), pos + 3)
  {
    assert input[pos..pos + 3] == "foo";
    assert LexKeyword("foo") == IDENT;
    assert SingleKind('f').None?;
    FooRuns(input, pos);
  }

  /** Both identifier runs of a `foo` in "foo foo" stop after three characters. */
  lemma FooRuns(input: string, pos: nat)
    requires input == "foo foo"
    requires pos == 0 || pos == 4
    ensures MatchingRange(input, pos, IsStartIdent) == pos + 3
    ensures MatchingRange(input, pos + 3, IsIdent) == pos + 3
  {
    assert MatchingRange(input, pos + 3, IsStartIdent) == pos + 3;
  }

  lemma FooFooSpace(input: string)
    requires input == "foo foo"
    ensures LexOne(input, 3) == (Token(WHITESPACE, " "), 4)
  {
    assert input[3..4] == " ";
    assert SingleKind(' ').None?;
    assert MatchingRange(input, 4, IsWhitespace) == 4;
    assert MatchingRange(input, 3, IsWhitespace) == 4;
  }
}

=== FILE: decimal.dfy ===
/**
  Decimal numerals: the `Display` of an unsigned integer and `str::parse`
  of a string of ASCII digits.
 */
module Decimal {

  predicate IsDigit(c: char)
  {
    '0' <= c <= '9'
  }

  predicate AllDigits(s: string)
  {
    forall i :: 0 <= i < |s| ==> IsDigit(s[i])
  }

  function DigitChar(d: nat): (c: char)
    requires d < 10
    ensures IsDigit(c) && c as int - '0' as int == d
  {
    (d + '0' as int) as char
  }

  /** The value of a string of digits, most significant first. */
  function Value(s: string): nat
    requires AllDigits(s)
    decreases |s|
  {
    if |s| == 0 then 0
    else 10 * Value(s[..|s| - 1]) + (s[|s| - 1] as int - '0' as int)
  }

  /** The shortest numeral of `n`: "0" for zero, no leading zero otherwise. */
  function Show(n: nat): (s: string)
    ensures |s| >= 1 && AllDigits(s)
    ensures |s| > 1 ==> s[0] != '0'
    decreases n
  {
    if n < 10 then [DigitChar(n)] else Show(n / 10) + [DigitChar(n % 10)]
  }

  /** Parsing the shown numeral gives the number back. */
  lemma {:induction false} ShowValue(n: nat)
    ensures Value(Show(n)) == n
    decreases n
  {
    if n >= 10 {
      ShowValue(n / 10);
      var s := Show(n);
      assert s[..|s| - 1] == Show(n / 10);
    }
  }

  /** Two numbers are shown alike only if they are equal. */
  lemma ShowInjective(m: nat, n: nat)
    requires Show(m) == Show(n)
    ensures m == n
  {
    ShowValue(m);
    ShowValue(n);
  }
}

=== FILE: folding_set.dfy ===
/**
  Hash-consing: a folding set stores each value once per fold key.

  A fold key is a byte string built by appending the little-endian bytes of
  the fields a value chooses to fold. The set maps each key to the id of the
  first value inserted under it; ids are positions in the data vector.

  The key of a value (`fold_key`) is a parameter `keyOf` of the operations
  that need it: each foldable type picks its own fields.
 */
module FoldingSet {
  import opened Wrappers
  import opened Arith

  type Byte = x: nat | x < 256

  type FoldKey = seq<Byte>

  // ---------------------------------------------------------------------
  // Folding primitives.

  function Pow256(n: nat): (r: nat)
    ensures r >= 1
  {
    if n == 0 then 1 else 256 * Pow256(n - 1)
  }

  /** `to_le_bytes` of an `n`-byte unsigned integer. */
  function LeBytes(v: nat, n: nat): (r: seq<Byte>)
    ensures |r| == n
  {
    if n == 0 then [] else [v % 256] + LeBytes(v / 256, n - 1)
  }

  /** The unsigned integer whose little-endian bytes are `b`. */
  function LeValue(b: seq<Byte>): (r: nat)
    ensures r < Pow256(|b|)
  {
    if |b| == 0 then 0 else b[0] + 256 * LeValue(b[1..])
  }

  /** Reading the appended bytes back gives the folded value. */
  lemma {:induction false} LeBytesRoundTrip(v: nat, n: nat)
    requires v < Pow256(n)
    ensures LeValue(LeBytes(v, n)) == v
  {
    if n > 0 {
      LeBytesRoundTrip(v / 256, n - 1);
      assert LeBytes(v, n)[1..] == LeBytes(v / 256, n - 1);
    }
  }

  /** Two in-range values fold to the same bytes only if they are equal. */
  lemma LeBytesInjective(v: nat, w: nat, n: nat)
    requires v < Pow256(n) && w < Pow256(n)
    requires LeBytes(v, n) == LeBytes(w, n)
    ensures v == w
  {
    LeBytesRoundTrip(v, n);
    LeBytesRoundTrip(w, n);
  }

  /** Folding an unsigned primitive of `n` bytes (`u16`, `u32`, `u64`,
      `usize`; `u8` pushes its one byte). */
  function FoldUnsigned(key: FoldKey, v: nat, n: nat): (r: FoldKey)
    requires v < Pow256(n)
    ensures |r| == |key| + n && r[..|key|] == key
    ensures LeValue(r[|key|..]) == v
  {
    LeBytesRoundTrip(v, n);
    var r := key + LeBytes(v, n);
    assert r[|key|..] == LeBytes(v, n);
    r
  }

  /** Folding a signed primitive of `n` bytes: its two's-complement bytes
      (`i8` is cast to `u8`, the others use `to_le_bytes`). */
  function FoldSigned(key: FoldKey, v: int, n: nat): (r: FoldKey)
    requires n >= 1 && v + Pow256(n) / 2 >= 0 && v < Pow256(n) / 2
    ensures |r| == |key| + n && r[..|key|] == key
    ensures SignedValue(r[|key|..]) == v
  {
    var u := v % Pow256(n);
    LeBytesRoundTrip(u, n);
    TwosComplement(v, Pow256(n));
    var r := key + LeBytes(u, n);
    assert r[|key|..] == LeBytes(u, n);
    r
  }

  /** Reading v mod P back as a signed number recovers v. */
  lemma TwosComplement(v: int, P: nat)
    requires P >= 1 && v + P / 2 >= 0 && v < P / 2
    ensures var u := v % P; (if u < P / 2 then u else u - P) == v
  {
    if v >= 0 {
      DivMulUnique(v, P, 0, v);
    } else {
      DivMulUnique(v, P, -1, v + P);
    }
  }

  /** The two's-complement reading of little-endian bytes. */
  function SignedValue(b: seq<Byte>): int
  {
    var u := LeValue(b);
    if u < Pow256(|b|) / 2 then u else u - Pow256(|b|)
  }

  /** Folding a slice folds each element in order. */
  function FoldAll<T>(key: FoldKey, vals: seq<T>, fold: T -> FoldKey): (r: FoldKey)
    ensures |r| >= |key| && r[..|key|] == key
    decreases |vals|
  {
    if |vals| == 0 then key else FoldAll(key + fold(vals[0]), vals[1..], fold)
  }

  /** Folding a concatenated slice is folding the two parts one after the other. */
  lemma {:induction false} FoldAllAppend<T>(key: FoldKey, a: seq<T>, b: seq<T>, fold: T -> FoldKey)
    ensures FoldAll(key, a + b, fold) == FoldAll(FoldAll(key, a, fold), b, fold)
    decreases |a|
  {
    if |a| > 0 {
      assert (a + b)[0] == a[0];
      assert (a + b)[1..] == a[1..] + b;
      FoldAllAppend(key + fold(a[0]), a[1..], b, fold);
    } else {
      assert a + b == b;
    }
  }

  // ---------------------------------------------------------------------
  // The set.

  datatype FoldingSet<T> = FoldingSet(data: seq<T>, keysToIds: map<FoldKey, nat>)

  function Empty<T>(): FoldingSet<T>
  {
    FoldingSet([], map[])
  }

  /** Every key names a stored value whose own key it is, and every stored
      value is reachable from its key. */
  predicate Valid<T>(s: FoldingSet<T>, keyOf: T -> FoldKey)
  {
    && (forall k :: k in s.keysToIds ==> s.keysToIds[k] < |s.data| && keyOf(s.data[s.keysToIds[k]]) == k)
    && (forall i :: 0 <= i < |s.data| ==> keyOf(s.data[i]) in s.keysToIds && s.keysToIds[keyOf(s.data[i])] == i)
  }

  lemma EmptyValid<T>(keyOf: T -> FoldKey)
    ensures Valid(Empty<T>(), keyOf)
  {
  }

  /** `fold_or_insert`: the id already held by the value's key, or a new id
      (the data length) for a value appended to the data. */
  function FoldOrInsert<T>(s: FoldingSet<T>, v: T, keyOf: T -> FoldKey): (r: (FoldingSet<T>, nat))
    ensures keyOf(v) in s.keysToIds ==> r == (s, s.keysToIds[keyOf(v)])
    ensures keyOf(v) !in s.keysToIds ==>
      && r.1 == |s.data|
      && r.0.data == s.data + [v]
      && r.0.keysToIds == s.keysToIds[keyOf(v) := r.1]
  {
    var key := keyOf(v);
    if key in s.keysToIds then (s, s.keysToIds[key])
    else
      var id := |s.data|;
      (FoldingSet(s.data + [v], s.keysToIds[key := id]), id)
  }

  /** `get`: the value with that id, if any. */
  function Get<T>(s: FoldingSet<T>, id: nat): (r: Option<T>)
    ensures r.Some? <==> id < |s.data|
    ensures r.Some? ==> r.value == s.data[id]
  {
    if id < |s.data| then Some(s.data[id]) else None
  }

  /** `try_get_from_key`: the value stored under the key, if any. The source
      unwraps the id lookup, which a valid set never fails. */
  function TryGetFromKey<T>(s: FoldingSet<T>, key: FoldKey, ghost keyOf: T -> FoldKey): (r: Option<T>)
    requires Valid(s, keyOf)
    ensures r.Some? <==> key in s.keysToIds
    ensures r.Some? ==> keyOf(r.value) == key
  {
    if key in s.keysToIds then Some(s.data[s.keysToIds[key]]) else None
  }

  lemma FoldOrInsertKeepsValid<T>(s: FoldingSet<T>, v: T, keyOf: T -> FoldKey)
    requires Valid(s, keyOf)
    ensures Valid(FoldOrInsert(s, v, keyOf).0, keyOf)
  {
    var (s1, id) := FoldOrInsert(s, v, keyOf);
    if keyOf(v) !in s.keysToIds {
      forall i | 0 <= i < |s1.data|
        ensures keyOf(s1.data[i]) in s1.keysToIds && s1.keysToIds[keyOf(s1.data[i])] == i
      {
        if i < |s.data| {
          assert s1.data[i] == s.data[i];
        }
      }
    }
  }

  /** The id returned always names a value with the same key, and that value
      is the first one inserted under the key. */
  lemma GetAfterFoldOrInsert<T>(s: FoldingSet<T>, v: T, keyOf: T -> FoldKey)
    requires Valid(s, keyOf)
    ensures var (s1, id) := FoldOrInsert(s, v, keyOf);
            && Get(s1, id).Some?
            && keyOf(Get(s1, id).value) == keyOf(v)
            && (keyOf(v) !in s.keysToIds ==> Get(s1, id) == Some(v))
            && TryGetFromKey(s1, keyOf(v), keyOf) == Get(s1, id)
  {
    FoldOrInsertKeepsValid(s, v, keyOf);
  }

  /** Inserting two values: equal keys give the same id and keep the first
      value; different keys give different ids. */
  lemma FoldTwice<T>(s: FoldingSet<T>, a: T, b: T, keyOf: T -> FoldKey)
    requires Valid(s, keyOf)
    ensures var (s1, ia) := FoldOrInsert(s, a, keyOf);
            var (s2, ib) := FoldOrInsert(s1, b, keyOf);
            && (ia == ib <==> keyOf(a) == keyOf(b))
            && Get(s2, ia) == Get(s1, ia)
  {
    var (s1, ia) := FoldOrInsert(s, a, keyOf);
    FoldOrInsertKeepsValid(s, a, keyOf);
    var (s2, ib) := FoldOrInsert(s1, b, keyOf);
    FoldOrInsertKeepsValid(s1, b, keyOf);
    assert keyOf(s2.data[ia]) == keyOf(a);
    assert keyOf(s2.data[ib]) == keyOf(b);
  }
}

=== FILE: green.dfy ===
/**
  The green tree: immutable syntax nodes whose children are nodes or
  tokens, each child carrying its offset relative to the start of its
  parent, and the builder that assembles such a tree from a flat sequence
  of start-node, token and finish-node calls.

  The builder keeps every child of every open node in one flat vector;
  `parents` records, for each open node, its kind, the position in that
  vector of its first child and the offset it will have inside its own
  parent. A "frame" is the run of the vector that belongs to one open node
  (the first frame belongs to the root level).
 */
module Green {
  import opened Wrappers
  import opened Kinds
  import opened CstLexer

  datatype Child =
    | NodeChild(relOffset: nat, node: Node)
    | TokenChild(relOffset: nat, token: Token)

  datatype Node = Node(kind: SyntaxKind, len: nat, children: seq<Child>)

  /** `Child::len`: a node's stored length, a token's text length. */
  function ChildLen(c: Child): nat
  {
    match c
    case NodeChild(_, n) => n.len
    case TokenChild(_, t) => |t.text|
  }

  function SumLens(cs: seq<Child>): nat
  {
    if |cs| == 0 then 0 else SumLens(cs[..|cs| - 1]) + ChildLen(cs[|cs| - 1])
  }

  /** Every child's offset is the total length of the siblings before it. */
  predicate OffsetsOk(cs: seq<Child>)
  {
    forall i :: 0 <= i < |cs| ==> cs[i].relOffset == SumLens(cs[..i])
  }

  /** A well-formed node: its length is the sum of its children's lengths,
      the children's offsets are running sums, and every child node is
      well-formed too. */
  predicate NodeWF(n: Node)
    decreases n
  {
    && n.len == SumLens(n.children)
    && OffsetsOk(n.children)
    && (forall i :: 0 <= i < |n.children| ==> ChildWF(n.children[i]))
  }

  predicate ChildWF(c: Child)
    decreases c
  {
    c.NodeChild? ==> NodeWF(c.node)
  }

  // ---------------------------------------------------------------------
  // Text.

  /** `Node::text`: the children's texts, concatenated. */
  function NodeText(n: Node): string
    decreases n, 1
  {
    ChildrenText(n.children)
  }

  function ChildrenText(cs: seq<Child>): string
    decreases cs, 0
  {
    if |cs| == 0 then "" else ChildrenText(cs[..|cs| - 1]) + ChildText(cs[|cs| - 1])
  }

  /** `Child::text`. */
  function ChildText(c: Child): string
    decreases c, 2
  {
    match c
    case NodeChild(_, n) => NodeText(n)
    case TokenChild(_, t) => t.text
  }

  /** The stored length of a well-formed node is the length of its text. */
  lemma {:induction false} NodeTextLength(n: Node)
    requires NodeWF(n)
    ensures |NodeText(n)| == n.len
    decreases n, 1
  {
    ChildrenTextLength(n.children);
  }

  lemma {:induction false} ChildrenTextLength(cs: seq<Child>)
    requires ChildrenWF(cs)
    ensures |ChildrenText(cs)| == SumLens(cs)
    decreases cs, 0
  {
    if |cs| > 0 {
      ChildrenTextLength(cs[..|cs| - 1]);
      ChildTextLength(cs[|cs| - 1]);
    }
  }

  lemma {:induction false} ChildTextLength(c: Child)
    requires ChildWF(c)
    ensures |ChildText(c)| == ChildLen(c)
    decreases c, 2
  {
    if c.NodeChild? {
      NodeTextLength(c.node);
    }
  }

  /** A node's text starts, at each child's offset, with that child's text. */
  lemma ChildTextAtOffset(cs: seq<Child>, i: nat)
    requires OffsetsOk(cs) && i < |cs|
    requires ChildrenWF(cs)
    ensures cs[i].relOffset + |ChildText(cs[i])| <= |ChildrenText(cs)|
    ensures ChildrenText(cs)[cs[i].relOffset..cs[i].relOffset + |ChildText(cs[i])|] == ChildText(cs[i])
  {
    var before, t, after := ChildrenText(cs[..i]), ChildText(cs[i]), ChildrenText(cs[i + 1..]);
    ChildrenTextSplit(cs, i);
    ChildrenTextSplit(cs[i..], 1);
    assert cs[i..][..1] == [cs[i]] && cs[i..][1..] == cs[i + 1..];
    ChildrenTextOne(cs[i]);
    assert ChildrenText(cs[i..]) == t + after;
    ChildrenWFSlice(cs, 0, i);
    assert cs[0..i] == cs[..i];
    ChildrenTextLength(cs[..i]);
    MiddleOfConcat(before, t, after);
  }

  lemma ChildrenTextOne(c: Child)
    ensures ChildrenText([c]) == ChildText(c)
  {
    assert [c][..0] == [];
  }

  lemma MiddleOfConcat(a: string, b: string, c: string)
    ensures |a| + |b| <= |a + (b + c)|
    ensures (a + (b + c))[|a|..|a| + |b|] == b
  {
  }

  /** The text of children is the text of a prefix followed by the text of the rest. */
  lemma {:induction false} ChildrenTextSplit(cs: seq<Child>, k: nat)
    requires k <= |cs|
    ensures ChildrenText(cs) == ChildrenText(cs[..k]) + ChildrenText(cs[k..])
  {
    if k == |cs| {
      assert cs[..k] == cs && cs[k..] == [];
    } else {
      var init, last := cs[..|cs| - 1], cs[|cs| - 1];
      ChildrenTextSplit(init, k);
      assert init[..k] == cs[..k];
      assert cs[k..][..|cs[k..]| - 1] == init[k..];
      assert cs[k..][|cs[k..]| - 1] == last;
    }
  }

  // ---------------------------------------------------------------------
  // The builder.

  datatype Builder = Builder(relOffset: nat, parents: seq<(SyntaxKind, nat, nat)>, children: seq<Child>)

  function NewBuilder(): Builder
  {
    Builder(0, [], [])
  }

  /** Where frame `k` starts in the flat child vector. */
  function FrameStart(b: Builder, k: nat): nat
    requires k <= |b.parents|
  {
    if k == 0 then 0 else b.parents[k - 1].1
  }

  /** Where frame `k` ends: where the next one starts, or the vector's end. */
  function FrameEnd(b: Builder, k: nat): nat
    requires k <= |b.parents|
  {
    if k == |b.parents| then |b.children| else b.parents[k].1
  }

  predicate IndicesOk(b: Builder)
  {
    && (forall k :: 0 <= k < |b.parents| ==> b.parents[k].1 <= |b.children|)
    && (forall j, k :: 0 <= j < k < |b.parents| ==> b.parents[j].1 <= b.parents[k].1)
  }

  function Frame(b: Builder, k: nat): seq<Child>
    requires IndicesOk(b) && k <= |b.parents|
  {
    b.children[FrameStart(b, k)..FrameEnd(b, k)]
  }

  /** Every child in the sequence is well-formed. */
  predicate ChildrenWF(cs: seq<Child>)
  {
    forall i :: 0 <= i < |cs| ==> ChildWF(cs[i])
  }

  /** Offsets are running sums inside every frame. */
  predicate FramesOk(b: Builder)
    requires IndicesOk(b)
  {
    forall k :: 0 <= k <= |b.parents| ==> OffsetsOk(Frame(b, k))
  }

  /** Each open node remembers the length of the frame it was opened in. */
  predicate ParentLensOk(b: Builder)
    requires IndicesOk(b)
  {
    forall k :: 0 <= k < |b.parents| ==> b.parents[k].2 == SumLens(Frame(b, k))
  }

  /** The builder's invariant: offsets are running sums inside every frame,
      each open node remembers the length of the frame it was opened in,
      the current offset is the length of the innermost frame, and every
      finished node is well-formed. */
  predicate WF(b: Builder)
  {
    && IndicesOk(b)
    && FramesOk(b)
    && ParentLensOk(b)
    && b.relOffset == SumLens(Frame(b, |b.parents|))
    && ChildrenWF(b.children)
  }

  lemma NewBuilderWF()
    ensures WF(NewBuilder())
  {
    assert Frame(NewBuilder(), 0) == [];
  }

  lemma OffsetsOkAppend(cs: seq<Child>, c: Child)
    requires OffsetsOk(cs) && c.relOffset == SumLens(cs)
    ensures OffsetsOk(cs + [c])
    ensures SumLens(cs + [c]) == SumLens(cs) + ChildLen(c)
  {
    var cs1 := cs + [c];
    assert cs1[..|cs1| - 1] == cs;
    forall i | 0 <= i < |cs1|
      ensures cs1[i].relOffset == SumLens(cs1[..i])
    {
      if i < |cs| {
        assert cs1[..i] == cs[..i];
      } else {
        assert cs1[..i] == cs;
      }
    }
  }

  /** `token`: appends a token child at the current offset and moves the
      offset past its text. */
  function AddToken(b: Builder, kind: SyntaxKind, text: string): (r: Builder)
    ensures r.parents == b.parents
    ensures r.children == b.children + [TokenChild(b.relOffset, Token(kind, text))]
    ensures r.relOffset == b.relOffset + |text|
  {
    Builder(b.relOffset + |text|, b.parents, b.children + [TokenChild(b.relOffset, Token(kind, text))])
  }

  /** `start_node`: opens a node whose children will start at the current
      end of the vector, remembering the offset it will sit at. */
  function StartNode(b: Builder, kind: SyntaxKind): (r: Builder)
    ensures r.children == b.children
    ensures r.parents == b.parents + [(kind, |b.children|, b.relOffset)]
    ensures r.relOffset == 0
  {
    Builder(0, b.parents + [(kind, |b.children|, b.relOffset)], b.children)
  }

  /** `finish_node`: closes the innermost open node, replacing the children
      of its frame by one node child. There is no open node to close, or
      its frame start lies past the vector's end, in the source's two
      panicking cases. */
  function FinishNode(b: Builder): (r: Option<Builder>)
    ensures r.Some? <==> |b.parents| > 0 && b.parents[|b.parents| - 1].1 <= |b.children|
    ensures r.Some? ==>
      var (kind, index, offset) := b.parents[|b.parents| - 1];
      && r.value.parents == b.parents[..|b.parents| - 1]
      && |r.value.children| == index + 1
      && r.value.children[..index] == b.children[..index]
      && r.value.children[index] == NodeChild(offset, Node(kind, SumLens(b.children[index..]), b.children[index..]))
      && r.value.relOffset == offset + SumLens(b.children[index..])
  {
    if |b.parents| == 0 then None
    else
      var (kind, index, offset) := b.parents[|b.parents| - 1];
      if index > |b.children| then None
      else
        var children := b.children[index..];
        var len := SumLens(children);
        var node := Node(kind, len, children);
        Some(Builder(offset + len, b.parents[..|b.parents| - 1], b.children[..index] + [NodeChild(offset, node)]))
  }

  /** `finish`: the one remaining child, which must be a node. */
  function Finish(b: Builder): (r: Option<Node>)
    ensures r.Some? <==> |b.children| == 1 && b.children[0].NodeChild?
    ensures r.Some? ==> r.value == b.children[0].node
  {
    if |b.children| == 1 && b.children[0].NodeChild? then Some(b.children[0].node) else None
  }

  // ---------------------------------------------------------------------
  // The builder keeps its invariant.

  lemma SliceOfAppend(s: seq<Child>, x: Child, lo: nat, hi: nat)
    requires lo <= hi <= |s|
    ensures (s + [x])[lo..hi] == s[lo..hi]
  {
  }

  lemma SuffixOfAppend(s: seq<Child>, x: Child, lo: nat)
    requires lo <= |s|
    ensures (s + [x])[lo..] == s[lo..] + [x]
  {
  }

  lemma ChildrenWFAppend(cs: seq<Child>, c: Child)
    requires ChildrenWF(cs) && ChildWF(c)
    ensures ChildrenWF(cs + [c])
  {
    forall i | 0 <= i < |cs + [c]|
      ensures ChildWF((cs + [c])[i])
    {
      if i < |cs| {
        assert (cs + [c])[i] == cs[i];
      }
    }
  }

  lemma ChildrenWFSlice(cs: seq<Child>, lo: nat, hi: nat)
    requires ChildrenWF(cs) && lo <= hi <= |cs|
    ensures ChildrenWF(cs[lo..hi])
  {
    forall i | 0 <= i < hi - lo
      ensures ChildWF(cs[lo..hi][i])
    {
      assert cs[lo..hi][i] == cs[lo + i];
    }
  }

  /** The frames of `r` agree with those of `b` below frame `n`, and frame
      `n` of `r` is that of `b` plus one child. */
  predicate FramesGrow(b: Builder, r: Builder, n: nat, c: Child)
    requires IndicesOk(b) && IndicesOk(r) && n <= |b.parents| && n <= |r.parents|
  {
    && (forall k :: 0 <= k < n ==> Frame(r, k) == Frame(b, k) && (k < |r.parents| ==> r.parents[k] == b.parents[k]))
    && Frame(r, n) == Frame(b, n) + [c]
  }

  /** When frame `n` grows by a child at its running offset and every frame
      below is unchanged, the invariant carries over to a builder with `n`
      open nodes. */
  lemma GrowKeepsWF(b: Builder, r: Builder, n: nat, c: Child)
    requires WF(b) && IndicesOk(r) && n <= |b.parents| && |r.parents| == n
    requires FramesGrow(b, r, n, c)
    requires c.relOffset == SumLens(Frame(b, n))
    requires r.relOffset == SumLens(Frame(b, n)) + ChildLen(c)
    requires ChildrenWF(r.children)
    ensures WF(r)
  {
    OffsetsOkAppend(Frame(b, n), c);
    GrowFramesOk(b, r, n, c);
    GrowParentLensOk(b, r, n, c);
  }

  lemma GrowFramesOk(b: Builder, r: Builder, n: nat, c: Child)
    requires IndicesOk(b) && FramesOk(b) && IndicesOk(r) && n <= |b.parents| && |r.parents| == n
    requires FramesGrow(b, r, n, c)
    requires OffsetsOk(Frame(b, n) + [c])
    ensures FramesOk(r)
  {
    forall k | 0 <= k <= n
      ensures OffsetsOk(Frame(r, k))
    {
      if k < n {
        assert Frame(r, k) == Frame(b, k);
      }
    }
  }

  lemma GrowParentLensOk(b: Builder, r: Builder, n: nat, c: Child)
    requires IndicesOk(b) && ParentLensOk(b) && IndicesOk(r) && n <= |b.parents| && |r.parents| == n
    requires FramesGrow(b, r, n, c)
    ensures ParentLensOk(r)
  {
    forall k | 0 <= k < n
      ensures r.parents[k].2 == SumLens(Frame(r, k))
    {
      assert Frame(r, k) == Frame(b, k);
    }
  }

  lemma AddTokenKeepsWF(b: Builder, kind: SyntaxKind, text: string)
    requires WF(b)
    ensures WF(AddToken(b, kind, text))
  {
    var t := TokenChild(b.relOffset, Token(kind, text));
    var r := AddToken(b, kind, text);
    AppendGrows(b, r, t);
    ChildrenWFAppend(b.children, t);
    GrowKeepsWF(b, r, |b.parents|, t);
  }

  /** Appending a child to the vector grows the innermost frame by it and
      leaves the others. */
  lemma AppendGrows(b: Builder, r: Builder, c: Child)
    requires IndicesOk(b) && r.parents == b.parents && r.children == b.children + [c]
    ensures IndicesOk(r)
    ensures FramesGrow(b, r, |b.parents|, c)
  {
    var n := |b.parents|;
    forall k | 0 <= k < n
      ensures Frame(r, k) == Frame(b, k)
    {
      SliceOfAppend(b.children, c, FrameStart(b, k), FrameEnd(b, k));
    }
    var s := FrameStart(b, n);
    assert FrameStart(r, n) == s;
    assert Frame(b, n) == b.children[s..];
    assert Frame(r, n) == r.children[s..];
    SuffixOfAppend(b.children, c, s);
  }

  lemma StartNodeKeepsWF(b: Builder, kind: SyntaxKind)
    requires WF(b)
    ensures WF(StartNode(b, kind))
  {
    var r := StartNode(b, kind);
    var n := |b.parents|;
    StartNodeFrames(b, kind);
    forall k | 0 <= k <= n + 1
      ensures OffsetsOk(Frame(r, k))
    {
      if k <= n {
        assert Frame(r, k) == Frame(b, k);
      }
    }
    forall k | 0 <= k < n + 1
      ensures r.parents[k].2 == SumLens(Frame(r, k))
    {
      assert Frame(r, k) == Frame(b, k);
    }
  }

  /** Opening a node leaves every frame as it was and adds an empty one. */
  lemma StartNodeFrames(b: Builder, kind: SyntaxKind)
    requires IndicesOk(b)
    ensures IndicesOk(StartNode(b, kind))
    ensures forall k :: 0 <= k <= |b.parents| ==> Frame(StartNode(b, kind), k) == Frame(b, k)
    ensures Frame(StartNode(b, kind), |b.parents| + 1) == []
  {
    var r := StartNode(b, kind);
    var n := |b.parents|;
    assert IndicesOk(r);
    forall k | 0 <= k <= n
      ensures Frame(r, k) == Frame(b, k)
    {
      assert FrameStart(r, k) == FrameStart(b, k);
      assert FrameEnd(r, k) == FrameEnd(b, k);
    }
  }

  /** The node child `finish_node` creates, for a builder that can finish. */
  function Closed(b: Builder): Child
    requires |b.parents| > 0 && b.parents[|b.parents| - 1].1 <= |b.children|
  {
    var p := b.parents[|b.parents| - 1];
    NodeChild(p.2, Node(p.0, SumLens(b.children[p.1..]), b.children[p.1..]))
  }

  lemma NodeOfWFChildren(kind: SyntaxKind, offset: nat, cs: seq<Child>)
    requires OffsetsOk(cs) && ChildrenWF(cs)
    ensures ChildWF(NodeChild(offset, Node(kind, SumLens(cs), cs)))
  {
  }

  lemma ClosedWF(b: Builder)
    requires IndicesOk(b) && |b.parents| > 0
    requires OffsetsOk(Frame(b, |b.parents|))
    requires ChildrenWF(b.children)
    ensures ChildWF(Closed(b))
  {
    var n := |b.parents| - 1;
    var index := b.parents[n].1;
    var inner := b.children[index..];
    assert Frame(b, n + 1) == inner;
    ChildrenWFSlice(b.children, index, |b.children|);
    assert b.children[index..|b.children|] == inner;
    NodeOfWFChildren(b.parents[n].0, b.parents[n].2, inner);
  }

  lemma ClosedOffset(b: Builder)
    requires WF(b) && |b.parents| > 0
    ensures Closed(b).relOffset == SumLens(Frame(b, |b.parents| - 1))
  {
  }

  lemma FinishFramesGrow(b: Builder)
    requires IndicesOk(b) && FinishNode(b).Some?
    ensures IndicesOk(FinishNode(b).value)
    ensures FramesGrow(b, FinishNode(b).value, |b.parents| - 1, Closed(b))
  {
    FinishLowerFrames(b);
    FinishTopFrame(b);
  }

  /** The frame the closed node lands in gains that node as its last child. */
  lemma FinishTopFrame(b: Builder)
    requires IndicesOk(b) && FinishNode(b).Some?
    ensures IndicesOk(FinishNode(b).value)
    ensures Frame(FinishNode(b).value, |b.parents| - 1) == Frame(b, |b.parents| - 1) + [Closed(b)]
  {
    var r := FinishNode(b).value;
    var n := |b.parents| - 1;
    var index := b.parents[n].1;
    var c := Closed(b);
    var pre := b.children[..index];
    assert r.children == pre + [c];
    assert IndicesOk(r);
    var start := FrameStart(b, n);
    assert FrameStart(r, n) == start <= index;
    assert FrameEnd(b, n) == index && FrameEnd(r, n) == |r.children|;
    assert Frame(b, n) == pre[start..];
    SuffixOfAppend(pre, c, start);
  }

  /** Closing the innermost node leaves the frames below it alone. */
  lemma FinishLowerFrames(b: Builder)
    requires IndicesOk(b) && FinishNode(b).Some?
    ensures IndicesOk(FinishNode(b).value)
    ensures forall k :: 0 <= k < |b.parents| - 1 ==>
      Frame(FinishNode(b).value, k) == Frame(b, k) && FinishNode(b).value.parents[k] == b.parents[k]
  {
    var r := FinishNode(b).value;
    var n := |b.parents| - 1;
    var index := b.parents[n].1;
    var c := Closed(b);
    var pre := b.children[..index];
    assert r.children == pre + [c];
    assert IndicesOk(r);
    forall k | 0 <= k < n
      ensures Frame(r, k) == Frame(b, k) && r.parents[k] == b.parents[k]
    {
      assert FrameEnd(r, k) == FrameEnd(b, k) <= index;
      SliceOfAppend(pre, c, FrameStart(b, k), FrameEnd(b, k));
      assert pre[FrameStart(b, k)..FrameEnd(b, k)] == b.children[FrameStart(b, k)..FrameEnd(b, k)];
    }
  }

  lemma FinishNodeKeepsWF(b: Builder)
    requires WF(b) && FinishNode(b).Some?
    ensures WF(FinishNode(b).value)
  {
    var r := FinishNode(b).value;
    var n := |b.parents| - 1;
    var index := b.parents[n].1;
    ClosedWF(b);
    ClosedOffset(b);
    FinishFramesGrow(b);
    assert r.children == b.children[..index] + [Closed(b)];
    ChildrenWFSlice(b.children, 0, index);
    assert b.children[0..index] == b.children[..index];
    ChildrenWFAppend(b.children[..index], Closed(b));
    GrowKeepsWF(b, r, n, Closed(b));
  }

  /** Whatever a well-formed builder finishes with is a well-formed tree:
      lengths add up and offsets are running sums at every level. */
  lemma FinishIsWF(b: Builder)
    requires WF(b) && Finish(b).Some?
    ensures NodeWF(Finish(b).value)
  {
    assert ChildWF(b.children[0]);
  }

  /** The `single_node` unit test: `let foo` as a LET_ITEM has length 7. */
  lemma SingleNode()
    ensures var b0 := StartNode(NewBuilder(), LET_ITEM);
            var b1 := AddToken(AddToken(AddToken(b0, LET_KW, "let"), WHITESPACE, " "), IDENT, "foo");
            var b2 := FinishNode(b1);
            && b2.Some?
            && Finish(b2.value).Some?
            && Finish(b2.value).value.kind == LET_ITEM
            && Finish(b2.value).value.len == 7
  {
    var b0 := StartNode(NewBuilder(), LET_ITEM);
    var b1 := AddToken(AddToken(AddToken(b0, LET_KW, "let"), WHITESPACE, " "), IDENT, "foo");
    var cs := b1.children;
    assert |cs| == 3 && ChildLen(cs[0]) == 3 && ChildLen(cs[1]) == 1 && ChildLen(cs[2]) == 3;
    assert SumLens(cs[..1]) == 3 by {
      assert cs[..1][..0] == [];
    }
    assert SumLens(cs[..2]) == 4 by {
      assert cs[..2][..1] == cs[..1];
    }
    assert SumLens(cs) == 7 by {
      assert cs[..2] == cs[..|cs| - 1];
    }
    assert cs[0..] == cs;
  }
}

=== FILE: intern_map.dfy ===
/**
  An interning map: a two-way map between ids and values in which each value
  is stored once. A new value's id is the hash of the value; the hash is a
  parameter here, since the hasher is not part of this model.
 */
module InternMap {
  import opened Wrappers

  /** Both directions of the two-way map. */
  datatype InternMap<V> = InternMap(byId: map<nat, V>, byValue: map<V, nat>)

  datatype AddError = Overwritten

  function Empty<V>(): InternMap<V>
  {
    InternMap(map[], map[])
  }

  /** The two directions are inverse to each other. */
  predicate Valid<V>(m: InternMap<V>)
  {
    && (forall id :: id in m.byId ==> m.byId[id] in m.byValue && m.byValue[m.byId[id]] == id)
    && (forall v :: v in m.byValue ==> m.byValue[v] in m.byId && m.byId[m.byValue[v]] == v)
    && |m.byId| == |m.byValue|
  }

  lemma EmptyValid<V>()
    ensures Valid(Empty<V>())
  {
  }

  /** `add`: the id of an interned value, or a new entry under the value's
      hash. The source panics when that hash already names a different value;
      here that is the error outcome. */
  function Add<V>(m: InternMap<V>, v: V, hash: V -> nat): (r: Result<(InternMap<V>, nat), AddError>)
    ensures v in m.byValue ==> r == Ok((m, m.byValue[v]))
    ensures r.Err? <==> v !in m.byValue && hash(v) in m.byId
    ensures v !in m.byValue && r.Ok? ==>
      r.value == (InternMap(m.byId[hash(v) := v], m.byValue[v := hash(v)]), hash(v))
  {
    if v in m.byValue then Ok((m, m.byValue[v]))
    else
      var id := hash(v);
      if id in m.byId then Err(Overwritten)
      else Ok((InternMap(m.byId[id := v], m.byValue[v := id]), id))
  }

  /** `get`: the value interned under an id. */
  function Get<V>(m: InternMap<V>, id: nat): (r: Option<V>)
    ensures r.Some? <==> id in m.byId
    ensures r.Some? ==> r.value == m.byId[id]
  {
    if id in m.byId then Some(m.byId[id]) else None
  }

  /** `len`: the number of entries, which in a consistent map is the number
      of distinct values interned. */
  function Len<V>(m: InternMap<V>): (r: nat)
    ensures Valid(m) ==> r == |m.byValue.Keys|
  {
    assert |m.byValue| == |m.byValue.Keys|;
    |m.byId|
  }

  lemma AddKeepsValid<V>(m: InternMap<V>, v: V, hash: V -> nat)
    requires Valid(m) && Add(m, v, hash).Ok?
    ensures Valid(Add(m, v, hash).value.0)
  {
    if v !in m.byValue {
      var id := hash(v);
      var m1 := Add(m, v, hash).value.0;
      assert m1.byId == m.byId[id := v];
      assert m1.byValue == m.byValue[v := id];
      forall i | i in m1.byId
        ensures m1.byId[i] in m1.byValue && m1.byValue[m1.byId[i]] == i
      {
        if i != id {
          assert m.byId[i] != v;
        }
      }
      forall w | w in m1.byValue
        ensures m1.byValue[w] in m1.byId && m1.byId[m1.byValue[w]] == w
      {
        if w != v {
          assert m.byValue[w] != id;
        }
      }
      assert |m1.byId| == |m.byId| + 1;
      assert |m1.byValue| == |m.byValue| + 1;
    }
  }

  /** Getting the id `add` returned gives the value back. */
  lemma GetAfterAdd<V>(m: InternMap<V>, v: V, hash: V -> nat)
    requires Valid(m) && Add(m, v, hash).Ok?
    ensures var (m1, id) := Add(m, v, hash).value; Get(m1, id) == Some(v)
  {
  }

  /** Adding an equal value again returns the same id and changes nothing. */
  lemma AddIdempotent<V>(m: InternMap<V>, v: V, hash: V -> nat)
    requires Valid(m) && Add(m, v, hash).Ok?
    ensures var (m1, id) := Add(m, v, hash).value; Add(m1, v, hash) == Ok((m1, id))
  {
  }

  /** `len` counts distinct values: it grows by one exactly when the value
      was not yet interned. */
  lemma LenCountsValues<V>(m: InternMap<V>, v: V, hash: V -> nat)
    requires Valid(m) && Add(m, v, hash).Ok?
    ensures Len(m) == |m.byValue.Keys|
    ensures var m1 := Add(m, v, hash).value.0;
            && m1.byValue.Keys == m.byValue.Keys + {v}
            && Len(m1) == Len(m) + (if v in m.byValue then 0 else 1)
  {
    LenIsKeyCount(m);
    if v !in m.byValue {
      AddNewGrowsByOne(m, v, hash);
    }
  }

  lemma LenIsKeyCount<V>(m: InternMap<V>)
    requires Valid(m)
    ensures Len(m) == |m.byValue.Keys|
  {
    assert |m.byValue| == |m.byValue.Keys|;
  }

  lemma AddNewGrowsByOne<V>(m: InternMap<V>, v: V, hash: V -> nat)
    requires v !in m.byValue && Add(m, v, hash).Ok?
    ensures Add(m, v, hash).value.0.byValue.Keys == m.byValue.Keys + {v}
    ensures Len(Add(m, v, hash).value.0) == Len(m) + 1
  {
    var id := hash(v);
    assert id !in m.byId;
    MapAddCard(m.byId, id, v);
  }

  lemma MapAddCard<K, W>(m: map<K, W>, k: K, w: W)
    requires k !in m
    ensures |m[k := w]| == |m| + 1
  {
    assert m[k := w].Keys == m.Keys + {k};
  }
}

=== FILE: interpret.dfy ===
/**
  The legacy toy interpreter: statements run in order over a table of
  unsigned machine-word variables, printing to an output stream, until the
  first failing statement.
 */
module Interpret {
  import opened Wrappers
  import Decimal

  const USIZE_MAX: nat := 0xFFFF_FFFF_FFFF_FFFF

  /** A variable occurrence: its name and where it starts in the source. */
  datatype Variable = Variable(identifier: string, line: nat, column: nat)

  datatype BinaryOpKind = Add | Sub | Mul | Div

  datatype Expression =
    | Var(v: Variable)
    | Constant(value: nat)
    | Group(inner: Expression)
    | BinaryOp(kind: BinaryOpKind, lhs: Expression, rhs: Expression)

  datatype Statement =
    | Declaration(declared: Variable, initializer: Option<Expression>)
    | Assignment(dst: Expression, src: Expression)
    | Print(printed: Expression)
    /** Every other statement kind, which the interpreter skips. */
    | Other

  /** A reported interpreter error. */
  datatype Error = UndefinedVariable(name: string, line: nat, column: nat)

  /** The arithmetic failures on which the source panics (debug build). */
  datatype Panic = Overflow | Underflow | DivisionByZero

  /** Why evaluation stopped: an error the interpreter reports, or a panic. */
  datatype Stop = Reported(error: Error) | Panicked(panic: Panic)

  datatype State = State(variables: map<string, nat>, out: string)

  /** `lookup`: a variable's value, or the undefined-variable error. */
  function Lookup(st: State, v: Variable): (r: Result<nat, Stop>)
    ensures r.Ok? <==> v.identifier in st.variables
    ensures r.Ok? ==> r.value == st.variables[v.identifier]
    ensures r.Err? ==> r.error == Reported(UndefinedVariable(v.identifier, v.line, v.column))
  {
    if v.identifier in st.variables then Ok(st.variables[v.identifier])
    else Err(Reported(UndefinedVariable(v.identifier, v.line, v.column)))
  }

  /** One arithmetic operation on usize operands. */
  function Arith(kind: BinaryOpKind, a: nat, b: nat): (r: Result<nat, Stop>)
    requires a <= USIZE_MAX && b <= USIZE_MAX
    ensures r.Err? ==> r.error.Panicked?
    ensures r == Err(Panicked(DivisionByZero)) <==> kind == Div && b == 0
  {
    match kind
    case Add => if a + b > USIZE_MAX then Err(Panicked(Overflow)) else Ok(a + b)
    case Sub => if a < b then Err(Panicked(Underflow)) else Ok(a - b)
    case Mul => CheckedMul(a, b)
    case Div => CheckedDiv(a, b)
  }

  function CheckedMul(a: nat, b: nat): Result<nat, Stop>
  {
    if a * b > USIZE_MAX then Err(Panicked(Overflow)) else Ok(a * b)
  }

  function CheckedDiv(a: nat, b: nat): Result<nat, Stop>
  {
    if b == 0 then Err(Panicked(DivisionByZero)) else Ok(a / b)
  }

  /** The mathematical value of an operation, where it exists. */
  function MathValue(kind: BinaryOpKind, a: int, b: int): int
  {
    match kind
    case Add => a + b
    case Sub => a - b
    case Mul => a * b
    case Div => if b == 0 then 0 else a / b
  }

  /** Machine arithmetic succeeds exactly when the mathematical result
      exists and fits a usize, and then agrees with it. */
  lemma ArithMeaning(kind: BinaryOpKind, a: nat, b: nat)
    requires a <= USIZE_MAX && b <= USIZE_MAX
    ensures Arith(kind, a, b).Ok? <==>
              (kind != Div || b != 0) && 0 <= MathValue(kind, a, b) <= USIZE_MAX
    ensures Arith(kind, a, b).Ok? ==> Arith(kind, a, b).value == MathValue(kind, a, b)
  {
    if kind == Div && b != 0 {
      DivBound(a, b);
    }
  }

  lemma {:induction false} MulAtLeast(b: nat, q: nat)
    requires b >= 1
    ensures b * q >= q
    decreases b
  {
    if b > 1 {
      MulAtLeast(b - 1, q);
      assert b * q == (b - 1) * q + q;
    }
  }

  /** A quotient by a positive divisor is at most the dividend. */
  lemma DivBound(a: nat, b: nat)
    requires b > 0
    ensures a / b <= a
  {
    var q := a / b;
    assert a == b * q + a % b;
    MulAtLeast(b, q);
  }

  /** Constants are usize literals, so every constant fits. */
  ghost predicate ConstantsFit(e: Expression)
  {
    match e
    case Var(_) => true
    case Constant(n) => n <= USIZE_MAX
    case Group(inner) => ConstantsFit(inner)
    case BinaryOp(_, lhs, rhs) => ConstantsFit(lhs) && ConstantsFit(rhs)
  }

  ghost predicate ValuesFit(st: State)
  {
    forall x :: x in st.variables ==> st.variables[x] <= USIZE_MAX
  }

  /** `expr_value` together with `binary_op`: both operands are evaluated,
      left first, before the operation. */
  function ExprValue(st: State, e: Expression): (r: Result<nat, Stop>)
    requires ValuesFit(st) && ConstantsFit(e)
    ensures r.Ok? ==> r.value <= USIZE_MAX
    ensures e.Group? ==> r == ExprValue(st, e.inner)
    ensures e.Var? ==> r == Lookup(st, e.v)
    ensures e.Constant? ==> r == Ok(e.value)
    ensures e.BinaryOp? && ExprValue(st, e.lhs).Err? ==> r == ExprValue(st, e.lhs)
    ensures e.BinaryOp? && ExprValue(st, e.lhs).Ok? && ExprValue(st, e.rhs).Err? ==> r == ExprValue(st, e.rhs)
    ensures e.BinaryOp? && ExprValue(st, e.lhs).Ok? && ExprValue(st, e.rhs).Ok? ==>
              var a := ExprValue(st, e.lhs).value;
              var b := ExprValue(st, e.rhs).value;
              && (r.Ok? <==> (e.kind != Div || b != 0) && 0 <= MathValue(e.kind, a, b) <= USIZE_MAX)
              && (r.Ok? ==> r.value == MathValue(e.kind, a, b))
              && (r.Err? ==> r.error.Panicked?)
  {
    match e
    case Var(v) => Lookup(st, v)
    case Constant(n) => Ok(n)
    case Group(inner) => ExprValue(st, inner)
    case BinaryOp(kind, lhs, rhs) =>
      match ExprValue(st, lhs)
      case Err(stop) => Err(stop)
      case Ok(a) =>
        match ExprValue(st, rhs)
        case Err(stop) => Err(stop)
        case Ok(b) => ArithMeaning(kind, a, b); Arith(kind, a, b)
  }

  /** The text the source writes when assigning to an undeclared name. */
  function UndeclaredMessage(v: Variable): string
  {
    "Error cannot assign undeclared variable " + v.identifier
      + " at (" + Decimal.Show(v.line) + ", " + Decimal.Show(v.column) + ")"
  }

  ghost predicate StatementFits(s: Statement)
  {
    match s
    case Declaration(_, init) => init.None? || ConstantsFit(init.value)
    case Assignment(dst, src) => ConstantsFit(src)
    case Print(e) => ConstantsFit(e)
    case Other => true
  }

  /** `interpret_statement`. */
  function InterpretStatement(st: State, s: Statement): (r: Result<State, Stop>)
    requires ValuesFit(st) && StatementFits(s)
    ensures r.Ok? ==> ValuesFit(r.value)
    ensures r.Ok? ==> |st.out| <= |r.value.out| && r.value.out[..|st.out|] == st.out
    ensures s.Declaration? && s.initializer.None? ==>
              r == Ok(st.(variables := st.variables[s.declared.identifier := 0]))
  {
    match s
    case Declaration(v, init) =>
      var value := if init.Some? then ExprValue(st, init.value) else Ok(0);
      if value.Err? then Err(value.error)
      else Ok(st.(variables := st.variables[v.identifier := value.value]))
    case Assignment(Var(dst), src) =>
      (match ExprValue(st, src)
       case Err(stop) => Err(stop)
       case Ok(value) =>
         if dst.identifier in st.variables then Ok(st.(variables := st.variables[dst.identifier := value]))
         else
           var out := st.out + UndeclaredMessage(dst);
           assert out[..|st.out|] == st.out;
           Ok(st.(out := out)))
    case Assignment(_, _) => Ok(st)
    case Print(e) =>
      (match ExprValue(st, e)
       case Err(stop) => Err(stop)
       case Ok(value) =>
         var out := st.out + Decimal.Show(value) + "\n";
         assert out[..|st.out|] == st.out;
         Ok(st.(out := out)))
    case Other => Ok(st)
  }

  /** Assigning to a declared name overwrites it; assigning to an
      undeclared one creates nothing and writes a message instead. */
  lemma AssignmentCases(st: State, dst: Variable, src: Expression)
    requires ValuesFit(st) && ConstantsFit(src) && ExprValue(st, src).Ok?
    ensures var r := InterpretStatement(st, Assignment(Var(dst), src));
            && r.Ok?
            && (dst.identifier in st.variables ==>
                  r.value == st.(variables := st.variables[dst.identifier := ExprValue(st, src).value]))
            && (dst.identifier !in st.variables ==>
                  r.value.variables == st.variables && r.value.out == st.out + UndeclaredMessage(dst))
  {
  }

  /** A declaration binds the name to its initializer's value, or to zero
      without one, replacing any earlier binding; it fails only when the
      initializer does. */
  lemma DeclarationCases(st: State, v: Variable, init: Expression)
    requires ValuesFit(st) && ConstantsFit(init)
    ensures var r := InterpretStatement(st, Declaration(v, Some(init)));
            && (r.Ok? <==> ExprValue(st, init).Ok?)
            && (r.Err? ==> r.error == ExprValue(st, init).error)
            && (r.Ok? ==> r.value.out == st.out
                          && v.identifier in r.value.variables
                          && r.value.variables[v.identifier] == ExprValue(st, init).value
                          && forall x :: x in st.variables && x != v.identifier ==>
                               x in r.value.variables && r.value.variables[x] == st.variables[x])
  {
  }

  /** A print appends the decimal numeral of the expression's value and a
      newline, and reading the numeral back gives the value. */
  lemma PrintWritesValue(st: State, e: Expression)
    requires ValuesFit(st) && ConstantsFit(e)
    ensures var r := InterpretStatement(st, Print(e));
            && (r.Ok? <==> ExprValue(st, e).Ok?)
            && (r.Err? ==> r.error == ExprValue(st, e).error)
            && (r.Ok? ==>
                  var out := r.value.out;
                  && r.value.variables == st.variables
                  && |st.out| + 2 <= |out| && out[..|st.out|] == st.out && out[|out| - 1] == '\n'
                  && Decimal.AllDigits(out[|st.out|..|out| - 1])
                  && Decimal.Value(out[|st.out|..|out| - 1]) == ExprValue(st, e).value)
  {
    var r := InterpretStatement(st, Print(e));
    if r.Ok? {
      var n := ExprValue(st, e).value;
      var out := r.value.out;
      assert out == st.out + Decimal.Show(n) + "\n";
      assert out[|st.out|..|out| - 1] == Decimal.Show(n);
      Decimal.ShowValue(n);
    }
  }

  ghost predicate AllFit(stmts: seq<Statement>)
  {
    forall i :: 0 <= i < |stmts| ==> StatementFits(stmts[i])
  }

  /** `interpret`: runs the statements in order and stops at the first one
      that fails, returning the state reached and why it stopped. */
  function Run(st: State, stmts: seq<Statement>): (r: (State, Option<Stop>))
    requires ValuesFit(st) && AllFit(stmts)
    ensures ValuesFit(r.0)
    ensures |st.out| <= |r.0.out| && r.0.out[..|st.out|] == st.out
    decreases |stmts|
  {
    if |stmts| == 0 then (st, None)
    else
      match InterpretStatement(st, stmts[0])
      case Err(stop) => (st, Some(stop))
      case Ok(st1) => Run(st1, stmts[1..])
  }

  /** The whole program, from no variables and no output. */
  function Interpret(stmts: seq<Statement>): (r: (State, Option<Stop>))
    requires AllFit(stmts)
    ensures ValuesFit(r.0)
    ensures stmts != [] && StatementFits(stmts[0]) && InterpretStatement(State(map[], ""), stmts[0]).Err? ==>
              r == (State(map[], ""), Some(InterpretStatement(State(map[], ""), stmts[0]).error))
  {
    Run(State(map[], ""), stmts)
  }

  /** Once a statement fails nothing after it runs: appending statements
      to a run that stopped changes neither its state nor its outcome. */
  lemma {:induction false} RunStopsAtFirstError(st: State, s1: seq<Statement>, s2: seq<Statement>)
    requires ValuesFit(st) && AllFit(s1) && AllFit(s2) && Run(st, s1).1.Some?
    ensures AllFit(s1 + s2) && Run(st, s1 + s2) == Run(st, s1)
    decreases |s1|
  {
    assert (s1 + s2)[0] == s1[0];
    assert (s1 + s2)[1..] == s1[1..] + s2;
    if InterpretStatement(st, s1[0]).Ok? {
      RunStopsAtFirstError(InterpretStatement(st, s1[0]).value, s1[1..], s2);
    }
  }

  /** A run that completes can be continued: running two blocks in turn is
      running them together. */
  lemma {:induction false} RunSequential(st: State, s1: seq<Statement>, s2: seq<Statement>)
    requires ValuesFit(st) && AllFit(s1) && AllFit(s2) && Run(st, s1).1.None?
    ensures AllFit(s1 + s2) && Run(st, s1 + s2) == Run(Run(st, s1).0, s2)
    decreases |s1|
  {
    if |s1| > 0 {
      assert (s1 + s2)[0] == s1[0];
      assert (s1 + s2)[1..] == s1[1..] + s2;
      RunSequential(InterpretStatement(st, s1[0]).value, s1[1..], s2);
    } else {
      assert s1 + s2 == s2;
    }
  }

  /** `let x; print x;` prints 0. */
  lemma DeclaredPrintsZero()
    ensures Interpret([Declaration(Variable("x", 0, 0), None), Print(Var(Variable("x", 0, 0)))]).0.out == "0\n"
  {
    var x := Variable("x", 0, 0);
    var stmts := [Declaration(x, None), Print(Var(x))];
    var st0 := State(map[], "");
    var st1 := State(map["x" := 0], "");
    assert InterpretStatement(st0, stmts[0]) == Ok(st1);
    assert Lookup(st1, x) == Ok(0);
    assert ExprValue(st1, Var(x)) == Ok(0);
    assert Decimal.DigitChar(0) == '0';
    assert Decimal.Show(0) == "0";
    assert st1.out + Decimal.Show(0) + "\n" == "0\n";
    assert InterpretStatement(st1, stmts[1]) == Ok(st1.(out := "0\n"));
    assert stmts[1..][1..] == [];
    assert Run(st1, stmts[1..]) == (st1.(out := "0\n"), None);
  }

  /** `print 10 + 10;` prints 20. */
  lemma SumPrintsTwenty()
    ensures Interpret([Print(BinaryOp(Add, Constant(10), Constant(10)))]).0.out == "20\n"
  {
    var st0 := State(map[], "");
    var e := BinaryOp(Add, Constant(10), Constant(10));
    assert ExprValue(st0, e) == Ok(20);
    assert Decimal.DigitChar(0) == '0' && Decimal.DigitChar(2) == '2';
    assert Decimal.Show(2) == "2";
    assert Decimal.Show(20) == Decimal.Show(2) + [Decimal.DigitChar(0)];
    assert Decimal.Show(20) == "20";
    assert st0.out + Decimal.Show(20) + "\n" == "20\n";
    assert InterpretStatement(st0, Print(e)) == Ok(st0.(out := "20\n"));
    assert [Print(e)][1..] == [];
  }
}

=== FILE: kinds.dfy ===
/**
  The syntax kinds shared by the lexer, the parser and the green tree, and
  the tables over them: which kinds are keywords, operators or trivia, how a
  compound operator splits into single-character tokens, and which
  expressions need a terminating semicolon.
 */
module Kinds {
  import opened Wrappers

  datatype SyntaxKind =
    | TOMBSTONE | ERROR
    | EOF | EOL
    | MODULE
    | NAME | SCOPED_NAME
    | BASIC_TYPE | POINTER_TYPE
    | PARAM_LIST | PARAM | VA_PARAM
    | LET_ITEM | FN_ITEM | EXPR_ITEM | TYPE_ITEM | IMPORT_ITEM
    | TYPE_MEMBER
    | IDENT | WHITESPACE | COMMENT
    | LEFT_PAREN | RIGHT_PAREN | LEFT_CURLY | RIGHT_CURLY
    | LEFT_SQUARE | RIGHT_SQUARE | LEFT_ANGLE | RIGHT_ANGLE
    | COLON | SEMICOLON | AMPERSAND | EQUALS | BAR | COMMA | DASH | PLUS
    | STAR | SLASH | DOT | BANG
    | AMPERSAND_AMPERSAND | BAR_BAR | LEFT_ANGLE_EQUALS | RIGHT_ANGLE_EQUALS
    | EQUALS_EQUALS | BANG_EQUALS | DASH_ARROW | COLON_COLON
    | DOT_DOT_DOT
    | LITERAL | STRING | NUMBER | STRUCT_LITERAL
    | NAME_REF | PREFIX_EXPR | BIN_EXPR | PAREN_EXPR | BLOCK_EXPR | RETURN_EXPR
    | CALL_EXPR | INDEX_EXPR | AS_EXPR | IF_EXPR | LOOP_EXPR | WHILE_EXPR
    | BREAK_EXPR | CONTINUE_EXPR
    | AS_KW | BREAK_KW | CONTINUE_KW | ELSE_KW | EXTERN_KW | FN_KW | IF_KW
    | IMPORT_KW | LET_KW | LOOP_KW | WHILE_KW | MOD_KW | RETURN_KW | TYPE_KW

  /** The spelling of each keyword kind (the words of the `T!` table). */
  function KeywordText(k: SyntaxKind): Option<string>
  {
    match k
    case MOD_KW => Some("mod")
    case IMPORT_KW => Some("import")
    case TYPE_KW => Some("type")
    case FN_KW => Some("fn")
    case LET_KW => Some("let")
    case RETURN_KW => Some("return")
    case IF_KW => Some("if")
    case ELSE_KW => Some("else")
    case LOOP_KW => Some("loop")
    case WHILE_KW => Some("while")
    case BREAK_KW => Some("break")
    case CONTINUE_KW => Some("continue")
    case AS_KW => Some("as")
    case EXTERN_KW => Some("extern")
    case _ => None
  }

  /** The spelling of each punctuation kind (the symbols of the `T!` table). */
  function PunctText(k: SyntaxKind): Option<string>
  {
    match k
    case LEFT_PAREN => Some("(")
    case RIGHT_PAREN => Some(")")
    case LEFT_CURLY => Some("{")
    case RIGHT_CURLY => Some("}")
    case LEFT_SQUARE => Some("[")
    case RIGHT_SQUARE => Some("]")
    case LEFT_ANGLE => Some("<")
    case RIGHT_ANGLE => Some(">")
    case COLON => Some(":")
    case SEMICOLON => Some(";")
    case AMPERSAND => Some("&")
    case EQUALS => Some("=")
    case BAR => Some("|")
    case COMMA => Some(",")
    case DASH => Some("-")
    case PLUS => Some("+")
    case STAR => Some("*")
    case SLASH => Some("/")
    case DOT => Some(".")
    case BANG => Some("!")
    case AMPERSAND_AMPERSAND => Some("&&")
    case EQUALS_EQUALS => Some("==")
    case BANG_EQUALS => Some("!=")
    case RIGHT_ANGLE_EQUALS => Some(">=")
    case LEFT_ANGLE_EQUALS => Some("<=")
    case BAR_BAR => Some("||")
    case DASH_ARROW => Some("->")
    case COLON_COLON => Some("::")
    case DOT_DOT_DOT => Some("...")
    case _ => None
  }

  /** `is_keyword`: the kinds spelled by a word. */
  function IsKeyword(k: SyntaxKind): (r: bool)
    ensures r <==> KeywordText(k).Some?
  {
    k in {MOD_KW, IMPORT_KW, TYPE_KW, FN_KW, LET_KW, RETURN_KW, IF_KW, ELSE_KW,
          LOOP_KW, WHILE_KW, BREAK_KW, CONTINUE_KW, AS_KW, EXTERN_KW}
  }

  /** The keywords are exactly the kinds with a word for a spelling. */
  lemma KeywordsAreSpelled(k: SyntaxKind)
    ensures IsKeyword(k) <==> KeywordText(k).Some?
  {
  }

  /** `is_operator`: punctuation of one to three characters, never a word. */
  function IsOperator(k: SyntaxKind): (r: bool)
    ensures r ==> PunctText(k).Some? && 1 <= |PunctText(k).value| <= 3 && KeywordText(k).None?
  {
    k in {LEFT_ANGLE, RIGHT_ANGLE, AMPERSAND, EQUALS, BAR, DASH, PLUS, STAR, SLASH,
          DOT, AMPERSAND_AMPERSAND, BAR_BAR, LEFT_ANGLE_EQUALS, RIGHT_ANGLE_EQUALS,
          EQUALS_EQUALS, BANG_EQUALS, COLON_COLON, DASH_ARROW, DOT_DOT_DOT}
  }

  /** `is_trivia`: line ends, whitespace and comments, which have no fixed
      spelling. */
  function IsTrivia(k: SyntaxKind): (r: bool)
    ensures r ==> KeywordText(k).None? && PunctText(k).None?
  {
    k == EOL || k == WHITESPACE || k == COMMENT
  }

  /** The three classifications never overlap. */
  lemma ClassesDisjoint(k: SyntaxKind)
    ensures !(IsKeyword(k) && IsOperator(k))
    ensures !(IsKeyword(k) && IsTrivia(k))
    ensures !(IsOperator(k) && IsTrivia(k))
  {
  }

  /** `subtokens`: the single-character tokens a compound operator is lexed
      as, in order; any other kind is its own one subtoken. */
  function Subtokens(k: SyntaxKind): (r: seq<SyntaxKind>)
    ensures 1 <= |r| <= 3
  {
    match k
    case EQUALS_EQUALS => [EQUALS, EQUALS]
    case BANG_EQUALS => [BANG, EQUALS]
    case AMPERSAND_AMPERSAND => [AMPERSAND, AMPERSAND]
    case LEFT_ANGLE_EQUALS => [LEFT_ANGLE, EQUALS]
    case RIGHT_ANGLE_EQUALS => [RIGHT_ANGLE, EQUALS]
    case BAR_BAR => [BAR, BAR]
    case DASH_ARROW => [DASH, RIGHT_ANGLE]
    case COLON_COLON => [COLON, COLON]
    case DOT_DOT_DOT => [DOT, DOT, DOT]
    case _ => [k]
  }

  /** `Subtokens::number`. */
  function SubtokenCount(k: SyntaxKind): nat
  {
    |Subtokens(k)|
  }

  /** Splitting is faithful to the spelling: the subtokens of a compound
      operator are one-character punctuation kinds, the i-th of which
      spells the i-th character of the operator; a subtoken splits no
      further. */
  lemma SubtokensSpellKind(k: SyntaxKind)
    ensures SubtokenCount(k) > 1 ==> PartsSpellKind(k)
    ensures SubtokenCount(k) == 1 ==> Subtokens(k) == [k]
  {
    if k in {EQUALS_EQUALS, BANG_EQUALS} {
      EqualityOpsSpelled(k);
    } else if k in {LEFT_ANGLE_EQUALS, RIGHT_ANGLE_EQUALS} {
      OrderingOpsSpelled(k);
    } else if k in {AMPERSAND_AMPERSAND, BAR_BAR} {
      LogicalOpsSpelled(k);
    } else if k in {DASH_ARROW, COLON_COLON} {
      ArrowAndPathSpelled(k);
    } else if k == DOT_DOT_DOT {
      Spelled3(k, DOT, '.');
    } else {
      assert Subtokens(k) == [k];
    }
  }

  /** The property `SubtokensSpellKind` states for a compound operator. */
  predicate PartsSpellKind(k: SyntaxKind)
  {
    && IsOperator(k)
    && PunctText(k).Some? && |PunctText(k).value| == SubtokenCount(k)
    && (forall i :: 0 <= i < SubtokenCount(k) ==>
          && PunctText(Subtokens(k)[i]) == Some([PunctText(k).value[i]])
          && Subtokens(Subtokens(k)[i]) == [Subtokens(k)[i]])
  }

  lemma EqualityOpsSpelled(k: SyntaxKind)
    requires k in {EQUALS_EQUALS, BANG_EQUALS}
    ensures PartsSpellKind(k)
  {
    if k == EQUALS_EQUALS {
      Spelled2(k, EQUALS, EQUALS, '=', '=');
    } else {
      Spelled2(k, BANG, EQUALS, '!', '=');
    }
  }

  lemma OrderingOpsSpelled(k: SyntaxKind)
    requires k in {LEFT_ANGLE_EQUALS, RIGHT_ANGLE_EQUALS}
    ensures PartsSpellKind(k)
  {
    if k == LEFT_ANGLE_EQUALS {
      Spelled2(k, LEFT_ANGLE, EQUALS, '<', '=');
    } else {
      Spelled2(k, RIGHT_ANGLE, EQUALS, '>', '=');
    }
  }

  lemma LogicalOpsSpelled(k: SyntaxKind)
    requires k in {AMPERSAND_AMPERSAND, BAR_BAR}
    ensures PartsSpellKind(k)
  {
    if k == AMPERSAND_AMPERSAND {
      Spelled2(k, AMPERSAND, AMPERSAND, '&', '&');
    } else {
      Spelled2(k, BAR, BAR, '|', '|');
    }
  }

  lemma ArrowAndPathSpelled(k: SyntaxKind)
    requires k in {DASH_ARROW, COLON_COLON}
    ensures PartsSpellKind(k)
  {
    if k == DASH_ARROW {
      Spelled2(k, DASH, RIGHT_ANGLE, '-', '>');
    } else {
      Spelled2(k, COLON, COLON, ':', ':');
    }
  }

  /** A two-character operator whose parts spell its characters. */
  lemma Spelled2(k: SyntaxKind, a: SyntaxKind, b: SyntaxKind, ca: char, cb: char)
    requires IsOperator(k) && Subtokens(k) == [a, b] && PunctText(k) == Some([ca, cb])
    requires PunctText(a) == Some([ca]) && PunctText(b) == Some([cb])
    requires Subtokens(a) == [a] && Subtokens(b) == [b]
    ensures PartsSpellKind(k)
  {
  }

  /** A three-character operator whose parts spell its characters. */
  lemma Spelled3(k: SyntaxKind, a: SyntaxKind, ca: char)
    requires IsOperator(k) && Subtokens(k) == [a, a, a] && PunctText(k) == Some([ca, ca, ca])
    requires PunctText(a) == Some([ca]) && Subtokens(a) == [a]
    ensures PartsSpellKind(k)
  {
  }

  /** The expression kinds `terminated_by_semicolon` is defined on; any
      other kind is unreachable there. */
  predicate IsExprKind(k: SyntaxKind)
  {
    k in {LITERAL, NAME_REF, PREFIX_EXPR, BIN_EXPR, PAREN_EXPR, BLOCK_EXPR, RETURN_EXPR,
          INDEX_EXPR, CALL_EXPR, BREAK_EXPR, CONTINUE_EXPR, IF_EXPR, LOOP_EXPR, WHILE_EXPR}
  }

  /** Whether an expression used as a statement needs a `;` after it:
      everything but the block-ended `if`, `loop` and `while`. */
  function TerminatedBySemicolon(k: SyntaxKind): (r: bool)
    requires IsExprKind(k)
    ensures r <==> k !in {IF_EXPR, LOOP_EXPR, WHILE_EXPR}
  {
    if k == IF_EXPR then false
    else if k == LOOP_EXPR then false
    else if k == WHILE_EXPR then false
    else true
  }
}

=== FILE: legacy_lexer.dfy ===
/**
  The legacy front end's lexer: it scans a character sequence into tokens,
  trying a two-character operator first, then a one-character one, then a
  literal, comment, whitespace run, number or identifier, and produces an
  `Invalid` token for anything else.

  Tokens here carry their payload (identifier text, number, string,
  comment, whitespace) directly; the source interns each payload in a
  per-category interning map, which the `InternMap` module models.
 */
module LegacyLexer {
  import opened Wrappers
  import opened Slices
  import Decimal

  const USIZE_MAX: nat := 0xFFFF_FFFF_FFFF_FFFF

  datatype Kind =
    | Identifier | Number | Character | String | Comment | Whitespace
    // one character
    | Amp | Bang | Bar | Caret | Colon | Comma | Dot | Equals | Minus | Percent
    | Plus | SemiColon | Slash | Star | Tilde | Question
    | LeftAngle | RightAngle | LeftBrace | RightBrace | LeftBracket | RightBracket
    | LeftParen | RightParen
    // two characters
    | AmpAmp | BarBar | ColonColon | BangEquals | EqualsEquals | MinusArrow
    | EqualsArrow | LeftAngleEquals | RightAngleEquals
    // keywords
    | Else | Fn | If | Let | Return
    | Invalid

  datatype Parity = Signed | Unsigned

  datatype NumberLit = NumberLit(value: nat, parity: Parity)

  datatype CommentKind = Line | Block

  datatype CommentText = CommentText(kind: CommentKind, text: string)

  datatype Meta =
    | NoMeta
    | IdentMeta(ident: string)
    | NumberMeta(number: NumberLit)
    | CharMeta(character: NumberLit)
    | StringMeta(literal: string)
    | CommentMeta(comment: CommentText)
    | WhitespaceMeta(whitespace: string)

  datatype Token = Token(kind: Kind, meta: Meta)

  /** The conditions under which the source panics while lexing. */
  datatype LexError =
    | UnterminatedString
    | UnterminatedBlockComment
    | UnterminatedCharacter
    | EmptyCharacter
    | OversizeCharacter
    | NumberOverflow

  // ---------------------------------------------------------------------
  // Character classes (ASCII).

  predicate IsAsciiWhitespace(c: char)
  {
    c == ' ' || c == '\t' || c == '\n' || c == 12 as char || c == '\r'
  }

  predicate IsAsciiAlpha(c: char)
  {
    ('a' <= c <= 'z') || ('A' <= c <= 'Z')
  }

  /** Characters an identifier is made of. */
  predicate IsIdentChar(c: char)
  {
    IsAsciiAlpha(c) || Decimal.IsDigit(c) || c == '_'
  }

  // ---------------------------------------------------------------------
  // Position tracking.

  datatype Anchor = Anchor(line: nat, column: nat)

  /** The lexer's cursor: the index of the next character and its line and
      column, which the source uses to place its panic messages. */
  datatype Lexer = Lexer(pos: nat, at: Anchor)

  const START: Lexer := Lexer(0, Anchor(1, 1))

  /** `advance` by one character: a newline moves to column 1 of the next
      line, any other character (or the end of input) one column right. */
  function AdvanceOne(s: string, lx: Lexer): (r: Lexer)
    ensures r.pos == lx.pos + 1
    ensures lx.pos < |s| && s[lx.pos] == '\n' ==> r.at == Anchor(lx.at.line + 1, 1)
    ensures !(lx.pos < |s| && s[lx.pos] == '\n') ==> r.at == Anchor(lx.at.line, lx.at.column + 1)
  {
    if lx.pos < |s| && s[lx.pos] == '\n' then Lexer(lx.pos + 1, Anchor(lx.at.line + 1, 1))
    else Lexer(lx.pos + 1, Anchor(lx.at.line, lx.at.column + 1))
  }

  /** `advance(n)`. */
  function Advance(s: string, lx: Lexer, n: nat): (r: Lexer)
    ensures r.pos == lx.pos + n
    decreases n
  {
    if n == 0 then lx else Advance(s, AdvanceOne(s, lx), n - 1)
  }

  /** The anchor reached from `a` after moving over `text`. */
  function AnchorAfter(a: Anchor, text: string): Anchor
    decreases |text|
  {
    if |text| == 0 then a
    else
      var b := AnchorAfter(a, text[..|text| - 1]);
      if text[|text| - 1] == '\n' then Anchor(b.line + 1, 1) else Anchor(b.line, b.column + 1)
  }

  /** The cursor always sits at the anchor reached by moving over the text
      already consumed. */
  ghost predicate Tracks(s: string, lx: Lexer)
  {
    lx.pos <= |s| && lx.at == AnchorAfter(START.at, s[..lx.pos])
  }

  /** Advancing over characters that exist keeps the cursor's anchor in step
      with the consumed text. */
  lemma {:induction false} AdvanceTracks(s: string, lx: Lexer, n: nat)
    requires Tracks(s, lx) && lx.pos + n <= |s|
    ensures Tracks(s, Advance(s, lx, n))
    decreases n
  {
    if n > 0 {
      var lx1 := AdvanceOne(s, lx);
      assert s[..lx.pos + 1][..lx.pos] == s[..lx.pos];
      assert Tracks(s, lx1);
      AdvanceTracks(s, lx1, n - 1);
    }
  }

  /** The line number counts the newlines passed; after a newline the column
      restarts at 1, and over text without one it grows by the length. */
  lemma {:induction false} AnchorAfterLines(a: Anchor, text: string)
    ensures AnchorAfter(a, text).line == a.line + Newlines(text)
    ensures |text| > 0 && text[|text| - 1] == '\n' ==> AnchorAfter(a, text).column == 1
    ensures Newlines(text) == 0 ==> AnchorAfter(a, text).column == a.column + |text|
    decreases |text|
  {
    if |text| > 0 {
      AnchorAfterLines(a, text[..|text| - 1]);
    }
  }

  // ---------------------------------------------------------------------
  // Operators.

  /** The two-character operators. */
  function DoubleKind(a: char, b: char): (r: Option<Kind>)
    ensures r.Some? ==> SingleKind(a, Some(b)).Some?
  {
    match (a, b)
    case ('!', '=') => Some(BangEquals)
    case ('=', '=') => Some(EqualsEquals)
    case (':', ':') => Some(ColonColon)
    case ('|', '|') => Some(BarBar)
    case ('&', '&') => Some(AmpAmp)
    case ('-', '>') => Some(MinusArrow)
    case ('=', '>') => Some(EqualsArrow)
    case ('<', '=') => Some(LeftAngleEquals)
    case ('>', '=') => Some(RightAngleEquals)
    case _ => None
  }

  /** The one-character operators; `next` is the character after `c`. A
      `-` before a digit starts a number and a `/` before `/` or `*` starts
      a comment, so neither is an operator there. */
  function SingleKind(c: char, next: Option<char>): (r: Option<Kind>)
    ensures c == '-' ==> (r.None? <==> next.Some? && Decimal.IsDigit(next.value))
    ensures c == '/' ==> (r.None? <==> next.Some? && (next.value == '/' || next.value == '*'))
  {
    match c
    case '&' => Some(Amp)
    case '|' => Some(Bar)
    case '=' => Some(Equals)
    case ':' => Some(Colon)
    case '^' => Some(Caret)
    case '~' => Some(Tilde)
    case '?' => Some(Question)
    case '.' => Some(Dot)
    case ',' => Some(Comma)
    case '!' => Some(Bang)
    case ';' => Some(SemiColon)
    case '*' => Some(Star)
    case '%' => Some(Percent)
    case '+' => Some(Plus)
    case '<' => Some(LeftAngle)
    case '>' => Some(RightAngle)
    case '{' => Some(LeftBrace)
    case '}' => Some(RightBrace)
    case '[' => Some(LeftBracket)
    case ']' => Some(RightBracket)
    case '(' => Some(LeftParen)
    case ')' => Some(RightParen)
    case '-' => if next.Some? && Decimal.IsDigit(next.value) then None else Some(Minus)
    case '/' => if next.Some? && (next.value == '/' || next.value == '*') then None else Some(Slash)
    case _ => None
  }

  function Look(s: string, i: nat): Option<char>
  {
    if i < |s| then Some(s[i]) else None
  }

  /** The keywords. */
  function Keyword(ident: string): Option<Kind>
  {
    if ident == "else" then Some(Else)
    else if ident == "fn" then Some(Fn)
    else if ident == "if" then Some(If)
    else if ident == "let" then Some(Let)
    else if ident == "return" then Some(Return)
    else None
  }

  // ---------------------------------------------------------------------
  // Scanning.

  /** The end of the longest run from `i` of characters satisfying `p`. */
  function TakeWhile(s: string, i: nat, p: char -> bool): (r: nat)
    requires i <= |s|
    ensures i <= r <= |s|
    ensures forall k :: i <= k < r ==> p(s[k])
    ensures r == |s| || !p(s[r])
    decreases |s| - i
  {
    if i == |s| || !p(s[i]) then i else TakeWhile(s, i + 1, p)
  }

  /** `scan_string`: the text between the quotes, which must be closed. */
  function ScanString(s: string, pos: nat): (r: Result<(Token, nat), LexError>)
    requires pos < |s| && s[pos] == '"'
    ensures r.Err? <==> forall k :: pos < k < |s| ==> s[k] != '"'
    ensures r.Ok? ==> var (t, next) := r.value;
              && pos + 2 <= next <= |s| && s[next - 1] == '"'
              && t == Token(String, StringMeta(s[pos + 1..next - 1]))
              && forall k :: pos < k < next - 1 ==> s[k] != '"'
    ensures r.Err? ==> r.error == UnterminatedString
  {
    var end := TakeWhile(s, pos + 1, c => c != '"');
    if end == |s| then Err(UnterminatedString)
    else Ok((Token(String, StringMeta(s[pos + 1..end])), end + 1))
  }

  /** The loop of `scan_block_comment` from index `i`: the index of the `/`
      that closes the comment, given whether the previous comment character
      was a star. */
  function BlockEnd(s: string, i: nat, lastWasStar: bool): (r: Option<nat>)
    requires i <= |s|
    ensures r.Some? ==> i <= r.value < |s| && s[r.value] == '/'
    ensures r.Some? ==> (r.value == i && lastWasStar) || (r.value > i && s[r.value - 1] == '*')
    ensures r.Some? ==> forall k :: i < k < r.value ==> !(s[k - 1] == '*' && s[k] == '/')
    ensures r.None? ==> forall k :: i < k < |s| ==> !(s[k - 1] == '*' && s[k] == '/')
    ensures r.None? ==> !(lastWasStar && i < |s| && s[i] == '/')
    decreases |s| - i
  {
    if i == |s| then None
    else if s[i] == '/' && lastWasStar then Some(i)
    else BlockEnd(s, i + 1, s[i] == '*')
  }

  /** `scan_block_comment`: everything up to the first `*` `/` after the
      opening `/` `*`, excluding both delimiters. */
  function ScanBlockComment(s: string, pos: nat): (r: Result<(Token, nat), LexError>)
    requires pos + 1 < |s| && s[pos] == '/' && s[pos + 1] == '*'
    ensures r.Ok? ==> var (t, next) := r.value;
              && pos + 4 <= next <= |s| && s[next - 2] == '*' && s[next - 1] == '/'
              && t == Token(Comment, CommentMeta(CommentText(Block, s[pos + 2..next - 2])))
              && forall k :: pos + 2 < k < next - 1 ==> !(s[k - 1] == '*' && s[k] == '/')
    ensures r.Err? <==> forall k :: pos + 2 < k < |s| ==> !(s[k - 1] == '*' && s[k] == '/')
    ensures r.Err? ==> r.error == UnterminatedBlockComment
  {
    match BlockEnd(s, pos + 2, false)
    case None => Err(UnterminatedBlockComment)
    case Some(j) => Ok((Token(Comment, CommentMeta(CommentText(Block, s[pos + 2..j - 1]))), j + 1))
  }

  /** `scan_line_comment`: everything after `//` up to the end of the line;
      the newline is consumed but is not part of the text. */
  function ScanLineComment(s: string, pos: nat): (r: (Token, nat))
    requires pos + 1 < |s| && s[pos] == '/' && s[pos + 1] == '/'
    ensures r.0.kind == Comment && r.0.meta.CommentMeta? && r.0.meta.comment.kind == Line
    ensures var end := pos + 2 + |r.0.meta.comment.text|;
            && end <= |s| && r.0.meta.comment.text == s[pos + 2..end]
            && (forall k :: pos + 2 <= k < end ==> s[k] != '\n')
            && (end == |s| ==> r.1 == end)
            && (end < |s| ==> s[end] == '\n' && r.1 == end + 1)
  {
    var end := TakeWhile(s, pos + 2, c => c != '\n');
    var t := Token(Comment, CommentMeta(CommentText(Line, s[pos + 2..end])));
    if end < |s| then (t, end + 1) else (t, end)
  }

  /** `scan_comment`: a line comment or a block comment. */
  function ScanComment(s: string, pos: nat): (r: Result<(Token, nat), LexError>)
    requires pos + 1 < |s| && s[pos] == '/' && (s[pos + 1] == '/' || s[pos + 1] == '*')
    ensures r.Ok? ==> pos < r.value.1 <= |s|
  {
    if s[pos + 1] == '/' then Ok(ScanLineComment(s, pos)) else ScanBlockComment(s, pos)
  }

  /** `scan_character`: exactly one character between single quotes, whose
      code is stored as an unsigned number. The closing quote is looked for
      before the length is checked. */
  function ScanCharacter(s: string, pos: nat): (r: Result<(Token, nat), LexError>)
    requires pos < |s| && s[pos] == '\''
    ensures r.Ok? ==> (&& pos + 3 == r.value.1 <= |s| && s[pos + 2] == '\''
                       && r.value.0 == Token(Character, CharMeta(NumberLit(s[pos + 1] as nat, Unsigned))))
  {
    var end := TakeWhile(s, pos + 1, c => c != '\'');
    if end == |s| then Err(UnterminatedCharacter)
    else if end == pos + 1 then Err(EmptyCharacter)
    else if end > pos + 2 then Err(OversizeCharacter)
    else Ok((Token(Character, CharMeta(NumberLit(s[pos + 1] as nat, Unsigned))), end + 1))
  }

  /** A character literal is accepted exactly when it is closed right after
      one character; otherwise the error says which way it fails. */
  lemma CharacterCases(s: string, pos: nat)
    requires pos < |s| && s[pos] == '\''
    ensures (forall k :: pos < k < |s| ==> s[k] != '\'') ==> ScanCharacter(s, pos) == Err(UnterminatedCharacter)
    ensures pos + 1 < |s| && s[pos + 1] == '\'' ==> ScanCharacter(s, pos) == Err(EmptyCharacter)
    ensures pos + 2 < |s| && s[pos + 1] != '\'' && s[pos + 2] == '\'' ==> ScanCharacter(s, pos).Ok?
    ensures pos + 3 < |s| && s[pos + 1] != '\'' && s[pos + 2] != '\'' && s[pos + 3] == '\'' ==>
              ScanCharacter(s, pos) == Err(OversizeCharacter)
  {
  }

  /** `scan_whitespace`: the longest run of whitespace. */
  function ScanWhitespace(s: string, pos: nat): (r: (Token, nat))
    requires pos < |s| && IsAsciiWhitespace(s[pos])
    ensures pos < r.1 <= |s| && r.0 == Token(Whitespace, WhitespaceMeta(Slice(s, pos, r.1)))
    ensures forall k :: pos <= k < r.1 ==> IsAsciiWhitespace(s[k])
    ensures r.1 == |s| || !IsAsciiWhitespace(s[r.1])
  {
    var end := TakeWhile(s, pos, IsAsciiWhitespace);
    (Token(Whitespace, WhitespaceMeta(s[pos..end])), end)
  }

  /** The end of the run of digits starting at `i`. */
  function DigitsEnd(s: string, i: nat): (r: nat)
    requires i <= |s|
    ensures i <= r <= |s| && Decimal.AllDigits(Slice(s, i, r))
    ensures r == |s| || !Decimal.IsDigit(s[r])
  {
    var e := TakeWhile(s, i, Decimal.IsDigit);
    assert forall k :: 0 <= k < e - i ==> s[i..e][k] == s[i + k];
    e
  }

  /** `scan_number`: an optional `-` making the number signed, then the
      longest run of digits, whose value must fit a usize. */
  function ScanNumber(s: string, pos: nat): (r: Result<(Token, nat), LexError>)
    requires pos < |s|
    requires Decimal.IsDigit(s[pos]) || (s[pos] == '-' && pos + 1 < |s| && Decimal.IsDigit(s[pos + 1]))
    ensures var start := if s[pos] == '-' then pos + 1 else pos;
            var end := DigitsEnd(s, start);
            && start < end
            && (r.Err? <==> Decimal.Value(s[start..end]) > USIZE_MAX)
            && (r.Err? ==> r.error == NumberOverflow)
            && (r.Ok? ==> r.value == (Token(Number, NumberMeta(NumberLit(Decimal.Value(s[start..end]),
                                        if s[pos] == '-' then Signed else Unsigned))), end))
  {
    var parity := if s[pos] == '-' then Signed else Unsigned;
    var start := if s[pos] == '-' then pos + 1 else pos;
    var end := DigitsEnd(s, start);
    var value := Decimal.Value(s[start..end]);
    if value > USIZE_MAX then Err(NumberOverflow)
    else Ok((Token(Number, NumberMeta(NumberLit(value, parity))), end))
  }

  /** `scan_identifier_or_keyword`: the longest run of identifier characters
      and an optional trailing `!` or `?`; a keyword's text gives its
      keyword kind, any other text an identifier. */
  function ScanIdentifierOrKeyword(s: string, pos: nat): (r: (Token, nat))
    requires pos < |s| && IsIdentChar(s[pos])
    ensures pos < r.1 <= |s|
    ensures forall k :: pos <= k < r.1 - 1 ==> IsIdentChar(s[k])
    ensures IsIdentChar(s[r.1 - 1]) ==> r.1 == |s| || !(IsIdentChar(s[r.1]) || s[r.1] == '!' || s[r.1] == '?')
    ensures !IsIdentChar(s[r.1 - 1]) ==> s[r.1 - 1] == '!' || s[r.1 - 1] == '?'
    ensures Keyword(Slice(s, pos, r.1)).Some? ==> r.0 == Token(Keyword(Slice(s, pos, r.1)).value, NoMeta)
    ensures Keyword(Slice(s, pos, r.1)).None? ==> r.0 == Token(Identifier, IdentMeta(Slice(s, pos, r.1)))
  {
    var end := TakeWhile(s, pos, IsIdentChar);
    var end' := if end < |s| && (s[end] == '!' || s[end] == '?') then end + 1 else end;
    var ident := s[pos..end'];
    match Keyword(ident)
    case Some(k) => (Token(k, NoMeta), end')
    case None => (Token(Identifier, IdentMeta(ident)), end')
  }

  /** `scan_token`: one token starting at `pos` and the index after it. */
  function ScanToken(s: string, pos: nat): (r: Result<(Token, nat), LexError>)
    requires pos < |s|
    ensures r.Ok? ==> pos < r.value.1 <= |s|
  {
    var double := if pos + 1 < |s| then DoubleKind(s[pos], s[pos + 1]) else None;
    if double.Some? then Ok((Token(double.value, NoMeta), pos + 2))
    else
      var single := SingleKind(s[pos], Look(s, pos + 1));
      if single.Some? then Ok((Token(single.value, NoMeta), pos + 1))
      else
        var c := s[pos];
        if c == '"' then ScanString(s, pos)
        else if c == '/' then ScanComment(s, pos)
        else if c == '\'' then ScanCharacter(s, pos)
        else if IsAsciiWhitespace(c) then Ok(ScanWhitespace(s, pos))
        else if Decimal.IsDigit(c) || c == '-' then ScanNumber(s, pos)
        else if IsIdentChar(c) then Ok(ScanIdentifierOrKeyword(s, pos))
        else Ok((Token(Invalid, NoMeta), pos + 1))
  }

  /** `scan_tokens`: tokens up to the end of input, or the first error. */
  function ScanTokens(s: string, pos: nat): (r: Result<seq<Token>, LexError>)
    requires pos <= |s|
    ensures pos == |s| ==> r == Ok([])
    ensures r.Ok? ==> |r.value| <= |s| - pos
    ensures pos < |s| && ScanToken(s, pos).Err? ==> r == Err(ScanToken(s, pos).error)
    ensures pos < |s| && ScanToken(s, pos).Ok? ==>
              var (t, next) := ScanToken(s, pos).value;
              && (ScanTokens(s, next).Ok? ==> r == Ok([t] + ScanTokens(s, next).value))
              && (ScanTokens(s, next).Err? ==> r == ScanTokens(s, next))
    decreases |s| - pos
  {
    if pos == |s| then Ok([])
    else
      match ScanToken(s, pos)
      case Err(e) => Err(e)
      case Ok((t, next)) =>
        match ScanTokens(s, next)
        case Err(e) => Err(e)
        case Ok(rest) => Ok([t] + rest)
  }

  function Lex(s: string): (r: Result<seq<Token>, LexError>)
    ensures s == [] ==> r == Ok([])
    ensures r.Ok? ==> |r.value| <= |s|
  {
    ScanTokens(s, 0)
  }

  // ---------------------------------------------------------------------
  // Properties.

  /** A two-character operator is taken whole, before either of its
      characters can be read as a one-character operator or anything else. */
  lemma DoubleWins(s: string, pos: nat)
    requires pos + 1 < |s| && DoubleKind(s[pos], s[pos + 1]).Some?
    ensures ScanToken(s, pos) == Ok((Token(DoubleKind(s[pos], s[pos + 1]).value, NoMeta), pos + 2))
  {
  }

  /** A `-` directly before a digit begins a signed number, not an operator;
      a `-` anywhere else (unless it begins `->`) is the minus operator. */
  lemma MinusBeforeDigit(s: string, pos: nat)
    requires pos < |s| && s[pos] == '-'
    ensures pos + 1 < |s| && Decimal.IsDigit(s[pos + 1]) ==>
              ScanToken(s, pos).Err? || (ScanToken(s, pos).value.0.kind == Number &&
                                         ScanToken(s, pos).value.0.meta.number.parity == Signed)
    ensures !(pos + 1 < |s| && (Decimal.IsDigit(s[pos + 1]) || s[pos + 1] == '>')) ==>
              ScanToken(s, pos) == Ok((Token(Minus, NoMeta), pos + 1))
  {
  }

  /** A `/` followed by `/` or `*` begins a comment; otherwise it is the
      slash operator. */
  lemma SlashCases(s: string, pos: nat)
    requires pos < |s| && s[pos] == '/'
    ensures pos + 1 < |s| && s[pos + 1] == '/' ==> ScanToken(s, pos).Ok? && ScanToken(s, pos).value.0.kind == Comment
    ensures pos + 1 < |s| && s[pos + 1] == '*' ==> ScanToken(s, pos) == ScanBlockComment(s, pos)
    ensures !(pos + 1 < |s| && (s[pos + 1] == '/' || s[pos + 1] == '*')) ==>
              ScanToken(s, pos) == Ok((Token(Slash, NoMeta), pos + 1))
  {
  }

  /** An opening quote with no closing quote after it is an error. */
  lemma UnterminatedStringFails(s: string, pos: nat)
    requires pos < |s| && s[pos] == '"' && forall k :: pos < k < |s| ==> s[k] != '"'
    ensures ScanToken(s, pos) == Err(UnterminatedString)
    ensures ScanTokens(s, pos) == Err(UnterminatedString)
  {
  }

  lemma SingleWins(s: string, pos: nat)
    requires pos < |s| && !(pos + 1 < |s| && DoubleKind(s[pos], s[pos + 1]).Some?)
    requires SingleKind(s[pos], Look(s, pos + 1)).Some?
    ensures ScanToken(s, pos) == Ok((Token(SingleKind(s[pos], Look(s, pos + 1)).value, NoMeta), pos + 1))
  {
  }

  /** A token followed by the tokens of the rest is what `scan_tokens`
      returns from its start. */
  lemma ScanTokensCons(s: string, pos: nat, t: Token, next: nat, rest: seq<Token>)
    requires pos < next <= |s| && ScanToken(s, pos) == Ok((t, next)) && ScanTokens(s, next) == Ok(rest)
    ensures ScanTokens(s, pos) == Ok([t] + rest)
  {
  }

  /** The last five tokens of `!!====-->=>=`, from index 5. */
  lemma MixedTail(s: string)
    requires s == "!!====-->=>="
    ensures ScanTokens(s, 5) == Ok([Token(Equals, NoMeta), Token(Minus, NoMeta), Token(MinusArrow, NoMeta),
                                    Token(EqualsArrow, NoMeta), Token(Equals, NoMeta)])
  {
    var r12: seq<Token> := [];
    SingleWins(s, 11);
    var r11 := [Token(Equals, NoMeta)] + r12;
    ScanTokensCons(s, 11, Token(Equals, NoMeta), 12, r12);
    DoubleWins(s, 9);
    var r9 := [Token(EqualsArrow, NoMeta)] + r11;
    ScanTokensCons(s, 9, Token(EqualsArrow, NoMeta), 11, r11);
    DoubleWins(s, 7);
    var r7 := [Token(MinusArrow, NoMeta)] + r9;
    ScanTokensCons(s, 7, Token(MinusArrow, NoMeta), 9, r9);
    SingleWins(s, 6);
    var r6 := [Token(Minus, NoMeta)] + r7;
    ScanTokensCons(s, 6, Token(Minus, NoMeta), 7, r7);
    SingleWins(s, 5);
    ScanTokensCons(s, 5, Token(Equals, NoMeta), 6, r6);
    assert [Token(Equals, NoMeta)] + r6 == [Token(Equals, NoMeta), Token(Minus, NoMeta), Token(MinusArrow, NoMeta),
                                            Token(EqualsArrow, NoMeta), Token(Equals, NoMeta)];
  }

  /** The last seven tokens of `!!====-->=>=`, from index 1. */
  lemma MixedFromOne(s: string)
    requires s == "!!====-->=>="
    ensures ScanTokens(s, 1) == Ok([Token(BangEquals, NoMeta), Token(EqualsEquals, NoMeta),
                                    Token(Equals, NoMeta), Token(Minus, NoMeta), Token(MinusArrow, NoMeta),
                                    Token(EqualsArrow, NoMeta), Token(Equals, NoMeta)])
  {
    MixedTail(s);
    var r5 := [Token(Equals, NoMeta), Token(Minus, NoMeta), Token(MinusArrow, NoMeta),
               Token(EqualsArrow, NoMeta), Token(Equals, NoMeta)];
    DoubleWins(s, 3);
    var r3 := [Token(EqualsEquals, NoMeta)] + r5;
    ScanTokensCons(s, 3, Token(EqualsEquals, NoMeta), 5, r5);
    DoubleWins(s, 1);
    ScanTokensCons(s, 1, Token(BangEquals, NoMeta), 3, r3);
    assert [Token(BangEquals, NoMeta)] + r3 == [Token(BangEquals, NoMeta), Token(EqualsEquals, NoMeta),
                                    Token(Equals, NoMeta), Token(Minus, NoMeta), Token(MinusArrow, NoMeta),
                                    Token(EqualsArrow, NoMeta), Token(Equals, NoMeta)];
  }

  /** `!!====-->=>=` lexes as `!` `!=` `==` `=` `-` `->` `=>` `=`: each
      two-character operator is taken as soon as it starts. */
  lemma MixedSinglesAndDoubles(s: string)
    requires s == "!!====-->=>="
    ensures Lex(s) == Ok([Token(Bang, NoMeta), Token(BangEquals, NoMeta), Token(EqualsEquals, NoMeta),
                          Token(Equals, NoMeta), Token(Minus, NoMeta), Token(MinusArrow, NoMeta),
                          Token(EqualsArrow, NoMeta), Token(Equals, NoMeta)])
  {
    MixedFromOne(s);
    var r1 := [Token(BangEquals, NoMeta), Token(EqualsEquals, NoMeta),
               Token(Equals, NoMeta), Token(Minus, NoMeta), Token(MinusArrow, NoMeta),
               Token(EqualsArrow, NoMeta), Token(Equals, NoMeta)];
    SingleWins(s, 0);
    ScanTokensCons(s, 0, Token(Bang, NoMeta), 1, r1);
    assert [Token(Bang, NoMeta)] + r1 == [Token(Bang, NoMeta), Token(BangEquals, NoMeta), Token(EqualsEquals, NoMeta),
                                          Token(Equals, NoMeta), Token(Minus, NoMeta), Token(MinusArrow, NoMeta),
                                          Token(EqualsArrow, NoMeta), Token(Equals, NoMeta)];
  }

  lemma ValueOf100()
    ensures Decimal.Value("100") == 100
  {
    assert "100"[..2] == "10" && "10"[..1] == "1" && "1"[..0] == "";
  }

  lemma ScanMinus100()
    ensures ScanNumber("-100", 0) == Ok((Token(Number, NumberMeta(NumberLit(100, Signed))), 4))
  {
    var s := "-100";
    assert TakeWhile(s, 1, Decimal.IsDigit) == 4;
    assert DigitsEnd(s, 1) == 4;
    assert s[1..4] == "100";
    ValueOf100();
  }

  /** `-100` lexes as the signed number 100. */
  lemma SignedNumberExample()
    ensures Lex("-100") == Ok([Token(Number, NumberMeta(NumberLit(100, Signed)))])
  {
    var s := "-100";
    ScanMinus100();
    assert ScanToken(s, 0) == ScanNumber(s, 0);
    ScanTokensCons(s, 0, Token(Number, NumberMeta(NumberLit(100, Signed))), 4, []);
    assert [Token(Number, NumberMeta(NumberLit(100, Signed)))] + [] == [Token(Number, NumberMeta(NumberLit(100, Signed)))];
    assert Lex(s) == ScanTokens(s, 0);
  }

  /** `'c'` lexes as the character code of `c`. */
  lemma CharacterExample()
    ensures Lex("'c'") == Ok([Token(Character, CharMeta(NumberLit('c' as nat, Unsigned)))])
  {
    var s := "'c'";
    assert TakeWhile(s, 1, x => x != '\'') == 2;
    assert ScanToken(s, 0) == ScanCharacter(s, 0);
    ScanTokensCons(s, 0, Token(Character, CharMeta(NumberLit('c' as nat, Unsigned))), 3, []);
    assert [Token(Character, CharMeta(NumberLit('c' as nat, Unsigned)))] + [] == [Token(Character, CharMeta(NumberLit('c' as nat, Unsigned)))];
    assert Lex(s) == ScanTokens(s, 0);
  }
}

=== FILE: legacy_parser.dfy ===
/**
  The cursor of the legacy front end's backtracking parser: a token list, the
  index of the next token, and the diagnostics issued so far, with the
  helpers the grammar is written in.
 */
module LegacyParser {
  import opened Wrappers
  import opened LegacyLexer

  /** The diagnostic `expect` issues: the kind wanted and the token found
      (none at the end of input). */
  datatype Diagnostic = Expected(wanted: Kind, found: Option<Kind>)

  datatype Parser = Parser(tokens: seq<Token>, index: nat, diagnostics: seq<Diagnostic>)

  function NewParser(tokens: seq<Token>): (p: Parser)
    ensures p.index == 0 && p.diagnostics == [] && p.tokens == tokens
  {
    Parser(tokens, 0, [])
  }

  /** `peek`: the token at the index, if there is one. */
  function Peek(p: Parser): (r: Option<Token>)
    ensures r.Some? <==> p.index < |p.tokens|
    ensures r.Some? ==> r.value == p.tokens[p.index]
  {
    if p.index < |p.tokens| then Some(p.tokens[p.index]) else None
  }

  /** `eof`: every token has been consumed. */
  function Eof(p: Parser): (r: bool)
    ensures r <==> p.index >= |p.tokens|
  {
    Peek(p).None?
  }

  lemma EofMeansPastLast(p: Parser)
    ensures Eof(p) <==> p.index >= |p.tokens|
  {
  }

  /** `advance`: moves on by one token, unconditionally. */
  function Advance(p: Parser): (r: Parser)
    ensures r == p.(index := p.index + 1)
  {
    p.(index := p.index + 1)
  }

  /** `maybe`: consumes and returns the next token if it has the kind. */
  function Maybe(p: Parser, kind: Kind): (r: (Parser, Option<Token>))
    ensures r.1.Some? <==> p.index < |p.tokens| && p.tokens[p.index].kind == kind
    ensures r.1.Some? ==> r.1.value == p.tokens[p.index] && r.0 == p.(index := p.index + 1)
    ensures r.1.None? ==> r.0 == p
  {
    match Peek(p)
    case Some(t) => if t.kind == kind then (Advance(p), Some(t)) else (p, None)
    case None => (p, None)
  }

  /** `expect`: like `maybe`, but a miss issues a diagnostic and skips the
      offending token, unless the input has ended. */
  function Expect(p: Parser, kind: Kind): (r: (Parser, Option<Token>))
    ensures Maybe(p, kind).1.Some? ==> r == Maybe(p, kind)
    ensures r.1.None? ==> r.0.tokens == p.tokens
    ensures r.1.None? ==> r.0.diagnostics == p.diagnostics + [Expected(kind, if Eof(p) then None else Some(p.tokens[p.index].kind))]
    ensures r.1.None? ==> r.0.index == if Eof(p) then p.index else p.index + 1
  {
    match Maybe(p, kind)
    case (p1, Some(t)) => (p1, Some(t))
    case (p1, None) =>
      var found := Peek(p1);
      var p2 := p1.(diagnostics := p1.diagnostics + [Expected(kind, if found.Some? then Some(found.value.kind) else None)]);
      if found.Some? then (Advance(p2), None) else (p2, None)
  }

  /** `some_or_backtrack`: runs `action`; when it yields nothing, the token
      index is put back where it was. Diagnostics the action issued stay. */
  function SomeOrBacktrack<T>(p: Parser, action: Parser -> (Parser, Option<T>)): (r: (Parser, Option<T>))
    ensures r.1 == action(p).1
    ensures r.1.Some? ==> r.0 == action(p).0
    ensures r.1.None? ==> r.0 == action(p).0.(index := p.index)
  {
    var (p1, v) := action(p);
    if v.Some? then (p1, v) else (p1.(index := p.index), None)
  }

  /** `advance_while`: skips tokens while `pred` holds of the current one. */
  function AdvanceWhile(p: Parser, pred: Token -> bool): (r: Parser)
    ensures r.tokens == p.tokens && r.diagnostics == p.diagnostics
    ensures p.index <= r.index
    ensures forall i :: p.index <= i < r.index ==> i < |p.tokens| && pred(p.tokens[i])
    ensures r.index >= |p.tokens| || !pred(p.tokens[r.index])
    ensures p.index <= |p.tokens| ==> r.index <= |p.tokens|
    decreases |p.tokens| - p.index
  {
    match Peek(p)
    case None => p
    case Some(t) => if !pred(t) then p else AdvanceWhile(Advance(p), pred)
  }

  /** `advance_until_one_of`: skips to the first token of one of the kinds. */
  function AdvanceUntilOneOf(p: Parser, kinds: set<Kind>): Parser
  {
    AdvanceWhile(p, (t: Token) => t.kind !in kinds)
  }

  function AdvanceUntil(p: Parser, kind: Kind): (r: Parser)
    ensures r.tokens == p.tokens && r.diagnostics == p.diagnostics && p.index <= r.index
    ensures forall i :: p.index <= i < r.index ==> i < |p.tokens| && p.tokens[i].kind != kind
    ensures r.index < |p.tokens| ==> p.tokens[r.index].kind == kind
  {
    AdvanceUntilOneOf(p, {kind})
  }

  /** `advance_past_one_of`: skips to the first token of one of the kinds
      and then one token further, whether or not one was found. */
  function AdvancePastOneOf(p: Parser, kinds: set<Kind>): Parser
  {
    Advance(AdvanceUntilOneOf(p, kinds))
  }

  function AdvancePast(p: Parser, kind: Kind): (r: Parser)
    ensures r.tokens == p.tokens && r.diagnostics == p.diagnostics && p.index < r.index
    ensures forall i :: p.index <= i < r.index - 1 ==> i < |p.tokens| && p.tokens[i].kind != kind
    ensures r.index - 1 < |p.tokens| ==> p.tokens[r.index - 1].kind == kind
  {
    AdvancePastOneOf(p, {kind})
  }

  /** The first index from `from` holding a token of the kind, if any. */
  function FirstOfKind(tokens: seq<Token>, from: nat, kind: Kind): (r: Option<nat>)
    ensures r.Some? ==> from <= r.value < |tokens| && tokens[r.value].kind == kind
    ensures r.Some? ==> forall i :: from <= i < r.value ==> tokens[i].kind != kind
    ensures r.None? ==> forall i :: from <= i < |tokens| ==> tokens[i].kind != kind
    decreases |tokens| - from
  {
    if from >= |tokens| then None
    else if tokens[from].kind == kind then Some(from)
    else FirstOfKind(tokens, from + 1, kind)
  }

  /** `advance_until` stops on the first token of the kind without consuming
      it, or at the end of input when there is none; nothing else changes. */
  lemma AdvanceUntilStopsAtFirst(p: Parser, kind: Kind)
    requires p.index <= |p.tokens|
    ensures var r := AdvanceUntil(p, kind);
            && r.tokens == p.tokens && r.diagnostics == p.diagnostics
            && r.index == match FirstOfKind(p.tokens, p.index, kind)
                          case Some(i) => i
                          case None => |p.tokens|
  {
  }

  /** `advance_past` consumes through the first token of the kind; when
      there is none it ends past the end of input. */
  lemma AdvancePastConsumesMatch(p: Parser, kind: Kind)
    requires p.index <= |p.tokens|
    ensures var r := AdvancePast(p, kind);
            && (FirstOfKind(p.tokens, p.index, kind).Some? ==>
                  r.index == FirstOfKind(p.tokens, p.index, kind).value + 1 && p.tokens[r.index - 1].kind == kind)
            && (FirstOfKind(p.tokens, p.index, kind).None? ==> Eof(r) && r.index == |p.tokens| + 1)
  {
    AdvanceUntilStopsAtFirst(p, kind);
  }

  /** An action that issues no diagnostics and fails leaves the parser
      exactly as it was once backtracked: here, trying an expectation and
      giving up on a miss. */
  lemma BacktrackUndoesFailedExpect(p: Parser, kind: Kind)
    ensures var r := SomeOrBacktrack(p, (q: Parser) => Maybe(q, kind));
            r.1.None? ==> r.0 == p
    ensures var r := SomeOrBacktrack(p, (q: Parser) => Expect(q, kind));
            r.1.None? ==> r.0.index == p.index && |r.0.diagnostics| == |p.diagnostics| + 1
  {
  }
}

=== FILE: lir_ty.dfy ===
/**
  The hash-consed type context of the low-level IR.

  Every type is stored once per profile (its kind, its inner types and its
  optional name); asking for a type whose profile is already registered
  returns the registered id. The context also caches the void type, the
  string type, the integer types by size and the struct types by name.
  Types are interned by their profile itself. The source interns by a byte
  key folded from the profile, in which slices carry no length prefix, so
  that key may be coarser than the profile.
 */
module LirTy {
  import opened Wrappers

  type TyId = nat

  datatype TyKind = Integer(size: nat) | Pointer | Void | Fn(isVarArgs: bool) | Struct

  datatype Ty = Ty(id: TyId, kind: TyKind, name: Option<string>, inner: seq<TyId>)

  datatype Profile = Profile(kind: TyKind, inner: seq<TyId>, name: Option<string>)

  function ProfileOf(t: Ty): Profile
  {
    Profile(t.kind, t.inner, t.name)
  }

  /** A struct type has a name. */
  predicate WellFormed(t: Ty)
  {
    t.kind == Struct ==> t.name.Some?
  }

  datatype TyContext = TyContext(
    types: seq<Ty>,
    byProfile: map<Profile, TyId>,
    voidTy: Option<TyId>,
    strTy: Option<TyId>,
    intTys: map<nat, TyId>,
    structsByName: map<string, TyId>)

  function EmptyContext(): TyContext
  {
    TyContext([], map[], None, None, map[], map[])
  }

  predicate Registered(ctx: TyContext, p: Profile, id: TyId)
  {
    p in ctx.byProfile && ctx.byProfile[p] == id
  }

  /** Ids are positions, and the profile table and the types agree. */
  predicate TableValid(ctx: TyContext)
  {
    && (forall i :: 0 <= i < |ctx.types| ==> ctx.types[i].id == i && WellFormed(ctx.types[i]))
    && (forall i :: 0 <= i < |ctx.types| ==> Registered(ctx, ProfileOf(ctx.types[i]), i))
    && (forall p :: p in ctx.byProfile ==>
          ctx.byProfile[p] < |ctx.types| && ProfileOf(ctx.types[ctx.byProfile[p]]) == p)
  }

  function VoidProfile(): Profile
  {
    Profile(Void, [], None)
  }

  function IntProfile(size: nat): Profile
  {
    Profile(Integer(size), [], None)
  }

  function PointerProfile(pointee: TyId): Profile
  {
    Profile(Pointer, [pointee], None)
  }

  /** The caches name registered types of the right shape. */
  predicate CachesValid(ctx: TyContext)
  {
    && (ctx.voidTy.Some? ==> Registered(ctx, VoidProfile(), ctx.voidTy.value))
    && (forall s :: s in ctx.intTys ==> Registered(ctx, IntProfile(s), ctx.intTys[s]))
    && (ctx.strTy.Some? ==> 8 in ctx.intTys && Registered(ctx, PointerProfile(ctx.intTys[8]), ctx.strTy.value))
    && (forall n :: n in ctx.structsByName ==>
          ctx.structsByName[n] < |ctx.types| && ctx.types[ctx.structsByName[n]].kind == Struct
          && ctx.types[ctx.structsByName[n]].name == Some(n))
  }

  predicate Valid(ctx: TyContext)
  {
    TableValid(ctx) && CachesValid(ctx)
  }

  /** `b` is a later state of `a`: nothing registered or cached is lost. */
  predicate Extends(a: TyContext, b: TyContext)
  {
    && |a.types| <= |b.types| && b.types[..|a.types|] == a.types
    && (forall p :: p in a.byProfile ==> Registered(b, p, a.byProfile[p]))
    && (a.voidTy.Some? ==> b.voidTy == a.voidTy)
    && (a.strTy.Some? ==> b.strTy == a.strTy)
    && (forall s :: s in a.intTys ==> s in b.intTys && b.intTys[s] == a.intTys[s])
    && (forall n :: n in a.structsByName ==> n in b.structsByName && b.structsByName[n] == a.structsByName[n])
  }

  lemma ExtendsTransitive(a: TyContext, b: TyContext, c: TyContext)
    requires Extends(a, b) && Extends(b, c)
    ensures Extends(a, c)
  {
    assert c.types[..|a.types|] == c.types[..|b.types|][..|a.types|];
  }

  /** `get`: the type an id names; the source panics on an unknown id. */
  function Get(ctx: TyContext, id: TyId): (r: Option<Ty>)
    ensures r.Some? <==> id < |ctx.types|
    ensures TableValid(ctx) && r.Some? ==> r.value.id == id && Registered(ctx, ProfileOf(r.value), id)
  {
    if id < |ctx.types| then Some(ctx.types[id]) else None
  }

  // ---------------------------------------------------------------------
  // Hash-consing.

  /** `new_ty_with_inner`: the registered id of the profile, or a new type
      appended under the next id. A struct type must be named. */
  function NewTyWithInner(ctx: TyContext, kind: TyKind, inner: seq<TyId>, name: Option<string>): (r: (TyContext, TyId))
    requires kind == Struct ==> name.Some?
    ensures Registered(r.0, Profile(kind, inner, name), r.1)
    ensures Profile(kind, inner, name) in ctx.byProfile ==> r.0 == ctx
    ensures Profile(kind, inner, name) !in ctx.byProfile ==>
              r.1 == |ctx.types| && r.0.types == ctx.types + [Ty(r.1, kind, name, inner)]
    ensures r.0.voidTy == ctx.voidTy && r.0.strTy == ctx.strTy
    ensures r.0.intTys == ctx.intTys && r.0.structsByName == ctx.structsByName
  {
    var p := Profile(kind, inner, name);
    if p in ctx.byProfile then (ctx, ctx.byProfile[p])
    else
      var id := |ctx.types|;
      (ctx.(types := ctx.types + [Ty(id, kind, name, inner)], byProfile := ctx.byProfile[p := id]), id)
  }

  lemma NewTyKeepsTable(ctx: TyContext, kind: TyKind, inner: seq<TyId>, name: Option<string>)
    requires TableValid(ctx) && (kind == Struct ==> name.Some?)
    requires Profile(kind, inner, name) !in ctx.byProfile
    ensures TableValid(NewTyWithInner(ctx, kind, inner, name).0)
  {
    var p := Profile(kind, inner, name);
    var (c, id) := NewTyWithInner(ctx, kind, inner, name);
    forall i | 0 <= i < |c.types|
      ensures c.types[i].id == i && WellFormed(c.types[i]) && Registered(c, ProfileOf(c.types[i]), i)
    {
      if i < |ctx.types| {
        assert c.types[i] == ctx.types[i];
        assert ProfileOf(ctx.types[i]) in ctx.byProfile;
        assert ProfileOf(ctx.types[i]) != p;
      }
    }
    forall q | q in c.byProfile
      ensures c.byProfile[q] < |c.types| && ProfileOf(c.types[c.byProfile[q]]) == q
    {
      if q != p {
        assert c.types[ctx.byProfile[q]] == ctx.types[ctx.byProfile[q]];
      }
    }
  }

  lemma NewTyKeepsCaches(ctx: TyContext, kind: TyKind, inner: seq<TyId>, name: Option<string>)
    requires Valid(ctx) && (kind == Struct ==> name.Some?)
    requires Profile(kind, inner, name) !in ctx.byProfile
    ensures CachesValid(NewTyWithInner(ctx, kind, inner, name).0)
  {
    var (c, id) := NewTyWithInner(ctx, kind, inner, name);
    forall n | n in c.structsByName
      ensures c.types[c.structsByName[n]] == ctx.types[ctx.structsByName[n]]
    {
    }
  }

  lemma NewTyExtends(ctx: TyContext, kind: TyKind, inner: seq<TyId>, name: Option<string>)
    requires kind == Struct ==> name.Some?
    ensures Extends(ctx, NewTyWithInner(ctx, kind, inner, name).0)
  {
    var (c, id) := NewTyWithInner(ctx, kind, inner, name);
    if Profile(kind, inner, name) !in ctx.byProfile {
      assert c.types[..|ctx.types|] == ctx.types;
    }
  }

  /** A new type keeps the context valid, only extends it, and the returned
      id names a type of the requested profile. */
  lemma NewTyFacts(ctx: TyContext, kind: TyKind, inner: seq<TyId>, name: Option<string>)
    requires Valid(ctx) && (kind == Struct ==> name.Some?)
    ensures var (c, id) := NewTyWithInner(ctx, kind, inner, name);
            && Valid(c) && Extends(ctx, c)
            && Get(c, id) == Some(Ty(id, kind, name, inner))
  {
    NewTyExtends(ctx, kind, inner, name);
    if Profile(kind, inner, name) !in ctx.byProfile {
      NewTyKeepsTable(ctx, kind, inner, name);
      NewTyKeepsCaches(ctx, kind, inner, name);
    }
  }

  // Filling a cache with a registered type of the right shape keeps the
  // context valid and only extends it.

  lemma CacheVoid(c: TyContext, id: TyId)
    requires Valid(c) && c.voidTy.None? && Registered(c, VoidProfile(), id)
    ensures Valid(c.(voidTy := Some(id))) && Extends(c, c.(voidTy := Some(id)))
  {
  }

  lemma CacheInt(c: TyContext, size: nat, id: TyId)
    requires Valid(c) && size !in c.intTys && Registered(c, IntProfile(size), id)
    ensures Valid(c.(intTys := c.intTys[size := id])) && Extends(c, c.(intTys := c.intTys[size := id]))
  {
  }

  lemma CacheStr(c: TyContext, id: TyId)
    requires Valid(c) && c.strTy.None? && 8 in c.intTys && Registered(c, PointerProfile(c.intTys[8]), id)
    ensures Valid(c.(strTy := Some(id))) && Extends(c, c.(strTy := Some(id)))
  {
  }

  lemma CacheStruct(c: TyContext, name: string, id: TyId)
    requires Valid(c) && name !in c.structsByName
    requires id < |c.types| && c.types[id].kind == Struct && c.types[id].name == Some(name)
    ensures Valid(c.(structsByName := c.structsByName[name := id]))
    ensures Extends(c, c.(structsByName := c.structsByName[name := id]))
  {
  }

  // ---------------------------------------------------------------------
  // The cached constructors.

  /** `get_void`. */
  function GetVoid(ctx: TyContext): (r: (TyContext, TyId))
    ensures r.0.voidTy == Some(r.1)
    ensures ctx.voidTy.Some? ==> r == (ctx, ctx.voidTy.value)
  {
    match ctx.voidTy
    case Some(id) => (ctx, id)
    case None =>
      var (c, id) := NewTyWithInner(ctx, Void, [], None);
      (c.(voidTy := Some(id)), id)
  }

  /** `get_int`: one integer type per size. */
  function GetInt(ctx: TyContext, size: nat): (r: (TyContext, TyId))
    ensures size in r.0.intTys && r.0.intTys[size] == r.1
    ensures size in ctx.intTys ==> r == (ctx, ctx.intTys[size])
  {
    if size in ctx.intTys then (ctx, ctx.intTys[size])
    else
      var (c, id) := NewTyWithInner(ctx, Integer(size), [], None);
      (c.(intTys := c.intTys[size := id]), id)
  }

  /** `get_pointer_to`. */
  function GetPointerTo(ctx: TyContext, pointee: TyId): (r: (TyContext, TyId))
    ensures Registered(r.0, PointerProfile(pointee), r.1)
  {
    NewTyWithInner(ctx, Pointer, [pointee], None)
  }

  /** `get_str`: the pointer to the 8-bit integer, cached. */
  function GetStr(ctx: TyContext): (r: (TyContext, TyId))
    ensures r.0.strTy == Some(r.1)
    ensures ctx.strTy.Some? ==> r == (ctx, ctx.strTy.value)
  {
    match ctx.strTy
    case Some(id) => (ctx, id)
    case None =>
      var (c1, int8) := GetInt(ctx, 8);
      var (c2, id) := GetPointerTo(c1, int8);
      (c2.(strTy := Some(id)), id)
  }

  /** `get_fn`: the inner types are the return type followed by the parameters. */
  function GetFn(ctx: TyContext, isVarArgs: bool, ret: TyId, params: seq<TyId>): (r: (TyContext, TyId))
    ensures Registered(r.0, Profile(Fn(isVarArgs), [ret] + params, None), r.1)
  {
    NewTyWithInner(ctx, Fn(isVarArgs), [ret] + params, None)
  }

  /** `get_struct`: the first struct registered under a name wins. */
  function GetStruct(ctx: TyContext, name: string, members: seq<TyId>): (r: (TyContext, TyId))
    ensures name in r.0.structsByName && r.0.structsByName[name] == r.1
    ensures name in ctx.structsByName ==> r == (ctx, ctx.structsByName[name])
  {
    if name in ctx.structsByName then (ctx, ctx.structsByName[name])
    else
      var (c, id) := NewTyWithInner(ctx, Struct, members, Some(name));
      (c.(structsByName := c.structsByName[name := id]), id)
  }

  // ---------------------------------------------------------------------
  // Views of a type.

  datatype FnTy = FnTy(id: TyId, returnTy: TyId, params: seq<TyId>, isVarArgs: bool)

  datatype TyError = NotAFunction

  /** `as_fn_ty`: the return type is the first inner type and the parameters
      are the rest; any other kind is the "not a function type" failure. */
  function AsFnTy(t: Ty): (r: Result<FnTy, TyError>)
    requires t.kind.Fn? ==> |t.inner| >= 1
    ensures r.Ok? <==> t.kind.Fn?
    ensures r.Ok? ==> r.value.id == t.id && [r.value.returnTy] + r.value.params == t.inner
    ensures r.Ok? ==> t.kind == Fn(r.value.isVarArgs)
  {
    match t.kind
    case Fn(varArgs) => Ok(FnTy(t.id, t.inner[0], t.inner[1..], varArgs))
    case _ => Err(NotAFunction)
  }

  predicate IsVoid(t: Ty)
  {
    t.kind == Void
  }

  /** `has_lval`: every type but void can be stored to. */
  predicate HasLval(t: Ty)
  {
    t.kind != Void
  }

  /** `is_ptr` as written: it compares the kind against `Void`. */
  function IsPtrAsWritten(t: Ty): (r: bool)
    ensures r ==> !IsPtr(t)
  {
    t.kind == Void
  }

  /** `is_ptr` as intended: the kind is `Pointer`. */
  predicate IsPtr(t: Ty)
  {
    t.kind == Pointer
  }

  // ---------------------------------------------------------------------
  // Properties.

  /** Each operation keeps the context valid and only extends it. */
  lemma GetVoidFacts(ctx: TyContext)
    requires Valid(ctx)
    ensures var (c, id) := GetVoid(ctx);
            && Valid(c) && Extends(ctx, c)
            && Get(c, id) == Some(Ty(id, Void, None, []))
  {
    if ctx.voidTy.None? {
      var (c, id) := NewTyWithInner(ctx, Void, [], None);
      NewTyFacts(ctx, Void, [], None);
      CacheVoid(c, id);
      ExtendsTransitive(ctx, c, c.(voidTy := Some(id)));
    }
  }

  lemma GetIntFacts(ctx: TyContext, size: nat)
    requires Valid(ctx)
    ensures var (c, id) := GetInt(ctx, size);
            && Valid(c) && Extends(ctx, c)
            && Get(c, id) == Some(Ty(id, Integer(size), None, []))
  {
    if size !in ctx.intTys {
      var (c, id) := NewTyWithInner(ctx, Integer(size), [], None);
      NewTyFacts(ctx, Integer(size), [], None);
      CacheInt(c, size, id);
      ExtendsTransitive(ctx, c, c.(intTys := c.intTys[size := id]));
    }
  }

  lemma GetPointerToFacts(ctx: TyContext, pointee: TyId)
    requires Valid(ctx)
    ensures var (c, id) := GetPointerTo(ctx, pointee);
            && Valid(c) && Extends(ctx, c)
            && Get(c, id) == Some(Ty(id, Pointer, None, [pointee]))
  {
    NewTyFacts(ctx, Pointer, [pointee], None);
  }

  /** `get_str` is the pointer to the cached 8-bit integer type, and asking
      again changes nothing. */
  lemma StrIsPointerToInt8(ctx: TyContext)
    requires Valid(ctx)
    ensures var (c, id) := GetStr(ctx);
            && Valid(c) && Extends(ctx, c)
            && 8 in c.intTys
            && Get(c, id) == Some(Ty(id, Pointer, None, [c.intTys[8]]))
            && GetStr(c) == (c, id)
  {
    if ctx.strTy.None? {
      var (c1, int8) := GetInt(ctx, 8);
      GetIntFacts(ctx, 8);
      var (c2, id) := GetPointerTo(c1, int8);
      GetPointerToFacts(c1, int8);
      ExtendsTransitive(ctx, c1, c2);
      CacheStr(c2, id);
      ExtendsTransitive(ctx, c2, c2.(strTy := Some(id)));
    }
  }

  lemma GetFnFacts(ctx: TyContext, isVarArgs: bool, ret: TyId, params: seq<TyId>)
    requires Valid(ctx)
    ensures var (c, id) := GetFn(ctx, isVarArgs, ret, params);
            && Valid(c) && Extends(ctx, c)
            && Get(c, id) == Some(Ty(id, Fn(isVarArgs), None, [ret] + params))
  {
    NewTyFacts(ctx, Fn(isVarArgs), [ret] + params, None);
  }

  /** Reading a function type back gives the return type, the parameters
      and the var-args flag it was built from. */
  lemma FnTyRoundTrip(ctx: TyContext, isVarArgs: bool, ret: TyId, params: seq<TyId>)
    requires Valid(ctx)
    ensures var (c, id) := GetFn(ctx, isVarArgs, ret, params);
            && Get(c, id).Some?
            && AsFnTy(Get(c, id).value) == Ok(FnTy(id, ret, params, isVarArgs))
  {
    GetFnFacts(ctx, isVarArgs, ret, params);
    var (c, id) := GetFn(ctx, isVarArgs, ret, params);
    assert ([ret] + params)[1..] == params;
  }

  lemma GetStructFacts(ctx: TyContext, name: string, members: seq<TyId>)
    requires Valid(ctx)
    ensures var (c, id) := GetStruct(ctx, name, members);
            && Valid(c) && Extends(ctx, c)
            && Get(c, id).Some? && Get(c, id).value.kind == Struct && Get(c, id).value.name == Some(name)
  {
    if name !in ctx.structsByName {
      var (c, id) := NewTyWithInner(ctx, Struct, members, Some(name));
      NewTyFacts(ctx, Struct, members, Some(name));
      CacheStruct(c, name, id);
      ExtendsTransitive(ctx, c, c.(structsByName := c.structsByName[name := id]));
    }
  }

  /** A struct name keeps the members of its first registration: a later
      `get_struct` with other members returns the same type. */
  lemma StructFirstRegistrationWins(ctx: TyContext, name: string, first: seq<TyId>, later: seq<TyId>)
    requires Valid(ctx) && name !in ctx.structsByName
    ensures var (c1, id1) := GetStruct(ctx, name, first);
            var (c2, id2) := GetStruct(c1, name, later);
            && id2 == id1 && c2 == c1
            && Get(c2, id2) == Some(Ty(id1, Struct, Some(name), first))
  {
    var (c, id) := NewTyWithInner(ctx, Struct, first, Some(name));
    NewTyFacts(ctx, Struct, first, Some(name));
  }

  /** Hash-consing: once `get_pointer_to` has returned an id for a pointee,
      every later state answers the same pointee with that id and without
      change. */
  lemma PointerHashConsed(ctx: TyContext, pointee: TyId, later: TyContext)
    requires Extends(GetPointerTo(ctx, pointee).0, later)
    ensures GetPointerTo(later, pointee) == (later, GetPointerTo(ctx, pointee).1)
  {
  }

  /** The same holds for integer types, through their size cache. */
  lemma IntCached(ctx: TyContext, size: nat, later: TyContext)
    requires Extends(GetInt(ctx, size).0, later)
    ensures GetInt(later, size) == (later, GetInt(ctx, size).1)
  {
  }

  /** Distinct pointees give distinct pointer types. */
  lemma PointersDistinct(ctx: TyContext, p: TyId, q: TyId)
    requires Valid(ctx) && p != q
    ensures var (c1, id1) := GetPointerTo(ctx, p);
            GetPointerTo(c1, q).1 != id1
  {
    var (c1, id1) := GetPointerTo(ctx, p);
    GetPointerToFacts(ctx, p);
    GetPointerToFacts(c1, q);
  }

  /** `is_ptr` as written holds for the void type and fails for every
      pointer type the context builds. */
  lemma IsPtrAsWrittenMisses(ctx: TyContext, pointee: TyId)
    requires Valid(ctx)
    ensures var (c, id) := GetPointerTo(ctx, pointee);
            Get(c, id).Some? && !IsPtrAsWritten(Get(c, id).value)
    ensures var (c, id) := GetVoid(ctx);
            Get(c, id).Some? && IsPtrAsWritten(Get(c, id).value)
  {
    GetPointerToFacts(ctx, pointee);
    GetVoidFacts(ctx);
  }

  /** `is_ptr` as intended holds exactly for pointer types: for every type
      `get_pointer_to` returns, for none of the void, integer or function
      types, and every pointer can be stored to. */
  lemma IsPtrCorrect(ctx: TyContext, pointee: TyId, size: nat)
    requires Valid(ctx)
    ensures var (c, id) := GetPointerTo(ctx, pointee);
            Get(c, id).Some? && IsPtr(Get(c, id).value) && HasLval(Get(c, id).value)
    ensures var (c, id) := GetVoid(ctx);
            Get(c, id).Some? && !IsPtr(Get(c, id).value) && IsVoid(Get(c, id).value)
    ensures var (c, id) := GetInt(ctx, size);
            Get(c, id).Some? && !IsPtr(Get(c, id).value)
  {
    GetPointerToFacts(ctx, pointee);
    GetVoidFacts(ctx);
    GetIntFacts(ctx, size);
  }

  /** `has_lval` is the negation of `is_void`. */
  lemma HasLvalIffNotVoid(t: Ty)
    ensures HasLval(t) <==> !IsVoid(t)
  {
  }
}

=== FILE: lir_types.dfy ===
/**
  Instruction kinds of the low-level IR: which kinds may define a value
  (`can_have_lvals`) and how many operands each takes (`num_rvals`), and the
  context that carries a module, a function or both.
 */
module LirTypes {
  import opened Wrappers

  const USIZE_MAX: nat := 0xFFFF_FFFF_FFFF_FFFF

  datatype CmpKind = Eq | Gt | Lt | Gte | Lte

  datatype InstKind =
    | Var | Copy | Cast | Offset | Load | Store | Subscript | Call
    | Add | Sub | Mul | Div | Jmp | Branch | Cmp(cmp: CmpKind) | Return | Nop

  /** Whether an instruction of this kind may define a value. */
  function CanHaveLvals(k: InstKind): (r: bool)
    ensures !r ==> NumRvals(k) == Range(1, 1)
  {
    match k
    case Return | Jmp => false
    case _ => true
  }

  /** The inclusive range of operand counts an instruction of this kind takes. */
  datatype Range = Range(lo: nat, hi: nat)
  {
    predicate Contains(n: nat) { lo <= n <= hi }
  }

  function NumRvals(k: InstKind): (r: Range)
    ensures r.lo <= r.hi <= USIZE_MAX
    ensures r.lo == 0 <==> r.hi == 0
  {
    match k
    case Var | Nop => Range(0, 0)
    case Copy | Cast | Return | Load | Store | Jmp => Range(1, 1)
    case Offset | Add | Sub | Mul | Div | Cmp(_) => Range(2, 2)
    case Branch => Range(3, 3)
    case Call | Subscript => Range(1, USIZE_MAX)
  }

  /** The kinds that cannot define a value are exactly `Return` and `Jmp`,
      and both take a single operand. */
  lemma NoLvalKinds(k: InstKind)
    ensures !CanHaveLvals(k) <==> (k == Return || k == Jmp)
    ensures !CanHaveLvals(k) ==> NumRvals(k) == Range(1, 1)
  {
  }

  /** Only `Var` and `Nop` take no operands; every other kind needs one. */
  lemma OperandlessKinds(k: InstKind)
    ensures NumRvals(k).Contains(0) <==> (k == Var || k == Nop)
    ensures !(k == Var || k == Nop) ==> NumRvals(k).lo >= 1
  {
  }

  /** Every kind but `Call` and `Subscript` takes a fixed number of operands,
      at most three; those two take any positive count that fits a usize. */
  lemma ArityTable(k: InstKind, n: nat)
    ensures (k == Call || k == Subscript) ==> (NumRvals(k).Contains(n) <==> 1 <= n <= USIZE_MAX)
    ensures !(k == Call || k == Subscript) ==> NumRvals(k).lo == NumRvals(k).hi <= 3
    ensures k.Cmp? || k in {Add, Sub, Mul, Div, Offset} ==> NumRvals(k) == Range(2, 2)
  {
  }

  // ---------------------------------------------------------------------
  // Contexts.

  /** The module and the function a context refers to, by reference. */
  type ModuleRef = nat
  type FunctionRef = nat

  /** What a context refers to: a module, a function, or both. The module
      and function themselves are not modelled; only their presence. */
  datatype Context = Context(m: Option<ModuleRef>, f: Option<FunctionRef>)

  function Full(m: ModuleRef, f: FunctionRef): (c: Context)
    ensures c.m == Some(m) && c.f == Some(f)
  {
    Context(Some(m), Some(f))
  }

  function FnOnly(f: FunctionRef): (c: Context)
    ensures c.m.None? && c.f == Some(f)
  {
    Context(None, Some(f))
  }

  function ModOnly(m: ModuleRef): (c: Context)
    ensures c.m == Some(m) && c.f.None?
  {
    Context(Some(m), None)
  }

  datatype ContextError = NoFunction | NoModule

  /** `as_fn`: the function, or the "context has no function" failure. */
  function AsFn(c: Context): (r: Result<FunctionRef, ContextError>)
    ensures r.Ok? <==> c.f.Some?
    ensures r.Ok? ==> c.f == Some(r.value)
    ensures r.Err? ==> r.error == NoFunction
  {
    match c.f
    case Some(f) => Ok(f)
    case None => Err(NoFunction)
  }

  /** `as_mod`: the module, or the "context has no module" failure. */
  function AsMod(c: Context): (r: Result<ModuleRef, ContextError>)
    ensures r.Ok? <==> c.m.Some?
    ensures r.Ok? ==> c.m == Some(r.value)
    ensures r.Err? ==> r.error == NoModule
  {
    match c.m
    case Some(m) => Ok(m)
    case None => Err(NoModule)
  }

  /** A full context yields both parts; a function context yields only its
      function and a module context only its module. */
  lemma ContextParts(m: ModuleRef, f: FunctionRef)
    ensures AsFn(Full(m, f)) == Ok(f) && AsMod(Full(m, f)) == Ok(m)
    ensures AsFn(FnOnly(f)) == Ok(f) && AsMod(FnOnly(f)).Err?
    ensures AsMod(ModOnly(m)) == Ok(m) && AsFn(ModOnly(m)).Err?
  {
  }
}

=== FILE: lir_values.dfy ===
/**
  Values of the low-level IR. A value id is a 32-bit word: bit 31 tells a
  global (module-level) value from a local (function-level) one, and the
  low 31 bits are the value's index in its table. A table of values keeps
  each value's kind, type, optional name and the list of its users.
 */
module LirValues {
  import opened Wrappers
  import Decimal

  type U32 = x: nat | x < 0x1_0000_0000

  const GLOBAL_BIT: nat := 0x8000_0000

  /** The raw word of a value id. */
  datatype ValueId = ValueId(raw: U32)

  /** `ValueID::local`: the index itself. The source asserts (in debug
      builds) that the index fits in 31 bits. */
  function Local(idx: nat): (v: ValueId)
    requires idx < GLOBAL_BIT
    ensures !IsGlobal(v) && AsIdx(v) == idx
  {
    ValueId(idx)
  }

  /** `ValueID::global`: the index with bit 31 set. */
  function Global(idx: nat): (v: ValueId)
    requires idx < GLOBAL_BIT
    ensures IsGlobal(v) && AsIdx(v) == idx
  {
    ValueId(idx + GLOBAL_BIT)
  }

  predicate IsGlobal(v: ValueId)
  {
    v.raw >= GLOBAL_BIT
  }

  predicate IsLocal(v: ValueId)
  {
    !IsGlobal(v)
  }

  /** `as_idx`: the word with bit 31 cleared. */
  function AsIdx(v: ValueId): (i: nat)
    ensures i < GLOBAL_BIT
  {
    v.raw % GLOBAL_BIT
  }

  /** Every id is exactly one of a local and a global id, and the flag and
      the index determine it. */
  lemma IdFromParts(v: ValueId)
    ensures IsLocal(v) <==> !IsGlobal(v)
    ensures IsGlobal(v) ==> v == Global(AsIdx(v))
    ensures IsLocal(v) ==> v == Local(AsIdx(v))
  {
  }

  /** Local and global ids never coincide, and each constructor is injective. */
  lemma IdsDistinct(i: nat, j: nat)
    requires i < GLOBAL_BIT && j < GLOBAL_BIT
    ensures Local(i) != Global(j)
    ensures Local(i) == Local(j) <==> i == j
    ensures Global(i) == Global(j) <==> i == j
  {
  }

  /** `Display`: "G" before the index of a global id. */
  function Show(v: ValueId): (s: string)
    ensures |s| >= 1
    ensures IsGlobal(v) <==> s[0] == 'G'
  {
    (if IsGlobal(v) then "G" else "") + Decimal.Show(AsIdx(v))
  }

  /** `Debug`: the variant name and the index. */
  function ShowDebug(v: ValueId): string
  {
    (if IsGlobal(v) then "ValueID::Global(" else "ValueID::Local(") + Decimal.Show(AsIdx(v)) + ")"
  }

  /** The displayed form tells ids apart. */
  lemma ShowInjective(v: ValueId, w: ValueId)
    requires Show(v) == Show(w)
    ensures v == w
  {
    var dv := Decimal.Show(AsIdx(v));
    var dw := Decimal.Show(AsIdx(w));
    assert IsGlobal(v) == IsGlobal(w);
    if IsGlobal(v) {
      assert Show(v)[1..] == dv && Show(w)[1..] == dw;
    } else {
      assert Show(v) == dv && Show(w) == dw;
    }
    Decimal.ShowInjective(AsIdx(v), AsIdx(w));
    IdFromParts(v);
    IdFromParts(w);
  }

  /** The unit tests of the value ids and their printing. */
  lemma ValueIdTests()
    ensures IsLocal(Local(123)) && AsIdx(Local(123)) == 123
    ensures IsLocal(Local(0)) && AsIdx(Local(0)) == 0
    ensures IsGlobal(Global(0)) && AsIdx(Global(0)) == 0
    ensures IsGlobal(Global(234)) && AsIdx(Global(234)) == 234
    ensures Show(Global(0)) == "G0" && Show(Local(123)) == "123"
    ensures ShowDebug(Global(0)) == "ValueID::Global(0)"
    ensures ShowDebug(Local(123)) == "ValueID::Local(123)"
  {
    assert Decimal.Show(123) == Decimal.Show(12) + ['3'];
    assert Decimal.Show(12) == Decimal.Show(1) + ['2'];
  }

  // ---------------------------------------------------------------------
  // Value references.

  /** A use of a value, optionally tagged with the id of its parent. */
  datatype ValueRef = ValueRef(id: ValueId, parent: Option<ValueId>)

  function NewRef(id: ValueId): (r: ValueRef)
    ensures r.id == id && r.parent.None?
  {
    ValueRef(id, None)
  }

  /** `parent`: the source unwraps it. */
  function Parent(r: ValueRef): ValueId
    requires r.parent.Some?
  {
    r.parent.value
  }

  /** `with_parent`: the source asserts (in debug builds) that no parent is set yet. */
  function WithParent(r: ValueRef, parent: ValueId): (s: ValueRef)
    requires r.parent.None?
    ensures s.id == r.id && s.parent == Some(parent)
  {
    r.(parent := Some(parent))
  }

  /** `dup`: the same value without its parent. */
  function Dup(r: ValueRef): (s: ValueRef)
    ensures s.id == r.id && s.parent.None?
  {
    r.(parent := None)
  }

  function DupOption(r: Option<ValueRef>): (s: Option<ValueRef>)
    ensures s.Some? <==> r.Some?
    ensures s.Some? ==> s.value == Dup(r.value)
  {
    match r
    case Some(v) => Some(Dup(v))
    case None => None
  }

  /** Duplicating undoes `with_parent`, and a reference is global exactly
      when its id is. */
  lemma DupUndoesWithParent(r: ValueRef, parent: ValueId)
    requires r.parent.None?
    ensures Dup(WithParent(r, parent)) == r
    ensures Dup(Dup(r)) == Dup(r)
  {
  }

  // ---------------------------------------------------------------------
  // Value tables.

  datatype ConstantKind = Str | Int

  datatype ValueKind = Function | Param | Inst | Constant(ck: ConstantKind) | Block | Void

  datatype Value = Value(id: ValueId, kind: ValueKind)

  /** `Values`: the value list and the maps keyed by id. The type ids are
      those of the LIR type context. */
  datatype Values = Values(
    vals: seq<Value>,
    types: map<ValueId, nat>,
    users: map<ValueId, seq<ValueId>>,
    idents: map<ValueId, string>)

  function EmptyValues(): Values
  {
    Values([], map[], map[], map[])
  }

  /** Each value sits at the index its id names, and has a type. */
  predicate Valid(vs: Values)
  {
    forall i :: 0 <= i < |vs.vals| ==> AsIdx(vs.vals[i].id) == i && vs.vals[i].id in vs.types
  }

  /** `add_val`: the new value's index is the old count; its type is
      recorded, and its name when it has one. The index must fit in 31 bits. */
  function AddVal(vs: Values, kind: ValueKind, ty: nat, ident: Option<string>, global: bool): (r: (Values, ValueRef))
    requires |vs.vals| < GLOBAL_BIT
    ensures AsIdx(r.1.id) == |vs.vals| && IsGlobal(r.1.id) == global && r.1.parent.None?
    ensures r.0.vals == vs.vals + [Value(r.1.id, kind)]
    ensures r.0.types == vs.types[r.1.id := ty]
    ensures r.0.idents == (if ident.Some? then vs.idents[r.1.id := ident.value] else vs.idents)
    ensures r.0.users == vs.users
  {
    var idx := |vs.vals|;
    var id := if global then Global(idx) else Local(idx);
    var idents := if ident.Some? then vs.idents[id := ident.value] else vs.idents;
    (Values(vs.vals + [Value(id, kind)], vs.types[id := ty], vs.users, idents), NewRef(id))
  }

  /** `get`: the value an id names. The source unwraps the lookup. */
  function GetVal(vs: Values, v: ValueId): (r: Value)
    requires AsIdx(v) < |vs.vals|
    ensures Valid(vs) ==> AsIdx(r.id) == AsIdx(v) && r.id in vs.types
  {
    vs.vals[AsIdx(v)]
  }

  /** `ty`: the type of a value. The source unwraps the lookup. */
  function TyOf(vs: Values, v: ValueId): nat
    requires v in vs.types
  {
    vs.types[v]
  }

  /** `add_user`: appends a user to a value's user list. */
  function AddUser(vs: Values, v: ValueId, user: ValueId): (r: Values)
    ensures Users(r, v) == Users(vs, v) + [user]
    ensures forall w :: w != v ==> Users(r, w) == Users(vs, w)
    ensures r.vals == vs.vals && r.types == vs.types && r.idents == vs.idents
  {
    vs.(users := vs.users[v := Users(vs, v) + [user]])
  }

  /** `users`: the users of a value in the order they were added; none for
      a value without an entry. */
  function Users(vs: Values, v: ValueId): seq<ValueId>
  {
    if v in vs.users then vs.users[v] else []
  }

  /** `ident`: the recorded name, or ".v" and the raw word in decimal. */
  function Ident(vs: Values, v: ValueId): (s: string)
    ensures v in vs.idents ==> s == vs.idents[v]
    ensures v !in vs.idents ==> |s| > 2 && s[..2] == ".v" && s[2..] == Decimal.Show(v.raw)
  {
    if v in vs.idents then vs.idents[v] else ".v" + Decimal.Show(v.raw)
  }

  /** A value added with a name reads back that name; one added without a
      name in a table that had none for it reads back the fallback form. */
  lemma AddValIdent(vs: Values, kind: ValueKind, ty: nat, ident: Option<string>, global: bool)
    requires |vs.vals| < GLOBAL_BIT
    ensures var (vs1, r) := AddVal(vs, kind, ty, ident, global);
            && (ident.Some? ==> Ident(vs1, r.id) == ident.value)
            && (ident.None? ==> Ident(vs1, r.id) == Ident(vs, r.id))
  {
  }

  /** Adding a value keeps the table valid; the new value reads back with
      its kind and type, and older values read back unchanged. */
  lemma AddValGet(vs: Values, kind: ValueKind, ty: nat, ident: Option<string>, global: bool, old_: ValueId)
    requires Valid(vs) && |vs.vals| < GLOBAL_BIT
    ensures var (vs1, r) := AddVal(vs, kind, ty, ident, global);
            && Valid(vs1)
            && GetVal(vs1, r.id) == Value(r.id, kind)
            && TyOf(vs1, r.id) == ty
            && Users(vs1, r.id) == Users(vs, r.id)
            && (AsIdx(old_) < |vs.vals| ==> GetVal(vs1, old_) == GetVal(vs, old_))
  {
  }

  /** A table that lists the values in the order they were added, with
      `add_user` calls in between: the users come back in call order. */
  lemma UsersInInsertionOrder(vs: Values, v: ValueId, a: ValueId, b: ValueId)
    requires v !in vs.users
    ensures Users(AddUser(AddUser(vs, v, a), v, b), v) == [a, b]
  {
  }
}

=== FILE: parser_events.dfy ===
/**
  The event-based parser core. Grammar rules never build a tree directly:
  they append events (start a node, finish a node, consume tokens, report
  an error) to a buffer that a later pass replays into a green tree.

  A node is opened by pushing a placeholder "tombstone" start event and
  handing back its index (a marker); completing the marker rewrites the
  tombstone with the node's kind. `precede` opens a new node that will wrap
  an already completed one by recording, on the completed node's start
  event, the index of the new start event (its "forward parent").

  The parser's panics (too many steps, a marker that is not a tombstone, a
  forward parent on a non-start event, a long run of trivia, an empty
  follow-set stack) are `Err` outcomes. Error messages are kept as their
  data rather than formatted text.
 */
module ParserEvents {
  import opened Wrappers
  import opened Kinds

  /** The step count at which the parser gives up as stuck. */
  const STEP_LIMIT: nat := 1_000_000

  const U64_MAX: nat := 0xFFFF_FFFF_FFFF_FFFF

  /** `peek_next_non_trivia` looks at most this many tokens ahead. */
  const TRIVIA_LOOKAHEAD: nat := 20

  datatype Message =
    | UnexpectedEof
    | UnexpectedToken(actual: SyntaxKind, expected: Option<SyntaxKind>)

  datatype Event =
    | NodeStart(kind: SyntaxKind, forwardParent: Option<nat>)
    | NodeFinish
    | Tokens(tokenKind: SyntaxKind, count: nat)
    | Error(msg: Message)

  const Tombstone: Event := NodeStart(TOMBSTONE, None)

  datatype Panic = Stuck | NotAMarker(at: nat) | NotANode(at: nat) | TooMuchTrivia | NoFollowSet

  /** The parser: the token kinds it reads (the lexer's output), the index
      of the next one, the events so far, the stack of follow sets and the
      step count. */
  datatype Parser = Parser(
    tokens: seq<SyntaxKind>,
    index: nat,
    events: seq<Event>,
    follow: seq<set<SyntaxKind>>,
    steps: nat)

  datatype CompletedMarker = CompletedMarker(index: nat, kind: SyntaxKind)

  function New(tokens: seq<SyntaxKind>): Parser
  {
    Parser(tokens, 0, [], [{}], 0)
  }

  /** The token source: past the end every kind is EOF. */
  function Nth(p: Parser, n: nat): SyntaxKind
  {
    if n < |p.tokens| then p.tokens[n] else EOF
  }

  function Peek(p: Parser): SyntaxKind
  {
    Nth(p, p.index)
  }

  function Lookahead(p: Parser, n: nat): SyntaxKind
  {
    Nth(p, p.index + n)
  }

  // ---------------------------------------------------------------------
  // Steps, errors, nodes.

  /** `step`: a saturating 64-bit increment, failing once the limit is reached. */
  function Step(p: Parser): (r: Result<Parser, Panic>)
    ensures r.Ok? <==> p.steps + 1 < STEP_LIMIT
    ensures r.Ok? ==> r.value == p.(steps := p.steps + 1)
    ensures r.Err? ==> r.error == Stuck
  {
    var s := if p.steps + 1 > U64_MAX then U64_MAX else p.steps + 1;
    if s >= STEP_LIMIT then Err(Stuck) else Ok(p.(steps := s))
  }

  /** `error`: one step, then an error event. */
  function ReportError(p: Parser, msg: Message): (r: Result<Parser, Panic>)
    ensures r.Ok? <==> p.steps + 1 < STEP_LIMIT
    ensures r.Ok? ==> r.value == p.(steps := p.steps + 1, events := p.events + [Error(msg)])
  {
    match Step(p)
    case Err(e) => Err(e)
    case Ok(q) => Ok(q.(events := q.events + [Error(msg)]))
  }

  /** `advance`: past a token, or an "unexpected EOF" error at the end. */
  function Advance(p: Parser): (r: Result<Parser, Panic>)
    ensures Peek(p) != EOF ==> r == Ok(p.(index := p.index + 1))
    ensures Peek(p) == EOF ==> r == ReportError(p, UnexpectedEof)
  {
    if Peek(p) == EOF then ReportError(p, UnexpectedEof) else Ok(p.(index := p.index + 1))
  }

  /** `start_node`: a tombstone is pushed and its index is the marker. */
  function StartNode(p: Parser): (r: (Parser, nat))
    ensures r.1 == |p.events|
    ensures r.0 == p.(events := p.events + [Tombstone])
  {
    (p.(events := p.events + [Tombstone]), |p.events|)
  }

  /** `finish_node`: one step, then a finish event. */
  function FinishNode(p: Parser): (r: Result<Parser, Panic>)
    ensures r.Ok? <==> p.steps + 1 < STEP_LIMIT
    ensures r.Ok? ==> r.value == p.(steps := p.steps + 1, events := p.events + [NodeFinish])
  {
    match Step(p)
    case Err(e) => Err(e)
    case Ok(q) => Ok(q.(events := q.events + [NodeFinish]))
  }

  /** `Marker::complete`: the tombstone at the marker takes the node's kind
      and the node is finished. Any other event there is a panic. */
  function Complete(p: Parser, m: nat, kind: SyntaxKind): (r: Result<(Parser, CompletedMarker), Panic>)
    ensures (m >= |p.events| || p.events[m] != Tombstone) ==> r == Err(NotAMarker(m))
    ensures m < |p.events| && p.events[m] == Tombstone ==>
      && (r.Ok? <==> p.steps + 1 < STEP_LIMIT)
      && (r.Ok? ==> (r.value.1 == CompletedMarker(m, kind)
                     && r.value.0.events == p.events[m := NodeStart(kind, None)] + [NodeFinish]))
  {
    if m >= |p.events| || p.events[m] != Tombstone then Err(NotAMarker(m))
    else
      match FinishNode(p.(events := p.events[m := NodeStart(kind, None)]))
      case Err(e) => Err(e)
      case Ok(q) => Ok((q, CompletedMarker(m, kind)))
  }

  /** `CompletedMarker::precede`: opens a new node and makes it the forward
      parent of the completed one, whose start event must be a node start. */
  function Precede(p: Parser, c: CompletedMarker): (r: Result<(Parser, nat), Panic>)
    ensures (c.index < |p.events| && p.events[c.index].NodeStart?) <==> r.Ok?
    ensures r.Err? ==> r.error == NotANode(c.index)
    ensures r.Ok? ==>
      var before := |p.events|;
      && r.value.1 == before
      && r.value.0 == p.(events := (p.events + [Tombstone])[c.index := NodeStart(p.events[c.index].kind, Some(before))])
  {
    var (q, before) := StartNode(p);
    if c.index < |p.events| && p.events[c.index].NodeStart? then
      Ok((q.(events := q.events[c.index := NodeStart(q.events[c.index].kind, Some(before))]), before))
    else Err(NotANode(c.index))
  }

  // ---------------------------------------------------------------------
  // Follow sets.

  /** `remove_follow`: drops a kind from the innermost follow set. */
  function RemoveFollow(p: Parser, kind: SyntaxKind): (r: Parser)
    requires |p.follow| > 0
    ensures |r.follow| == |p.follow| && r.follow[..|p.follow| - 1] == p.follow[..|p.follow| - 1]
    ensures r.follow[|p.follow| - 1] == p.follow[|p.follow| - 1] - {kind}
    ensures r.tokens == p.tokens && r.index == p.index && r.events == p.events && r.steps == p.steps
  {
    var last := |p.follow| - 1;
    p.(follow := p.follow[last := p.follow[last] - {kind}])
  }

  /** `with_follow_set`: runs the action with a new innermost follow set
      holding `kinds`, then pops that set. Popping the last set is the
      source's failed assertion. */
  function WithFollowSet(p: Parser, kinds: set<SyntaxKind>, action: Parser -> Result<Parser, Panic>): (r: Result<Parser, Panic>)
    ensures var a := action(p.(follow := p.follow + [kinds]));
            && (r.Ok? <==> a.Ok? && |a.value.follow| > 1)
            && (a.Err? ==> r == Err(a.error))
            && (r.Ok? ==> |r.value.follow| == |a.value.follow| - 1
                          && r.value == a.value.(follow := r.value.follow))
  {
    match action(p.(follow := p.follow + [kinds]))
    case Err(e) => Err(e)
    case Ok(q) =>
      if |q.follow| <= 1 then Err(NoFollowSet)
      else Ok(q.(follow := q.follow[..|q.follow| - 1]))
  }

  /** An action is balanced on `p` when it leaves the follow stack as deep
      as it found it and does not touch the sets below the innermost one. */
  predicate Balanced(p: Parser, action: Parser -> Result<Parser, Panic>)
  {
    && |p.follow| > 0
    && (action(p).Ok? ==>
          && |action(p).value.follow| == |p.follow|
          && action(p).value.follow[..|p.follow| - 1] == p.follow[..|p.follow| - 1])
  }

  /** A balanced action run under `with_follow_set` leaves the follow stack
      exactly as it was: same depth, same sets. */
  lemma WithFollowSetRestores(p: Parser, kinds: set<SyntaxKind>, action: Parser -> Result<Parser, Panic>)
    requires |p.follow| > 0
    requires Balanced(p.(follow := p.follow + [kinds]), action)
    ensures WithFollowSet(p, kinds, action).Ok? <==> action(p.(follow := p.follow + [kinds])).Ok?
    ensures WithFollowSet(p, kinds, action).Ok? ==> WithFollowSet(p, kinds, action).value.follow == p.follow
  {
    var p1 := p.(follow := p.follow + [kinds]);
    if action(p1).Ok? {
      var q := action(p1).value;
      assert q.follow[..|q.follow| - 1] == p1.follow[..|p1.follow| - 1];
      assert p1.follow[..|p1.follow| - 1] == p.follow;
    }
  }

  // ---------------------------------------------------------------------
  // Tokens.

  /** What every token-consuming operation keeps: the same token source, a
      position that only moves forward, events that are only appended to, a
      follow stack of the same depth whose outer sets are untouched. */
  predicate Grows(p: Parser, r: Parser)
  {
    && r.tokens == p.tokens
    && p.index <= r.index
    && |p.events| <= |r.events| && r.events[..|p.events|] == p.events
    && |r.follow| == |p.follow|
    && (|p.follow| > 0 ==> r.follow[..|p.follow| - 1] == p.follow[..|p.follow| - 1])
  }

  lemma GrowsTrans(a: Parser, b: Parser, c: Parser)
    requires Grows(a, b) && Grows(b, c)
    ensures Grows(a, c)
  {
    assert c.events[..|a.events|] == c.events[..|b.events|][..|a.events|];
    if |a.follow| > 0 {
      assert c.follow[..|a.follow| - 1] == c.follow[..|b.follow| - 1];
    }
  }

  lemma AdvanceGrows(p: Parser, kind: SyntaxKind)
    requires |p.follow| > 0
    ensures Advance(RemoveFollow(p, kind)).Ok? ==> Grows(p, Advance(RemoveFollow(p, kind)).value)
  {
    assert (p.events + [Error(UnexpectedEof)])[..|p.events|] == p.events;
  }

  /** `k` "unexpected EOF" errors. */
  function Eofs(k: nat): (r: seq<Event>)
    ensures |r| == k && forall i :: 0 <= i < k ==> r[i] == Error(UnexpectedEof)
  {
    if k == 0 then [] else [Error(UnexpectedEof)] + Eofs(k - 1)
  }

  /** One round of the loop of `token`: peek, drop the kind from the
      follow set, advance. */
  function Round(p: Parser): (r: Result<Parser, Panic>)
    requires |p.follow| > 0
    ensures r.Ok? ==> Grows(p, r.value)
    ensures r.Ok? ==> r.value.tokens == p.tokens
    ensures Peek(p) != EOF ==> r.Ok? && r.value.index == p.index + 1 && r.value.events == p.events
    ensures Peek(p) == EOF && r.Ok? ==> r.value.index == p.index && r.value.events == p.events + [Error(UnexpectedEof)]
  {
    AdvanceGrows(p, Peek(p));
    Advance(RemoveFollow(p, Peek(p)))
  }

  /** Parsers reading the same tokens see the same kinds everywhere. */
  lemma SameTokensSameKinds(p: Parser, q: Parser)
    requires p.tokens == q.tokens
    ensures forall j :: Nth(p, j) == Nth(q, j)
  {
  }

  /** What `n` rounds of the loop from `p` ending at `r` amount to: they
      moved over real tokens only, stopped after `n` or at the end, and
      recorded one "unexpected EOF" error for every round spent at the end. */
  predicate LoopOutcome(p: Parser, n: nat, r: Parser)
  {
    && (forall j :: p.index <= j < r.index ==> Nth(p, j) != EOF)
    && (r.index == p.index + n || Nth(p, r.index) == EOF)
    && p.index <= r.index <= p.index + n
    && r.events == p.events + Eofs(p.index + n - r.index)
  }

  /** A round followed by `n - 1` more is `n` rounds. */
  lemma RoundOutcome(p: Parser, q1: Parser, n: nat, r: Parser)
    requires |p.follow| > 0 && n > 0
    requires Round(p) == Ok(q1)
    requires LoopOutcome(q1, n - 1, r)
    ensures LoopOutcome(p, n, r)
  {
    SameTokensSameKinds(p, q1);
    if Peek(p) != EOF {
      forall j | p.index <= j < r.index
        ensures Nth(p, j) != EOF
      {
        if j > p.index {
          assert Nth(q1, j) != EOF;
        }
      }
      assert p.index + n - r.index == q1.index + (n - 1) - r.index;
    } else {
      assert Nth(q1, p.index) == EOF;
      assert r.index == p.index;
      assert Eofs(n) == [Error(UnexpectedEof)] + Eofs(n - 1);
    }
  }

  /** `n` rounds: the loop of `token`. It moves over the real tokens
      ahead, at most `n` of them, and records one "unexpected EOF" error for
      every round spent at the end. */
  function TokenLoop(p: Parser, n: nat): (r: Result<Parser, Panic>)
    requires |p.follow| > 0
    ensures r.Ok? ==> Grows(p, r.value) && LoopOutcome(p, n, r.value)
    decreases n
  {
    if n == 0 then Ok(p)
    else
      match Round(p)
      case Err(e) => Err(e)
      case Ok(q1) =>
        match TokenLoop(q1, n - 1)
        case Err(e) => Err(e)
        case Ok(r) =>
          GrowsTrans(p, q1, r);
          RoundOutcome(p, q1, n, r);
          Ok(r)
  }

  /** What `token(kind)` from `p` ending at `r` amounts to: it moved over
      at most the kind's subtoken count of real tokens, each subtoken it
      could not find is an "unexpected EOF" error, and the last event
      records the kind and its subtoken count. */
  predicate TokenMoves(p: Parser, kind: SyntaxKind, r: Parser)
  {
    var n := SubtokenCount(kind);
    && (forall j :: p.index <= j < r.index ==> Nth(p, j) != EOF)
    && (r.index == p.index + n || Nth(p, r.index) == EOF)
    && p.index <= r.index <= p.index + n
    && r.events == p.events + Eofs(p.index + n - r.index) + [Tokens(kind, n)]
  }

  /** `token(kind)`: one step, then one round per subtoken, then a `Tokens`
      event recording the subtoken count. */
  function Token(p: Parser, kind: SyntaxKind): (r: Result<Parser, Panic>)
    requires |p.follow| > 0
    ensures r.Ok? ==> Grows(p, r.value) && TokenMoves(p, kind, r.value)
  {
    match Step(p)
    case Err(e) => Err(e)
    case Ok(q) =>
      match TokenLoop(q, SubtokenCount(kind))
      case Err(e) => Err(e)
      case Ok(q1) =>
        var r := q1.(events := q1.events + [Tokens(kind, SubtokenCount(kind))]);
        assert r.events[..|q1.events|] == q1.events;
        GrowsTrans(p, q1, r);
        TokenOutcome(p, q, q1, r, kind);
        Ok(r)
  }

  /** The step before the loop changes nothing the outcome speaks of. */
  lemma TokenOutcome(p: Parser, q: Parser, q1: Parser, r: Parser, kind: SyntaxKind)
    requires q.tokens == p.tokens && q.index == p.index && q.events == p.events
    requires LoopOutcome(q, SubtokenCount(kind), q1)
    requires r == q1.(events := q1.events + [Tokens(kind, SubtokenCount(kind))])
    ensures TokenMoves(p, kind, r)
  {
    SameTokensSameKinds(p, q);
  }

  /** On a run of real tokens, `token(kind)` moves exactly past its
      subtokens and records them in one event. */
  lemma TokenAdvancesBySubtokens(p: Parser, kind: SyntaxKind)
    requires |p.follow| > 0
    requires forall j :: p.index <= j < p.index + SubtokenCount(kind) ==> Nth(p, j) != EOF
    requires Token(p, kind).Ok?
    ensures Token(p, kind).value.index == p.index + SubtokenCount(kind)
    ensures Token(p, kind).value.events == p.events + [Tokens(kind, SubtokenCount(kind))]
  {
    var r := Token(p, kind).value;
    assert TokenMoves(p, kind, r);
    assert r.index == p.index + SubtokenCount(kind);
  }

  /** `at(kind)`: the next tokens spell the kind's subtokens. */
  predicate At(p: Parser, kind: SyntaxKind)
  {
    forall i :: 0 <= i < SubtokenCount(kind) ==> Lookahead(p, i) == Subtokens(kind)[i]
  }

  /** `kind_at(idx, kind)`: the same, `idx` tokens further on. */
  predicate KindAt(p: Parser, idx: nat, kind: SyntaxKind)
  {
    forall i :: 0 <= i < SubtokenCount(kind) ==> Lookahead(p, idx + i) == Subtokens(kind)[i]
  }

  /** `eat_trivia`: consumes whitespace, comments and line ends, one token
      per trivia kind. Only trivia lies between where it starts and where
      it stops. */
  function EatTrivia(p: Parser): (r: Result<Parser, Panic>)
    requires |p.follow| > 0
    ensures r.Ok? ==> Grows(p, r.value) && !IsTrivia(Peek(r.value))
    ensures r.Ok? ==> forall j :: p.index <= j < r.value.index ==> IsTrivia(Nth(p, j))
    decreases |p.tokens| - p.index
  {
    if IsTrivia(Peek(p)) then
      match Token(p, Peek(p))
      case Err(e) => Err(e)
      case Ok(q) =>
        TriviaTokenMovesOne(p, q);
        match EatTrivia(q)
        case Err(e) => Err(e)
        case Ok(r) =>
          GrowsTrans(p, q, r);
          TriviaPrefix(p, q, r);
          Ok(r)
    else Ok(p)
  }

  /** One trivia token and then only trivia is only trivia. */
  lemma TriviaPrefix(p: Parser, q: Parser, r: Parser)
    requires q.tokens == p.tokens && q.index == p.index + 1 && IsTrivia(Peek(p))
    requires forall j :: q.index <= j < r.index ==> IsTrivia(Nth(q, j))
    ensures forall j :: p.index <= j < r.index ==> IsTrivia(Nth(p, j))
  {
    SameTokensSameKinds(p, q);
  }

  /** A trivia token is one token long. */
  lemma TriviaTokenMovesOne(p: Parser, q: Parser)
    requires IsTrivia(Peek(p)) && TokenMoves(p, Peek(p), q)
    ensures q.index == p.index + 1
  {
    assert SubtokenCount(Peek(p)) == 1;
  }

  /** `peek_next_non_trivia`: the first non-trivia kind ahead and its
      distance, looking at most twenty tokens ahead. */
  function PeekNextNonTrivia(p: Parser): (r: Result<(SyntaxKind, nat), Panic>)
    ensures r.Ok? ==>
      && r.value.1 < TRIVIA_LOOKAHEAD
      && r.value.0 == Lookahead(p, r.value.1) && !IsTrivia(r.value.0)
      && (forall i :: 0 <= i < r.value.1 ==> IsTrivia(Lookahead(p, i)))
    ensures r.Err? <==> forall i :: 0 <= i < TRIVIA_LOOKAHEAD ==> IsTrivia(Lookahead(p, i))
  {
    PeekFrom(p, 0)
  }

  function PeekFrom(p: Parser, n: nat): (r: Result<(SyntaxKind, nat), Panic>)
    requires forall i :: 0 <= i < n ==> IsTrivia(Lookahead(p, i))
    ensures r.Ok? ==>
      && n <= r.value.1 < TRIVIA_LOOKAHEAD
      && r.value.0 == Lookahead(p, r.value.1) && !IsTrivia(r.value.0)
      && (forall i :: 0 <= i < r.value.1 ==> IsTrivia(Lookahead(p, i)))
    ensures r.Err? <==> forall i :: 0 <= i < TRIVIA_LOOKAHEAD ==> IsTrivia(Lookahead(p, i))
    decreases TRIVIA_LOOKAHEAD - n
  {
    if n >= TRIVIA_LOOKAHEAD then Err(TooMuchTrivia)
    else if !IsTrivia(Lookahead(p, n)) then Ok((Lookahead(p, n), n))
    else PeekFrom(p, n + 1)
  }

  /** `maybe(kind)`: whether the kind comes next after trivia; the trivia is
      consumed only when it does. The kind leaves the follow set either way. */
  function Maybe(p: Parser, kind: SyntaxKind): (r: Result<(Parser, bool), Panic>)
    requires |p.follow| > 0
  {
    match PeekNextNonTrivia(p)
    case Err(e) => Err(e)
    case Ok((_, idx)) =>
      var found := KindAt(p, idx, kind);
      if found then
        match EatTrivia(p)
        case Err(e) => Err(e)
        case Ok(q) => Ok((RemoveFollow(q, kind), true))
      else Ok((RemoveFollow(p, kind), false))
  }

  /** When `maybe` does not find its kind, the parser does not move and
      emits nothing; only the follow set changes. */
  lemma MaybeMissLeavesPosition(p: Parser, kind: SyntaxKind)
    requires |p.follow| > 0
    requires Maybe(p, kind).Ok? && !Maybe(p, kind).value.1
    ensures Maybe(p, kind).value.0 == RemoveFollow(p, kind)
    ensures Maybe(p, kind).value.0.index == p.index && Maybe(p, kind).value.0.events == p.events
  {
  }

  /** The trivia `eat_trivia` skips ends where `peek_next_non_trivia` looks. */
  lemma EatTriviaMeetsPeek(p: Parser, idx: nat)
    requires |p.follow| > 0
    requires EatTrivia(p).Ok?
    requires !IsTrivia(Lookahead(p, idx)) && forall i :: 0 <= i < idx ==> IsTrivia(Lookahead(p, i))
    ensures EatTrivia(p).value.index == p.index + idx
  {
    var q := EatTrivia(p).value;
    SameTokensSameKinds(p, q);
    FirstNonTrivia(p, q.index, idx);
  }

  /** Two positions that both end the trivia run from `p` are the same. */
  lemma FirstNonTrivia(p: Parser, stop: nat, idx: nat)
    requires p.index <= stop && !IsTrivia(Nth(p, stop))
    requires forall j :: p.index <= j < stop ==> IsTrivia(Nth(p, j))
    requires !IsTrivia(Lookahead(p, idx)) && forall i :: 0 <= i < idx ==> IsTrivia(Lookahead(p, i))
    ensures stop == p.index + idx
  {
    assert Lookahead(p, idx) == Nth(p, p.index + idx);
    assert Lookahead(p, stop - p.index) == Nth(p, stop);
  }

  /** What a successful `maybe` that found its kind returns. */
  lemma MaybeHitIs(p: Parser, kind: SyntaxKind)
    requires |p.follow| > 0
    requires Maybe(p, kind).Ok? && Maybe(p, kind).value.1
    ensures PeekNextNonTrivia(p).Ok? && EatTrivia(p).Ok?
    ensures KindAt(p, PeekNextNonTrivia(p).value.1, kind)
    ensures Maybe(p, kind).value.0 == RemoveFollow(EatTrivia(p).value, kind)
  {
  }

  /** When `maybe` finds its kind, only trivia lies between the old position
      and the new one, the kind is next, and it has left the follow set. */
  lemma MaybeHitSkipsTrivia(p: Parser, kind: SyntaxKind)
    requires |p.follow| > 0
    requires Maybe(p, kind).Ok? && Maybe(p, kind).value.1
    ensures var q := Maybe(p, kind).value.0;
            && (forall j :: p.index <= j < q.index ==> IsTrivia(Nth(p, j)))
            && At(q, kind)
            && |q.follow| > 0
            && kind !in q.follow[|q.follow| - 1]
  {
    MaybeHitIs(p, kind);
    var idx := PeekNextNonTrivia(p).value.1;
    var q := EatTrivia(p).value;
    EatTriviaMeetsPeek(p, idx);
    KindAtMoved(p, RemoveFollow(q, kind), idx, kind);
  }

  /** A kind `idx` tokens ahead is next once the parser has moved `idx` on. */
  lemma KindAtMoved(p: Parser, r: Parser, idx: nat, kind: SyntaxKind)
    requires r.tokens == p.tokens && r.index == p.index + idx
    requires KindAt(p, idx, kind)
    ensures At(r, kind)
  {
    forall i | 0 <= i < SubtokenCount(kind)
      ensures Lookahead(r, i) == Subtokens(kind)[i]
    {
      assert Lookahead(r, i) == Lookahead(p, idx + i);
    }
  }

  /** `skip_until_expected`: consumes tokens until the end of input or a
      kind in the innermost follow set. */
  function SkipUntilExpected(p: Parser): (r: Result<Parser, Panic>)
    requires |p.follow| > 0
    ensures r.Ok? ==> Grows(p, r.value)
    ensures r.Ok? ==> |r.value.follow| > 0 && (Peek(r.value) == EOF || Peek(r.value) in r.value.follow[|r.value.follow| - 1])
    decreases |p.tokens| - p.index
  {
    match EatTrivia(p)
    case Err(e) => Err(e)
    case Ok(q) =>
      var kind := Peek(q);
      if kind == EOF || kind in q.follow[|q.follow| - 1] then Ok(q)
      else
        match Token(q, kind)
        case Err(e) => Err(e)
        case Ok(q1) =>
          match SkipUntilExpected(q1)
          case Err(e) => Err(e)
          case Ok(r) =>
            GrowsTrans(p, q, q1);
            GrowsTrans(p, q1, r);
            Ok(r)
  }

  /** `expect_token(kind)`: after trivia, consumes the kind if it is next;
      otherwise reports what was found instead and skips to a token the
      caller expects. The kind leaves the follow set either way. */
  function ExpectToken(p: Parser, kind: SyntaxKind): (r: Result<(Parser, bool), Panic>)
    requires |p.follow| > 0
    ensures r.Ok? ==> EatTrivia(p).Ok? && (r.value.1 <==> At(EatTrivia(p).value, kind))
    ensures r.Ok? ==> Grows(p, r.value.0) && kind !in r.value.0.follow[|p.follow| - 1]
  {
    match EatTrivia(p)
    case Err(e) => Err(e)
    case Ok(q) =>
      var found := At(q, kind);
      var next :=
        if found then Token(q, kind)
        else
          match ReportError(q, UnexpectedToken(Peek(q), Some(kind)))
          case Err(e) => Err(e)
          case Ok(q1) => SkipUntilExpected(q1);
      match next
      case Err(e) => Err(e)
      case Ok(q2) =>
        ExpectStepsGrow(p, q, kind, q2);
        Ok((RemoveFollow(q2, kind), found))
  }

  /** Between trivia and the end of `expect_token` the parser only grows,
      and removing the kind from the follow set keeps that so. */
  lemma ExpectStepsGrow(p: Parser, q: Parser, kind: SyntaxKind, q2: Parser)
    requires |p.follow| > 0 && EatTrivia(p) == Ok(q)
    requires At(q, kind) ==> Token(q, kind) == Ok(q2)
    requires !At(q, kind) ==>
      && ReportError(q, UnexpectedToken(Peek(q), Some(kind))).Ok?
      && SkipUntilExpected(ReportError(q, UnexpectedToken(Peek(q), Some(kind))).value) == Ok(q2)
    ensures Grows(p, RemoveFollow(q2, kind))
  {
    if !At(q, kind) {
      ReportErrorGrows(q, UnexpectedToken(Peek(q), Some(kind)));
      GrowsTrans(q, ReportError(q, UnexpectedToken(Peek(q), Some(kind))).value, q2);
    }
    GrowsTrans(p, q, q2);
    RemoveFollowGrows(q2, kind);
    GrowsTrans(p, q2, RemoveFollow(q2, kind));
  }

  lemma ReportErrorGrows(q: Parser, msg: Message)
    requires ReportError(q, msg).Ok?
    ensures Grows(q, ReportError(q, msg).value)
  {
    var q1 := ReportError(q, msg).value;
    assert q1.events[..|q.events|] == q.events;
  }

  lemma RemoveFollowGrows(q: Parser, kind: SyntaxKind)
    requires |q.follow| > 0
    ensures Grows(q, RemoveFollow(q, kind))
  {
    var r := RemoveFollow(q, kind);
    assert r.events[..|q.events|] == q.events;
  }

  lemma SubtokensNotEof(kind: SyntaxKind, i: nat)
    requires i < SubtokenCount(kind)
    ensures kind != EOF ==> Subtokens(kind)[i] != EOF
  {
  }

  /** What a successful `expect_token` that found its kind returns. */
  lemma ExpectFoundIs(p: Parser, kind: SyntaxKind)
    requires |p.follow| > 0
    requires ExpectToken(p, kind).Ok? && ExpectToken(p, kind).value.1
    ensures EatTrivia(p).Ok? && At(EatTrivia(p).value, kind)
    ensures Token(EatTrivia(p).value, kind).Ok?
    ensures ExpectToken(p, kind).value.0 == RemoveFollow(Token(EatTrivia(p).value, kind).value, kind)
  {
  }

  /** On tokens that spell a kind, none is the end of input. */
  lemma AtNotEof(q: Parser, kind: SyntaxKind)
    requires At(q, kind) && kind != EOF
    ensures forall j :: q.index <= j < q.index + SubtokenCount(kind) ==> Nth(q, j) != EOF
  {
    forall j | q.index <= j < q.index + SubtokenCount(kind)
      ensures Nth(q, j) != EOF
    {
      assert Lookahead(q, j - q.index) == Subtokens(kind)[j - q.index];
      SubtokensNotEof(kind, j - q.index);
    }
  }

  /** Where the kind is next, `expect_token` consumes it as one `Tokens`
      event. (Expecting EOF itself consumes nothing and records an
      "unexpected EOF" error before the `Tokens` event.) */
  lemma ExpectTokenFound(p: Parser, kind: SyntaxKind)
    requires |p.follow| > 0 && kind != EOF
    requires ExpectToken(p, kind).Ok? && ExpectToken(p, kind).value.1
    ensures EatTrivia(p).Ok?
    ensures var q := EatTrivia(p).value;
            var r := ExpectToken(p, kind).value.0;
            && At(q, kind)
            && r.index == q.index + SubtokenCount(kind)
            && r.events == q.events + [Tokens(kind, SubtokenCount(kind))]
  {
    ExpectFoundIs(p, kind);
    var q := EatTrivia(p).value;
    AtNotEof(q, kind);
    TokenAdvancesBySubtokens(q, kind);
  }

  /** Where it is not, `expect_token` records an error naming what it found
      and what it expected. */
  lemma ExpectTokenMissed(p: Parser, kind: SyntaxKind)
    requires |p.follow| > 0
    requires ExpectToken(p, kind).Ok? && !ExpectToken(p, kind).value.1
    ensures EatTrivia(p).Ok?
    ensures var q := EatTrivia(p).value;
            var r := ExpectToken(p, kind).value.0;
            && !At(q, kind)
            && |r.events| > |q.events|
            && r.events[|q.events|] == Error(UnexpectedToken(Peek(q), Some(kind)))
  {
    var q := EatTrivia(p).value;
    var q1 := ReportError(q, UnexpectedToken(Peek(q), Some(kind))).value;
    var r := SkipUntilExpected(q1).value;
    assert r.events[..|q1.events|] == q1.events;
    assert r.events[|q.events|] == q1.events[|q.events|];
  }

  /** Either way the expected kind leaves the innermost follow set. */
  lemma ExpectTokenClearsFollow(p: Parser, kind: SyntaxKind)
    requires |p.follow| > 0
    requires ExpectToken(p, kind).Ok?
    ensures var r := ExpectToken(p, kind).value.0;
            |r.follow| == |p.follow| && kind !in r.follow[|r.follow| - 1]
  {
  }

  // ---------------------------------------------------------------------
  // The event buffer's invariant.

  /** Forward parents point forward: a start event's forward parent is a
      later start event. Replay relies on this to terminate. */
  predicate ForwardParentsLater(events: seq<Event>)
  {
    forall i :: 0 <= i < |events| && events[i].NodeStart? && events[i].forwardParent.Some? ==>
      && i < events[i].forwardParent.value < |events|
      && events[events[i].forwardParent.value].NodeStart?
  }

  lemma AppendKeepsForwardParents(events: seq<Event>, e: Event)
    requires ForwardParentsLater(events)
    requires e.NodeStart? ==> e.forwardParent.None?
    ensures ForwardParentsLater(events + [e])
  {
    var es := events + [e];
    forall i | 0 <= i < |es| && es[i].NodeStart? && es[i].forwardParent.Some?
      ensures i < es[i].forwardParent.value < |es| && es[es[i].forwardParent.value].NodeStart?
    {
      assert i < |events|;
    }
  }

  /** `start_node`, `complete` and `precede` keep forward parents pointing
      forward. */
  lemma StartNodeKeepsForwardParents(p: Parser)
    requires ForwardParentsLater(p.events)
    ensures ForwardParentsLater(StartNode(p).0.events)
  {
    AppendKeepsForwardParents(p.events, Tombstone);
  }

  lemma CompleteKeepsForwardParents(p: Parser, m: nat, kind: SyntaxKind)
    requires ForwardParentsLater(p.events)
    requires Complete(p, m, kind).Ok?
    ensures ForwardParentsLater(Complete(p, m, kind).value.0.events)
  {
    var es := p.events[m := NodeStart(kind, None)];
    forall i | 0 <= i < |es| && es[i].NodeStart? && es[i].forwardParent.Some?
      ensures i < es[i].forwardParent.value < |es| && es[es[i].forwardParent.value].NodeStart?
    {
      assert es[i] == p.events[i];
    }
    AppendKeepsForwardParents(es, NodeFinish);
  }

  lemma PrecedeKeepsForwardParents(p: Parser, c: CompletedMarker)
    requires ForwardParentsLater(p.events)
    requires Precede(p, c).Ok?
    ensures ForwardParentsLater(Precede(p, c).value.0.events)
  {
    var before := |p.events|;
    var es0 := p.events + [Tombstone];
    AppendKeepsForwardParents(p.events, Tombstone);
    var es := es0[c.index := NodeStart(p.events[c.index].kind, Some(before))];
    forall i | 0 <= i < |es| && es[i].NodeStart? && es[i].forwardParent.Some?
      ensures i < es[i].forwardParent.value < |es| && es[es[i].forwardParent.value].NodeStart?
    {
      if i != c.index {
        assert es[i] == es0[i];
      }
    }
  }

  /** A marker's life: starting a node and completing it at once records the
      node's start and finish, with nothing in between. */
  lemma StartThenComplete(p: Parser, kind: SyntaxKind)
    requires p.steps + 1 < STEP_LIMIT
    ensures var (q, m) := StartNode(p);
            && Complete(q, m, kind).Ok?
            && Complete(q, m, kind).value.0.events == p.events + [NodeStart(kind, None), NodeFinish]
  {
    var (q, m) := StartNode(p);
    assert q.events[m := NodeStart(kind, None)] == p.events + [NodeStart(kind, None)];
  }

  /** Completing a node that was preceded is refused: its start event is no
      longer a tombstone. */
  lemma CompleteTwiceRefused(p: Parser, kind: SyntaxKind, kind2: SyntaxKind)
    requires p.steps + 1 < STEP_LIMIT && kind != TOMBSTONE
    ensures var (q, m) := StartNode(p);
            var r := Complete(q, m, kind);
            r.Ok? && Complete(r.value.0, m, kind2) == Err(NotAMarker(m))
  {
    var (q, m) := StartNode(p);
    var r := Complete(q, m, kind);
    assert r.value.0.events[m] == NodeStart(kind, None);
  }

  /** The step budget: from a fresh parser, exactly STEP_LIMIT - 1 steps
      succeed. */
  function Steps(p: Parser, n: nat): (r: Result<Parser, Panic>)
    decreases n
  {
    if n == 0 then Ok(p)
    else
      match Step(p)
      case Err(e) => Err(e)
      case Ok(q) => Steps(q, n - 1)
  }

  lemma {:induction false} StepsBudget(p: Parser, n: nat)
    ensures Steps(p, n).Ok? <==> n == 0 || p.steps + n < STEP_LIMIT
    ensures Steps(p, n).Ok? ==> Steps(p, n).value == p.(steps := p.steps + n)
    decreases n
  {
    if n > 0 && Step(p).Ok? {
      StepsBudget(p.(steps := p.steps + 1), n - 1);
    }
  }
}

=== FILE: parser_output.dfy ===
/**
  The parser's output stage: the event sink that replays the parser's
  events into tree-building calls, tracking the source position for
  diagnostics, and the replay loop that turns forward-parent links into
  properly nested node starts.

  Tree-building calls are recorded as a sequence of `TreeOp`s; `Build`
  runs them against the green builder of the Green module, which accepts
  every properly nested sequence.
 */
module ParserOutput {
  import opened Wrappers
  import opened Slices
  import opened Kinds
  import PE = ParserEvents
  import G = Green

  // ---------------------------------------------------------------------
  // Positions.

  datatype Position = Position(offset: nat, line: nat, column: nat)

  /** The position a sink starts at. */
  const Start: Position := Position(0, 1, 1)

  /** The number of bytes the UTF-8 encoding of a character takes. */
  function Utf8Len(c: char): (r: nat)
    ensures 1 <= r <= 4
  {
    if c as int < 0x80 then 1
    else if c as int < 0x800 then 2
    else if c as int < 0x1_0000 then 3
    else 4
  }

  /** The UTF-8 byte length of a string: what the source calls `len()`. */
  function ByteLen(s: string): nat
  {
    if s == [] then 0 else ByteLen(s[..|s| - 1]) + Utf8Len(s[|s| - 1])
  }

  /** The number of characters after the last newline of `s`. */
  function LineTail(s: string): nat
  {
    if s == [] then 0 else if s[|s| - 1] == '\n' then 0 else LineTail(s[..|s| - 1]) + 1
  }

  /** Where reading `text` from the start of the source leaves the reader:
      its byte offset, the 1-based line (one more than the newlines read)
      and the 1-based column (one more than the characters since the last
      newline). */
  function PositionAfter(text: string): Position
  {
    Position(ByteLen(text), 1 + Newlines(text), 1 + LineTail(text))
  }

  /** One character of `update_pos_from_text`, with the offset counted in
      bytes. */
  function StepPos(p: Position, c: char): Position
  {
    if c == '\n' then Position(p.offset + Utf8Len(c), p.line + 1, 1)
    else Position(p.offset + Utf8Len(c), p.line, p.column + 1)
  }

  /** `update_pos_from_text`, with the offset counted in bytes. */
  function UpdatePos(p: Position, text: string): (r: Position)
    ensures r.offset == p.offset + ByteLen(text)
    ensures r.line == p.line + Newlines(text)
    decreases |text|
  {
    if text == [] then p
    else
      assert [text[0]] + text[1..] == text;
      ByteLenAppend([text[0]], text[1..]);
      NewlinesAppend([text[0]], text[1..]);
      assert [text[0]][..0] == [];
      UpdatePos(StepPos(p, text[0]), text[1..])
  }

  /** One character of `update_pos_from_text` as the source writes it:
      the offset advances by one per character. */
  function StepPosAsWritten(p: Position, c: char): Position
  {
    if c == '\n' then Position(p.offset + 1, p.line + 1, 1)
    else Position(p.offset + 1, p.line, p.column + 1)
  }

  function UpdatePosAsWritten(p: Position, text: string): (r: Position)
    ensures r.offset == p.offset + |text|
    ensures r.line == p.line + Newlines(text)
    decreases |text|
  {
    if text == [] then p
    else
      assert [text[0]] + text[1..] == text;
      NewlinesAppend([text[0]], text[1..]);
      assert [text[0]][..0] == [];
      UpdatePosAsWritten(StepPosAsWritten(p, text[0]), text[1..])
  }

  lemma StepPosAfter(a: string, c: char)
    ensures StepPos(PositionAfter(a), c) == PositionAfter(a + [c])
  {
    assert (a + [c])[..|a + [c]| - 1] == a;
  }

  /** Updating incrementally agrees with reading from the start: after the
      text `a + b`, the position is what `b` moves the position after `a`
      to. So the sink's position is always the closed form of the text it
      has consumed. */
  lemma {:induction false} UpdatePosAfter(a: string, b: string)
    ensures UpdatePos(PositionAfter(a), b) == PositionAfter(a + b)
    decreases |b|
  {
    if b == [] {
      assert a + b == a;
    } else {
      var a' := a + [b[0]];
      assert UpdatePos(PositionAfter(a), b) == UpdatePos(StepPos(PositionAfter(a), b[0]), b[1..]);
      StepPosAfter(a, b[0]);
      UpdatePosAfter(a', b[1..]);
      assert a' + b[1..] == a + b;
    }
  }

  /** The as-written update and the corrected one agree on ASCII text. */
  lemma {:induction false} UpdatePosAscii(p: Position, text: string)
    requires forall i :: 0 <= i < |text| ==> text[i] as int < 0x80
    ensures UpdatePosAsWritten(p, text) == UpdatePos(p, text)
    decreases |text|
  {
    if text != [] {
      UpdatePosAscii(StepPos(p, text[0]), text[1..]);
    }
  }

  /** Byte length is additive and grows strictly with every character. */
  lemma {:induction false} ByteLenAppend(a: string, b: string)
    ensures ByteLen(a + b) == ByteLen(a) + ByteLen(b)
    decreases |b|
  {
    if b == [] {
      assert a + b == a;
    } else {
      var b' := b[..|b| - 1];
      assert (a + b)[..|a + b| - 1] == a + b';
      ByteLenAppend(a, b');
    }
  }

  lemma ByteLenPrefixStrict(s: string, i: nat, j: nat)
    requires i < j <= |s|
    ensures ByteLen(s[..i]) < ByteLen(s[..j])
  {
    assert s[..j] == s[..i] + s[i..j];
    ByteLenAppend(s[..i], s[i..j]);
    assert s[i..j] == s[i..j - 1] + [s[j - 1]];
    ByteLenAppend(s[i..j - 1], [s[j - 1]]);
    assert [s[j - 1]][..0] == [];
  }

  /** The character index at which byte offset `b` of `s` falls, when `b`
      is on a character boundary; searching upward from character `k`. */
  function CharIndexFrom(s: string, b: nat, k: nat): (r: Option<nat>)
    requires k <= |s| + 1
    ensures r.Some? ==> k <= r.value <= |s| && ByteLen(Prefix(s, r.value)) == b
    decreases |s| + 1 - k
  {
    if k > |s| then None
    else if ByteLen(s[..k]) == b then Some(k)
    else if ByteLen(s[..k]) > b then None
    else CharIndexFrom(s, b, k + 1)
  }

  function CharIndex(s: string, b: nat): (r: Option<nat>)
    ensures r.Some? ==> r.value <= |s| && ByteLen(Prefix(s, r.value)) == b
  {
    CharIndexFrom(s, b, 0)
  }

  /** Every character boundary is found, and only those. */
  lemma {:induction false} CharIndexFromFinds(s: string, k: nat, i: nat)
    requires k <= i <= |s|
    ensures CharIndexFrom(s, ByteLen(s[..i]), k) == Some(i)
    decreases i - k
  {
    if k < i {
      ByteLenPrefixStrict(s, k, i);
      CharIndexFromFinds(s, k + 1, i);
    }
  }

  lemma CharIndexFinds(s: string, i: nat)
    requires i <= |s|
    ensures CharIndex(s, ByteLen(s[..i])) == Some(i)
  {
    CharIndexFromFinds(s, 0, i);
  }

  // ---------------------------------------------------------------------
  // The sink.

  datatype TreeOp = OpenNode(kind: SyntaxKind) | CloseNode | AddToken(kind: SyntaxKind, text: string)

  /** A diagnostic: the message, the innermost open node (the ` in KIND`
      suffix of the formatted text), where it was reported and the length
      of the token there. */
  datatype Diagnostic = Diagnostic(msg: PE.Message, context: Option<SyntaxKind>, pos: Position, len: nat)

  /** Ways the output stage panics. */
  datatype SinkPanic = TokenIndexOutOfRange | BadSlice | ParentOutOfRange(at: nat) | ParentNotANode(at: nat)

  datatype Sink = Sink(
    tokenIndex: nat,
    position: Position,
    source: string,
    tokenLens: seq<nat>,
    errors: seq<Diagnostic>,
    context: seq<SyntaxKind>,
    ops: seq<TreeOp>)

  function NewSink(source: string, tokenLens: seq<nat>): Sink
  {
    Sink(0, Start, source, tokenLens, [], [], [])
  }

  /** `start_node`: the kind becomes the innermost context. */
  function StartNode(s: Sink, kind: SyntaxKind): (r: Sink)
    ensures r.context == s.context + [kind] && r.ops == s.ops + [OpenNode(kind)]
    ensures r.position == s.position && r.errors == s.errors && r.tokenIndex == s.tokenIndex
  {
    s.(context := s.context + [kind], ops := s.ops + [OpenNode(kind)])
  }

  /** `finish_node`: the innermost context is dropped (if any). */
  function FinishNode(s: Sink): (r: Sink)
    ensures |s.context| > 0 ==> r.context + [s.context[|s.context| - 1]] == s.context
    ensures |s.context| == 0 ==> r.context == []
    ensures r.ops == s.ops + [CloseNode]
    ensures r.position == s.position && r.errors == s.errors && r.tokenIndex == s.tokenIndex
  {
    s.(context := if |s.context| > 0 then s.context[..|s.context| - 1] else [],
       ops := s.ops + [CloseNode])
  }

  /** The sum of `n` token lengths from index `from`. */
  function SumLens(lens: seq<nat>, from: nat, n: nat): nat
    requires from + n <= |lens|
  {
    if n == 0 then 0 else SumLens(lens, from, n - 1) + lens[from + n - 1]
  }

  /** `text_in_range`: the source text from byte `offset` for `len` bytes;
      Rust's slicing panics unless both ends lie on character boundaries
      within the source. Returns the text and its character range. */
  function TextInRange(source: string, offset: nat, len: nat): (r: Result<(string, nat, nat), SinkPanic>)
    ensures r.Ok? <==> CharIndex(source, offset).Some? && CharIndex(source, offset + len).Some?
    ensures r.Err? ==> r.error == BadSlice
    ensures r.Ok? ==>
      var (text, i, j) := r.value;
      && i <= j <= |source| && text == source[i..j]
      && ByteLen(source[..i]) == offset && ByteLen(source[..j]) == offset + len
  {
    var i := CharIndex(source, offset);
    var j := CharIndex(source, offset + len);
    if i.None? || j.None? then Err(BadSlice)
    else
      assert i.value <= j.value by {
        if j.value < i.value { ByteLenPrefixStrict(source, j.value, i.value); }
      }
      Ok((source[i.value..j.value], i.value, j.value))
  }

  /** The part of `n_tokens` both versions share: the text the next `n`
      tokens cover, read at the sink's current offset. */
  function TokensText(s: Sink, n: nat): (r: Result<(string, nat, nat), SinkPanic>)
  {
    if s.tokenIndex + n > |s.tokenLens| then Err(TokenIndexOutOfRange)
    else TextInRange(s.source, s.position.offset, SumLens(s.tokenLens, s.tokenIndex, n))
  }

  /** `n_tokens` with the offset kept in bytes: the text is consumed and the
      position moves over it; only a non-ERROR token reaches the tree. */
  function NTokens(s: Sink, kind: SyntaxKind, n: nat): (r: Result<Sink, SinkPanic>)
    ensures r.Ok? <==> TokensText(s, n).Ok?
    ensures r.Ok? ==>
      var text := TokensText(s, n).value.0;
      && r.value.tokenIndex == s.tokenIndex + n
      && r.value.position == UpdatePos(s.position, text)
      && r.value.ops == s.ops + (if kind != ERROR then [AddToken(kind, text)] else [])
      && r.value.errors == s.errors && r.value.context == s.context
      && r.value.source == s.source && r.value.tokenLens == s.tokenLens
  {
    match TokensText(s, n)
    case Err(e) => Err(e)
    case Ok((text, _, _)) =>
      Ok(s.(position := UpdatePos(s.position, text),
            ops := s.ops + (if kind != ERROR then [AddToken(kind, text)] else []),
            tokenIndex := s.tokenIndex + n))
  }

  /** `n_tokens` as the source writes it: the offset advances by characters
      but is used as a byte index into the source. */
  function NTokensAsWritten(s: Sink, kind: SyntaxKind, n: nat): (r: Result<Sink, SinkPanic>)
    ensures r.Ok? <==> TokensText(s, n).Ok?
    ensures r.Ok? ==> r.value.position.offset == s.position.offset + |TokensText(s, n).value.0|
  {
    match TokensText(s, n)
    case Err(e) => Err(e)
    case Ok((text, _, _)) =>
      Ok(s.(position := UpdatePosAsWritten(s.position, text),
            ops := s.ops + (if kind != ERROR then [AddToken(kind, text)] else []),
            tokenIndex := s.tokenIndex + n))
  }

  /** The sink keeps pace with the source: a sink whose position is the
      position after the first `k` characters, and which has consumed the
      tokens covering exactly those, moves on to the position after the
      characters of the next tokens, which are the text it reads. */
  lemma NTokensStaysAligned(s: Sink, kind: SyntaxKind, n: nat, k: nat)
    requires k <= |s.source| && s.position == PositionAfter(s.source[..k])
    requires NTokens(s, kind, n).Ok?
    ensures var (text, i, j) := TokensText(s, n).value;
            && i == k && text == s.source[k..j]
            && NTokens(s, kind, n).value.position == PositionAfter(s.source[..j])
  {
    var (text, i, j) := TokensText(s, n).value;
    CharIndexFinds(s.source, k);
    assert i == k;
    UpdatePosAfter(s.source[..k], text);
    assert s.source[..k] + text == s.source[..j];
  }

  /** `error`: a diagnostic at the current position, unless the last one is
      already there. Reading the length of the current token panics past the
      last token. */
  function ReportError(s: Sink, msg: PE.Message): (r: Result<Sink, SinkPanic>)
    ensures |s.errors| > 0 && s.errors[|s.errors| - 1].pos == s.position ==> r == Ok(s)
    ensures !(|s.errors| > 0 && s.errors[|s.errors| - 1].pos == s.position) ==>
      && (r.Ok? <==> s.tokenIndex < |s.tokenLens|)
      && (r.Err? ==> r.error == TokenIndexOutOfRange)
      && (r.Ok? ==> r.value == s.(errors := s.errors + [Diagnostic(msg,
                                   if |s.context| > 0 then Some(s.context[|s.context| - 1]) else None,
                                   s.position, s.tokenLens[s.tokenIndex])]))
  {
    if |s.errors| > 0 && s.errors[|s.errors| - 1].pos == s.position then Ok(s)
    else if s.tokenIndex >= |s.tokenLens| then Err(TokenIndexOutOfRange)
    else
      var context := if |s.context| > 0 then Some(s.context[|s.context| - 1]) else None;
      Ok(s.(errors := s.errors + [Diagnostic(msg, context, s.position, s.tokenLens[s.tokenIndex])]))
  }

  /** No two consecutive diagnostics share a position. */
  predicate NoStackedErrors(errors: seq<Diagnostic>)
  {
    forall i :: 0 < i < |errors| ==> errors[i - 1].pos != errors[i].pos
  }

  lemma ReportErrorNoStacking(s: Sink, msg: PE.Message)
    requires NoStackedErrors(s.errors) && ReportError(s, msg).Ok?
    ensures NoStackedErrors(ReportError(s, msg).value.errors)
  {
  }

  // ---------------------------------------------------------------------
  // Replaying the events.

  /** How many elements of `s` satisfy `f`. */
  function CountIf(s: seq<PE.Event>, f: PE.Event -> bool): nat
  {
    if s == [] then 0 else (if f(s[0]) then 1 else 0) + CountIf(s[1..], f)
  }

  lemma {:induction false} CountIfUpdate(s: seq<PE.Event>, i: nat, e: PE.Event, f: PE.Event -> bool)
    requires i < |s|
    ensures CountIf(s[i := e], f) + (if f(s[i]) then 1 else 0) == CountIf(s, f) + (if f(e) then 1 else 0)
    decreases i
  {
    if i > 0 {
      assert s[i := e][1..] == s[1..][i - 1 := e];
      CountIfUpdate(s[1..], i - 1, e, f);
    } else {
      assert s[i := e][1..] == s[1..];
    }
  }

  /** A node start with a forward parent still to follow. */
  predicate Linked(e: PE.Event)
  {
    e.NodeStart? && e.forwardParent.Some?
  }

  /** A node start that opens a node when replayed. */
  predicate LiveStart(e: PE.Event)
  {
    e.NodeStart? && e.kind != TOMBSTONE
  }

  /** The number of kinds in `nodes` that are not tombstones. */
  function LiveKinds(nodes: seq<SyntaxKind>): nat
  {
    if nodes == [] then 0
    else LiveKinds(nodes[..|nodes| - 1]) + (if nodes[|nodes| - 1] != TOMBSTONE then 1 else 0)
  }

  /** The walk of `parse_impl` up a chain of forward parents: each parent's
      kind is collected, innermost first, and its event is replaced by a
      tombstone so that it is not started again. Since a tombstone has no
      forward parent, the walk ends even on a cyclic chain. */
  function Walk(events: seq<PE.Event>, parent: Option<nat>, nodes: seq<SyntaxKind>)
    : (r: Result<(seq<PE.Event>, seq<SyntaxKind>), SinkPanic>)
    ensures r.Ok? ==> |r.value.0| == |events|
    decreases CountIf(events, Linked), parent.Some?
  {
    if parent.None? then Ok((events, nodes))
    else
      var idx := parent.value;
      if idx >= |events| then Err(ParentOutOfRange(idx))
      else if !events[idx].NodeStart? then Err(ParentNotANode(idx))
      else
        CountIfUpdate(events, idx, PE.Tombstone, Linked);
        Walk(events[idx := PE.Tombstone], events[idx].forwardParent, nodes + [events[idx].kind])
  }

  /** The walk only retires events: every event it leaves changed is a
      tombstone, and each live start it retires is collected, so the live
      starts of the events plus the live kinds collected stay constant. */
  lemma {:induction false} WalkRetires(events: seq<PE.Event>, parent: Option<nat>, nodes: seq<SyntaxKind>)
    requires Walk(events, parent, nodes).Ok?
    ensures var (evs, ns) := Walk(events, parent, nodes).value;
            && (forall i :: 0 <= i < |events| ==> evs[i] == events[i] || (events[i].NodeStart? && evs[i] == PE.Tombstone))
            && CountIf(evs, LiveStart) + LiveKinds(ns) == CountIf(events, LiveStart) + LiveKinds(nodes)
            && |ns| >= |nodes| && ns[..|nodes|] == nodes
    decreases CountIf(events, Linked), parent.Some?
  {
    if parent.Some? {
      var idx := parent.value;
      var evs := events[idx := PE.Tombstone];
      var nodes' := nodes + [events[idx].kind];
      CountIfUpdate(events, idx, PE.Tombstone, Linked);
      CountIfUpdate(events, idx, PE.Tombstone, LiveStart);
      assert nodes'[..|nodes'| - 1] == nodes;
      WalkRetires(evs, events[idx].forwardParent, nodes');
      var (evs2, ns) := Walk(evs, events[idx].forwardParent, nodes').value;
      assert ns[..|nodes|] == ns[..|nodes'|][..|nodes|];
    }
  }

  /** When forward parents point forward to node starts (as the parser
      builds them), the walk never panics, and it keeps that shape. */
  lemma {:induction false} WalkSucceeds(events: seq<PE.Event>, from: nat, parent: Option<nat>, nodes: seq<SyntaxKind>)
    requires PE.ForwardParentsLater(events)
    requires parent.Some? ==> from < parent.value < |events| && events[parent.value].NodeStart?
    ensures Walk(events, parent, nodes).Ok?
    ensures PE.ForwardParentsLater(Walk(events, parent, nodes).value.0)
    decreases CountIf(events, Linked), parent.Some?
  {
    if parent.Some? {
      var idx := parent.value;
      var evs := events[idx := PE.Tombstone];
      CountIfUpdate(events, idx, PE.Tombstone, Linked);
      TombstoneKeepsForwardParents(events, idx);
      WalkSucceeds(evs, idx, events[idx].forwardParent, nodes + [events[idx].kind]);
    }
  }

  lemma TombstoneKeepsForwardParents(events: seq<PE.Event>, idx: nat)
    requires PE.ForwardParentsLater(events) && idx < |events|
    ensures PE.ForwardParentsLater(events[idx := PE.Tombstone])
  {
    var evs := events[idx := PE.Tombstone];
    forall i | 0 <= i < |evs| && evs[i].NodeStart? && evs[i].forwardParent.Some?
      ensures i < evs[i].forwardParent.value < |evs| && evs[evs[i].forwardParent.value].NodeStart?
    {
      assert evs[i] == events[i];
    }
  }

  /** Start the collected nodes outermost first, skipping tombstones. */
  function StartAll(s: Sink, nodes: seq<SyntaxKind>): (r: Sink)
    ensures r.position == s.position && r.errors == s.errors && r.tokenIndex == s.tokenIndex
    ensures r.source == s.source && r.tokenLens == s.tokenLens
    decreases |nodes|
  {
    if nodes == [] then s
    else
      var last := nodes[|nodes| - 1];
      StartAll(if last != TOMBSTONE then StartNode(s, last) else s, nodes[..|nodes| - 1])
  }

  /** The node kinds of a sequence of tree operations that open a node. */
  function Opened(ops: seq<TreeOp>): seq<SyntaxKind>
  {
    if ops == [] then []
    else Opened(ops[..|ops| - 1]) + (if ops[|ops| - 1].OpenNode? then [ops[|ops| - 1].kind] else [])
  }

  /** The opposite order of a sequence of kinds, without its tombstones. */
  function ReverseLive(nodes: seq<SyntaxKind>): (r: seq<SyntaxKind>)
    ensures |r| == LiveKinds(nodes)
  {
    if nodes == [] then []
    else (if nodes[|nodes| - 1] != TOMBSTONE then [nodes[|nodes| - 1]] else []) + ReverseLive(nodes[..|nodes| - 1])
  }

  lemma OpenedAppend(ops: seq<TreeOp>, op: TreeOp)
    ensures Opened(ops + [op]) == Opened(ops) + (if op.OpenNode? then [op.kind] else [])
  {
    assert (ops + [op])[..|ops + [op]| - 1] == ops;
  }

  /** Collected nodes are opened outermost first: in the reverse of the
      order the walk collected them, tombstones left out. */
  lemma {:induction false} StartAllOpens(s: Sink, nodes: seq<SyntaxKind>)
    ensures Opened(StartAll(s, nodes).ops) == Opened(s.ops) + ReverseLive(nodes)
    decreases |nodes|
  {
    if nodes != [] {
      var last := nodes[|nodes| - 1];
      var s' := if last != TOMBSTONE then StartNode(s, last) else s;
      if last != TOMBSTONE {
        OpenedAppend(s.ops, OpenNode(last));
      }
      StartAllOpens(s', nodes[..|nodes| - 1]);
    }
  }

  /** The number of node closings in a sequence of tree operations. */
  function Closed(ops: seq<TreeOp>): nat
  {
    if ops == [] then 0 else Closed(ops[..|ops| - 1]) + (if ops[|ops| - 1] == CloseNode then 1 else 0)
  }

  /** The loop of `parse_impl` from event `i` on: each event is taken out
      (leaving a tombstone) and handed to the sink; a node start first
      gathers its chain of forward parents. */
  function Replay(events: seq<PE.Event>, i: nat, s: Sink): (r: Result<Sink, SinkPanic>)
    requires i <= |events|
    ensures r.Ok? ==> r.value.source == s.source && r.value.tokenLens == s.tokenLens
    decreases |events| - i
  {
    if i == |events| then Ok(s)
    else
      var evs := events[i := PE.Tombstone];
      if events[i].NodeStart? then
        match Walk(evs, events[i].forwardParent, [events[i].kind])
        case Err(e) => Err(e)
        case Ok((evs', nodes)) => Replay(evs', i + 1, StartAll(s, nodes))
      else
        match Replay1(events[i], s)
        case Err(e) => Err(e)
        case Ok(s') => Replay(evs, i + 1, s')
  }

  /** `parse`: replay the parser's events into a fresh sink. */
  function Run(events: seq<PE.Event>, source: string, tokenLens: seq<nat>): (r: Result<Sink, SinkPanic>)
    ensures r.Ok? ==> r.value.source == source && r.value.tokenLens == tokenLens
    ensures r.Ok? ==> |Opened(r.value.ops)| == CountIf(events, LiveStart)
    ensures r.Ok? ==> Closed(r.value.ops) == CountIf(events, IsFinish)
  {
    var r := Replay(events, 0, NewSink(source, tokenLens));
    if r.Ok? then ReplayBalances(events, 0, NewSink(source, tokenLens)); r
    else r
  }

  predicate IsFinish(e: PE.Event)
  {
    e == PE.NodeFinish
  }

  /** Everything before event `i` has been taken out already. */
  predicate Retired(events: seq<PE.Event>, i: nat)
  {
    forall j :: 0 <= j < i && j < |events| ==> events[j] == PE.Tombstone
  }

  lemma WalkKeepsFinishes(events: seq<PE.Event>, evs: seq<PE.Event>)
    requires |evs| == |events|
    requires forall i :: 0 <= i < |events| ==> evs[i] == events[i] || (events[i].NodeStart? && evs[i] == PE.Tombstone)
    ensures CountIf(evs, IsFinish) == CountIf(events, IsFinish)
    decreases |events|
  {
    if events != [] {
      WalkKeepsFinishes(events[1..], evs[1..]);
    }
  }

  /** Every node start the parser left in place opens exactly one node, and
      every finish event closes one: a successful replay opens as many nodes
      as there are live node starts among the events, and closes as many as
      there are finish events. */
  lemma {:induction false} ReplayBalances(events: seq<PE.Event>, i: nat, s: Sink)
    requires i <= |events| && Retired(events, i) && Replay(events, i, s).Ok?
    ensures |Opened(Replay(events, i, s).value.ops)| == |Opened(s.ops)| + CountIf(events, LiveStart)
    ensures Closed(Replay(events, i, s).value.ops) == Closed(s.ops) + CountIf(events, IsFinish)
    decreases |events| - i, 1
  {
    if i == |events| {
      RetiredCountsNothing(events);
    } else {
      var evs := events[i := PE.Tombstone];
      CountIfUpdate(events, i, PE.Tombstone, LiveStart);
      CountIfUpdate(events, i, PE.Tombstone, IsFinish);
      assert Retired(evs, i + 1);
      if events[i].NodeStart? {
        ReplayBalancesStart(events, i, s);
      } else {
        var s' := Replay1(events[i], s).value;
        assert Replay(events, i, s) == Replay(evs, i + 1, s');
        Replay1Balances(events[i], s);
        ReplayBalances(evs, i + 1, s');
      }
    }
  }

  /** The sink's handling of one event other than a node start. */
  function Replay1(e: PE.Event, s: Sink): Result<Sink, SinkPanic>
    requires !e.NodeStart?
  {
    match e
    case NodeFinish => Ok(FinishNode(s))
    case Tokens(kind, n) => NTokens(s, kind, n)
    case Error(msg) => ReportError(s, msg)
  }

  lemma Replay1Balances(e: PE.Event, s: Sink)
    requires !e.NodeStart? && Replay1(e, s).Ok?
    ensures |Opened(Replay1(e, s).value.ops)| == |Opened(s.ops)|
    ensures Closed(Replay1(e, s).value.ops) == Closed(s.ops) + (if IsFinish(e) then 1 else 0)
  {
    match e
    case NodeFinish =>
      OpenedAppend(s.ops, CloseNode);
      ClosedAppend(s.ops, CloseNode);
    case Tokens(kind, n) =>
      if kind != ERROR {
        OpenedAppend(s.ops, AddToken(kind, TokensText(s, n).value.0));
        ClosedAppend(s.ops, AddToken(kind, TokensText(s, n).value.0));
      } else {
        assert s.ops + [] == s.ops;
      }
    case Error(msg) =>
  }

  lemma {:induction false} ReplayBalancesStart(events: seq<PE.Event>, i: nat, s: Sink)
    requires i < |events| && events[i].NodeStart? && Retired(events, i) && Replay(events, i, s).Ok?
    ensures |Opened(Replay(events, i, s).value.ops)| == |Opened(s.ops)| + CountIf(events, LiveStart)
    ensures Closed(Replay(events, i, s).value.ops) == Closed(s.ops) + CountIf(events, IsFinish)
    decreases |events| - i, 0
  {
    var evs := events[i := PE.Tombstone];
    CountIfUpdate(events, i, PE.Tombstone, LiveStart);
    CountIfUpdate(events, i, PE.Tombstone, IsFinish);
    var kind := events[i].kind;
    var parent := events[i].forwardParent;
    var (evs', nodes) := Walk(evs, parent, [kind]).value;
    assert Replay(events, i, s) == Replay(evs', i + 1, StartAll(s, nodes));
    WalkRetires(evs, parent, [kind]);
    WalkKeepsFinishes(evs, evs');
    StartAllOpens(s, nodes);
    StartAllCloses(s, nodes);
    assert [kind][..0] == [];
    assert Retired(evs', i + 1);
    ReplayBalances(evs', i + 1, StartAll(s, nodes));
  }

  lemma {:induction false} RetiredCountsNothing(events: seq<PE.Event>)
    requires Retired(events, |events|)
    ensures CountIf(events, LiveStart) == 0 && CountIf(events, IsFinish) == 0
    decreases |events|
  {
    if events != [] {
      assert events[0] == PE.Tombstone;
      RetiredCountsNothing(events[1..]);
    }
  }

  lemma ClosedAppend(ops: seq<TreeOp>, op: TreeOp)
    ensures Closed(ops + [op]) == Closed(ops) + (if op == CloseNode then 1 else 0)
  {
    assert (ops + [op])[..|ops + [op]| - 1] == ops;
  }

  lemma {:induction false} StartAllCloses(s: Sink, nodes: seq<SyntaxKind>)
    ensures Closed(StartAll(s, nodes).ops) == Closed(s.ops)
    decreases |nodes|
  {
    if nodes != [] {
      var last := nodes[|nodes| - 1];
      if last != TOMBSTONE {
        ClosedAppend(s.ops, OpenNode(last));
      }
      StartAllCloses(if last != TOMBSTONE then StartNode(s, last) else s, nodes[..|nodes| - 1]);
    }
  }

  /** Events the parser builds (forward parents pointing forward to node
      starts) never make the replay panic over a parent: the only panics
      left are those of reading token lengths and source text. */
  lemma {:induction false} ReplayFollowsParents(events: seq<PE.Event>, i: nat, s: Sink)
    requires i <= |events| && PE.ForwardParentsLater(events)
    ensures Replay(events, i, s).Err? ==> Replay(events, i, s).error in {TokenIndexOutOfRange, BadSlice}
    decreases |events| - i
  {
    if i < |events| {
      var evs := events[i := PE.Tombstone];
      TombstoneKeepsForwardParents(events, i);
      if events[i].NodeStart? {
        var parent := events[i].forwardParent;
        if parent.Some? {
          assert evs[parent.value] == events[parent.value];
        }
        WalkSucceeds(evs, i, parent, [events[i].kind]);
        var (evs', nodes) := Walk(evs, parent, [events[i].kind]).value;
        ReplayFollowsParents(evs', i + 1, StartAll(s, nodes));
      } else if Replay1(events[i], s).Ok? {
        Replay1Fails(events[i], s);
        ReplayFollowsParents(evs, i + 1, Replay1(events[i], s).value);
      } else {
        Replay1Fails(events[i], s);
      }
    }
  }

  lemma Replay1Fails(e: PE.Event, s: Sink)
    requires !e.NodeStart?
    ensures Replay1(e, s).Err? ==> Replay1(e, s).error in {TokenIndexOutOfRange, BadSlice}
  {
  }

  /** A chain of forward parents `a -> b -> c`, as `precede` leaves it,
      opens `c` outside `b` outside `a`, each once. */
  lemma ForwardParentsNestOutward(a: SyntaxKind, b: SyntaxKind, c: SyntaxKind, source: string, lens: seq<nat>)
    requires a != TOMBSTONE && b != TOMBSTONE && c != TOMBSTONE
    ensures var events := [PE.NodeStart(a, Some(1)), PE.NodeStart(b, Some(2)), PE.NodeStart(c, None)];
            && Run(events, source, lens).Ok?
            && Run(events, source, lens).value.ops == [OpenNode(c), OpenNode(b), OpenNode(a)]
  {
    var events := [PE.NodeStart(a, Some(1)), PE.NodeStart(b, Some(2)), PE.NodeStart(c, None)];
    var t := PE.Tombstone;
    var e3 := [t, t, t];
    var s0 := NewSink(source, lens);
    NestWalk(a, b, c);
    var s1 := StartAll(s0, [a, b, c]);
    NestStart(s0, a, b, c);
    ReplayTombstones(e3, 1, s1);
    assert Replay(events, 0, s0) == Replay(e3, 1, s1);
  }

  /** The walk from the first start of the chain collects all three kinds
      and leaves only tombstones. */
  lemma NestWalk(a: SyntaxKind, b: SyntaxKind, c: SyntaxKind)
    ensures var t := PE.Tombstone;
            var events := [PE.NodeStart(a, Some(1)), PE.NodeStart(b, Some(2)), PE.NodeStart(c, None)];
            Walk(events[0 := t], Some(1), [a]) == Ok(([t, t, t], [a, b, c]))
  {
    var t := PE.Tombstone;
    var e1 := [t, PE.NodeStart(b, Some(2)), PE.NodeStart(c, None)];
    var e2 := [t, t, PE.NodeStart(c, None)];
    var e3 := [t, t, t];
    assert [PE.NodeStart(a, Some(1)), PE.NodeStart(b, Some(2)), PE.NodeStart(c, None)][0 := t] == e1;
    assert e1[1 := t] == e2 && e2[2 := t] == e3;
    assert [a] + [b] == [a, b] && [a, b] + [c] == [a, b, c];
    WalkStep(e1, 1, [a]);
    WalkStep(e2, 2, [a, b]);
  }

  lemma WalkStep(events: seq<PE.Event>, idx: nat, nodes: seq<SyntaxKind>)
    requires idx < |events| && events[idx].NodeStart?
    ensures Walk(events, Some(idx), nodes)
         == Walk(events[idx := PE.Tombstone], events[idx].forwardParent, nodes + [events[idx].kind])
  {
  }

  /** Starting the collected kinds opens the last collected first. */
  lemma NestStart(s: Sink, a: SyntaxKind, b: SyntaxKind, c: SyntaxKind)
    requires a != TOMBSTONE && b != TOMBSTONE && c != TOMBSTONE
    ensures StartAll(s, [a, b, c]).ops == s.ops + [OpenNode(c), OpenNode(b), OpenNode(a)]
  {
    assert [a, b, c][..2] == [a, b] && [a, b][..1] == [a] && [a][..0] == [];
    var s1 := StartNode(s, c);
    var s2 := StartNode(s1, b);
    var s3 := StartNode(s2, a);
    assert StartAll(s, [a, b, c]) == StartAll(s1, [a, b]);
    assert StartAll(s1, [a, b]) == StartAll(s2, [a]);
    assert StartAll(s2, [a]) == StartAll(s3, []);
  }

  /** Events that are all tombstones replay to nothing. */
  lemma {:induction false} ReplayTombstones(events: seq<PE.Event>, i: nat, s: Sink)
    requires i <= |events|
    requires forall j :: i <= j < |events| ==> events[j] == PE.Tombstone
    ensures Replay(events, i, s) == Ok(s)
    decreases |events| - i
  {
    if i < |events| {
      assert events[i := PE.Tombstone] == events;
      assert Walk(events, None, [TOMBSTONE]) == Ok((events, [TOMBSTONE]));
      assert StartAll(s, [TOMBSTONE]) == s by {
        assert [TOMBSTONE][..0] == [];
      }
      ReplayTombstones(events, i + 1, s);
    }
  }

  /** The source `// é` and a newline: a comment of five bytes (four
      characters) and a newline. */
  const AccentComment: string := "// \U{E9}\n"

  /** Byte offsets and character boundaries of the source `// é`. */
  lemma AccentCommentBytes()
    ensures ByteLen(AccentComment[..4]) == 5 && ByteLen(AccentComment[..5]) == 6
    ensures CharIndex(AccentComment, 0) == Some(0)
    ensures CharIndex(AccentComment, 5) == Some(4)
    ensures CharIndex(AccentComment, 6) == Some(5)
    ensures CharIndex(AccentComment, 4) == None
  {
    var src := AccentComment;
    assert src[..0] == [] && src[..1] == ['/'] && src[..2] == ['/', '/'] && src[..3] == ['/', '/', ' '];
    assert src[..3][..2] == src[..2] && src[..2][..1] == src[..1] && src[..1][..0] == [];
    assert src[..4][..3] == src[..3] && src[..5][..4] == src[..4];
    assert ByteLen(src[..1]) == 1;
    assert ByteLen(src[..2]) == 2;
    assert ByteLen(src[..3]) == 3;
    assert ByteLen(src[..4]) == 5;
    assert ByteLen(src[..5]) == 6;
    CharIndexFinds(src, 0);
    CharIndexFinds(src, 4);
    CharIndexFinds(src, 5);
    assert CharIndexFrom(src, 4, 5) == None;
    assert CharIndexFrom(src, 4, 4) == None;
    assert CharIndexFrom(src, 4, 3) == None;
    assert CharIndexFrom(src, 4, 2) == None;
    assert CharIndexFrom(src, 4, 1) == None;
  }

  /** As written, the offset after the comment counts four characters but
      is used as a byte index: it falls inside the two bytes of `é`, and
      reading the newline's text panics. */
  lemma AccentCommentAsWritten()
    ensures var s0 := NewSink(AccentComment, [5, 1]);
            && NTokensAsWritten(s0, COMMENT, 1).Ok?
            && NTokensAsWritten(NTokensAsWritten(s0, COMMENT, 1).value, EOL, 1) == Err(BadSlice)
  {
    AccentCommentBytes();
    var s0 := NewSink(AccentComment, [5, 1]);
    assert SumLens([5, 1], 0, 1) == 5;
    assert TokensText(s0, 1).Ok?;
    var s1 := NTokensAsWritten(s0, COMMENT, 1).value;
    assert s1.position.offset == 4 && s1.tokenIndex == 1 && s1.tokenLens == [5, 1] && s1.source == AccentComment;
    assert SumLens([5, 1], 1, 1) == 1;
    assert TokensText(s1, 1) == TextInRange(AccentComment, 4, 1);
  }

  /** With the offset kept in bytes the same source replays cleanly: the
      tree receives the comment and the newline, and together they spell
      the source. */
  lemma AccentCommentReplays()
    ensures var r := Run([PE.Tokens(COMMENT, 1), PE.Tokens(EOL, 1)], AccentComment, [5, 1]);
            && r.Ok?
            && r.value.ops == [AddToken(COMMENT, AccentComment[..4]), AddToken(EOL, "\n")]
            && r.value.position == PositionAfter(AccentComment)
  {
    var events := [PE.Tokens(COMMENT, 1), PE.Tokens(EOL, 1)];
    var s0 := NewSink(AccentComment, [5, 1]);
    AccentCommentFirst(s0);
    var s1 := NTokens(s0, COMMENT, 1).value;
    AccentCommentSecond(s1);
    ReplayTwoTokens(events, s0);
    RunIsReplay(events, AccentComment, [5, 1]);
  }

  /** Two tokens events replay as two `n_tokens` calls in a row. */
  lemma ReplayTwoTokens(events: seq<PE.Event>, s0: Sink)
    requires |events| == 2 && events[0].Tokens? && events[1].Tokens?
    requires NTokens(s0, events[0].tokenKind, events[0].count).Ok?
    requires NTokens(NTokens(s0, events[0].tokenKind, events[0].count).value, events[1].tokenKind, events[1].count).Ok?
    ensures Replay(events, 0, s0)
         == NTokens(NTokens(s0, events[0].tokenKind, events[0].count).value, events[1].tokenKind, events[1].count)
  {
    var s1 := NTokens(s0, events[0].tokenKind, events[0].count).value;
    var s2 := NTokens(s1, events[1].tokenKind, events[1].count).value;
    ReplayTokens(events, 0, s0);
    var e1 := events[0 := PE.Tombstone];
    ReplayTokens(e1, 1, s1);
  }

  /** Running the events is replaying them from a new sink. */
  lemma RunIsReplay(events: seq<PE.Event>, source: string, tokenLens: seq<nat>)
    ensures Run(events, source, tokenLens) == Replay(events, 0, NewSink(source, tokenLens))
  {
  }

  /** A tokens event is replayed by the sink's `n_tokens`. */
  lemma ReplayTokens(events: seq<PE.Event>, i: nat, s: Sink)
    requires i < |events| && events[i].Tokens?
    requires NTokens(s, events[i].tokenKind, events[i].count).Ok?
    ensures Replay(events, i, s)
         == Replay(events[i := PE.Tombstone], i + 1, NTokens(s, events[i].tokenKind, events[i].count).value)
  {
  }

  /** The comment's five bytes are its first four characters. */
  lemma AccentCommentFirst(s0: Sink)
    requires s0 == NewSink(AccentComment, [5, 1])
    ensures NTokens(s0, COMMENT, 1).Ok?
    ensures var s1 := NTokens(s0, COMMENT, 1).value;
            && s1.ops == [AddToken(COMMENT, AccentComment[..4])]
            && s1.position == PositionAfter(AccentComment[..4])
            && s1.tokenIndex == 1 && s1.source == AccentComment && s1.tokenLens == [5, 1]
  {
    AccentCommentBytes();
    assert SumLens([5, 1], 0, 1) == 5;
    FirstTokensFromStart(s0, COMMENT, 1, 4);
  }

  /** The first `n` tokens of a fresh sink, ending on character boundary
      `j`, are the source up to `j`. */
  lemma FirstTokensFromStart(s: Sink, kind: SyntaxKind, n: nat, j: nat)
    requires s.position == Start && s.tokenIndex == 0 && n <= |s.tokenLens| && kind != ERROR
    requires CharIndex(s.source, 0) == Some(0) && CharIndex(s.source, SumLens(s.tokenLens, 0, n)) == Some(j)
    ensures NTokens(s, kind, n).Ok?
    ensures var s1 := NTokens(s, kind, n).value;
            && j <= |s.source|
            && s1.ops == s.ops + [AddToken(kind, s.source[..j])]
            && s1.position == PositionAfter(s.source[..j])
            && s1.tokenIndex == n && s1.source == s.source && s1.tokenLens == s.tokenLens
  {
    assert TokensText(s, n).Ok?;
    var (text, i, j') := TokensText(s, n).value;
    assert s.source[..0] == [];
    NTokensStaysAligned(s, kind, n, 0);
    CharIndexFinds(s.source, j');
    assert j' == j;
    assert text == s.source[..j];
  }

  /** The newline's byte follows, and the position reaches the end. */
  lemma AccentCommentSecond(s1: Sink)
    requires s1.position == PositionAfter(AccentComment[..4])
    requires s1.tokenIndex == 1 && s1.source == AccentComment && s1.tokenLens == [5, 1]
    ensures NTokens(s1, EOL, 1).Ok?
    ensures var s2 := NTokens(s1, EOL, 1).value;
            && s2.ops == s1.ops + [AddToken(EOL, "\n")]
            && s2.position == PositionAfter(AccentComment)
  {
    var src := AccentComment;
    AccentCommentBytes();
    assert src[..5] == src;
    assert SumLens([5, 1], 1, 1) == 1;
    assert TokensText(s1, 1) == Ok((src[4..5], 4, 5));
    NTokensStaysAligned(s1, EOL, 1, 4);
    assert src[4..5] == "\n";
  }

  // ---------------------------------------------------------------------
  // Running the recorded operations on the green builder.

  /** One tree operation on the green builder; closing fails as
      `finish_node` does. */
  function ApplyOp(b: G.Builder, op: TreeOp): Option<G.Builder>
  {
    match op
    case OpenNode(kind) => Some(G.StartNode(b, kind))
    case CloseNode => G.FinishNode(b)
    case AddToken(kind, text) => Some(G.AddToken(b, kind, text))
  }

  /** The operations applied in order; the first failing close fails it all. */
  function Build(b: G.Builder, ops: seq<TreeOp>): Option<G.Builder>
  {
    if ops == [] then Some(b)
    else match Build(b, ops[..|ops| - 1])
      case None => None
      case Some(b1) => ApplyOp(b1, ops[|ops| - 1])
  }

  /** No prefix of `ops` closes more nodes than `open` plus the ones it opened. */
  predicate NestsUnder(open: nat, ops: seq<TreeOp>)
  {
    forall k :: 0 <= k <= |ops| ==> Closed(ops[..k]) <= open + |Opened(ops[..k])|
  }

  /** On a well-formed builder, operations that never close more than is
      open all succeed, keep the builder well-formed and leave open what
      was open plus what they opened minus what they closed. */
  lemma {:induction false} BuildNested(b: G.Builder, ops: seq<TreeOp>)
    requires G.WF(b) && NestsUnder(|b.parents|, ops)
    ensures Build(b, ops).Some?
    ensures G.WF(Build(b, ops).value)
    ensures |Build(b, ops).value.parents| + Closed(ops) == |b.parents| + |Opened(ops)|
    decreases |ops|
  {
    if ops != [] {
      var n := |ops|;
      var init := ops[..n - 1];
      var op := ops[n - 1];
      assert ops == init + [op];
      forall k | 0 <= k <= |init|
        ensures Closed(init[..k]) <= |b.parents| + |Opened(init[..k])|
      {
        assert init[..k] == ops[..k];
      }
      BuildNested(b, init);
      var b1 := Build(b, init).value;
      OpenedAppend(init, op);
      ClosedAppend(init, op);
      match op {
        case OpenNode(kind) => G.StartNodeKeepsWF(b1, kind);
        case AddToken(kind, text) => G.AddTokenKeepsWF(b1, kind, text);
        case CloseNode =>
          assert ops[..n] == ops;
          assert |b1.parents| > 0;
          assert G.FinishNode(b1).Some?;
          G.FinishNodeKeepsWF(b1);
      }
    }
  }

  /** A sequence that closes exactly what it opens and never more than is
      open builds, from the empty green builder, a well-formed builder with
      no node left open; whatever `finish` then returns is a well-formed
      tree. */
  lemma NestedOpsBuild(ops: seq<TreeOp>)
    requires NestsUnder(0, ops) && Closed(ops) == |Opened(ops)|
    ensures Build(G.NewBuilder(), ops).Some?
    ensures var b := Build(G.NewBuilder(), ops).value;
            && G.WF(b) && b.parents == []
            && (G.Finish(b).Some? ==> G.NodeWF(G.Finish(b).value))
  {
    G.NewBuilderWF();
    BuildNested(G.NewBuilder(), ops);
    var b := Build(G.NewBuilder(), ops).value;
    if G.Finish(b).Some? {
      G.FinishIsWF(b);
    }
  }
}

=== FILE: pow2.dfy ===
/**
  Powers of two and shifts written as division by them. Kept apart from
  the limb arithmetic so that the 2^64 radix constant is not in scope of
  these proofs.
 */
module Pow2s {
  import opened Arith

  function Pow2(n: nat): (r: nat)
    ensures r >= 1
  {
    if n == 0 then 1 else 2 * Pow2(n - 1)
  }

  lemma {:induction false} Pow2Add(a: nat, b: nat)
    ensures Pow2(a + b) == Pow2(a) * Pow2(b)
  {
    if a > 0 {
      Pow2Add(a - 1, b);
    }
  }

  lemma Pow2Monotone(a: nat, b: nat)
    requires a <= b
    ensures Pow2(a) <= Pow2(b)
  {
    Pow2Add(a, b - a);
    MulNonneg(Pow2(a), Pow2(b - a) - 1);
  }

  /** Powers of two are ordered as their exponents. */
  lemma Pow2Ordered(a: nat, b: nat)
    ensures a <= b ==> Pow2(a) <= Pow2(b)
  {
    if a <= b {
      Pow2Monotone(a, b);
    }
  }

  lemma Pow2SixtyFour()
    ensures Pow2(64) == 0x1_0000_0000_0000_0000
  {
    assert Pow2(2) == 4;
    Pow2Add(2, 2);
    Pow2Add(4, 4);
    assert Pow2(8) == 256;
    Pow2Add(8, 8);
    assert Pow2(16) == 0x1_0000;
    Pow2Add(16, 16);
    assert Pow2(32) == 0x1_0000_0000;
    Pow2Add(32, 32);
  }

  /** A number v = a + t * 2^m whose low part a is below 2^m has the bit
      length b = m + w of its top part t plus m: with t below 2^w, v is
      below 2^b, and with t at least 2^(w-1), v is at least 2^(b-1). */
  lemma TopBits(v: nat, a: nat, t: nat, m: nat, w: nat, b: nat)
    requires v == a + t * Pow2(m) && b == m + w
    requires a < Pow2(m) && t < Pow2(w)
    requires w > 0 ==> Pow2(w - 1) <= t
    ensures v < Pow2(b)
    ensures t > 0 ==> Pow2(b - 1) <= v
  {
    Pow2Add(m, w);
    TopBelow(a, t, Pow2(m), Pow2(w));
    if t > 0 {
      var k: nat := w - 1;
      Pow2Add(m, k);
      TopAbove(a, t, Pow2(m), Pow2(k));
    }
  }

  /** `v >> k`. */
  function DropLowBits(v: nat, k: nat): nat
  {
    Quotient(v, Pow2(k))
  }

  /** `v & ((1 << k) - 1)`: the low k bits. */
  function LowBits(v: nat, k: nat): nat
  {
    Remainder(v, Pow2(k))
  }

  function Quotient(v: nat, d: nat): nat
    requires d > 0
  {
    v / d
  }

  function Remainder(v: nat, d: nat): nat
    requires d > 0
  {
    v % d
  }

  /** Shifting by a sum of counts is shifting by one, then the other. */
  lemma DropLowBitsTwice(v: nat, a: nat, b: nat)
    ensures DropLowBits(DropLowBits(v, a), b) == DropLowBits(v, a + b)
  {
    Pow2Add(a, b);
    DivDiv(v, Pow2(a), Pow2(b));
  }

  /** A value below 2^(a+b) keeps fewer than b bits after dropping a. */
  lemma DropLowBitsBelow(v: nat, a: nat, b: nat)
    requires v < Pow2(a + b)
    ensures DropLowBits(v, a) < Pow2(b)
  {
    Pow2Add(a, b);
    DivBelow(v, Pow2(a), Pow2(b));
  }

  /** Shifting by zero changes nothing. */
  lemma DropNoBits(v: nat)
    ensures DropLowBits(v, 0) == v
  {
    assert Pow2(0) == 1;
  }

  /** A value below 2^k shifts to zero. */
  lemma DropLowBitsSmall(v: nat, k: nat)
    requires v < Pow2(k)
    ensures DropLowBits(v, k) == 0
  {
    DivSmall(v, Pow2(k));
  }

  /** Shifting r + 2^k * q right by k, with r below 2^k, leaves q. */
  lemma DropLowBitsExact(v: nat, k: nat, q: nat, r: nat)
    requires r < Pow2(k) && v == Pow2(k) * q + r
    ensures DropLowBits(v, k) == q
  {
    DivMulUnique(v, Pow2(k), q, r);
  }

  /** Shifting `v` left by s inside a word of s + t bits: the bits kept in
      the word plus the top t bits of `v`, which spill out, make v * 2^s. */
  lemma ShiftLeftSplit(v: nat, s: nat, t: nat)
    ensures LowBits(v * Pow2(s), s + t) + Pow2(s + t) * DropLowBits(v, t) == v * Pow2(s)
  {
    var S, T := Pow2(s), Pow2(t);
    Pow2Add(s, t);
    var n := v * S;
    assert n == Pow2(s + t) * (n / Pow2(s + t)) + n % Pow2(s + t);
    DivMulUnique(n, S, v, 0);
    DivDiv(n, S, T);
    assert S * T == T * S;
  }

  /** Shifting right never increases a value. */
  lemma DropLowBitsLe(v: nat, k: nat)
    ensures DropLowBits(v, k) <= v
  {
    DivLe(v, Pow2(k));
  }

  /** The bits of `lo` above s moved down, plus the low s bits of `hi` placed
      above them, fit in the limb base B = S * T. */
  lemma ShiftedLimbBound(lo: nat, hi: nat, S: nat, T: nat)
    requires S > 0 && T > 0 && lo < S * T
    ensures lo / S + (hi % S) * T < S * T
  {
    DivBelow(lo, S, T);
    MulMonotone(T, hi % S, S - 1);
    assert T * (S - 1) == S * T - T;
  }

  /** The same bound for a limb of s + t bits, stated on shifts. */
  lemma ShiftedBitsBound(lo: nat, hi: nat, s: nat, t: nat)
    requires lo < Pow2(s + t)
    ensures DropLowBits(lo, s) + LowBits(hi, s) * Pow2(t) < Pow2(s + t)
  {
    Pow2Add(s, t);
    ShiftedLimbBound(lo, hi, Pow2(s), Pow2(t));
  }

  /** The limb-wise step in terms of shifts by s within limbs of s + t bits:
      shifting p0 + B * v1 is the shifted low limb, the low bits of the next
      limb n moved to its top, and B times the shifted rest. */
  lemma ShiftStep(p0: nat, v1: nat, n: nat, w: nat, s: nat, t: nat)
    requires v1 == n + Pow2(s + t) * w
    ensures DropLowBits(p0, s) + LowBits(n, s) * Pow2(t) + Pow2(s + t) * DropLowBits(v1, s)
         == DropLowBits(p0 + Pow2(s + t) * v1, s)
  {
    Pow2Add(s, t);
    ShiftCombine(p0, v1, n, w, Pow2(s), Pow2(t), Pow2(s + t));
  }

  /** One step of a limb-wise right shift: the written limb plus the shifted
      rest equal the shifted whole, where B = S * T is the limb base. */
  lemma ShiftCombine(p0: nat, v1: nat, n: nat, w: nat, S: nat, T: nat, B: nat)
    requires S > 0 && T > 0 && B == S * T && v1 == n + B * w
    ensures p0 / S + (n % S) * T + B * (v1 / S) == (p0 + B * v1) / S
  {
    DivAddMultiple(p0, S, T * v1);
    assert B * v1 == S * (T * v1);
    DivAddMultiple(n, S, T * w);
    assert v1 == n + S * (T * w);
    var q1 := v1 / S;
    assert v1 == S * q1 + n % S;
    assert T * v1 == B * q1 + (n % S) * T;
  }
}

=== FILE: pratt.dfy ===
/**
  Expression precedence: the binding-power tables and the precedence-
  climbing loop of the expression grammar.

  The loop is modelled on an abstract token stream in which every primary
  expression (literal, name, parenthesised or block expression, ...) is a
  single `Atom` and operators are `Op`s whose compound spellings are
  already fused. Its result is the tree of BIN_EXPR, PREFIX_EXPR and
  AS_EXPR nodes the events describe; a missing operand is `None`, as the
  source completes the node without it.
 */
module Pratt {
  import opened Wrappers
  import opened Kinds

  // ---------------------------------------------------------------------
  // Binding powers.

  /** `infix_binding_power`: (left, right) binding power of an infix operator. */
  function InfixBindingPower(k: SyntaxKind): (r: Option<(nat, nat)>)
    ensures r.Some? ==> r.value.1 == r.value.0 + 1 && r.value.0 <= 5
  {
    match k
    case EQUALS => Some((0, 1))
    case AMPERSAND_AMPERSAND => Some((1, 2))
    case BAR_BAR => Some((1, 2))
    case EQUALS_EQUALS => Some((2, 3))
    case BANG_EQUALS => Some((2, 3))
    case LEFT_ANGLE_EQUALS => Some((2, 3))
    case RIGHT_ANGLE_EQUALS => Some((2, 3))
    case LEFT_ANGLE => Some((2, 3))
    case RIGHT_ANGLE => Some((2, 3))
    case PLUS => Some((3, 4))
    case DASH => Some((3, 4))
    case STAR => Some((4, 5))
    case SLASH => Some((4, 5))
    case DOT => Some((5, 6))
    case DASH_ARROW => Some((5, 6))
    case AS_KW => Some((5, 6))
    case _ => None
  }

  /** `prefix_binding_power`. */
  function PrefixBindingPower(k: SyntaxKind): (r: Option<nat>)
    ensures r.Some? ==> InfixBindingPower(k).Some? && InfixBindingPower(k).value.1 <= r.value
  {
    if k in {DASH, PLUS, STAR} then Some(5) else None
  }

  /** `postfix_binding_power`: calls and indexing. */
  function PostfixBindingPower(k: SyntaxKind): (r: Option<nat>)
    ensures r.Some? ==> InfixBindingPower(k).None? && r.value == InfixBindingPower(DOT).value.0
  {
    if k in {LEFT_PAREN, LEFT_SQUARE} then Some(5) else None
  }

  /** Precedence levels, from loosest to tightest. */
  function Level(k: SyntaxKind): nat
  {
    if k == EQUALS then 0
    else if k in {AMPERSAND_AMPERSAND, BAR_BAR} then 1
    else if k in {EQUALS_EQUALS, BANG_EQUALS, LEFT_ANGLE_EQUALS, RIGHT_ANGLE_EQUALS, LEFT_ANGLE, RIGHT_ANGLE} then 2
    else if k in {PLUS, DASH} then 3
    else if k in {STAR, SLASH} then 4
    else 5
  }

  /** Every infix operator binds one step tighter on its right than on its
      left, at its level: so an operator never reaches past another of the
      same level to its left, and operators are left-associative. */
  lemma InfixBindingShape(k: SyntaxKind)
    requires InfixBindingPower(k).Some?
    ensures InfixBindingPower(k).value.0 == Level(k)
    ensures InfixBindingPower(k).value.1 == InfixBindingPower(k).value.0 + 1
  {
  }

  /** The infix operators are the operator kinds, less the single `&` and
      `|` and the `::` and `...` of paths and variadics, plus `as`. */
  lemma InfixOperators(k: SyntaxKind)
    ensures InfixBindingPower(k).Some? <==>
      (IsOperator(k) && k !in {AMPERSAND, BAR, COLON_COLON, DOT_DOT_DOT}) || k == AS_KW
  {
    assert IsOperator(k) <==>
      k in {LEFT_ANGLE, RIGHT_ANGLE, AMPERSAND, EQUALS, BAR, DASH, PLUS, STAR, SLASH,
            DOT, AMPERSAND_AMPERSAND, BAR_BAR, LEFT_ANGLE_EQUALS, RIGHT_ANGLE_EQUALS,
            EQUALS_EQUALS, BANG_EQUALS, COLON_COLON, DASH_ARROW, DOT_DOT_DOT};
  }

  /** A prefix operator's operand stops at every infix operator except the
      tightest level (`.`, `->`, `as`); a postfix call or index binds at that
      same level. */
  lemma PrefixBindsTight(k: SyntaxKind)
    requires InfixBindingPower(k).Some?
    ensures InfixBindingPower(k).value.0 < 5 <==> k !in {DOT, DASH_ARROW, AS_KW}
    ensures PrefixBindingPower(DASH) == Some(5) && PostfixBindingPower(LEFT_PAREN) == Some(5)
  {
  }

  // ---------------------------------------------------------------------
  // Fusion of adjacent single-character tokens.

  /** `infix_op`'s fusion: a first token that, with the one after it, spells
      a two-character operator becomes that operator. */
  function FuseInfix(first: SyntaxKind, second: SyntaxKind): (r: SyntaxKind)
  {
    if first == BAR && second == BAR then BAR_BAR
    else if first == AMPERSAND && second == AMPERSAND then AMPERSAND_AMPERSAND
    else if first == EQUALS && second == EQUALS then EQUALS_EQUALS
    else if first == BANG && second == EQUALS then BANG_EQUALS
    else if first == LEFT_ANGLE && second == EQUALS then LEFT_ANGLE_EQUALS
    else if first == RIGHT_ANGLE && second == EQUALS then RIGHT_ANGLE_EQUALS
    else if first == DASH && second == RIGHT_ANGLE then DASH_ARROW
    else first
  }

  /** Fusion produces exactly the two-subtoken kinds other than `::`, and
      only from their own subtokens. */
  lemma FuseInfixSound(first: SyntaxKind, second: SyntaxKind)
    ensures var r := FuseInfix(first, second);
            r == first || (SubtokenCount(r) == 2 && Subtokens(r) == [first, second] && r != COLON_COLON)
  {
    if FuseInfix(first, second) != first {
      if second == EQUALS {
        FuseBeforeEquals(first);
      } else {
        FuseOthers(first, second);
      }
    }
  }

  lemma FuseBeforeEquals(first: SyntaxKind)
    requires FuseInfix(first, EQUALS) != first
    ensures var r := FuseInfix(first, EQUALS);
            SubtokenCount(r) == 2 && Subtokens(r) == [first, EQUALS] && r != COLON_COLON
  {
    if first == EQUALS {
      assert FuseInfix(EQUALS, EQUALS) == EQUALS_EQUALS && Subtokens(EQUALS_EQUALS) == [EQUALS, EQUALS];
    } else if first == BANG {
      assert FuseInfix(BANG, EQUALS) == BANG_EQUALS && Subtokens(BANG_EQUALS) == [BANG, EQUALS];
    } else if first == LEFT_ANGLE {
      assert FuseInfix(LEFT_ANGLE, EQUALS) == LEFT_ANGLE_EQUALS && Subtokens(LEFT_ANGLE_EQUALS) == [LEFT_ANGLE, EQUALS];
    } else {
      assert first == RIGHT_ANGLE;
      assert FuseInfix(RIGHT_ANGLE, EQUALS) == RIGHT_ANGLE_EQUALS && Subtokens(RIGHT_ANGLE_EQUALS) == [RIGHT_ANGLE, EQUALS];
    }
  }

  lemma FuseOthers(first: SyntaxKind, second: SyntaxKind)
    requires second != EQUALS && FuseInfix(first, second) != first
    ensures var r := FuseInfix(first, second);
            SubtokenCount(r) == 2 && Subtokens(r) == [first, second] && r != COLON_COLON
  {
    if first == BAR {
      assert FuseInfix(BAR, BAR) == BAR_BAR && Subtokens(BAR_BAR) == [BAR, BAR];
    } else if first == AMPERSAND {
      assert FuseInfix(AMPERSAND, AMPERSAND) == AMPERSAND_AMPERSAND && Subtokens(AMPERSAND_AMPERSAND) == [AMPERSAND, AMPERSAND];
    } else {
      assert first == DASH && second == RIGHT_ANGLE;
      assert FuseInfix(DASH, RIGHT_ANGLE) == DASH_ARROW && Subtokens(DASH_ARROW) == [DASH, RIGHT_ANGLE];
    }
  }

  lemma FuseInfixComplete(k: SyntaxKind)
    requires SubtokenCount(k) == 2 && k != COLON_COLON
    ensures FuseInfix(Subtokens(k)[0], Subtokens(k)[1]) == k
  {
  }

  // ---------------------------------------------------------------------
  // The precedence-climbing loop.

  /** An abstract token: a primary expression, an operator, or a bracketed
      group `( ... )` / `[ ... ]` standing for an argument list, an index or
      a parenthesised expression. */
  datatype Tok = Atom(id: nat) | Op(kind: SyntaxKind) | Group(open: SyntaxKind, id: nat)

  datatype Expr =
    | Leaf(id: nat)
    | Paren(id: nat)
    | Prefix(op: SyntaxKind, operand: Option<Expr>)
    | Bin(op: SyntaxKind, lhs: Expr, rhs: Option<Expr>)
    | As(value: Expr, ty: Option<nat>)
    | Postfix(open: SyntaxKind, callee: Expr, id: nat)

  /** `expr_with_precedence`: a left-hand side, then as many infix operators
      as bind at least `minPrec` on their left. No left-hand side is `None`. */
  function Parse(ts: seq<Tok>, pos: nat, minPrec: nat): (r: Option<(Expr, nat)>)
    requires pos <= |ts|
    ensures r.Some? ==> pos < r.value.1 <= |ts|
    decreases |ts| - pos, 3
  {
    match Lhs(ts, pos)
    case None => None
    case Some((lhs, next)) => Some(Loop(ts, next, minPrec, lhs))
  }

  /** `expr_lhs`: a primary expression, or a prefix operator applied to what
      follows at binding power 5. A `[` group cannot start an expression. */
  function Lhs(ts: seq<Tok>, pos: nat): (r: Option<(Expr, nat)>)
    requires pos <= |ts|
    ensures r.Some? ==> pos < r.value.1 <= |ts|
    decreases |ts| - pos, 2
  {
    if pos == |ts| then None
    else
      match ts[pos]
      case Atom(id) => Some((Leaf(id), pos + 1))
      case Group(open, id) => if open == LEFT_PAREN then Some((Paren(id), pos + 1)) else None
      case Op(k) =>
        if PrefixBindingPower(k).None? then None
        else
          match Parse(ts, pos + 1, PrefixBindingPower(k).value)
          case None => Some((Prefix(k, None), pos + 1))
          case Some((e, next)) => Some((Prefix(k, Some(e)), next))
  }

  /** `postfix_op`: one call or index applied to the left-hand side, unless
      it binds less than `minPrec`. */
  function PostfixStep(ts: seq<Tok>, pos: nat, minPrec: nat, lhs: Expr): (r: (Expr, nat))
    requires pos <= |ts|
    ensures pos <= r.1 <= pos + 1 && r.1 <= |ts|
  {
    if pos < |ts| && ts[pos].Group? && PostfixBindingPower(ts[pos].open).Some?
       && PostfixBindingPower(ts[pos].open).value >= minPrec
    then (Postfix(ts[pos].open, lhs, ts[pos].id), pos + 1)
    else (lhs, pos)
  }

  /** One round of the loop of `expr_with_precedence`: an optional postfix
      operator, then an optional infix operator. */
  function Loop(ts: seq<Tok>, pos: nat, minPrec: nat, lhs: Expr): (r: (Expr, nat))
    requires pos <= |ts|
    ensures pos <= r.1 <= |ts|
    decreases |ts| - pos, 2
  {
    var post := PostfixStep(ts, pos, minPrec, lhs);
    Infix(ts, post.1, minPrec, post.0)
  }

  /** The infix half of a round: the loop ends at anything that is not an
      infix operator and at an operator binding less than `minPrec`. */
  function Infix(ts: seq<Tok>, pos: nat, minPrec: nat, lhs: Expr): (r: (Expr, nat))
    requires pos <= |ts|
    ensures pos <= r.1 <= |ts|
    decreases |ts| - pos, 1
  {
    if pos == |ts| || !ts[pos].Op? || InfixBindingPower(ts[pos].kind).None? then (lhs, pos)
    else
      var op := ts[pos].kind;
      if InfixBindingPower(op).value.0 < minPrec then (lhs, pos)
      else if op == AS_KW then
        if pos + 1 < |ts| && ts[pos + 1].Atom? then Loop(ts, pos + 2, minPrec, As(lhs, Some(ts[pos + 1].id)))
        else Loop(ts, pos + 1, minPrec, As(lhs, None))
      else
        var rhs := Parse(ts, pos + 1, InfixBindingPower(op).value.1);
        if rhs.None? then Loop(ts, pos + 1, minPrec, Bin(op, lhs, None))
        else Loop(ts, rhs.value.1, minPrec, Bin(op, lhs, Some(rhs.value.0)))
  }

  /** The tokens of a tree, left to right. */
  function Yield(e: Expr): seq<Tok>
  {
    match e
    case Leaf(id) => [Atom(id)]
    case Paren(id) => [Group(LEFT_PAREN, id)]
    case Prefix(op, operand) => [Op(op)] + (if operand.Some? then Yield(operand.value) else [])
    case Bin(op, lhs, rhs) => Yield(lhs) + [Op(op)] + (if rhs.Some? then Yield(rhs.value) else [])
    case As(value, ty) => Yield(value) + [Op(AS_KW)] + (if ty.Some? then [Atom(ty.value)] else [])
    case Postfix(open, callee, id) => Yield(callee) + [Group(open, id)]
  }

  /** Nothing is lost or reordered: the tree holds exactly the tokens the
      parse consumed, in order. */
  lemma {:induction false} ParseYield(ts: seq<Tok>, pos: nat, minPrec: nat)
    requires pos <= |ts|
    ensures Parse(ts, pos, minPrec).Some? ==>
      Yield(Parse(ts, pos, minPrec).value.0) == ts[pos..Parse(ts, pos, minPrec).value.1]
    decreases |ts| - pos, 3
  {
    if Lhs(ts, pos).Some? {
      var (lhs, next) := Lhs(ts, pos).value;
      LhsYield(ts, pos);
      LoopYield(ts, pos, next, minPrec, lhs);
    }
  }

  lemma {:induction false} LhsYield(ts: seq<Tok>, pos: nat)
    requires pos <= |ts|
    ensures Lhs(ts, pos).Some? ==> Yield(Lhs(ts, pos).value.0) == ts[pos..Lhs(ts, pos).value.1]
    decreases |ts| - pos, 2
  {
    if pos < |ts| && ts[pos].Op? && PrefixBindingPower(ts[pos].kind).Some? {
      var k := ts[pos].kind;
      ParseYield(ts, pos + 1, PrefixBindingPower(k).value);
      if Parse(ts, pos + 1, PrefixBindingPower(k).value).Some? {
        var next := Parse(ts, pos + 1, PrefixBindingPower(k).value).value.1;
        assert ts[pos..next] == [ts[pos]] + ts[pos + 1..next];
      }
    }
  }

  /** The loop extends a tree that spells `ts[start..pos]` to one that
      spells `ts[start..]` up to where it stops. */
  lemma {:induction false} LoopYield(ts: seq<Tok>, start: nat, pos: nat, minPrec: nat, lhs: Expr)
    requires start <= pos <= |ts| && Yield(lhs) == ts[start..pos]
    ensures Yield(Loop(ts, pos, minPrec, lhs).0) == ts[start..Loop(ts, pos, minPrec, lhs).1]
    decreases |ts| - pos, 2
  {
    var post := PostfixStep(ts, pos, minPrec, lhs);
    if post.1 == pos + 1 {
      AppendYield(ts, start, pos, pos + 1, lhs, post.0);
    }
    InfixYield(ts, start, post.1, minPrec, post.0);
  }

  lemma {:induction false} InfixYield(ts: seq<Tok>, start: nat, pos: nat, minPrec: nat, lhs: Expr)
    requires start <= pos <= |ts| && Yield(lhs) == ts[start..pos]
    ensures Yield(Infix(ts, pos, minPrec, lhs).0) == ts[start..Infix(ts, pos, minPrec, lhs).1]
    decreases |ts| - pos, 1
  {
    if !(pos == |ts| || !ts[pos].Op? || InfixBindingPower(ts[pos].kind).None?) {
      if InfixBindingPower(ts[pos].kind).value.0 >= minPrec {
        if ts[pos].kind == AS_KW {
          InfixYieldAs(ts, start, pos, minPrec, lhs);
        } else {
          InfixYieldBin(ts, start, pos, minPrec, lhs);
        }
      }
    }
  }

  lemma {:induction false} InfixYieldAs(ts: seq<Tok>, start: nat, pos: nat, minPrec: nat, lhs: Expr)
    requires start <= pos < |ts| && Yield(lhs) == ts[start..pos]
    requires ts[pos] == Op(AS_KW) && InfixBindingPower(AS_KW).value.0 >= minPrec
    ensures Yield(Infix(ts, pos, minPrec, lhs).0) == ts[start..Infix(ts, pos, minPrec, lhs).1]
    decreases |ts| - pos, 0
  {
    var next, e := AsRound(ts, start, pos, minPrec, lhs);
    LoopYield(ts, start, next, minPrec, e);
  }

  /** An `as` round: the cast node spells the tokens up to where the loop
      goes on. */
  lemma AsRound(ts: seq<Tok>, start: nat, pos: nat, minPrec: nat, lhs: Expr) returns (next: nat, e: Expr)
    requires start <= pos < |ts| && Yield(lhs) == ts[start..pos]
    requires ts[pos] == Op(AS_KW) && InfixBindingPower(AS_KW).value.0 >= minPrec
    ensures pos < next <= |ts| && Yield(e) == ts[start..next]
    ensures Infix(ts, pos, minPrec, lhs) == Loop(ts, next, minPrec, e)
  {
    InfixAsIs(ts, pos, minPrec, lhs);
    if pos + 1 < |ts| && ts[pos + 1].Atom? {
      next, e := pos + 2, As(lhs, Some(ts[pos + 1].id));
      assert ts[pos..pos + 2] == [ts[pos], ts[pos + 1]];
    } else {
      next, e := pos + 1, As(lhs, None);
    }
    AppendYield(ts, start, pos, next, lhs, e);
  }

  lemma {:induction false} InfixYieldBin(ts: seq<Tok>, start: nat, pos: nat, minPrec: nat, lhs: Expr)
    requires start <= pos < |ts| && Yield(lhs) == ts[start..pos]
    requires ts[pos].Op? && ts[pos].kind != AS_KW && InfixBindingPower(ts[pos].kind).Some?
    requires InfixBindingPower(ts[pos].kind).value.0 >= minPrec
    ensures Yield(Infix(ts, pos, minPrec, lhs).0) == ts[start..Infix(ts, pos, minPrec, lhs).1]
    decreases |ts| - pos, 0
  {
    ParseYield(ts, pos + 1, InfixBindingPower(ts[pos].kind).value.1);
    var next, e := BinRound(ts, start, pos, minPrec, lhs);
    LoopYield(ts, start, next, minPrec, e);
  }

  /** A binary round: the node over the left operand, the operator and the
      right operand spells the tokens up to where the loop goes on. */
  lemma BinRound(ts: seq<Tok>, start: nat, pos: nat, minPrec: nat, lhs: Expr) returns (next: nat, e: Expr)
    requires start <= pos < |ts| && Yield(lhs) == ts[start..pos]
    requires ts[pos].Op? && ts[pos].kind != AS_KW && InfixBindingPower(ts[pos].kind).Some?
    requires InfixBindingPower(ts[pos].kind).value.0 >= minPrec
    requires var rhs := Parse(ts, pos + 1, InfixBindingPower(ts[pos].kind).value.1);
             rhs.Some? ==> Yield(rhs.value.0) == ts[pos + 1..rhs.value.1]
    ensures pos < next <= |ts| && Yield(e) == ts[start..next]
    ensures Infix(ts, pos, minPrec, lhs) == Loop(ts, next, minPrec, e)
  {
    var op := ts[pos].kind;
    var rhs := Parse(ts, pos + 1, InfixBindingPower(op).value.1);
    InfixBinIs(ts, pos, minPrec, lhs);
    next := if rhs.None? then pos + 1 else rhs.value.1;
    e := Bin(op, lhs, if rhs.None? then None else Some(rhs.value.0));
    BinYield(ts, start, pos, next, lhs, e);
  }

  /** A binary node over a left operand spelling `ts[start..pos]`, the
      operator at `pos` and a right operand (if any) spelling `ts[pos+1..next]`
      spells `ts[start..next]`. */
  lemma BinYield(ts: seq<Tok>, start: nat, pos: nat, next: nat, lhs: Expr, e: Expr)
    requires start <= pos < next <= |ts| && Yield(lhs) == ts[start..pos]
    requires e.Bin? && e.lhs == lhs && ts[pos] == Op(e.op)
    requires e.rhs.None? ==> next == pos + 1
    requires e.rhs.Some? ==> Yield(e.rhs.value) == ts[pos + 1..next]
    ensures Yield(e) == ts[start..next]
  {
    assert ts[start..next] == ts[start..pos] + [ts[pos]] + ts[pos + 1..next];
  }

  /** What one infix round does with a binary operator: parse the right
      operand at the operator's right binding power and go round again. */
  lemma InfixBinIs(ts: seq<Tok>, pos: nat, minPrec: nat, lhs: Expr)
    requires pos < |ts| && ts[pos].Op? && ts[pos].kind != AS_KW && InfixBindingPower(ts[pos].kind).Some?
    requires InfixBindingPower(ts[pos].kind).value.0 >= minPrec
    ensures var op := ts[pos].kind;
            var rhs := Parse(ts, pos + 1, InfixBindingPower(op).value.1);
            Infix(ts, pos, minPrec, lhs) ==
              if rhs.None? then Loop(ts, pos + 1, minPrec, Bin(op, lhs, None))
              else Loop(ts, rhs.value.1, minPrec, Bin(op, lhs, Some(rhs.value.0)))
  {
  }

  /** What one infix round does with `as`: take one type atom if there is one. */
  lemma InfixAsIs(ts: seq<Tok>, pos: nat, minPrec: nat, lhs: Expr)
    requires pos < |ts| && ts[pos] == Op(AS_KW) && InfixBindingPower(AS_KW).value.0 >= minPrec
    ensures Infix(ts, pos, minPrec, lhs) ==
      if pos + 1 < |ts| && ts[pos + 1].Atom? then Loop(ts, pos + 2, minPrec, As(lhs, Some(ts[pos + 1].id)))
      else Loop(ts, pos + 1, minPrec, As(lhs, None))
  {
  }

  /** The loop at the end of the input, or at an operator, skips the postfix step. */
  lemma LoopNoPostfix(ts: seq<Tok>, pos: nat, minPrec: nat, lhs: Expr)
    requires pos <= |ts| && (pos == |ts| || ts[pos].Op?)
    ensures Loop(ts, pos, minPrec, lhs) == Infix(ts, pos, minPrec, lhs)
    ensures pos == |ts| ==> Loop(ts, pos, minPrec, lhs) == (lhs, pos)
  {
  }

  /** A tree that spells `ts[start..pos]` followed by `ts[pos..next]`
      spells `ts[start..next]`. */
  lemma AppendYield(ts: seq<Tok>, start: nat, pos: nat, next: nat, lhs: Expr, e: Expr)
    requires start <= pos <= next <= |ts|
    requires Yield(lhs) == ts[start..pos] && Yield(e) == Yield(lhs) + ts[pos..next]
    ensures Yield(e) == ts[start..next]
  {
    assert ts[start..next] == ts[start..pos] + ts[pos..next];
  }

  /** Three operands and two infix operators (neither of them `as`): the
      second operator takes the middle operand exactly when it binds on its
      left at least as tightly as the first binds on its right. */
  lemma ThreeOperands(a: nat, o1: SyntaxKind, b: nat, o2: SyntaxKind, c: nat)
    requires InfixBindingPower(o1).Some? && InfixBindingPower(o2).Some?
    requires o1 != AS_KW && o2 != AS_KW
    ensures var ts := [Atom(a), Op(o1), Atom(b), Op(o2), Atom(c)];
            var right1 := InfixBindingPower(o1).value.1;
            var left2 := InfixBindingPower(o2).value.0;
            Parse(ts, 0, 0) == Some((
              if left2 >= right1 then Bin(o1, Leaf(a), Some(Bin(o2, Leaf(b), Some(Leaf(c)))))
              else Bin(o2, Bin(o1, Leaf(a), Some(Leaf(b))), Some(Leaf(c))), 5))
  {
    var ts := [Atom(a), Op(o1), Atom(b), Op(o2), Atom(c)];
    var right1 := InfixBindingPower(o1).value.1;
    var left2 := InfixBindingPower(o2).value.0;
    var right2 := InfixBindingPower(o2).value.1;
    var ab := Bin(o1, Leaf(a), Some(Leaf(b)));
    assert Lhs(ts, 4) == Some((Leaf(c), 5));
    assert Lhs(ts, 2) == Some((Leaf(b), 3));
    assert Lhs(ts, 0) == Some((Leaf(a), 1));
    LoopNoPostfix(ts, 5, right2, Leaf(c));
    assert Parse(ts, 4, right2) == Some((Leaf(c), 5));
    LoopNoPostfix(ts, 1, 0, Leaf(a));
    LoopNoPostfix(ts, 3, right1, Leaf(b));
    InfixBinIs(ts, 1, 0, Leaf(a));
    if left2 >= right1 {
      var bc := Bin(o2, Leaf(b), Some(Leaf(c)));
      InfixBinIs(ts, 3, right1, Leaf(b));
      LoopNoPostfix(ts, 5, right1, bc);
      assert Parse(ts, 2, right1) == Some((bc, 5));
      LoopNoPostfix(ts, 5, 0, Bin(o1, Leaf(a), Some(bc)));
    } else {
      assert Infix(ts, 3, right1, Leaf(b)) == (Leaf(b), 3);
      assert Parse(ts, 2, right1) == Some((Leaf(b), 3));
      LoopNoPostfix(ts, 3, 0, ab);
      InfixBinIs(ts, 3, 0, ab);
      var abc := Bin(o2, ab, Some(Leaf(c)));
      LoopNoPostfix(ts, 5, 0, abc);
    }
  }

  /** Operators of one level associate to the left; an operator of a
      tighter level takes the operand between it and a looser one. */
  lemma LeftAssociativeAndPrecedence(a: nat, o1: SyntaxKind, b: nat, o2: SyntaxKind, c: nat)
    requires InfixBindingPower(o1).Some? && InfixBindingPower(o2).Some?
    requires o1 != AS_KW && o2 != AS_KW
    ensures var ts := [Atom(a), Op(o1), Atom(b), Op(o2), Atom(c)];
            && (Level(o2) <= Level(o1) ==> Parse(ts, 0, 0) == Some((Bin(o2, Bin(o1, Leaf(a), Some(Leaf(b))), Some(Leaf(c))), 5)))
            && (Level(o2) > Level(o1) ==> Parse(ts, 0, 0) == Some((Bin(o1, Leaf(a), Some(Bin(o2, Leaf(b), Some(Leaf(c))))), 5)))
  {
    ThreeOperands(a, o1, b, o2, c);
    InfixBindingShape(o1);
    InfixBindingShape(o2);
  }

  /** `1 + 2 * 3` groups as `1 + (2 * 3)`; `1 * 2 + 3` as `(1 * 2) + 3`. */
  lemma StarBeforePlus()
    ensures Parse([Atom(1), Op(PLUS), Atom(2), Op(STAR), Atom(3)], 0, 0)
            == Some((Bin(PLUS, Leaf(1), Some(Bin(STAR, Leaf(2), Some(Leaf(3))))), 5))
    ensures Parse([Atom(1), Op(STAR), Atom(2), Op(PLUS), Atom(3)], 0, 0)
            == Some((Bin(PLUS, Bin(STAR, Leaf(1), Some(Leaf(2))), Some(Leaf(3))), 5))
  {
    PlusThenStar();
    StarThenPlus();
  }

  lemma PlusThenStar()
    ensures Parse([Atom(1), Op(PLUS), Atom(2), Op(STAR), Atom(3)], 0, 0)
            == Some((Bin(PLUS, Leaf(1), Some(Bin(STAR, Leaf(2), Some(Leaf(3))))), 5))
  {
    assert InfixBindingPower(PLUS) == Some((3, 4)) && InfixBindingPower(STAR) == Some((4, 5));
    ThreeOperands(1, PLUS, 2, STAR, 3);
  }

  lemma StarThenPlus()
    ensures Parse([Atom(1), Op(STAR), Atom(2), Op(PLUS), Atom(3)], 0, 0)
            == Some((Bin(PLUS, Bin(STAR, Leaf(1), Some(Leaf(2))), Some(Leaf(3))), 5))
  {
    assert InfixBindingPower(PLUS) == Some((3, 4)) && InfixBindingPower(STAR) == Some((4, 5));
    ThreeOperands(1, STAR, 2, PLUS, 3);
  }

  /** Where a call lands: on the whole member access in `a.b(x)` (the right
      side of `.` is parsed at 6, above the postfix power); inside the
      operand in `-a(x)`; and only the first of `f(x)(y)` is taken by one
      expression, the second ending it. */
  lemma CallPlacement()
    ensures Parse([Atom(1), Op(DOT), Atom(2), Group(LEFT_PAREN, 3)], 0, 0)
            == Some((Postfix(LEFT_PAREN, Bin(DOT, Leaf(1), Some(Leaf(2))), 3), 4))
    ensures Parse([Op(DASH), Atom(1), Group(LEFT_PAREN, 2)], 0, 0)
            == Some((Prefix(DASH, Some(Postfix(LEFT_PAREN, Leaf(1), 2))), 3))
    ensures Parse([Atom(1), Group(LEFT_PAREN, 2), Group(LEFT_PAREN, 3)], 0, 0)
            == Some((Postfix(LEFT_PAREN, Leaf(1), 2), 2))
  {
    CallAfterMember();
    CallInsidePrefix();
    SecondCallEnds();
  }

  lemma CallAfterMember()
    ensures Parse([Atom(1), Op(DOT), Atom(2), Group(LEFT_PAREN, 3)], 0, 0)
            == Some((Postfix(LEFT_PAREN, Bin(DOT, Leaf(1), Some(Leaf(2))), 3), 4))
  {
    var t1 := [Atom(1), Op(DOT), Atom(2), Group(LEFT_PAREN, 3)];
    var ab := Bin(DOT, Leaf(1), Some(Leaf(2)));
    assert Lhs(t1, 2) == Some((Leaf(2), 3));
    assert Loop(t1, 3, 6, Leaf(2)) == (Leaf(2), 3);
    LoopNoPostfix(t1, 1, 0, Leaf(1));
    InfixBinIs(t1, 1, 0, Leaf(1));
    assert Loop(t1, 3, 0, ab) == (Postfix(LEFT_PAREN, ab, 3), 4);
  }

  lemma CallInsidePrefix()
    ensures Parse([Op(DASH), Atom(1), Group(LEFT_PAREN, 2)], 0, 0)
            == Some((Prefix(DASH, Some(Postfix(LEFT_PAREN, Leaf(1), 2))), 3))
  {
    var t2 := [Op(DASH), Atom(1), Group(LEFT_PAREN, 2)];
    assert Lhs(t2, 1) == Some((Leaf(1), 2));
    assert Loop(t2, 2, 5, Leaf(1)) == (Postfix(LEFT_PAREN, Leaf(1), 2), 3);
    assert Lhs(t2, 0) == Some((Prefix(DASH, Some(Postfix(LEFT_PAREN, Leaf(1), 2))), 3));
    LoopNoPostfix(t2, 3, 0, Prefix(DASH, Some(Postfix(LEFT_PAREN, Leaf(1), 2))));
  }

  lemma SecondCallEnds()
    ensures Parse([Atom(1), Group(LEFT_PAREN, 2), Group(LEFT_PAREN, 3)], 0, 0)
            == Some((Postfix(LEFT_PAREN, Leaf(1), 2), 2))
  {
    var t3 := [Atom(1), Group(LEFT_PAREN, 2), Group(LEFT_PAREN, 3)];
    assert Lhs(t3, 0) == Some((Leaf(1), 1));
    assert Loop(t3, 1, 0, Leaf(1)) == (Postfix(LEFT_PAREN, Leaf(1), 2), 2);
  }
}

=== FILE: sema_check.dfy ===
/**
  The semantic checker's bookkeeping around the arena: error records, the
  marker-based unifier, name lookup through the namespace chain, the memo
  of pointer types, and the arity test of a call.

  `UnifyAsWritten` follows the unifier step by step, including the
  `unwrap`s that panic when a side's type id has no type record (an error
  node used as a type). `Unify` is the same decision procedure with those
  reads made total: a side without a record is neither a marker nor the
  never type, and a marker is resolved only onto a type node.
 */
module SemaCheck {
  import opened Wrappers
  import opened SemaTypes

  // ---------------------------------------------------------------------
  // Errors.

  /** The kinds whose diagnostic names two nodes. */
  predicate TwoIds(kind: ErrorKind)
  {
    kind == Unification || kind == InvalidIndexType
  }

  /** The ids `set_err` keeps: the first two for a unification or an index
      type error, the first one otherwise. */
  function ErrorIds(kind: ErrorKind, ids: seq<Id>): (r: seq<Id>)
    requires |ids| >= (if TwoIds(kind) then 2 else 1)
    ensures |r| == (if TwoIds(kind) then 2 else 1)
    ensures forall i :: 0 <= i < |r| ==> r[i] == ids[i]
  {
    if TwoIds(kind) then [ids[0], ids[1]] else [ids[0]]
  }

  /** `set_err`: records (or replaces) the error of a node and touches
      nothing else. */
  function SetErr(m: Map, id: Id, kind: ErrorKind, ids: seq<Id>): (r: Map)
    requires |ids| >= (if TwoIds(kind) then 2 else 1)
    ensures id in r.errors && r.errors[id].kind == kind
    ensures |r.errors[id].ids| == (if TwoIds(kind) then 2 else 1)
    ensures forall i :: 0 <= i < |r.errors[id].ids| ==> r.errors[id].ids[i] == ids[i]
    ensures r == m.(errors := m.errors[id := r.errors[id]])
  {
    m.(errors := m.errors[id := SemaError(ErrorIds(kind, ids), kind)])
  }

  // ---------------------------------------------------------------------
  // Unification.

  /** The type record `map.ty` finds for a type id; none past the nodes. */
  function TypeRecord(m: Map, t: Id): Option<TypeKind>
  {
    if t < |m.nodes| then Ty(m, t) else None
  }

  predicate IsNever(m: Map, t: Id)
  {
    TypeRecord(m, t) == Some(Never)
  }

  /** `marker` is a marker type node that can be resolved onto the type
      node `resolved`. */
  predicate Resolvable(m: Map, marker: Id, resolved: Id)
  {
    && marker < |m.nodes| && resolved < |m.nodes| && marker != resolved
    && m.nodes[marker] == Type && marker in m.types && m.types[marker].Marker?
    && m.nodes[resolved] == Type && resolved in m.types
  }

  /** The last steps of a mismatch: an error type absorbs the other side,
      a never type yields the sink, anything else fails. */
  function Settle(m: Map, s: Id, t: Id): (r: Option<Id>)
    ensures r.None? <==> s !in m.errors && t !in m.errors && !IsNever(m, s) && !IsNever(m, t)
    ensures r.Some? ==> r.value == s || r.value == t
    ensures s in m.errors ==> r == Some(t)
    ensures s !in m.errors && t in m.errors ==> r == Some(s)
  {
    if s in m.errors then Some(t)
    else if t in m.errors then Some(s)
    else if IsNever(m, s) then Some(s)
    else if IsNever(m, t) then Some(s)
    else None
  }

  /** Two distinct type ids: a marker on either side, the sink first, is
      resolved to the other side; otherwise the map is left alone. */
  function UnifyTyped(m: Map, s: Id, t: Id): (r: (Map, Option<Id>))
    requires Valid(m) && s != t
    ensures Resolvable(m, s, t) ==> r == (ResolveMarker(m, s, t), Some(t))
    ensures !Resolvable(m, s, t) && Resolvable(m, t, s) ==> r == (ResolveMarker(m, t, s), Some(s))
    ensures !Resolvable(m, s, t) && !Resolvable(m, t, s) ==> r == (m, Settle(m, s, t))
  {
    if Resolvable(m, s, t) then (ResolveMarker(m, s, t), Some(t))
    else if Resolvable(m, t, s) then (ResolveMarker(m, t, s), Some(s))
    else (m, Settle(m, s, t))
  }

  /** `Checker::unify`: an untyped side yields the typed side (the sink
      node itself when neither is typed), identical types yield that type,
      and distinct types go through `UnifyTyped`. */
  function Unify(m: Map, sink: Id, src: Id): (r: (Map, Option<Id>))
    requires Valid(m) && sink < |m.nodes| && src < |m.nodes|
    ensures TyId(m, sink).None? && TyId(m, src).None? ==> r == (m, Some(sink))
    ensures TyId(m, sink).Some? && TyId(m, src).None? ==> r == (m, TyId(m, sink))
    ensures TyId(m, sink).None? && TyId(m, src).Some? ==> r == (m, TyId(m, src))
    ensures TyId(m, sink).Some? && TyId(m, sink) == TyId(m, src) ==> r == (m, TyId(m, sink))
    ensures TyId(m, sink).Some? && TyId(m, src).Some? && TyId(m, sink) != TyId(m, src) ==>
              r == UnifyTyped(m, TyId(m, sink).value, TyId(m, src).value)
  {
    match (TyId(m, sink), TyId(m, src))
    case (None, None) => (m, Some(sink))
    case (Some(s), None) => (m, Some(s))
    case (None, Some(t)) => (m, Some(t))
    case (Some(s), Some(t)) => if s == t then (m, Some(s)) else UnifyTyped(m, s, t)
  }

  /** Unification fails exactly when both sides are typed with distinct
      types, no marker can be resolved either way, neither is an error
      and neither is the never type. Failure leaves the map as it was. */
  lemma UnifyFailsIff(m: Map, sink: Id, src: Id)
    requires Valid(m) && sink < |m.nodes| && src < |m.nodes|
    ensures Unify(m, sink, src).1.None? <==>
              && TyId(m, sink).Some? && TyId(m, src).Some?
              && TyId(m, sink).value != TyId(m, src).value
              && !Resolvable(m, TyId(m, sink).value, TyId(m, src).value)
              && !Resolvable(m, TyId(m, src).value, TyId(m, sink).value)
              && TyId(m, sink).value !in m.errors && TyId(m, src).value !in m.errors
              && !IsNever(m, TyId(m, sink).value) && !IsNever(m, TyId(m, src).value)
    ensures Unify(m, sink, src).1.None? ==> Unify(m, sink, src).0 == m
  {
  }

  /** Whether unification succeeds does not depend on which side is the
      sink. */
  lemma UnifySucceedsSymmetric(m: Map, a: Id, b: Id)
    requires Valid(m) && a < |m.nodes| && b < |m.nodes|
    ensures Unify(m, a, b).1.Some? <==> Unify(m, b, a).1.Some?
  {
    UnifyFailsIff(m, a, b);
    UnifyFailsIff(m, b, a);
  }

  /** A successful unification yields one of the two sides' types, or the
      sink node itself when neither side is typed. */
  lemma UnifyYieldsASide(m: Map, sink: Id, src: Id)
    requires Valid(m) && sink < |m.nodes| && src < |m.nodes|
    ensures var r := Unify(m, sink, src).1;
            r.Some? ==> r == TyId(m, sink) || r == TyId(m, src) || (r == Some(sink) && TyId(m, sink).None?)
  {
  }

  /** Unification keeps the map valid, the node list's length, so ids
      stay in range, and the error records. */
  lemma UnifyKeepsValid(m: Map, sink: Id, src: Id)
    requires Valid(m) && sink < |m.nodes| && src < |m.nodes|
    ensures Valid(Unify(m, sink, src).0)
    ensures |Unify(m, sink, src).0.nodes| == |m.nodes|
    ensures Unify(m, sink, src).0.errors == m.errors
  {
    var s, t := TyId(m, sink), TyId(m, src);
    if s.Some? && t.Some? && s != t {
      UnifyTypedKeepsValid(m, s.value, t.value);
    }
  }

  lemma UnifyTypedKeepsValid(m: Map, s: Id, t: Id)
    requires Valid(m) && s != t
    ensures Valid(UnifyTyped(m, s, t).0)
    ensures |UnifyTyped(m, s, t).0.nodes| == |m.nodes|
    ensures UnifyTyped(m, s, t).0.errors == m.errors
  {
    if Resolvable(m, s, t) {
      ResolveMarkerFacts(m, s, t, 0, Expr);
    } else if Resolvable(m, t, s) {
      ResolveMarkerFacts(m, t, s, 0, Expr);
    }
  }

  /** When the sink's type is a marker and the source's a type node, every
      node that waited on the marker has the source's type afterwards. */
  lemma UnifyResolvesWaiting(m: Map, sink: Id, src: Id, k: Id)
    requires Valid(m) && sink < |m.nodes| && src < |m.nodes|
    requires TyId(m, sink).Some? && TyId(m, src).Some?
    requires Resolvable(m, TyId(m, sink).value, TyId(m, src).value)
    requires k < |m.nodes| && m.nodes[k] != Type && k in m.markedIds[TyId(m, sink).value]
    ensures Unify(m, sink, src).1 == TyId(m, src)
    ensures TyId(Unify(m, sink, src).0, k) == TyId(m, src)
  {
    ResolveMarkerFacts(m, TyId(m, sink).value, TyId(m, src).value, k, Expr);
  }

  // ---------------------------------------------------------------------
  // Unification as written.

  /** The panics of the unifier as written. */
  datatype UnifyPanic =
    | NoTypeRecord(id: Id)
    | NoWaitingList(marker: Id)
    | NotATypeNode(id: Id)

  /** `resolve_marker` with its checks: the resolved id must be a type
      node (a debug assertion), the marker must have a waiting list, and
      the resolved id must have a type record. */
  function ResolveAsWritten(m: Map, marker: Id, resolved: Id): (r: Result<Map, UnifyPanic>)
    requires Valid(m) && marker != resolved
    ensures r.Ok? <==> Resolvable(m, marker, resolved) || (marker in m.markedIds && resolved < |m.nodes| && m.nodes[resolved] == Type && resolved in m.types)
    ensures r.Ok? ==> Resolvable(m, marker, resolved) && r.value == ResolveMarker(m, marker, resolved)
  {
    if resolved >= |m.nodes| || m.nodes[resolved] != Type then Err(NotATypeNode(resolved))
    else if marker !in m.markedIds then Err(NoWaitingList(marker))
    else if resolved !in m.types then Err(NoTypeRecord(resolved))
    else Ok(ResolveMarker(m, marker, resolved))
  }

  /** The distinct-types branch of `Checker::unify` as written: each
      `map.get::<Type>` unwraps the side's type record. */
  function UnifyTypedAsWritten(m: Map, s: Id, t: Id): (r: Result<(Map, Option<Id>), UnifyPanic>)
    requires Valid(m) && s != t
    ensures TypeRecord(m, s).None? ==> r == Err(NoTypeRecord(s))
    ensures r.Ok? ==> r.value == UnifyTyped(m, s, t)
  {
    if TypeRecord(m, s).None? then Err(NoTypeRecord(s))
    else if TypeRecord(m, s).value.Marker? then
      match ResolveAsWritten(m, s, t)
      case Ok(m1) => Ok((m1, Some(t)))
      case Err(e) => Err(e)
    else if TypeRecord(m, t).None? then Err(NoTypeRecord(t))
    else if TypeRecord(m, t).value.Marker? then
      match ResolveAsWritten(m, t, s)
      case Ok(m1) => Ok((m1, Some(s)))
      case Err(e) => Err(e)
    else Ok((m, Settle(m, s, t)))
  }

  /** `Checker::unify` as written. */
  function UnifyAsWritten(m: Map, sink: Id, src: Id): (r: Result<(Map, Option<Id>), UnifyPanic>)
    requires Valid(m) && sink < |m.nodes| && src < |m.nodes|
    ensures r.Ok? ==> r.value == Unify(m, sink, src)
  {
    match (TyId(m, sink), TyId(m, src))
    case (None, None) => Ok((m, Some(sink)))
    case (Some(s), None) => Ok((m, Some(s)))
    case (None, Some(t)) => Ok((m, Some(t)))
    case (Some(s), Some(t)) => if s == t then Ok((m, Some(s))) else UnifyTypedAsWritten(m, s, t)
  }

  /** An error node (0) used as the type of a variable (2), unified with
      an expression (3) of type `i32` (1): the error node has no type
      record, so the unifier as written panics on its first marker test,
      where the error was meant to absorb the other side. */
  function ErrorTypedMap(): Map
  {
    EmptyMap().(
      nodes := [Error, Type, Var, Expr],
      types := map[1 := Integer(32)],
      assignedType := map[2 := 0, 3 := 1],
      errors := map[0 := SemaError([0], UnknownType)])
  }

  lemma UnifyAsWrittenPanicsOnErrorType()
    ensures Valid(ErrorTypedMap())
    ensures UnifyAsWritten(ErrorTypedMap(), 2, 3) == Err(NoTypeRecord(0))
    ensures Unify(ErrorTypedMap(), 2, 3) == (ErrorTypedMap(), Some(1))
  {
    var m := ErrorTypedMap();
    assert TyId(m, 2) == Some(0) && TyId(m, 3) == Some(1);
    assert TypeRecord(m, 0) == None;
    assert !Resolvable(m, 0, 1) && !Resolvable(m, 1, 0);
  }

  // ---------------------------------------------------------------------
  // Lookup.

  /** The namespace's own latest member of that name (`lookup_in`): none
      exactly when no member has the name, and otherwise a member with the
      name after which no member has it. */
  function LookupIn(m: Map, ns: Id, ident: string): (r: Option<Id>)
    requires NamespacesValid(m) && ns in m.namespaces
    ensures var ms := m.namespaces[ns].members;
            && (r.None? <==> forall j :: 0 <= j < |ms| ==> m.names[ms[j]] != ident)
            && (r.Some? ==> exists i :: 0 <= i < |ms| && r.value == ms[i] && m.names[ms[i]] == ident
                                     && forall j :: i < j < |ms| ==> m.names[ms[j]] != ident)
  {
    Lookup(m, ns, ident, false, 0)
  }

  /** `lookup_ref`: the current namespace, then each parent in turn, for at
      most `fuel` parent steps. */
  function LookupRef(m: Map, current: Option<Id>, ident: string, fuel: nat): (r: Option<Id>)
    requires NamespacesValid(m) && (current.Some? ==> current.value in m.namespaces)
    ensures r.Some? ==> r.value in m.names && m.names[r.value] == ident
    ensures current.None? ==> r.None?
    decreases fuel
  {
    match current
    case None => None
    case Some(ns) =>
      match LookupIn(m, ns, ident)
      case Some(id) => Some(id)
      case None =>
        if fuel == 0 then None
        else LookupRef(m, if ns in m.parents then Some(m.parents[ns]) else None, ident, fuel - 1)
  }

  /** Walking the parents by hand finds what `Namespace::lookup` finds when
      asked to check parents. */
  lemma {:induction false} LookupRefIsLookupWithParents(m: Map, ns: Id, ident: string, fuel: nat)
    requires NamespacesValid(m) && ns in m.namespaces
    ensures LookupRef(m, Some(ns), ident, fuel) == Lookup(m, ns, ident, true, fuel)
    decreases fuel
  {
    if LookupIn(m, ns, ident).None? && fuel > 0 && ns in m.parents {
      LookupRefIsLookupWithParents(m, m.parents[ns], ident, fuel - 1);
    }
  }

  /** `lookup_ty`: the current namespace's own members, then the global
      namespace's. */
  function LookupTy(m: Map, current: Option<Id>, global: Option<Id>, ident: string): (r: Option<Id>)
    requires NamespacesValid(m)
    requires current.Some? ==> current.value in m.namespaces
    requires global.Some? ==> global.value in m.namespaces
    ensures r.Some? ==> r.value in m.names && m.names[r.value] == ident
    ensures current.Some? && LookupIn(m, current.value, ident).Some? ==> r == LookupIn(m, current.value, ident)
    ensures (current.None? || LookupIn(m, current.value, ident).None?) ==>
              r == (if global.Some? then LookupIn(m, global.value, ident) else None)
  {
    var local := if current.Some? then LookupIn(m, current.value, ident) else None;
    if local.Some? then local
    else if global.Some? then LookupIn(m, global.value, ident)
    else None
  }

  /** A name of the global namespace is a type name everywhere unless the
      current namespace has its own member of that name. */
  lemma GlobalTypeNameVisible(m: Map, current: Option<Id>, global: Id, ident: string, id: Id)
    requires NamespacesValid(m) && global in m.namespaces
    requires current.Some? ==> current.value in m.namespaces
    requires LookupIn(m, global, ident) == Some(id)
    ensures LookupTy(m, current, Some(global), ident) == Some(id) ||
            (current.Some? && LookupTy(m, current, Some(global), ident) == LookupIn(m, current.value, ident))
  {
  }

  // ---------------------------------------------------------------------
  // Based types.

  datatype BasedTypeKind = PointerBased

  /** A type built on another, here a pointer to it. */
  datatype BasedType = BasedType(id: Id, kind: BasedTypeKind, basedOn: Id)

  /** The checker's own state around the map. */
  datatype Checker = Checker(arena: Map, currentNs: Option<Id>, globalNs: Option<Id>, basedTypes: seq<BasedType>)

  predicate Matches(b: BasedType, ty: Id, kind: BasedTypeKind)
  {
    b.basedOn == ty && b.kind == kind
  }

  /** `find_based_ty`: the id of the first entry built on `ty` with that
      kind. */
  function FindBasedTy(based: seq<BasedType>, ty: Id, kind: BasedTypeKind): (r: Option<Id>)
    ensures r.None? <==> forall i :: 0 <= i < |based| ==> !Matches(based[i], ty, kind)
    ensures r.Some? ==> exists i :: 0 <= i < |based| && Matches(based[i], ty, kind) && based[i].id == r.value &&
                                    forall j :: 0 <= j < i ==> !Matches(based[j], ty, kind)
  {
    if based == [] then None
    else if Matches(based[0], ty, kind) then Some(based[0].id)
    else
      var r := FindBasedTy(based[1..], ty, kind);
      assert r.Some? ==> exists i :: 0 <= i < |based[1..]| && Matches(based[1..][i], ty, kind) && based[1..][i].id == r.value &&
                                   forall j :: 0 <= j < i ==> !Matches(based[1..][j], ty, kind);
      if r.Some? then
        var i :| 0 <= i < |based[1..]| && Matches(based[1..][i], ty, kind) && based[1..][i].id == r.value &&
                 forall j :: 0 <= j < i ==> !Matches(based[1..][j], ty, kind);
        assert Matches(based[i + 1], ty, kind) && based[i + 1].id == r.value;
        assert forall j :: 0 <= j < i + 1 ==> !Matches(based[j], ty, kind) by {
          forall j | 0 <= j < i + 1
            ensures !Matches(based[j], ty, kind)
          {
            if j > 0 {
              assert based[j] == based[1..][j - 1];
            }
          }
        }
        r
      else r
  }

  /** Where the checker keeps its pointer types: in the global namespace. */
  predicate HasGlobal(c: Checker)
  {
    c.globalNs.Some? && c.globalNs.value in c.arena.namespaces
  }

  /** `add_based_ty`: a new pointer type, child of the global namespace,
      remembered as based on `ty`. */
  function AddBasedTy(c: Checker, kind: BasedTypeKind, ty: Id): (r: (Checker, Id))
    requires TombstonesValid(c.arena) && HasGlobal(c)
    ensures var (m1, id) := NewTy(c.arena, Pointer(ty));
            && r.1 == id
            && r.0.arena == m1.(parents := m1.parents[id := c.globalNs.value])
            && r.0.basedTypes == c.basedTypes + [BasedType(id, kind, ty)]
            && r.0.currentNs == c.currentNs && r.0.globalNs == c.globalNs
  {
    var (m1, id) := NewTy(c.arena, Pointer(ty));
    (c.(arena := m1.(parents := m1.parents[id := c.globalNs.value]),
        basedTypes := c.basedTypes + [BasedType(id, kind, ty)]), id)
  }

  /** `get_based_ty`: the remembered type if there is one, a new one
      otherwise. */
  function GetBasedTy(c: Checker, ty: Id, kind: BasedTypeKind): (r: (Checker, Id))
    requires TombstonesValid(c.arena) && HasGlobal(c)
    ensures FindBasedTy(c.basedTypes, ty, kind).Some? ==> r == (c, FindBasedTy(c.basedTypes, ty, kind).value)
    ensures FindBasedTy(c.basedTypes, ty, kind).None? ==> r == AddBasedTy(c, kind, ty)
  {
    match FindBasedTy(c.basedTypes, ty, kind)
    case Some(id) => (c, id)
    case None => AddBasedTy(c, kind, ty)
  }

  /** Asking twice for the same based type gives the same id and changes
      nothing the second time. */
  lemma GetBasedTyMemo(c: Checker, ty: Id, kind: BasedTypeKind)
    requires TombstonesValid(c.arena) && HasGlobal(c)
    ensures var (c1, id) := GetBasedTy(c, ty, kind);
            TombstonesValid(c1.arena) && HasGlobal(c1) && GetBasedTy(c1, ty, kind) == (c1, id)
  {
    var (c1, id) := GetBasedTy(c, ty, kind);
    if FindBasedTy(c.basedTypes, ty, kind).None? {
      NewNodeTombstones(c.arena, Type);
      var b := c1.basedTypes;
      assert Matches(b[|b| - 1], ty, kind);
      assert forall j :: 0 <= j < |b| - 1 ==> !Matches(b[j], ty, kind) by {
        forall j | 0 <= j < |b| - 1
          ensures !Matches(b[j], ty, kind)
        {
          assert b[j] == c.basedTypes[j];
        }
      }
    }
  }

  /** Every remembered based type is a pointer type of the map. */
  predicate BasedValid(c: Checker)
  {
    forall i :: 0 <= i < |c.basedTypes| ==>
      c.basedTypes[i].id in c.arena.types && c.arena.types[c.basedTypes[i].id] == Pointer(c.basedTypes[i].basedOn)
  }

  /** The id handed out is a pointer to `ty`; so pointers to different
      types get different ids. */
  lemma GetBasedTyPointsTo(c: Checker, ty: Id, kind: BasedTypeKind)
    requires TombstonesValid(c.arena) && TypesValid(c.arena) && HasGlobal(c) && BasedValid(c)
    ensures var (c1, id) := GetBasedTy(c, ty, kind);
            BasedValid(c1) && id in c1.arena.types && c1.arena.types[id] == Pointer(ty)
  {
    var (c1, id) := GetBasedTy(c, ty, kind);
    if FindBasedTy(c.basedTypes, ty, kind).None? {
      NewNodeIsFresh(c.arena, Type);
      forall i | 0 <= i < |c1.basedTypes|
        ensures c1.basedTypes[i].id in c1.arena.types
        ensures c1.arena.types[c1.basedTypes[i].id] == Pointer(c1.basedTypes[i].basedOn)
      {
        if i < |c.basedTypes| {
          assert c1.basedTypes[i] == c.basedTypes[i];
        }
      }
    }
  }

  // ---------------------------------------------------------------------
  // Calls.

  /** The arity test of a call: the counts differ, and a variadic callee
      does not excuse it because too few arguments were given. */
  function CallSigMismatch(params: nat, args: nat, isVarArgs: bool): (r: bool)
    ensures r <==> (if isVarArgs then args < params else args != params)
    ensures !r ==> params <= args
  {
    params != args && (!isVarArgs || (isVarArgs && args < params))
  }

  /** Every id is a node of the map. */
  predicate AllNodes(m: Map, ids: seq<Id>)
  {
    forall i :: 0 <= i < |ids| ==> ids[i] < |m.nodes|
  }

  /** One parameter of the argument loop: unify the parameter type with
      the argument, and on failure record a unification error naming the
      argument and the parameter type. */
  function CallArg(m: Map, param: Id, arg: Id): (r: (Map, bool))
    requires Valid(m) && param < |m.nodes| && arg < |m.nodes|
    ensures Valid(r.0) && |r.0.nodes| == |m.nodes|
    ensures m.errors.Keys <= r.0.errors.Keys
    ensures r.1 <==> Unify(m, param, arg).1.None?
    ensures r.1 ==> arg in r.0.errors && r.0.errors[arg] == SemaError([arg, param], Unification)
    ensures !r.1 ==> r.0 == Unify(m, param, arg).0 && r.0.errors == m.errors
  {
    UnifyKeepsValid(m, param, arg);
    var (m1, ty) := Unify(m, param, arg);
    if ty.None? then (SetErr(m1, arg, Unification, [arg, param]), true) else (m1, false)
  }

  /** The argument loop of a call whose arity matched: each parameter type
      from `from` on is unified with its argument, and a failure records a
      unification error on the argument. The answer says whether any
      parameter failed. */
  function CallArgs(m: Map, params: seq<Id>, args: seq<Id>, from: nat): (r: (Map, bool))
    requires Valid(m) && from <= |params| <= |args| && AllNodes(m, params) && AllNodes(m, args)
    ensures Valid(r.0) && |r.0.nodes| == |m.nodes|
    ensures m.errors.Keys <= r.0.errors.Keys
    ensures !r.1 ==> r.0.errors.Keys == m.errors.Keys
    ensures r.1 ==> exists i :: from <= i < |params| && args[i] in r.0.errors
    decreases |params| - from
  {
    if from == |params| then (m, false)
    else
      var (m1, failed) := CallArg(m, params[from], args[from]);
      var (m2, later) := CallArgs(m1, params, args, from + 1);
      (m2, failed || later)
  }
}

=== FILE: sema_types.dfy ===
/**
  The arena of the semantic checker. Every entity (module, type, function,
  parameter, variable, block, constant, expression, error) is a node
  identified by its index. Removed nodes become tombstones whose ids are
  reused, last freed first. Side tables, keyed by node id, record each
  node's assigned type, the ids waiting on an inference marker, parents,
  types, names, namespaces, errors and the mapping to and from BIR ids.
 */
module SemaTypes {
  import opened Wrappers

  type Id = nat

  /** A BIR id, kept opaque. */
  type BirId = nat

  datatype Kind =
    | Module | Type | TypeMember | Function | Param | Var | Block | Constant | Expr | Error
    | Tombstone

  datatype TypeKind =
    | Void
    | Never
    | Integer(size: nat)
    | Pointer(pointee: Id)
    | Str
    | Aggregate(members: seq<Id>)
    | FunctionTy(returnTy: Id, parameters: seq<Id>, isVarArgs: bool)
    | Prototype
    | Marker

  /** The kinds `set_err` knows, and the diagnostic it records. */
  datatype ErrorKind =
    | UnknownType | UnknownName | DuplicateBinding | DuplicateType | UnknownCall
    | InvalidPointeeType | ParamAssignment | CallToNonFnType | Unification | InvalidIndexType

  datatype SemaError = SemaError(ids: seq<Id>, kind: ErrorKind)

  /** A namespace lists its members in declaration order. */
  datatype Namespace = Namespace(id: Id, members: seq<Id>, params: seq<Id>, vars: seq<Id>)

  function EmptyNamespace(id: Id): (ns: Namespace)
    ensures ns.id == id && ns.members == [] && ns.params == [] && ns.vars == []
  {
    Namespace(id, [], [], [])
  }

  datatype Map = Map(
    nodes: seq<Kind>,
    tombstones: seq<Id>,
    assignedType: map<Id, Id>,
    markedIds: map<Id, seq<Id>>,
    parents: map<Id, Id>,
    types: map<Id, TypeKind>,
    names: map<Id, string>,
    namespaces: map<Id, Namespace>,
    errors: map<Id, SemaError>,
    birs: map<Id, BirId>,
    associatedBirIds: map<BirId, seq<Id>>)

  function EmptyMap(): Map
  {
    Map([], [], map[], map[], map[], map[], map[], map[], map[], map[], map[])
  }

  /** Distinct tombstone ids, each on a tombstone node. */
  predicate TombstoneList(nodes: seq<Kind>, ts: seq<Id>)
  {
    && (forall i :: 0 <= i < |ts| ==> ts[i] < |nodes| && nodes[ts[i]] == Tombstone)
    && (forall i, j :: 0 <= i < j < |ts| ==> ts[i] != ts[j])
  }

  /** The tombstone list holds distinct ids of tombstoned nodes. */
  predicate TombstonesValid(m: Map)
  {
    TombstoneList(m.nodes, m.tombstones)
  }

  /** Types are stored only for type nodes, and the waiting lists are kept
      for exactly the marker types. */
  predicate TypesValid(m: Map)
  {
    && (forall t :: t in m.types ==> t < |m.nodes| && m.nodes[t] == Type)
    && (forall t :: t in m.markedIds ==> t in m.types && m.types[t].Marker?)
    && (forall t :: t in m.types && m.types[t].Marker? ==> t in m.markedIds)
  }

  /** Every id waiting on a marker has been assigned a type. */
  predicate WaitingTyped(m: Map)
  {
    forall t, i :: t in m.markedIds && i in m.markedIds[t] ==> i in m.assignedType
  }

  /** Namespace members are named, and parents are namespaces. */
  predicate NamespacesValid(m: Map)
  {
    && (forall n, i :: n in m.namespaces && i in m.namespaces[n].members ==> i in m.names)
    && (forall i :: i in m.parents ==> m.parents[i] in m.namespaces)
  }

  /** What the map's operations rely on. */
  predicate Valid(m: Map)
  {
    TombstonesValid(m) && TypesValid(m) && WaitingTyped(m) && NamespacesValid(m)
  }

  lemma EmptyMapValid()
    ensures Valid(EmptyMap())
  {
  }

  /** `kind`: the source expects the id to be in range. */
  function KindOf(m: Map, id: Id): Kind
    requires id < |m.nodes|
  {
    m.nodes[id]
  }

  predicate HasNamespace(k: Kind)
  {
    k == Module || k == Function || k == Block
  }

  /** `new_node`: reuses the most recently freed id when there is one and
      grows the node list otherwise; modules, functions and blocks get an
      empty namespace. Making a tombstone is unreachable in the source. */
  function NewNode(m: Map, kind: Kind): (r: (Map, Id))
    requires kind != Tombstone && TombstonesValid(m)
    ensures r.1 < |r.0.nodes| && r.0.nodes[r.1] == kind
    ensures m.tombstones == [] ==> r.1 == |m.nodes| && r.0.nodes == m.nodes + [kind] && r.0.tombstones == []
    ensures m.tombstones != [] ==>
              && r.1 == m.tombstones[|m.tombstones| - 1]
              && r.0.tombstones == m.tombstones[..|m.tombstones| - 1]
              && r.0.nodes == m.nodes[r.1 := kind] && m.nodes[r.1] == Tombstone
    ensures r.0.namespaces == (if HasNamespace(kind) then m.namespaces[r.1 := EmptyNamespace(r.1)] else m.namespaces)
    ensures r.0 == m.(nodes := r.0.nodes, tombstones := r.0.tombstones, namespaces := r.0.namespaces)
  {
    var (m1, id) :=
      if m.tombstones == [] then (m.(nodes := m.nodes + [kind]), |m.nodes|)
      else
        var id := m.tombstones[|m.tombstones| - 1];
        (m.(nodes := m.nodes[id := kind], tombstones := m.tombstones[..|m.tombstones| - 1]), id);
    if HasNamespace(kind) then (m1.(namespaces := m.namespaces[id := EmptyNamespace(id)]), id)
    else (m1, id)
  }

  /** A new node's id was free: either past the end or a tombstone. So no
      side table that only holds live ids mentions it. */
  lemma NewNodeIsFresh(m: Map, kind: Kind)
    requires TombstonesValid(m) && TypesValid(m) && kind != Tombstone
    ensures NewNode(m, kind).1 !in m.types && NewNode(m, kind).1 !in m.markedIds
  {
    if m.tombstones != [] {
      var t := m.tombstones[|m.tombstones| - 1];
      assert m.nodes[t] == Tombstone;
    }
  }

  /** Reusing the last tombstone leaves the others on tombstone nodes. */
  lemma PopTombstone(nodes: seq<Kind>, ts: seq<Id>, kind: Kind)
    requires TombstoneList(nodes, ts) && ts != []
    ensures TombstoneList(nodes[ts[|ts| - 1] := kind], ts[..|ts| - 1])
  {
    var id := ts[|ts| - 1];
    var ts1 := ts[..|ts| - 1];
    forall i | 0 <= i < |ts1|
      ensures ts1[i] < |nodes| && nodes[id := kind][ts1[i]] == Tombstone
    {
      assert ts1[i] == ts[i] != id;
    }
  }

  /** Taking an id off the tombstone list leaves the rest valid. */
  lemma NewNodeTombstones(m: Map, kind: Kind)
    requires TombstonesValid(m) && kind != Tombstone
    ensures TombstonesValid(NewNode(m, kind).0)
  {
    if m.tombstones != [] {
      PopTombstone(m.nodes, m.tombstones, kind);
    }
  }

  /** A new node keeps the namespace invariant: a new namespace is empty. */
  lemma NewNodeNamespaces(m: Map, kind: Kind)
    requires TombstonesValid(m) && NamespacesValid(m) && kind != Tombstone
    ensures NamespacesValid(NewNode(m, kind).0)
  {
  }

  /** A new node other than a type keeps types on type nodes only. */
  lemma NewNodeTypes(m: Map, kind: Kind)
    requires TombstonesValid(m) && TypesValid(m) && kind != Tombstone && kind != Type
    ensures TypesValid(NewNode(m, kind).0)
  {
    var (m1, id) := NewNode(m, kind);
    NewNodeIsFresh(m, kind);
    TypesStayOnTypeNodes(m.types, m.nodes, m1.nodes, id, kind);
  }

  /** Overwriting or appending a node that holds no type record keeps
      every type record on a type node. */
  lemma TypesStayOnTypeNodes(types: map<Id, TypeKind>, nodes: seq<Kind>, nodes1: seq<Kind>, id: Id, kind: Kind)
    requires forall t :: t in types ==> t < |nodes| && nodes[t] == Type
    requires id !in types
    requires (id == |nodes| && nodes1 == nodes + [kind]) || (id < |nodes| && nodes1 == nodes[id := kind])
    ensures forall t :: t in types ==> t < |nodes1| && nodes1[t] == Type
  {
    forall t | t in types
      ensures t < |nodes1| && nodes1[t] == Type
    {
      assert t != id;
    }
  }

  /** A new node that is not a type keeps the map valid. */
  lemma NewNodeKeepsValid(m: Map, kind: Kind)
    requires Valid(m) && kind != Tombstone && kind != Type
    ensures Valid(NewNode(m, kind).0)
  {
    NewNodeTombstones(m, kind);
    NewNodeTypes(m, kind);
    NewNodeNamespaces(m, kind);
    assert WaitingTyped(NewNode(m, kind).0);
  }

  // ---------------------------------------------------------------------
  // Types.

  /** `ty_id`: a type node is its own type; any other node has the type
      assigned to it, if any. */
  function TyId(m: Map, id: Id): (r: Option<Id>)
    requires id < |m.nodes|
    ensures m.nodes[id] == Type ==> r == Some(id)
    ensures m.nodes[id] != Type ==> (r.Some? <==> id in m.assignedType)
    ensures m.nodes[id] != Type && r.Some? ==> r.value == m.assignedType[id]
  {
    if KindOf(m, id) == Type then Some(id)
    else if id in m.assignedType then Some(m.assignedType[id])
    else None
  }

  /** `ty`: the type record of a node's type. The source's debug check of
      the type node's kind is not modelled. */
  function Ty(m: Map, id: Id): (r: Option<TypeKind>)
    requires id < |m.nodes|
    ensures r.Some? <==> TyId(m, id).Some? && TyId(m, id).value in m.types
    ensures r.Some? ==> r.value == m.types[TyId(m, id).value]
  {
    match TyId(m, id)
    case Some(t) => if t in m.types then Some(m.types[t]) else None
    case None => None
  }

  /** Whether a node's type is an inference marker. */
  predicate IsMarkerTy(m: Map, id: Id)
    requires id < |m.nodes|
  {
    Ty(m, id).Some? && Ty(m, id).value.Marker?
  }

  /** `new_ty`: a type node; a marker gets an empty waiting list, an
      aggregate or a prototype gets a namespace. */
  function NewTy(m: Map, kind: TypeKind): (r: (Map, Id))
    requires TombstonesValid(m)
    ensures r.1 < |r.0.nodes| && r.0.nodes[r.1] == Type
    ensures r.1 == NewNode(m, Type).1 && r.0.nodes == NewNode(m, Type).0.nodes
    ensures r.0.tombstones == NewNode(m, Type).0.tombstones
    ensures r.0.types == m.types[r.1 := kind]
    ensures r.0.markedIds == (if kind.Marker? then m.markedIds[r.1 := []] else m.markedIds)
    ensures r.0.namespaces ==
              (if kind.Aggregate? || kind.Prototype? then m.namespaces[r.1 := EmptyNamespace(r.1)] else m.namespaces)
    ensures r.0 == m.(nodes := r.0.nodes, tombstones := r.0.tombstones, types := r.0.types,
                      markedIds := r.0.markedIds, namespaces := r.0.namespaces)
  {
    var (m1, id) := NewNode(m, Type);
    var m2 := match kind
      case Marker => m1.(markedIds := m.markedIds[id := []])
      case Aggregate(_) => m1.(namespaces := m.namespaces[id := EmptyNamespace(id)])
      case Prototype => m1.(namespaces := m.namespaces[id := EmptyNamespace(id)])
      case _ => m1;
    (m2.(types := m.types[id := kind]), id)
  }

  /** The type tables stay consistent: the new id was free, and a marker
      gets its waiting list. */
  lemma NewTyTypes(m: Map, kind: TypeKind)
    requires TombstonesValid(m) && TypesValid(m)
    ensures TypesValid(NewTy(m, kind).0)
  {
    var (m1, id) := NewTy(m, kind);
    NewNodeIsFresh(m, Type);
    forall t | t in m1.types
      ensures t < |m1.nodes| && m1.nodes[t] == Type
    {
      if t != id {
        assert m.nodes[t] == Type;
      }
    }
  }

  /** A new type's waiting list, if any, is empty. */
  lemma NewTyWaiting(m: Map, kind: TypeKind)
    requires TombstonesValid(m) && TypesValid(m) && WaitingTyped(m)
    ensures WaitingTyped(NewTy(m, kind).0)
  {
    NewNodeIsFresh(m, Type);
  }

  lemma NewTyKeepsValid(m: Map, kind: TypeKind)
    requires Valid(m)
    ensures Valid(NewTy(m, kind).0)
  {
    NewNodeTombstones(m, Type);
    NewTyTypes(m, kind);
    NewTyWaiting(m, kind);
    assert NamespacesValid(NewTy(m, kind).0);
  }

  /** `set_ty`: assigns a type (a type or error node) to a node; a node
      given a marker type joins that marker's waiting list. */
  function SetTy(m: Map, id: Id, ty: Id): (r: Map)
    requires ty < |m.nodes| && (m.nodes[ty] == Type || m.nodes[ty] == Error)
    requires IsMarkerTy(m, ty) ==> ty in m.markedIds
    ensures r.assignedType == m.assignedType[id := ty]
    ensures IsMarkerTy(m, ty) ==> r.markedIds == m.markedIds[ty := m.markedIds[ty] + [id]]
    ensures !IsMarkerTy(m, ty) ==> r.markedIds == m.markedIds
    ensures r == m.(assignedType := r.assignedType, markedIds := r.markedIds)
  {
    var m1 := m.(assignedType := m.assignedType[id := ty]);
    if IsMarkerTy(m, ty) then m1.(markedIds := m.markedIds[ty := m.markedIds[ty] + [id]])
    else m1
  }

  /** A type node has a waiting list exactly when it is a marker. */
  lemma MarkerHasWaitingList(m: Map, ty: Id)
    requires TypesValid(m) && ty < |m.nodes| && m.nodes[ty] == Type
    ensures IsMarkerTy(m, ty) <==> ty in m.markedIds
  {
  }

  /** Setting a type keeps every waiting id typed. */
  lemma SetTyWaiting(m: Map, id: Id, ty: Id)
    requires WaitingTyped(m) && ty < |m.nodes| && (m.nodes[ty] == Type || m.nodes[ty] == Error)
    requires IsMarkerTy(m, ty) ==> ty in m.markedIds
    ensures WaitingTyped(SetTy(m, id, ty))
  {
    if IsMarkerTy(m, ty) {
      WaitingAppend(m.markedIds, SetTy(m, id, ty).markedIds, m.assignedType, ty, id);
    }
  }

  /** Adding an id to one waiting list, and giving it a type, keeps every
      waiting id typed. */
  lemma WaitingAppend(waiting: map<Id, seq<Id>>, w1: map<Id, seq<Id>>, at: map<Id, Id>, ty: Id, id: Id)
    requires ty in waiting && w1 == waiting[ty := waiting[ty] + [id]]
    requires forall t, i :: t in waiting && i in waiting[t] ==> i in at
    ensures forall t, i :: t in w1 && i in w1[t] ==> i in at[id := ty]
  {
    forall t, i | t in w1 && i in w1[t]
      ensures i in at[id := ty]
    {
      if t != ty || i != id {
        assert i in waiting[t];
      }
    }
  }

  /** Setting then reading a type: any node but a type node reads back the
      type just assigned. */
  lemma SetTyThenTyId(m: Map, id: Id, ty: Id)
    requires TypesValid(m) && id < |m.nodes| && m.nodes[id] != Type
    requires ty < |m.nodes| && m.nodes[ty] == Type
    ensures IsMarkerTy(m, ty) ==> ty in m.markedIds
    ensures TyId(SetTy(m, id, ty), id) == Some(ty)
  {
    MarkerHasWaitingList(m, ty);
  }

  /** Assigning a type node keeps the map valid. */
  lemma SetTyKeepsValid(m: Map, id: Id, ty: Id)
    requires Valid(m) && ty < |m.nodes| && m.nodes[ty] == Type
    ensures IsMarkerTy(m, ty) ==> ty in m.markedIds
    ensures Valid(SetTy(m, id, ty))
  {
    MarkerHasWaitingList(m, ty);
    SetTyWaiting(m, id, ty);
    SetTyTypes(m, id, ty);
  }

  /** Setting a type touches no type record and no waiting list's key. */
  lemma SetTyTypes(m: Map, id: Id, ty: Id)
    requires TypesValid(m) && ty < |m.nodes| && m.nodes[ty] == Type
    requires IsMarkerTy(m, ty) ==> ty in m.markedIds
    ensures TypesValid(SetTy(m, id, ty))
  {
  }

  /** Assigns `t` to every id of `ids`, each of which already has a type. */
  function Redirect(at: map<Id, Id>, ids: seq<Id>, t: Id): (r: map<Id, Id>)
    requires forall i :: i in ids ==> i in at
    ensures r.Keys == at.Keys
    ensures forall k :: k in at ==> r[k] == (if k in ids then t else at[k])
  {
    if ids == [] then at
    else Redirect(at[ids[0] := t], ids[1..], t)
  }

  /** `resolve_marker`: every node waiting on `marker` now has type
      `resolved`; a marker target inherits the waiting list; the marker
      node is tombstoned and its type record dropped. The source asserts
      (in debug builds) that `resolved` is a type node and `marker` a
      marker, and unwraps the waiting lists, so `marker` and `resolved`
      differ and `resolved` has a type record. */
  function ResolveMarker(m: Map, marker: Id, resolved: Id): (r: Map)
    requires Valid(m) && marker < |m.nodes| && resolved < |m.nodes|
    requires m.nodes[resolved] == Type && resolved in m.types && marker != resolved
    requires IsMarkerTy(m, marker) && m.nodes[marker] == Type
    ensures marker in m.markedIds
    ensures r.assignedType.Keys == m.assignedType.Keys
    ensures forall k :: k in m.assignedType ==>
              r.assignedType[k] == (if k in m.markedIds[marker] then resolved else m.assignedType[k])
    ensures m.types[resolved].Marker? ==>
              r.markedIds == (m.markedIds - {marker})[resolved := m.markedIds[resolved] + m.markedIds[marker]]
    ensures !m.types[resolved].Marker? ==> r.markedIds == m.markedIds - {marker}
    ensures r.nodes == m.nodes[marker := Tombstone] && r.tombstones == m.tombstones + [marker]
    ensures r.types == m.types - {marker}
    ensures r.names == m.names && r.namespaces == m.namespaces && r.parents == m.parents
    ensures r.errors == m.errors && r.birs == m.birs && r.associatedBirIds == m.associatedBirIds
  {
    var marked := m.markedIds[marker];
    var others := m.markedIds - {marker};
    var at := Redirect(m.assignedType, marked, resolved);
    var waiting := if m.types[resolved].Marker? then others[resolved := m.markedIds[resolved] + marked] else others;
    m.(assignedType := at, markedIds := waiting,
       nodes := m.nodes[marker := Tombstone], tombstones := m.tombstones + [marker],
       types := m.types - {marker})
  }

  /** Resolving a marker keeps the map valid, gives every node that waited
      on it the resolved type, and frees the marker's id: the next node
      made takes it. */
  lemma ResolveMarkerFacts(m: Map, marker: Id, resolved: Id, k: Id, kind: Kind)
    requires Valid(m) && marker < |m.nodes| && resolved < |m.nodes|
    requires m.nodes[resolved] == Type && resolved in m.types && marker != resolved
    requires IsMarkerTy(m, marker) && m.nodes[marker] == Type
    requires kind != Tombstone
    ensures Valid(ResolveMarker(m, marker, resolved))
    ensures marker in m.markedIds
    ensures k < |m.nodes| && k in m.markedIds[marker] && m.nodes[k] != Type && k != marker ==>
              TyId(ResolveMarker(m, marker, resolved), k) == Some(resolved)
    ensures NewNode(ResolveMarker(m, marker, resolved), kind).1 == marker
  {
    var r := ResolveMarker(m, marker, resolved);
    assert m.nodes[marker] != Tombstone;
    forall i | 0 <= i < |r.tombstones|
      ensures r.tombstones[i] < |r.nodes| && r.nodes[r.tombstones[i]] == Tombstone
    {
      if i < |m.tombstones| {
        assert r.tombstones[i] == m.tombstones[i];
      }
    }
    forall i, j | 0 <= i < j < |r.tombstones|
      ensures r.tombstones[i] != r.tombstones[j]
    {
      if j == |m.tombstones| {
        assert r.tombstones[i] == m.tombstones[i];
      } else {
        assert r.tombstones[i] == m.tombstones[i] && r.tombstones[j] == m.tombstones[j];
      }
    }
  }

  // ---------------------------------------------------------------------
  // BIR mapping.

  /** The only panic of `set_bir`: a node already mapped to a BIR id. */
  datatype BirError = Overwriting(previous: BirId, replacement: BirId, id: Id)

  /** `set_bir`: maps a node to a BIR id and records the node among that
      BIR id's nodes; overwriting an existing mapping panics. */
  function SetBir(m: Map, id: Id, bir: BirId): (r: Result<Map, BirError>)
    ensures r.Err? <==> id in m.birs
    ensures r.Err? ==> r.error == Overwriting(m.birs[id], bir, id)
    ensures r.Ok? ==> r.value.birs == m.birs[id := bir]
    ensures r.Ok? ==> r.value.associatedBirIds == m.associatedBirIds[bir := AssociatedIds(m, bir) + [id]]
    ensures r.Ok? ==> r.value.nodes == m.nodes && r.value.assignedType == m.assignedType && r.value.types == m.types
  {
    if id in m.birs then Err(Overwriting(m.birs[id], bir, id))
    else Ok(m.(birs := m.birs[id := bir], associatedBirIds := m.associatedBirIds[bir := AssociatedIds(m, bir) + [id]]))
  }

  function AssociatedIds(m: Map, bir: BirId): seq<Id>
  {
    if bir in m.associatedBirIds then m.associatedBirIds[bir] else []
  }

  /** `bir_to_id`: the first node associated with a BIR id. */
  function BirToId(m: Map, bir: BirId): (r: Option<Id>)
    ensures r.Some? <==> |AssociatedIds(m, bir)| > 0
    ensures r.Some? ==> r.value == AssociatedIds(m, bir)[0]
  {
    if |AssociatedIds(m, bir)| > 0 then Some(AssociatedIds(m, bir)[0]) else None
  }

  /** Mapping a node reads back both ways: the node's BIR id is the new
      one, and a BIR id seen for the first time maps back to this node;
      mapping the same node again is the overwrite panic. */
  lemma SetBirReadsBack(m: Map, id: Id, bir: BirId, bir2: BirId)
    requires id !in m.birs
    ensures SetBir(m, id, bir).Ok?
    ensures SetBir(m, id, bir).value.birs[id] == bir
    ensures AssociatedIds(m, bir) == [] ==> BirToId(SetBir(m, id, bir).value, bir) == Some(id)
    ensures AssociatedIds(m, bir) != [] ==> BirToId(SetBir(m, id, bir).value, bir) == BirToId(m, bir)
    ensures SetBir(SetBir(m, id, bir).value, id, bir2) == Err(Overwriting(bir, bir2, id))
  {
  }

  // ---------------------------------------------------------------------
  // Namespaces.

  /** `NamespaceHandle::add_name`: names a node and appends it to the
      namespace's members. The namespace must exist. */
  function AddName(m: Map, ns: Id, id: Id, ident: string): (r: Map)
    requires ns in m.namespaces
    ensures r.names == m.names[id := ident]
    ensures r.namespaces == m.namespaces[ns := m.namespaces[ns].(members := m.namespaces[ns].members + [id])]
    ensures r.nodes == m.nodes && r.parents == m.parents && r.types == m.types
  {
    var n := m.namespaces[ns];
    m.(names := m.names[id := ident], namespaces := m.namespaces[ns := n.(members := n.members + [id])])
  }

  lemma AddNameKeepsValid(m: Map, ns: Id, id: Id, ident: string)
    requires Valid(m) && ns in m.namespaces
    ensures Valid(AddName(m, ns, id, ident))
  {
  }

  /** `NamespaceHandle::new_node`: a node whose parent is the namespace. A
      handle exists only for an id that has a namespace (`ns_mut`). */
  function NsNewNode(m: Map, ns: Id, kind: Kind): (r: (Map, Id))
    requires kind != Tombstone && TombstonesValid(m) && ns in m.namespaces
    ensures r.1 == NewNode(m, kind).1
    ensures r.0 == NewNode(m, kind).0.(parents := m.parents[r.1 := ns])
  {
    var (m1, id) := NewNode(m, kind);
    (m1.(parents := m1.parents[id := ns]), id)
  }

  /** A node made through a namespace handle keeps every parent a namespace. */
  lemma NsNewNodeNamespaces(m: Map, ns: Id, kind: Kind)
    requires kind != Tombstone && TombstonesValid(m) && NamespacesValid(m) && ns in m.namespaces
    ensures NamespacesValid(NsNewNode(m, ns, kind).0)
  {
    NewNodeNamespaces(m, kind);
  }

  /** A node other than a type made through a namespace handle keeps the
      arena valid, and its parent reads back as the namespace. */
  lemma NsNewNodeKeepsValid(m: Map, ns: Id, kind: Kind)
    requires Valid(m) && kind != Tombstone && kind != Type && ns in m.namespaces
    ensures var (m1, id) := NsNewNode(m, ns, kind);
            Valid(m1) && id in m1.parents && m1.parents[id] == ns
  {
    NewNodeKeepsValid(m, kind);
    NsNewNodeNamespaces(m, ns, kind);
  }

  /** The index of the last member named `ident`, searching from the end. */
  function LastNamed(m: Map, members: seq<Id>, ident: string): (r: Option<nat>)
    requires forall i :: i in members ==> i in m.names
    ensures r.Some? ==> r.value < |members| && m.names[members[r.value]] == ident
    ensures r.Some? ==> forall j :: r.value < j < |members| ==> m.names[members[j]] != ident
    ensures r.None? <==> forall j :: 0 <= j < |members| ==> m.names[members[j]] != ident
  {
    if members == [] then None
    else if m.names[members[|members| - 1]] == ident then Some(|members| - 1)
    else LastNamed(m, members[..|members| - 1], ident)
  }

  /** `Namespace::lookup`: the latest member with that name; failing that,
      and when asked, the same search in the parent namespace. The source
      unwraps the member's name and the parent's namespace. The parent
      chain is followed for at most `fuel` steps. */
  function Lookup(m: Map, ns: Id, ident: string, checkParents: bool, fuel: nat): (r: Option<Id>)
    requires NamespacesValid(m) && ns in m.namespaces
    ensures var local := LastNamed(m, m.namespaces[ns].members, ident);
            local.Some? ==> r == Some(m.namespaces[ns].members[local.value])
    ensures LastNamed(m, m.namespaces[ns].members, ident).None? && !checkParents ==> r.None?
    ensures LastNamed(m, m.namespaces[ns].members, ident).None? && ns !in m.parents ==> r.None?
    ensures LastNamed(m, m.namespaces[ns].members, ident).None? && checkParents && ns in m.parents && fuel > 0 ==>
              r == Lookup(m, m.parents[ns], ident, true, fuel - 1)
    ensures r.Some? ==> r.value in m.names && m.names[r.value] == ident
    decreases fuel
  {
    var members := m.namespaces[ns].members;
    var local := LastNamed(m, members, ident);
    if local.Some? then Some(members[local.value])
    else if checkParents && ns in m.parents && fuel > 0 then Lookup(m, m.parents[ns], ident, true, fuel - 1)
    else None
  }

  /** The namespace `k` parent steps above `ns`, if the chain is that long. */
  function Ancestor(m: Map, ns: Id, k: nat): (r: Option<Id>)
    requires NamespacesValid(m) && ns in m.namespaces
    ensures r.Some? ==> r.value in m.namespaces
    decreases k
  {
    if k == 0 then Some(ns)
    else if ns in m.parents then Ancestor(m, m.parents[ns], k - 1)
    else None
  }

  /** Whether some member of namespace `a` is named `ident`. */
  predicate Declares(m: Map, a: Id, ident: string)
    requires NamespacesValid(m) && a in m.namespaces
  {
    exists i :: 0 <= i < |m.namespaces[a].members| && m.names[m.namespaces[a].members[i]] == ident
  }

  /** The latest member of a namespace that declares `ident`. */
  function LatestIn(m: Map, a: Id, ident: string): (r: Id)
    requires NamespacesValid(m) && a in m.namespaces && Declares(m, a, ident)
    ensures r in m.namespaces[a].members && m.names[r] == ident
  {
    var ms := m.namespaces[a].members;
    var i :| 0 <= i < |ms| && m.names[ms[i]] == ident;
    ms[LastNamed(m, ms, ident).value]
  }

  /** Following parents, lookup answers with the latest member named
      `ident` of the nearest ancestor (at most `fuel` steps up) that
      declares it. */
  lemma {:induction false} LookupFindsNearest(m: Map, ns: Id, ident: string, fuel: nat, k: nat)
    requires NamespacesValid(m) && ns in m.namespaces && k <= fuel
    requires Ancestor(m, ns, k).Some? && Declares(m, Ancestor(m, ns, k).value, ident)
    requires forall j :: 0 <= j < k && Ancestor(m, ns, j).Some? ==> !Declares(m, Ancestor(m, ns, j).value, ident)
    ensures Lookup(m, ns, ident, true, fuel) == Some(LatestIn(m, Ancestor(m, ns, k).value, ident))
    decreases k
  {
    var ms := m.namespaces[ns].members;
    if k == 0 {
      var i :| 0 <= i < |ms| && m.names[ms[i]] == ident;
    } else {
      assert Ancestor(m, ns, 0) == Some(ns);
      assert !Declares(m, ns, ident);
      assert LastNamed(m, ms, ident).None?;
      assert ns in m.parents;
      var p := m.parents[ns];
      forall j | 0 <= j < k - 1 && Ancestor(m, p, j).Some?
        ensures !Declares(m, Ancestor(m, p, j).value, ident)
      {
        assert Ancestor(m, ns, j + 1) == Ancestor(m, p, j);
      }
      LookupFindsNearest(m, p, ident, fuel - 1, k - 1);
    }
  }

  /** No ancestor within `fuel` parent steps of `ns` declares `ident`. */
  predicate NoAncestorDeclares(m: Map, ns: Id, ident: string, fuel: nat)
    requires NamespacesValid(m) && ns in m.namespaces
  {
    forall k :: 0 <= k <= fuel && Ancestor(m, ns, k).Some? ==> !Declares(m, Ancestor(m, ns, k).value, ident)
  }

  /** Following parents, lookup finds nothing exactly when no ancestor
      within `fuel` steps declares `ident`. */
  lemma {:induction false} LookupNoneIff(m: Map, ns: Id, ident: string, fuel: nat)
    requires NamespacesValid(m) && ns in m.namespaces
    ensures Lookup(m, ns, ident, true, fuel).None? <==> NoAncestorDeclares(m, ns, ident, fuel)
    decreases fuel
  {
    var ms := m.namespaces[ns].members;
    assert Ancestor(m, ns, 0) == Some(ns);
    if Declares(m, ns, ident) {
      var i :| 0 <= i < |ms| && m.names[ms[i]] == ident;
      assert LastNamed(m, ms, ident).Some?;
      assert !NoAncestorDeclares(m, ns, ident, fuel);
    } else {
      assert LastNamed(m, ms, ident).None?;
      if ns in m.parents && fuel > 0 {
        var p := m.parents[ns];
        LookupNoneIff(m, p, ident, fuel - 1);
        if NoAncestorDeclares(m, p, ident, fuel - 1) {
          forall k | 0 <= k <= fuel && Ancestor(m, ns, k).Some?
            ensures !Declares(m, Ancestor(m, ns, k).value, ident)
          {
            if k > 0 {
              assert Ancestor(m, ns, k) == Ancestor(m, p, k - 1);
            }
          }
        } else {
          var k :| 0 <= k <= fuel - 1 && Ancestor(m, p, k).Some? && Declares(m, Ancestor(m, p, k).value, ident);
          assert Ancestor(m, ns, k + 1) == Ancestor(m, p, k);
          assert !NoAncestorDeclares(m, ns, ident, fuel);
        }
      } else {
        forall k | 0 <= k <= fuel && Ancestor(m, ns, k).Some?
          ensures !Declares(m, Ancestor(m, ns, k).value, ident)
        {
        }
      }
    }
  }

  /** A name added to a namespace shadows every earlier one of the same
      spelling there; other names still find what they found before. */
  lemma {:induction false} AddNameShadows(m: Map, ns: Id, id: Id, ident: string, other: string, fuel: nat)
    requires NamespacesValid(m) && ns in m.namespaces && other != ident
    ensures NamespacesValid(AddName(m, ns, id, ident))
    ensures Lookup(AddName(m, ns, id, ident), ns, ident, false, fuel) == Some(id)
    ensures id !in m.names ==> Lookup(AddName(m, ns, id, ident), ns, other, false, fuel) == Lookup(m, ns, other, false, fuel)
  {
    var m1 := AddName(m, ns, id, ident);
    var ms := m.namespaces[ns].members;
    assert m1.namespaces[ns].members == ms + [id];
    if id !in m.names {
      LastNamedAppend(m, m1, ms, id, other);
    }
  }

  /** Appending a member with another name leaves the search's answer. */
  lemma LastNamedAppend(m: Map, m1: Map, ms: seq<Id>, id: Id, other: string)
    requires forall i :: i in ms ==> i in m.names
    requires id in m1.names && m1.names == m.names[id := m1.names[id]] && m1.names[id] != other && id !in m.names
    ensures forall i :: i in ms + [id] ==> i in m1.names
    ensures LastNamed(m1, ms + [id], other) == LastNamed(m, ms, other)
  {
    assert (ms + [id])[..|ms|] == ms;
    LastNamedSameNames(m, m1, ms, other);
  }

  lemma {:induction false} LastNamedSameNames(m: Map, m1: Map, ms: seq<Id>, ident: string)
    requires forall i :: i in ms ==> i in m.names && i in m1.names && m1.names[i] == m.names[i]
    ensures LastNamed(m1, ms, ident) == LastNamed(m, ms, ident)
  {
    if ms != [] {
      LastNamedSameNames(m, m1, ms[..|ms| - 1], ident);
    }
  }

  // ---------------------------------------------------------------------
  // Aggregates.

  /** `offset_of`: the position of a member; the source expects it to be
      there. */
  function OffsetOf(members: seq<Id>, id: Id): (r: nat)
    requires id in members
    ensures r < |members| && members[r] == id
    ensures forall j :: 0 <= j < r ==> members[j] != id
  {
    if members[0] == id then 0 else 1 + OffsetOf(members[1..], id)
  }

  /** With distinct members, the offset of the i-th member is i. */
  lemma OffsetOfDistinct(members: seq<Id>, i: nat)
    requires i < |members|
    requires forall a, b :: 0 <= a < b < |members| ==> members[a] != members[b]
    ensures OffsetOf(members, members[i]) == i
  {
  }
}

=== FILE: source_utils.dfy ===
/**
  A source file held as characters plus the offsets of its line ends, with
  the mapping from character offsets to 1-based (line, column) anchors.
 */
module SourceUtils {
  import opened Wrappers
  import opened Slices
  import opened Spans

  datatype Source = Source(file: string, chars: seq<char>, lineEnds: seq<nat>)

  /** `ends` lists exactly the offsets of the '\n' characters of `chars`, in increasing order. */
  predicate IsLineEnds(chars: seq<char>, ends: seq<nat>)
  {
    && (forall i :: 0 <= i < |ends| ==> ends[i] < |chars| && chars[ends[i]] == '\n')
    && (forall i, j :: 0 <= i < j < |ends| ==> ends[i] < ends[j])
    && (forall k :: 0 <= k < |chars| && chars[k] == '\n' ==> k in ends)
  }

  /** Every `Source` is produced by `Build`, which establishes this. */
  predicate WellFormed(s: Source)
  {
    IsLineEnds(s.chars, s.lineEnds)
  }

  /** The source builder: the file name defaults to "<err>", "-" names
      standard input, and the text defaults to the empty string. */
  method Build(file: Option<string>, source: Option<string>) returns (s: Source)
    ensures file.None? ==> s.file == "<err>"
    ensures file == Some("-") ==> s.file == "<stdin>"
    ensures file.Some? && file.value != "-" ==> s.file == file.value
    ensures s.chars == source.UnwrapOr("")
    ensures WellFormed(s)
  {
    var name := match file
      case None => "<err>"
      case Some(f) => if f == "-" then "<stdin>" else f;
    var chars := source.UnwrapOr("");
    var ends: seq<nat> := [];
    var k := 0;
    while k < |chars|
      invariant 0 <= k <= |chars|
      invariant forall i :: 0 <= i < |ends| ==> ends[i] < k && chars[ends[i]] == '\n'
      invariant forall i, j :: 0 <= i < j < |ends| ==> ends[i] < ends[j]
      invariant forall m :: 0 <= m < k && chars[m] == '\n' ==> m in ends
    {
      if chars[k] == '\n' {
        ends := ends + [k];
      }
      k := k + 1;
    }
    s := Source(name, chars, ends);
  }

  /** Offset of the first character of 0-based line `line`. */
  function LineStart(ends: seq<nat>, line: nat): nat
    requires line <= |ends|
  {
    if line == 0 then 0 else ends[line - 1] + 1
  }

  /** Offset one past the last character of 0-based line `line`: its '\n', or
      the end of the text for a last line without one. */
  function LineEnd(s: Source, line: nat): nat
    requires line <= |s.lineEnds|
  {
    if line < |s.lineEnds| then s.lineEnds[line] else |s.chars|
  }

  /** No line holds a newline strictly between its start and its end. */
  lemma NoNewlineInLine(s: Source, line: nat)
    requires WellFormed(s)
    requires line <= |s.lineEnds|
    ensures forall k :: LineStart(s.lineEnds, line) <= k < LineEnd(s, line) ==> s.chars[k] != '\n'
  {
    var ends := s.lineEnds;
    forall k | LineStart(ends, line) <= k < LineEnd(s, line)
      ensures s.chars[k] != '\n'
    {
      forall j | 0 <= j < |ends|
        ensures ends[j] != k
      {
        if j < line {
          assert j == line - 1 || ends[j] < ends[line - 1];
        } else {
          assert j == line || ends[line] < ends[j];
        }
      }
    }
  }

  /** `a` is the anchor of `offset`: its line is the first line whose end lies
      at or after `offset`, and its column counts from that line's start. */
  predicate IsAnchorOf(s: Source, offset: nat, a: Anchor)
  {
    var ends := s.lineEnds;
    && a.offset == offset
    && 1 <= a.line <= |ends|
    && offset <= ends[a.line - 1]
    && (a.line == 1 || ends[a.line - 2] < offset)
    && a.column == offset - LineStart(ends, a.line - 1) + 1
  }

  /** The anchor on 0-based line `line`, for an offset that lies after the
      previous line end and at or before this one. */
  function LineAnchor(s: Source, offset: nat, line: nat): (a: Anchor)
    requires line < |s.lineEnds| && offset <= s.lineEnds[line]
    requires line == 0 || s.lineEnds[line - 1] < offset
    ensures IsAnchorOf(s, offset, a)
    ensures a.line >= 1 && a.column >= 1
  {
    Anchor(line + 1, offset - LineStart(s.lineEnds, line) + 1, offset)
  }

  /** The anchor of an offset, found by binary search over the line ends.
      An offset after the last '\n' has no anchor, even when it lies inside a
      final line that has no '\n'. */
  method AnchorAt(s: Source, offset: nat) returns (r: Option<Anchor>)
    requires WellFormed(s)
    ensures r.None? <==> (forall i :: 0 <= i < |s.lineEnds| ==> s.lineEnds[i] < offset)
    ensures r.Some? ==> IsAnchorOf(s, offset, r.value)
    ensures r.Some? ==> r.value.line >= 1 && r.value.column >= 1
  {
    var ends := s.lineEnds;
    var lo, hi := 0, |ends|;
    while lo < hi
      invariant 0 <= lo <= hi <= |ends|
      invariant forall i :: 0 <= i < lo ==> ends[i] < offset
      invariant forall i :: hi <= i < |ends| ==> offset < ends[i]
      decreases hi - lo
    {
      var mid := (lo + hi) / 2;
      if ends[mid] < offset {
        lo := mid + 1;
      } else if offset < ends[mid] {
        hi := mid;
      } else {
        // The offset is a line end: it belongs to that line.
        assert mid == 0 || ends[mid - 1] < ends[mid];
        return Some(LineAnchor(s, offset, mid));
      }
    }
    if lo >= |ends| {
      return None;
    }
    assert offset < ends[lo];
    return Some(LineAnchor(s, offset, lo));
  }

  /** The characters from an anchor's line start up to its offset hold no
      newline, and the character before that line start is one: the column
      is one more than the number of characters since the last '\n'. */
  lemma AnchorColumnCountsFromLineStart(s: Source, offset: nat, a: Anchor)
    requires WellFormed(s)
    requires IsAnchorOf(s, offset, a)
    ensures offset < |s.chars|
    ensures forall k :: offset - (a.column - 1) <= k < offset ==> s.chars[k] != '\n'
    ensures a.line > 1 ==> s.chars[offset - a.column] == '\n'
  {
    NoNewlineInLine(s, a.line - 1);
  }

  /** Both ends of a range as anchors, when both have one. */
  method SpanFor(s: Source, start: nat, end: nat) returns (r: Option<Span>)
    requires WellFormed(s)
    ensures r.Some? <==>
      (exists i :: 0 <= i < |s.lineEnds| && start <= s.lineEnds[i]) &&
      (exists i :: 0 <= i < |s.lineEnds| && end <= s.lineEnds[i])
    ensures r.Some? ==> IsAnchorOf(s, start, r.value.start) && IsAnchorOf(s, end, r.value.end)
  {
    var a := AnchorAt(s, start);
    var b := AnchorAt(s, end);
    if a.Some? && b.Some? {
      r := Some(Span(a.value, b.value));
    } else {
      r := None;
    }
  }

  /** Number of lines: one per recorded line end, plus a final line without
      one. For a built source that is one per newline of the text, and no
      lines exactly for the empty text. */
  function NumLines(s: Source): (r: nat)
    ensures WellFormed(s) ==>
      r == Newlines(s.chars) + (if |s.chars| > 0 && s.chars[|s.chars| - 1] != '\n' then 1 else 0)
    ensures WellFormed(s) ==> (r == 0 <==> s.chars == [])
  {
    var n := |s.lineEnds| + (if |s.chars| > 0 && s.chars[|s.chars| - 1] != '\n' then 1 else 0);
    if WellFormed(s) then
      LineEndsCount(s.chars, s.lineEnds);
      assert |s.chars| > 0 && s.chars[|s.chars| - 1] == '\n' ==> |s.chars| - 1 in s.lineEnds;
      n
    else n
  }

  /** The line ends of a text are as many as its newlines. */
  lemma {:induction false} LineEndsCount(chars: seq<char>, ends: seq<nat>)
    requires IsLineEnds(chars, ends)
    ensures |ends| == Newlines(chars)
    decreases |chars|
  {
    if chars != [] {
      var last := |chars| - 1;
      var front := chars[..last];
      if chars[last] == '\n' {
        assert last in ends;
        var top := |ends| - 1;
        assert ends[top] == last by {
          var k :| 0 <= k < |ends| && ends[k] == last;
          assert k == top || ends[k] < ends[top];
        }
        LineEndsDropLast(chars, ends);
        LineEndsCount(front, ends[..top]);
      } else {
        forall i | 0 <= i < |ends|
          ensures ends[i] < last
        {
          assert chars[ends[i]] == '\n';
        }
        LineEndsCount(front, ends);
      }
    }
  }

  /** Dropping a final newline drops the last line end. */
  lemma LineEndsDropLast(chars: seq<char>, ends: seq<nat>)
    requires IsLineEnds(chars, ends) && chars != [] && ends != []
    requires ends[|ends| - 1] == |chars| - 1
    ensures IsLineEnds(chars[..|chars| - 1], ends[..|ends| - 1])
  {
    var front, rest := chars[..|chars| - 1], ends[..|ends| - 1];
    forall k | 0 <= k < |front| && front[k] == '\n'
      ensures k in rest
    {
      var i :| 0 <= i < |ends| && ends[i] == k;
      assert i < |ends| - 1;
      assert rest[i] == k;
    }
  }

  /** The unit test of `num_lines`. */
  lemma NumLinesTests(s: Source)
    requires WellFormed(s)
    ensures s.chars == "" ==> NumLines(s) == 0
    ensures s.chars == "foo" ==> NumLines(s) == 1
    ensures s.chars == "foo\n" ==> NumLines(s) == 1
    ensures s.chars == "foo\nbar" ==> NumLines(s) == 2
    ensures s.chars == "foo\nbar\n" ==> NumLines(s) == 2
  {
    NewlinesFree("foo");
    NewlinesFree("bar");
    assert Newlines("\n") == 1 by { assert "\n"[..0] == ""; }
    assert "foo" + "\n" == "foo\n" && "foo\n" + "bar" == "foo\nbar" && "foo\nbar" + "\n" == "foo\nbar\n";
    NewlinesAppend("foo", "\n");
    NewlinesAppend("foo\n", "bar");
    NewlinesAppend("foo\nbar", "\n");
  }

  lemma NewlinesFree(t: string)
    requires forall i :: 0 <= i < |t| ==> t[i] != '\n'
    ensures Newlines(t) == 0
  {
  }

  /** The text of 1-based line `number`, without its '\n'. */
  function Line(s: Source, number: nat): (r: Option<string>)
    requires WellFormed(s)
    ensures r.Some? <==> 1 <= number <= NumLines(s)
    ensures r.Some? ==> forall c :: c in r.value ==> c != '\n'
    ensures r.Some? ==> r.value == s.chars[LineStart(s.lineEnds, number - 1)..LineEnd(s, number - 1)]
  {
    if number > NumLines(s) || number == 0 then None
    else
      var index := number - 1;
      if index > 0 && index - 1 >= |s.lineEnds| then None
      else
        var begin := if index == 0 then 0 else s.lineEnds[index - 1] + 1;
        var end := if index < |s.lineEnds| then s.lineEnds[index] else |s.chars|;
        assert begin <= end by {
          if 0 < index < |s.lineEnds| {
            assert s.lineEnds[index - 1] < s.lineEnds[index];
          }
        }
        NoNewlineInLine(s, index);
        Some(s.chars[begin..end])
  }
}

=== FILE: span.dfy ===
/**
  Anchors (line, column, offset) and spans between two anchors.

  An anchor's ordering is the one Rust derives for a struct: lexicographic in
  field order, so line first, then column, then offset.
 */
module Spans {

  datatype Anchor = Anchor(line: nat, column: nat, offset: nat)

  datatype Span = Span(start: Anchor, end: Anchor)

  /** The derived `<=` on anchors: lexicographic over (line, column, offset). */
  predicate AnchorLe(a: Anchor, b: Anchor)
  {
    || a.line < b.line
    || (a.line == b.line && a.column < b.column)
    || (a.line == b.line && a.column == b.column && a.offset <= b.offset)
  }

  lemma AnchorLeIsTotalOrder(a: Anchor, b: Anchor, c: Anchor)
    ensures AnchorLe(a, a)
    ensures AnchorLe(a, b) && AnchorLe(b, a) ==> a == b
    ensures AnchorLe(a, b) && AnchorLe(b, c) ==> AnchorLe(a, c)
    ensures AnchorLe(a, b) || AnchorLe(b, a)
  {
  }

  /** Number of characters covered by the span; the source subtracts `usize`s
      and so needs the end to lie at or after the start. */
  function Size(s: Span): (r: nat)
    requires s.start.offset <= s.end.offset
    ensures s.start.offset + r == s.end.offset
  {
    s.end.offset - s.start.offset
  }

  /** The anchor lies between the span's ends, both included. */
  predicate Covers(s: Span, a: Anchor)
  {
    AnchorLe(s.start, a) && AnchorLe(a, s.end)
  }

  /** `self` contains `other` when it starts no later and ends no earlier:
      then every anchor `other` covers, `self` covers too. */
  function Contains(s: Span, other: Span): (r: bool)
    ensures r ==> forall a :: Covers(other, a) ==> Covers(s, a)
  {
    AnchorLe(s.start, other.start) && AnchorLe(other.end, s.end)
  }

  /** For a span whose start is not after its end, containment is exactly
      covering every anchor it covers. */
  lemma ContainsIffCovers(s: Span, other: Span)
    requires AnchorLe(other.start, other.end)
    ensures Contains(s, other) <==> forall a :: Covers(other, a) ==> Covers(s, a)
  {
    if forall a :: Covers(other, a) ==> Covers(s, a) {
      assert Covers(other, other.start) && Covers(other, other.end);
    }
  }

  lemma ContainsReflexive(s: Span)
    ensures Contains(s, s)
  {
  }

  lemma ContainsTransitive(a: Span, b: Span, c: Span)
    requires Contains(a, b) && Contains(b, c)
    ensures Contains(a, c)
  {
    AnchorLeIsTotalOrder(a.start, b.start, c.start);
    AnchorLeIsTotalOrder(c.end, b.end, a.end);
  }

  lemma ContainsAntisymmetric(a: Span, b: Span)
    requires Contains(a, b) && Contains(b, a)
    ensures a == b
  {
    AnchorLeIsTotalOrder(a.start, b.start, a.start);
    AnchorLeIsTotalOrder(a.end, b.end, a.end);
  }
}

=== FILE: sparse_matrix.dfy ===
/**
  A sparse matrix: values are stored once per cell, in insertion order, and
  a map sends a cell's index to the position of its value.

  The cell of coordinates (x, y) is found through a single integer index.
  As written the index is x * width + y, where `width` is the first
  dimension; `CellIndexAsWritten` models that, and `CellIndex` is the
  row-major index x * height + y, which keeps the cells of a
  width-by-height matrix apart.
 */
module SparseMatrix {
  import opened Wrappers
  import opened Arith

  datatype Matrix<T> = Matrix(width: nat, height: nat, values: seq<T>, indices: map<nat, nat>)

  function New<T>(width: nat, height: nat): Matrix<T>
  {
    Matrix(width, height, [], map[])
  }

  /** Every index points at a stored value. */
  predicate Valid<T>(m: Matrix<T>)
  {
    forall k :: k in m.indices ==> m.indices[k] < |m.values|
  }

  lemma NewValid<T>(width: nat, height: nat)
    ensures Valid(New<T>(width, height))
  {
  }

  /** Stores `v` at an index unless that index is taken; the answer says
      whether it was taken. */
  function InsertAt<T>(m: Matrix<T>, index: nat, v: T): (r: (Matrix<T>, bool))
    ensures r.1 <==> index in m.indices
    ensures r.1 ==> r.0 == m
    ensures !r.1 ==> r.0 == m.(values := m.values + [v], indices := m.indices[index := |m.values|])
  {
    if index in m.indices then (m, true)
    else (m.(values := m.values + [v], indices := m.indices[index := |m.values|]), false)
  }

  /** The value stored at an index. The source's `expect` on the value
      lookup is the validity invariant. */
  function GetAt<T>(m: Matrix<T>, index: nat): (r: Option<T>)
    requires Valid(m)
    ensures r.Some? <==> index in m.indices
    ensures r.Some? ==> r.value == m.values[m.indices[index]]
  {
    if index in m.indices then Some(m.values[m.indices[index]]) else None
  }

  lemma InsertAtKeepsValid<T>(m: Matrix<T>, index: nat, v: T)
    requires Valid(m)
    ensures Valid(InsertAt(m, index, v).0)
  {
  }

  /** After an insertion the index holds the first value stored there, and
      every other index is unchanged. */
  lemma GetAfterInsertAt<T>(m: Matrix<T>, index: nat, v: T, other: nat)
    requires Valid(m)
    ensures var m1 := InsertAt(m, index, v).0;
            && Valid(m1)
            && GetAt(m1, index) == (if index in m.indices then GetAt(m, index) else Some(v))
            && (other != index ==> GetAt(m1, other) == GetAt(m, other))
  {
    var m1 := InsertAt(m, index, v).0;
    if index !in m.indices && other in m.indices {
      assert m1.values[m.indices[other]] == m.values[m.indices[other]];
    }
  }

  // ---------------------------------------------------------------------
  // Cell indices.

  /** The index computed by `insert` and `get`: x * width + y. */
  function CellIndexAsWritten<T>(m: Matrix<T>, x: nat, y: nat): (r: nat)
    ensures m.width == m.height ==> r == CellIndex(m, x, y)
  {
    x * m.width + y
  }

  /** Row-major index of a width-by-height matrix. */
  function CellIndex<T>(m: Matrix<T>, x: nat, y: nat): (r: nat)
    ensures y < m.height ==> x * m.height <= r < (x + 1) * m.height
  {
    assert (x + 1) * m.height == x * m.height + m.height;
    x * m.height + y
  }

  /** `insert((x, y), v)` with the row-major index: a taken cell is
      reported and left alone; a free one gets the value, stored after the
      others. The dimensions never change. */
  function Insert<T>(m: Matrix<T>, x: nat, y: nat, v: T): (r: (Matrix<T>, bool))
    ensures r.1 ==> r.0 == m
    ensures !r.1 ==> r.0.values == m.values + [v]
    ensures r.0.width == m.width && r.0.height == m.height
    ensures Valid(m) ==> Valid(r.0) && (r.1 <==> Get(m, x, y).Some?)
  {
    InsertAt(m, CellIndex(m, x, y), v)
  }

  /** `get((x, y))` with the row-major index: a stored value, present
      exactly when the cell was inserted. */
  function Get<T>(m: Matrix<T>, x: nat, y: nat): (r: Option<T>)
    requires Valid(m)
    ensures r.Some? <==> CellIndex(m, x, y) in m.indices
    ensures r.Some? ==> r.value in m.values
  {
    GetAt(m, CellIndex(m, x, y))
  }

  /** Inside the matrix the row-major index tells cells apart. */
  lemma CellIndexInjective<T>(m: Matrix<T>, x1: nat, y1: nat, x2: nat, y2: nat)
    requires y1 < m.height && y2 < m.height
    requires CellIndex(m, x1, y1) == CellIndex(m, x2, y2)
    ensures x1 == x2 && y1 == y2
  {
    DivMulUnique(CellIndex(m, x1, y1), m.height, x1, y1);
    DivMulUnique(CellIndex(m, x2, y2), m.height, x2, y2);
  }

  /** Insert then get: the cell holds the first value stored in it, and any
      other cell of the matrix is untouched. */
  lemma GetAfterInsert<T>(m: Matrix<T>, x: nat, y: nat, v: T, x2: nat, y2: nat)
    requires Valid(m) && y < m.height && y2 < m.height
    ensures var (m1, taken) := Insert(m, x, y, v);
            && Valid(m1)
            && (!taken ==> Get(m1, x, y) == Some(v))
            && (taken ==> Get(m1, x, y) == Get(m, x, y))
            && ((x2, y2) != (x, y) ==> Get(m1, x2, y2) == Get(m, x2, y2))
  {
    if (x2, y2) != (x, y) && CellIndex(m, x2, y2) == CellIndex(m, x, y) {
      CellIndexInjective(m, x, y, x2, y2);
    }
    GetAfterInsertAt(m, CellIndex(m, x, y), v, CellIndex(m, x2, y2));
  }

  /** The unit test: a 10-by-10 matrix holding 10 at (0, 9) has nothing at (1, 1). */
  lemma TenByTen()
    ensures var m := Insert(New<int>(10, 10), 0, 9, 10).0;
            Valid(m) && Get(m, 0, 9) == Some(10) && Get(m, 1, 1) == None
  {
  }

  /** As written, two different in-bounds cells of a 2-by-3 matrix share an
      index: (0, 2) and (1, 0) both give 2, so a value inserted at (0, 2)
      is read back at (1, 0) and an insertion at (1, 0) is refused. */
  lemma CellIndexAsWrittenCollides(m: Matrix<int>)
    requires m == New<int>(2, 3)
    ensures CellIndexAsWritten(m, 0, 2) == CellIndexAsWritten(m, 1, 0)
    ensures InsertAt(InsertAt(m, CellIndexAsWritten(m, 0, 2), 7).0, CellIndexAsWritten(m, 1, 0), 8).1
    ensures CellIndex(m, 0, 2) != CellIndex(m, 1, 0)
  {
    WrittenIndicesMeet(m);
    SecondInsertRefused(m);
    RowMajorIndicesDiffer(m);
  }

  lemma SecondInsertRefused(m: Matrix<int>)
    requires m == New<int>(2, 3)
    ensures InsertAt(InsertAt(m, 2, 7).0, 2, 8).1
  {
  }

  lemma WrittenIndicesMeet(m: Matrix<int>)
    requires m.width == 2
    ensures CellIndexAsWritten(m, 0, 2) == 2 == CellIndexAsWritten(m, 1, 0)
  {
  }

  lemma RowMajorIndicesDiffer(m: Matrix<int>)
    requires m.height == 3
    ensures CellIndex(m, 0, 2) == 2 && CellIndex(m, 1, 0) == 3
  {
  }
}

=== FILE: string_utils.dfy ===
/**
  String helpers: the list separator used by the pretty printers and the
  unescaping of quoted string literals.
 */
module StringUtils {

  /** A separator that writes nothing the first time it is formatted and
      `sep` every later time. */
  datatype ListSeparator = ListSeparator(sep: string, first: bool)

  function NewSeparator(sep: string): ListSeparator
  {
    ListSeparator(sep, true)
  }

  /** Formatting the separator once: the text written and the separator's
      state afterwards. */
  function Fmt(ls: ListSeparator): (r: (string, ListSeparator))
    ensures r.1 == ListSeparator(ls.sep, false)
    ensures ls.first ==> r.0 == []
    ensures !ls.first ==> r.0 == ls.sep
  {
    if !ls.first then (ls.sep, ls) else ([], ListSeparator(ls.sep, false))
  }

  /** How the printers use the separator: format it, then the item, for each item. */
  function WriteAll(ls: ListSeparator, items: seq<string>): string
    decreases |items|
  {
    if |items| == 0 then []
    else
      var (out, next) := Fmt(ls);
      out + items[0] + WriteAll(next, items[1..])
  }

  /** Reference definition: the items with `sep` between each adjacent pair. */
  function Join(items: seq<string>, sep: string): (r: string)
    ensures |items| > 0 ==> items[0] <= r
    ensures |items| > 0 ==> var last := items[|items| - 1];
              |last| <= |r| && r[|r| - |last|..] == last
  {
    if |items| == 0 then []
    else if |items| == 1 then items[0]
    else items[0] + sep + Join(items[1..], sep)
  }

  lemma {:induction false} WriteAllAfterFirst(sep: string, items: seq<string>)
    requires |items| > 0
    ensures WriteAll(ListSeparator(sep, false), items) == sep + Join(items, sep)
    decreases |items|
  {
    if |items| > 1 {
      WriteAllAfterFirst(sep, items[1..]);
      assert WriteAll(ListSeparator(sep, false), items)
          == sep + items[0] + (sep + Join(items[1..], sep));
    }
  }

  /** A fresh separator written between items joins them with `sep`. */
  lemma {:induction false} SeparatorJoins(sep: string, items: seq<string>)
    ensures WriteAll(NewSeparator(sep), items) == Join(items, sep)
  {
    if |items| > 1 {
      WriteAllAfterFirst(sep, items[1..]);
      assert WriteAll(NewSeparator(sep), items) == items[0] + (sep + Join(items[1..], sep));
    }
  }

  /** The unescaping loop over the characters between the quotes; `inEscape`
      holds right after a backslash. A backslash starts an escape (even
      inside one), "\n" becomes a newline, any other escaped character keeps
      its backslash, and a trailing lone backslash is dropped. */
  function Unescape(cs: seq<char>, inEscape: bool): (r: string)
    ensures forall c :: c in r ==>
              || c in cs
              || (c == '\n' && 'n' in cs)
              || (c == '\\' && ('\\' in cs || inEscape))
  {
    if |cs| == 0 then []
    else if cs[0] == '\\' then Unescape(cs[1..], true)
    else if inEscape && cs[0] == 'n' then ['\n'] + Unescape(cs[1..], false)
    else if inEscape then ['\\', cs[0]] + Unescape(cs[1..], false)
    else [cs[0]] + Unescape(cs[1..], false)
  }

  /** Strips the surrounding quotes and unescapes what is between them. */
  function TrimAndUnescape(s: string): (r: string)
    requires |s| >= 2 && s[0] == '"' && s[|s| - 1] == '"'
    ensures |r| <= |s| - 2
  {
    UnescapeLength(s[1..|s| - 1], false);
    Unescape(s[1..|s| - 1], false)
  }

  /** The output never grows beyond the input, except by the one backslash
      an escape already in progress may still write. */
  lemma {:induction false} UnescapeLength(cs: seq<char>, inEscape: bool)
    ensures |Unescape(cs, inEscape)| <= |cs| + (if inEscape then 1 else 0)
  {
    if |cs| > 0 {
      UnescapeLength(cs[1..], cs[0] == '\\');
      UnescapeLength(cs[1..], false);
    }
  }

  /** Text without a backslash is returned unchanged. */
  lemma {:induction false} UnescapePlain(cs: seq<char>)
    requires forall i :: 0 <= i < |cs| ==> cs[i] != '\\'
    ensures Unescape(cs, false) == cs
  {
    if |cs| > 0 {
      UnescapePlain(cs[1..]);
    }
  }

  /** Text the unescaper reproduces: every backslash is followed by a
      character that does not itself start or complete an escape. */
  predicate EscapeFree(t: string)
  {
    forall i :: 0 <= i < |t| && t[i] == '\\' ==>
      i + 1 < |t| && t[i + 1] != 'n' && t[i + 1] != '\\' && t[i + 1] != '\n'
  }

  /** The inverse direction: writes each newline as a backslash followed by 'n'. */
  function Escape(t: string): (r: string)
    ensures |r| >= |t|
  {
    if |t| == 0 then []
    else if t[0] == '\n' then ['\\', 'n'] + Escape(t[1..])
    else [t[0]] + Escape(t[1..])
  }

  lemma {:induction false} UnescapeEscape(t: string)
    requires EscapeFree(t)
    ensures Unescape(Escape(t), false) == t
    decreases |t|
  {
    if |t| == 0 {
    } else if t[0] == '\n' {
      assert EscapeFree(t[1..]) by {
        forall i | 0 <= i < |t[1..]| && t[1..][i] == '\\'
          ensures i + 1 < |t[1..]| && t[1..][i + 1] != 'n' && t[1..][i + 1] != '\\' && t[1..][i + 1] != '\n'
        {
          assert t[i + 1] == '\\';
        }
      }
      UnescapeEscape(t[1..]);
      var e := ['\\', 'n'] + Escape(t[1..]);
      assert e[1..][1..] == Escape(t[1..]);
    } else if t[0] == '\\' {
      var c := t[1];
      assert EscapeFree(t[2..]) by {
        forall i | 0 <= i < |t[2..]| && t[2..][i] == '\\'
          ensures i + 1 < |t[2..]| && t[2..][i + 1] != 'n' && t[2..][i + 1] != '\\' && t[2..][i + 1] != '\n'
        {
          assert t[i + 2] == '\\';
        }
      }
      UnescapeEscape(t[2..]);
      assert t[1..][1..] == t[2..];
      var e := ['\\', c] + Escape(t[2..]);
      assert Escape(t) == e;
      assert e[1..][1..] == Escape(t[2..]);
    } else {
      assert EscapeFree(t[1..]) by {
        forall i | 0 <= i < |t[1..]| && t[1..][i] == '\\'
          ensures i + 1 < |t[1..]| && t[1..][i + 1] != 'n' && t[1..][i + 1] != '\\' && t[1..][i + 1] != '\n'
        {
          assert t[i + 1] == '\\';
        }
      }
      UnescapeEscape(t[1..]);
      assert ([t[0]] + Escape(t[1..]))[1..] == Escape(t[1..]);
    }
  }

  /** Quoting the escaped text and trimming it again gives the text back. */
  lemma QuotedRoundTrip(t: string)
    requires EscapeFree(t)
    ensures TrimAndUnescape(['"'] + Escape(t) + ['"']) == t
  {
    var s := ['"'] + Escape(t) + ['"'];
    assert s[1..|s| - 1] == Escape(t);
    UnescapeEscape(t);
  }
}

=== FILE: tyc_typeck.dfy ===
/**
  The older type checker's database: types are numbered in creation order
  and named, the builtins come first with the error type as id 0, pointer
  types are made once per pointee, and two types unify only when they are
  the same id. Calls are checked argument by argument against the callee's
  parameter types.

  The database keeps names in a hash map and `type_by_identifier` takes
  the first entry the map's iteration yields. The model searches ids in
  increasing order. `TypeByIdentifier`'s contract promises only what any
  iteration order gives, and so does the fresh-name half of
  `TypeByIdentifierAfterNewType`, since a fresh name is held by one id
  only. Its other half, that a name already taken finds the same id
  after a new type is made, relies on the lowest-id search: once a name
  is registered twice, a hash-map search need not keep its answer.
 */
module TycTypeck {
  import opened Wrappers

  type Id = nat

  datatype BuiltinKind = Integer(signed: bool, size: nat) | StringKind

  datatype TypeKind =
    | FunctionTy(params: seq<Id>, returnTy: Id)
    | Builtin(builtin: BuiltinKind)
    | PointerTy(pointee: Id)
    | ErrorTy

  datatype TyType = TyType(id: Id, kind: TypeKind)

  /** A pointer type made for the type `basedId`. */
  datatype BasedType = BasedType(id: Id, basedId: Id)

  datatype Database = Database(types: seq<TyType>, identifiers: map<Id, string>, basedTypes: seq<BasedType>, errorId: Id)

  /** A type as an expression sees it, with the syntax node it came from. */
  datatype TypeRef = TypeRef(id: Id, astId: Option<nat>)

  datatype TyError = Unification(a: TypeRef, b: TypeRef) | Generic(message: string)

  function EmptyDatabase(): Database
  {
    Database([], map[], [], 0)
  }

  /** Every type sits at its own id and has a name; every remembered
      pointer type points at its base. */
  predicate Valid(db: Database)
  {
    && (forall i :: 0 <= i < |db.types| ==> db.types[i].id == i)
    && (forall i :: i in db.identifiers ==> i < |db.types|)
    && (forall i :: 0 <= i < |db.types| ==> i in db.identifiers)
    && (forall j :: 0 <= j < |db.basedTypes| ==>
          db.basedTypes[j].id < |db.types| && db.types[db.basedTypes[j].id].kind == PointerTy(db.basedTypes[j].basedId))
  }

  /** `new_type`: the next id, named and recorded. */
  function NewType(db: Database, identifier: string, kind: TypeKind): (r: (Database, Id))
    ensures r.1 == |db.types|
    ensures r.0.types == db.types + [TyType(r.1, kind)]
    ensures r.0.identifiers == db.identifiers[r.1 := identifier]
    ensures r.0.basedTypes == db.basedTypes && r.0.errorId == db.errorId
  {
    var id := |db.types|;
    (db.(types := db.types + [TyType(id, kind)], identifiers := db.identifiers[id := identifier]), id)
  }

  lemma NewTypeKeepsValid(db: Database, identifier: string, kind: TypeKind)
    requires Valid(db)
    ensures Valid(NewType(db, identifier, kind).0)
  {
    var db1 := NewType(db, identifier, kind).0;
    forall j | 0 <= j < |db1.basedTypes|
      ensures db1.basedTypes[j].id < |db1.types|
      ensures db1.types[db1.basedTypes[j].id].kind == PointerTy(db1.basedTypes[j].basedId)
    {
      assert db1.types[db.basedTypes[j].id] == db.types[db.basedTypes[j].id];
    }
  }

  /** The builtin types, in the order they are made. */
  const Builtins: seq<(string, TypeKind)> := [
    ("<err>", ErrorTy),
    ("i64", Builtin(Integer(true, 64))),
    ("u64", Builtin(Integer(false, 64))),
    ("str", Builtin(StringKind))
  ]

  /** `TypeDatabase::new` followed by the builtins, made in order, as the
      checker starts. */
  function WithBuiltins(): Database
  {
    var db1 := NewType(EmptyDatabase(), Builtins[0].0, Builtins[0].1).0;
    var db2 := NewType(db1, Builtins[1].0, Builtins[1].1).0;
    var db3 := NewType(db2, Builtins[2].0, Builtins[2].1).0;
    NewType(db3, Builtins[3].0, Builtins[3].1).0
  }

  /** The builtins take ids 0 to 3 in order, so the error type is id 0 and
      the database's error id names it. */
  lemma BuiltinsLayout()
    ensures Valid(WithBuiltins())
    ensures |WithBuiltins().types| == |Builtins|
    ensures forall i :: 0 <= i < |Builtins| ==>
              WithBuiltins().types[i] == TyType(i, Builtins[i].1) && WithBuiltins().identifiers[i] == Builtins[i].0
    ensures WithBuiltins().errorId == 0 && WithBuiltins().types[0].kind == ErrorTy
    ensures WithBuiltins().identifiers[WithBuiltins().errorId] == "<err>"
  {
    var db := WithBuiltins();
    assert forall i :: 0 <= i < |Builtins| ==> db.types[0 + i] == TyType(0 + i, Builtins[i].1);
  }

  // ---------------------------------------------------------------------
  // Names.

  /** The lowest id from `from` on whose name is `name`. */
  function FindIdentifier(db: Database, name: string, from: nat): (r: Option<Id>)
    requires Valid(db)
    ensures r.Some? ==> from <= r.value < |db.types| && r.value in db.identifiers && db.identifiers[r.value] == name
    ensures r.Some? ==> forall j :: from <= j < r.value ==> db.identifiers[j] != name
    ensures r.None? <==> forall j :: from <= j < |db.types| ==> db.identifiers[j] != name
    decreases |db.types| - from
  {
    if from >= |db.types| then None
    else if db.identifiers[from] == name then Some(from)
    else FindIdentifier(db, name, from + 1)
  }

  /** `type_by_identifier`: an id registered under exactly that name, if
      any. */
  function TypeByIdentifier(db: Database, name: string): (r: Option<Id>)
    requires Valid(db)
    ensures r.Some? ==> r.value in db.identifiers && db.identifiers[r.value] == name
    ensures r.None? <==> forall j :: j in db.identifiers ==> db.identifiers[j] != name
  {
    FindIdentifier(db, name, 0)
  }

  /** A type made under a name no type had yet is what that name finds
      afterwards; with the lowest-id search, names already taken still
      find what they found. */
  lemma TypeByIdentifierAfterNewType(db: Database, identifier: string, kind: TypeKind, other: string)
    requires Valid(db)
    ensures Valid(NewType(db, identifier, kind).0)
    ensures TypeByIdentifier(db, identifier).None? ==>
              TypeByIdentifier(NewType(db, identifier, kind).0, identifier) == Some(|db.types|)
    ensures TypeByIdentifier(db, other).Some? ==>
              TypeByIdentifier(NewType(db, identifier, kind).0, other) == TypeByIdentifier(db, other)
  {
    NewTypeKeepsValid(db, identifier, kind);
    var db1 := NewType(db, identifier, kind).0;
    var r := TypeByIdentifier(db, other);
    if r.Some? {
      FindIdentifierExtends(db, db1, other, 0);
    }
    if TypeByIdentifier(db, identifier).None? {
      FindIdentifierExtends(db, db1, identifier, 0);
    }
  }

  /** Searching a database grown by names at the end finds the same first
      match, or, failing one among the old ids, the first new one. */
  lemma {:induction false} FindIdentifierExtends(db: Database, db1: Database, name: string, from: nat)
    requires Valid(db) && Valid(db1) && |db.types| <= |db1.types| && from <= |db.types|
    requires forall j :: 0 <= j < |db.types| ==> db1.identifiers[j] == db.identifiers[j]
    ensures FindIdentifier(db, name, from).Some? ==> FindIdentifier(db1, name, from) == FindIdentifier(db, name, from)
    ensures FindIdentifier(db, name, from).None? ==> FindIdentifier(db1, name, from) == FindIdentifier(db1, name, |db.types|)
    decreases |db.types| - from
  {
    if from < |db.types| && db.identifiers[from] != name {
      FindIdentifierExtends(db, db1, name, from + 1);
    }
  }

  // ---------------------------------------------------------------------
  // Pointer types.

  /** `find_based_type`: the first pointer type made for `t`. */
  function FindBasedType(based: seq<BasedType>, t: Id): (r: Option<Id>)
    ensures r.None? <==> forall j :: 0 <= j < |based| ==> based[j].basedId != t
    ensures r.Some? ==> exists j :: 0 <= j < |based| && based[j].basedId == t && based[j].id == r.value
  {
    if based == [] then None
    else if based[0].basedId == t then Some(based[0].id)
    else
      var r := FindBasedType(based[1..], t);
      assert forall j :: 0 < j < |based| ==> based[1..][j - 1] == based[j];
      r
  }

  /** `based_type_of`: the pointer type to `t`, made (and named `*` and the
      base's name) the first time. The base must have a name. */
  function BasedTypeOf(db: Database, t: Id): (r: (Database, Id))
    requires t in db.identifiers
    ensures FindBasedType(db.basedTypes, t).Some? ==> r == (db, FindBasedType(db.basedTypes, t).value)
    ensures FindBasedType(db.basedTypes, t).None? ==>
              && r.1 == |db.types|
              && r.0.types == db.types + [TyType(r.1, PointerTy(t))]
              && r.0.identifiers == db.identifiers[r.1 := "*" + db.identifiers[t]]
              && r.0.basedTypes == db.basedTypes + [BasedType(r.1, t)]
    ensures r.0.errorId == db.errorId && |db.types| <= |r.0.types|
  {
    match FindBasedType(db.basedTypes, t)
    case Some(id) => (db, id)
    case None =>
      var (db1, id) := NewType(db, "*" + db.identifiers[t], PointerTy(t));
      (db1.(basedTypes := db1.basedTypes + [BasedType(id, t)]), id)
  }

  /** The pointer type handed out points at `t`; asking again gives the
      same id and changes nothing. */
  lemma BasedTypeOfMemo(db: Database, t: Id)
    requires Valid(db) && t in db.identifiers
    ensures var (db1, id) := BasedTypeOf(db, t);
            && Valid(db1) && id < |db1.types| && db1.types[id].kind == PointerTy(t)
            && t in db1.identifiers && BasedTypeOf(db1, t) == (db1, id)
  {
    var (db1, id) := BasedTypeOf(db, t);
    if FindBasedType(db.basedTypes, t).None? {
      NewTypeKeepsValid(db, "*" + db.identifiers[t], PointerTy(t));
      var db0 := NewType(db, "*" + db.identifiers[t], PointerTy(t)).0;
      assert db1.basedTypes[|db1.basedTypes| - 1] == BasedType(id, t);
      forall j | 0 <= j < |db1.basedTypes|
        ensures db1.basedTypes[j].id < |db1.types|
        ensures db1.types[db1.basedTypes[j].id].kind == PointerTy(db1.basedTypes[j].basedId)
      {
        if j < |db.basedTypes| {
          assert db1.basedTypes[j] == db0.basedTypes[j];
        }
      }
      BasedTypeFoundFirst(db1.basedTypes, t);
    } else {
      var j :| 0 <= j < |db.basedTypes| && db.basedTypes[j].basedId == t && db.basedTypes[j].id == id;
      assert db.types[id].kind == PointerTy(t);
    }
  }

  /** Once a pointer type for `t` is at the end and none came before, the
      search finds it. */
  lemma {:induction false} BasedTypeFoundFirst(based: seq<BasedType>, t: Id)
    requires |based| > 0 && based[|based| - 1].basedId == t
    requires forall j :: 0 <= j < |based| - 1 ==> based[j].basedId != t
    ensures FindBasedType(based, t) == Some(based[|based| - 1].id)
  {
    if |based| > 1 {
      assert based[1..][|based[1..]| - 1] == based[|based| - 1];
      BasedTypeFoundFirst(based[1..], t);
    }
  }

  /** A type as written in the syntax tree. */
  datatype AstType = ErrorType | Pointer(pointee: AstType) | Named(name: string)

  /** `check_type`: the error type, the pointer type to the checked
      pointee, or the type of that name, falling back to the error type. */
  function CheckType(db: Database, t: AstType): (r: (Database, Id))
    requires Valid(db) && db.errorId < |db.types|
    ensures Valid(r.0) && r.0.errorId == db.errorId && r.1 < |r.0.types| && |db.types| <= |r.0.types|
    ensures t.ErrorType? ==> r == (db, db.errorId)
    ensures t.Named? && TypeByIdentifier(db, t.name).Some? ==> r == (db, TypeByIdentifier(db, t.name).value)
    ensures t.Named? && TypeByIdentifier(db, t.name).None? ==> r == (db, db.errorId)
    ensures t.Pointer? ==> r.0.types[r.1].kind == PointerTy(CheckType(db, t.pointee).1)
  {
    match t
    case ErrorType => (db, db.errorId)
    case Named(name) => (db, TypeByIdentifier(db, name).UnwrapOr(db.errorId))
    case Pointer(inner) =>
      var (db1, p) := CheckType(db, inner);
      BasedTypeOfMemo(db1, p);
      BasedTypeOf(db1, p)
  }

  // ---------------------------------------------------------------------
  // Unification and calls.

  /** `TypeChecker::unify`: the same id or a unification error. */
  function Unify(a: TypeRef, b: TypeRef): (r: Result<Id, TyError>)
    ensures r.Ok? <==> a.id == b.id
    ensures r.Ok? ==> r.value == a.id && r.value == b.id
    ensures r.Err? ==> r.error == Unification(a, b)
  {
    if a.id != b.id then Err(Unification(a, b)) else Ok(a.id)
  }

  /** Unification succeeds the same way in either order. */
  lemma UnifySymmetric(a: TypeRef, b: TypeRef)
    ensures Unify(a, b).Ok? <==> Unify(b, a).Ok?
    ensures Unify(a, b).Ok? ==> Unify(a, b) == Unify(b, a)
  {
  }

  function NotEnoughArguments(name: string): string
  {
    "in function call to `" + name + "`: not enough arguments given"
  }

  function TooManyArguments(name: string): string
  {
    "in function call to `" + name + "`: too many arguments given"
  }

  /** The argument loop of `check_function_call` from position `i` on,
      for `max(|params|, |args|)` positions: a missing argument, then the
      argument's own error, then a missing parameter, then a mismatch end
      the loop. `args` holds the result of checking each argument. */
  function CheckArguments(name: string, params: seq<Id>, args: seq<Result<TypeRef, TyError>>, i: nat): (r: Result<(), TyError>)
    requires i <= |params| || i <= |args|
    ensures r.Err? ==> || r.error == Generic(NotEnoughArguments(name))
                       || r.error == Generic(TooManyArguments(name))
                       || r.error.Unification?
                       || exists j :: i <= j < |args| && args[j] == Err(r.error)
    decreases |params| + |args| - i
  {
    if i >= |params| && i >= |args| then Ok(())
    else if i >= |args| then Err(Generic(NotEnoughArguments(name)))
    else if args[i].Err? then Err(args[i].error)
    else if i >= |params| then Err(Generic(TooManyArguments(name)))
    else match Unify(args[i].value, TypeRef(params[i], None))
      case Err(e) => Err(e)
      case Ok(_) => CheckArguments(name, params, args, i + 1)
  }

  /** The arguments from `i` on are accepted exactly when there are as many
      as parameters and each checks to its parameter's type. */
  lemma {:induction false} CheckArgumentsOkIff(name: string, params: seq<Id>, args: seq<Result<TypeRef, TyError>>, i: nat)
    requires i <= |params| && i <= |args|
    ensures CheckArguments(name, params, args, i).Ok? <==>
              |params| == |args| && forall j :: i <= j < |args| ==> args[j].Ok? && args[j].value.id == params[j]
    decreases |params| + |args| - i
  {
    if i < |params| && i < |args| && args[i].Ok? && args[i].value.id == params[i] {
      CheckArgumentsOkIff(name, params, args, i + 1);
    }
  }

  /** With every argument checking to its parameter's type up to the
      shorter list's end, too few arguments is the "not enough" error and
      too many is the "too many" error. */
  lemma {:induction false} CheckArgumentsArity(name: string, params: seq<Id>, args: seq<Result<TypeRef, TyError>>, i: nat)
    requires i <= |params| && i <= |args|
    requires forall j :: i <= j < |params| && j < |args| ==> args[j].Ok? && args[j].value.id == params[j]
    requires |args| != |params| ==> (|args| > |params| ==> args[|params|].Ok?)
    ensures |args| < |params| ==> CheckArguments(name, params, args, i) == Err(Generic(NotEnoughArguments(name)))
    ensures |args| > |params| ==> CheckArguments(name, params, args, i) == Err(Generic(TooManyArguments(name)))
    decreases |params| + |args| - i
  {
    if i < |params| && i < |args| {
      CheckArgumentsArity(name, params, args, i + 1);
    }
  }

  /** `check_function_call`: the callee is looked up by name; a function
      type checks its arguments and gives its return type; anything else
      is an error naming the callee's type. */
  function CheckFunctionCall(db: Database, name: string, args: seq<Result<TypeRef, TyError>>): (r: Result<Id, TyError>)
    requires Valid(db)
    ensures TypeByIdentifier(db, name).None? ==> r == Err(Generic("no function " + name))
    ensures r.Ok? ==> exists params ::
              && db.types[TypeByIdentifier(db, name).value].kind == FunctionTy(params, r.value)
              && |params| == |args|
              && forall j :: 0 <= j < |args| ==> args[j].Ok? && args[j].value.id == params[j]
    ensures TypeByIdentifier(db, name).Some? && db.types[TypeByIdentifier(db, name).value].kind.FunctionTy? ==>
              var callee := db.types[TypeByIdentifier(db, name).value].kind;
              (|callee.params| == |args| && forall j :: 0 <= j < |args| ==> args[j].Ok? && args[j].value.id == callee.params[j]) ==>
                r == Ok(callee.returnTy)
    ensures TypeByIdentifier(db, name).Some? && !db.types[TypeByIdentifier(db, name).value].kind.FunctionTy? ==>
              r == Err(Generic(db.identifiers[TypeByIdentifier(db, name).value] + " is not a function"))
  {
    match TypeByIdentifier(db, name)
    case None => Err(Generic("no function " + name))
    case Some(id) =>
      match db.types[id].kind
      case FunctionTy(params, ret) =>
        CheckArgumentsOkIff(name, params, args, 0);
        (match CheckArguments(name, params, args, 0)
         case Ok(_) => Ok(ret)
         case Err(e) => Err(e))
      case _ => Err(Generic(db.identifiers[db.types[id].id] + " is not a function"))
  }

  /** At the call, a function callee whose arguments match its parameters
      up to the shorter list's end fails with the "not enough" error when
      arguments are missing and the "too many" error when they are extra. */
  lemma CheckFunctionCallArity(db: Database, name: string, args: seq<Result<TypeRef, TyError>>)
    requires Valid(db) && TypeByIdentifier(db, name).Some?
    requires db.types[TypeByIdentifier(db, name).value].kind.FunctionTy?
    requires var params := db.types[TypeByIdentifier(db, name).value].kind.params;
             && (forall j :: 0 <= j < |params| && j < |args| ==> args[j].Ok? && args[j].value.id == params[j])
             && (|args| > |params| ==> args[|params|].Ok?)
    ensures var params := db.types[TypeByIdentifier(db, name).value].kind.params;
            |args| < |params| ==> CheckFunctionCall(db, name, args) == Err(Generic(NotEnoughArguments(name)))
    ensures var params := db.types[TypeByIdentifier(db, name).value].kind.params;
            |args| > |params| ==> CheckFunctionCall(db, name, args) == Err(Generic(TooManyArguments(name)))
  {
    var params := db.types[TypeByIdentifier(db, name).value].kind.params;
    CheckArgumentsArity(name, params, args, 0);
  }
}

=== FILE: vec_graph.dfy ===
/**
  A directed graph stored as two vectors: the vertex data, indexed by node,
  and the edges as (from, to) pairs in insertion order. The first vertex
  added becomes the start node. `add_edge` skips an edge that is already
  there, so the edge vector never holds a pair twice.
 */
module VecGraph {
  import opened Wrappers

  /** A node is the index of its vertex. */
  type NodeRef = nat

  datatype Graph<T> = Graph(vertices: seq<T>, edges: seq<(NodeRef, NodeRef)>, start: Option<NodeRef>)

  function New<T>(): Graph<T>
  {
    Graph([], [], None)
  }

  /** No edge is stored twice, every edge joins existing vertices, and the
      start node is set exactly when there is a vertex, and is one. */
  predicate Valid<T>(g: Graph<T>)
  {
    && (forall i, j :: 0 <= i < j < |g.edges| ==> g.edges[i] != g.edges[j])
    && (forall i :: 0 <= i < |g.edges| ==> g.edges[i].0 < |g.vertices| && g.edges[i].1 < |g.vertices|)
    && (g.start.Some? <==> |g.vertices| > 0)
    && (g.start.Some? ==> g.start.value < |g.vertices|)
  }

  lemma NewValid<T>()
    ensures Valid(New<T>())
  {
  }

  /** `add_vertex`: the new node is the old vertex count; the first vertex
      becomes the start. */
  function AddVertex<T>(g: Graph<T>, v: T): (r: (Graph<T>, NodeRef))
    ensures r.1 == |g.vertices|
    ensures r.0.vertices == g.vertices + [v] && r.0.edges == g.edges
    ensures r.0.start == (if g.start.None? then Some(r.1) else g.start)
  {
    var node := |g.vertices|;
    var start := if g.start.None? then Some(node) else g.start;
    (Graph(g.vertices + [v], g.edges, start), node)
  }

  /** `add_edge`: appends the edge unless it is already stored. */
  function AddEdge<T>(g: Graph<T>, from: NodeRef, to: NodeRef): (r: Graph<T>)
    ensures (from, to) in r.edges
    ensures (from, to) in g.edges ==> r == g
    ensures (from, to) !in g.edges ==> r == g.(edges := g.edges + [(from, to)])
  {
    if (from, to) in g.edges then g else g.(edges := g.edges + [(from, to)])
  }

  /** `add_successor`: a new vertex and the edge from `node` to it. */
  function AddSuccessor<T>(g: Graph<T>, node: NodeRef, v: T): (r: (Graph<T>, NodeRef))
    ensures r.1 == |g.vertices| && r.0.vertices == g.vertices + [v] && r.0.start == AddVertex(g, v).0.start
    ensures r.0.edges == AddEdge(g, node, r.1).edges
  {
    var (g1, succ) := AddVertex(g, v);
    (AddEdge(g1, node, succ), succ)
  }

  /** `add_predecessor`: a new vertex and the edge from it to `node`. */
  function AddPredecessor<T>(g: Graph<T>, node: NodeRef, v: T): (r: (Graph<T>, NodeRef))
    ensures r.1 == |g.vertices| && r.0.vertices == g.vertices + [v] && r.0.start == AddVertex(g, v).0.start
    ensures r.0.edges == AddEdge(g, r.1, node).edges
  {
    var (g1, pred) := AddVertex(g, v);
    (AddEdge(g1, pred, node), pred)
  }

  /** In a valid graph the edge to or from a new node is never a duplicate,
      so both operations append it, and a valid graph stays valid when
      `node` is one of its vertices. */
  lemma AddNeighbourAppends<T>(g: Graph<T>, node: NodeRef, v: T)
    requires Valid(g)
    ensures AddSuccessor(g, node, v).0.edges == g.edges + [(node, |g.vertices|)]
    ensures AddPredecessor(g, node, v).0.edges == g.edges + [(|g.vertices|, node)]
    ensures node < |g.vertices| ==> Valid(AddSuccessor(g, node, v).0) && Valid(AddPredecessor(g, node, v).0)
  {
    NewNodeHasNoEdges(g, |g.vertices|);
    if node < |g.vertices| {
      AddVertexKeepsValid(g, v);
      var g1 := AddVertex(g, v).0;
      AddEdgeKeepsValid(g1, node, |g.vertices|);
      AddEdgeKeepsValid(g1, |g.vertices|, node);
    }
  }

  /** In a valid graph no edge touches the node one past the last vertex. */
  lemma NewNodeHasNoEdges<T>(g: Graph<T>, n: NodeRef)
    ensures Valid(g) && n == |g.vertices| ==> forall m :: (n, m) !in g.edges && (m, n) !in g.edges
  {
  }

  /** `set_start`: the source does not check that the node exists. */
  function SetStart<T>(g: Graph<T>, node: NodeRef): (r: Graph<T>)
    ensures r.start == Some(node) && r.vertices == g.vertices && r.edges == g.edges
  {
    g.(start := Some(node))
  }

  /** Moving the start to an existing vertex keeps the graph valid, and the
      first vertex added stays the start until then. */
  lemma SetStartKeepsValid<T>(g: Graph<T>, node: NodeRef, v: T)
    requires Valid(g)
    ensures node < |g.vertices| ==> Valid(SetStart(g, node))
    ensures |g.vertices| == 0 ==> AddVertex(g, v).0.start == Some(0)
    ensures |g.vertices| > 0 ==> AddVertex(g, v).0.start == g.start
  {
  }

  /** `last`: the most recently added node. */
  function Last<T>(g: Graph<T>): (r: Option<NodeRef>)
    ensures r.Some? <==> |g.vertices| > 0
    ensures r.Some? ==> r.value + 1 == |g.vertices|
  {
    if |g.vertices| == 0 then None else Some(|g.vertices| - 1)
  }

  /** `data`: the vertex of a node. The source unwraps the lookup. */
  function Data<T>(g: Graph<T>, n: NodeRef): T
    requires n < |g.vertices|
  {
    g.vertices[n]
  }

  /** `find_vertex`: the first node whose data equals `data`. */
  function FindVertex<T(==)>(g: Graph<T>, data: T): (r: Option<NodeRef>)
    ensures r.Some? ==> r.value < |g.vertices| && g.vertices[r.value] == data
    ensures r.Some? ==> forall j :: 0 <= j < r.value ==> g.vertices[j] != data
    ensures r.None? <==> data !in g.vertices
  {
    FindFrom(g.vertices, data, 0)
  }

  function FindFrom<T(==)>(vs: seq<T>, data: T, i: nat): (r: Option<NodeRef>)
    requires i <= |vs|
    requires forall j :: 0 <= j < i ==> vs[j] != data
    ensures r.Some? ==> i <= r.value < |vs| && vs[r.value] == data
    ensures r.Some? ==> forall j :: 0 <= j < r.value ==> vs[j] != data
    ensures r.None? <==> data !in vs
    decreases |vs| - i
  {
    if i == |vs| then None
    else if vs[i] == data then Some(i)
    else FindFrom(vs, data, i + 1)
  }

  // ---------------------------------------------------------------------
  // Neighbours.

  /** `successors`: the ends of the edges leaving `n`, in edge order. */
  function SuccessorsIn(edges: seq<(NodeRef, NodeRef)>, n: NodeRef): seq<NodeRef>
  {
    if edges == [] then []
    else
      var rest := SuccessorsIn(edges[..|edges| - 1], n);
      var e := edges[|edges| - 1];
      if e.0 == n then rest + [e.1] else rest
  }

  /** `predecessors`: the starts of the edges entering `n`, in edge order. */
  function PredecessorsIn(edges: seq<(NodeRef, NodeRef)>, n: NodeRef): seq<NodeRef>
  {
    if edges == [] then []
    else
      var rest := PredecessorsIn(edges[..|edges| - 1], n);
      var e := edges[|edges| - 1];
      if e.1 == n then rest + [e.0] else rest
  }

  /** `successors`: exactly the ends of the stored edges leaving `n`. */
  function Successors<T>(g: Graph<T>, n: NodeRef): (r: seq<NodeRef>)
    ensures forall m :: m in r <==> (n, m) in g.edges
  {
    assert forall m :: m in SuccessorsIn(g.edges, n) <==> (n, m) in g.edges by {
      forall m {
        SuccessorsAreEdges(g.edges, n, m);
      }
    }
    SuccessorsIn(g.edges, n)
  }

  /** `predecessors`: exactly the starts of the stored edges entering `n`. */
  function Predecessors<T>(g: Graph<T>, n: NodeRef): (r: seq<NodeRef>)
    ensures forall m :: m in r <==> (m, n) in g.edges
  {
    assert forall m :: m in PredecessorsIn(g.edges, n) <==> (m, n) in g.edges by {
      forall m {
        PredecessorsAreEdges(g.edges, n, m);
      }
    }
    PredecessorsIn(g.edges, n)
  }

  /** `in_degree` and `out_degree` count the neighbours: in a valid graph,
      the distinct nodes with an edge into, or out of, the node. */
  function InDegree<T>(g: Graph<T>, n: NodeRef): (r: nat)
    ensures Valid(g) ==> r == |EdgesInto(g.edges, n)|
  {
    if Valid(g) then InDegreeCountsEdges(g.edges, n); |Predecessors(g, n)|
    else |Predecessors(g, n)|
  }

  function OutDegree<T>(g: Graph<T>, n: NodeRef): (r: nat)
    ensures Valid(g) ==> r == |EdgesOutOf(g.edges, n)|
  {
    if Valid(g) then OutDegreeCountsEdges(g.edges, n); |Successors(g, n)|
    else |Successors(g, n)|
  }

  /** A node is a successor of `n` exactly when the edge from `n` to it is stored. */
  lemma {:induction false} SuccessorsAreEdges(edges: seq<(NodeRef, NodeRef)>, n: NodeRef, m: NodeRef)
    ensures m in SuccessorsIn(edges, n) <==> (n, m) in edges
  {
    if edges != [] {
      var init := edges[..|edges| - 1];
      assert edges == init + [edges[|edges| - 1]];
      SuccessorsAreEdges(init, n, m);
    }
  }

  /** A node is a predecessor of `n` exactly when the edge from it to `n` is stored. */
  lemma {:induction false} PredecessorsAreEdges(edges: seq<(NodeRef, NodeRef)>, n: NodeRef, m: NodeRef)
    ensures m in PredecessorsIn(edges, n) <==> (m, n) in edges
  {
    if edges != [] {
      var init := edges[..|edges| - 1];
      assert edges == init + [edges[|edges| - 1]];
      PredecessorsAreEdges(init, n, m);
    }
  }

  /** The edges ending at `n`, as a set of starts. */
  function EdgesInto(edges: seq<(NodeRef, NodeRef)>, n: NodeRef): set<NodeRef>
  {
    set e | e in edges && e.1 == n :: e.0
  }

  /** With no duplicate edges, the in-degree is the number of distinct
      edges ending at the node. */
  lemma {:induction false} InDegreeCountsEdges(edges: seq<(NodeRef, NodeRef)>, n: NodeRef)
    requires forall i, j :: 0 <= i < j < |edges| ==> edges[i] != edges[j]
    ensures |PredecessorsIn(edges, n)| == |EdgesInto(edges, n)|
  {
    if edges != [] {
      var init := edges[..|edges| - 1];
      var e := edges[|edges| - 1];
      assert edges == init + [e];
      InDegreeCountsEdges(init, n);
      if e.1 == n {
        forall i | 0 <= i < |init|
          ensures init[i] != e
        {
          assert init[i] == edges[i];
        }
        assert EdgesInto(edges, n) == EdgesInto(init, n) + {e.0};
        assert e.0 !in EdgesInto(init, n);
      } else {
        assert EdgesInto(edges, n) == EdgesInto(init, n);
      }
    }
  }

  /** The edges starting at `n`, as a set of ends. */
  function EdgesOutOf(edges: seq<(NodeRef, NodeRef)>, n: NodeRef): set<NodeRef>
  {
    set e | e in edges && e.0 == n :: e.1
  }

  /** With no duplicate edges, the out-degree is the number of distinct
      edges starting at the node. */
  lemma {:induction false} OutDegreeCountsEdges(edges: seq<(NodeRef, NodeRef)>, n: NodeRef)
    requires forall i, j :: 0 <= i < j < |edges| ==> edges[i] != edges[j]
    ensures |SuccessorsIn(edges, n)| == |EdgesOutOf(edges, n)|
  {
    if edges != [] {
      var init := edges[..|edges| - 1];
      var e := edges[|edges| - 1];
      assert edges == init + [e];
      OutDegreeCountsEdges(init, n);
      if e.0 == n {
        forall i | 0 <= i < |init|
          ensures init[i] != e
        {
          assert init[i] == edges[i];
        }
        assert EdgesOutOf(edges, n) == EdgesOutOf(init, n) + {e.1};
        assert e.1 !in EdgesOutOf(init, n);
      } else {
        assert EdgesOutOf(edges, n) == EdgesOutOf(init, n);
      }
    }
  }

  /** `add_edge` keeps the graph valid when both ends are vertices, and
      adding it a second time changes nothing. */
  lemma AddEdgeKeepsValid<T>(g: Graph<T>, from: NodeRef, to: NodeRef)
    requires Valid(g) && from < |g.vertices| && to < |g.vertices|
    ensures Valid(AddEdge(g, from, to))
    ensures AddEdge(AddEdge(g, from, to), from, to) == AddEdge(g, from, to)
  {
  }

  lemma AddVertexKeepsValid<T>(g: Graph<T>, v: T)
    requires Valid(g)
    ensures Valid(AddVertex(g, v).0)
  {
  }

  /** A new edge from `from` appends its end to the successors of `from`
      and leaves every other node's successors alone. */
  lemma SuccessorsAfterAddEdge<T>(g: Graph<T>, from: NodeRef, to: NodeRef, n: NodeRef)
    requires (from, to) !in g.edges
    ensures Successors(AddEdge(g, from, to), n) ==
            Successors(g, n) + (if n == from then [to] else [])
    ensures Predecessors(AddEdge(g, from, to), n) ==
            Predecessors(g, n) + (if n == to then [from] else [])
  {
    var es := g.edges + [(from, to)];
    assert es[..|es| - 1] == g.edges;
  }

  /** Two edges read back in order from both ends. */
  lemma TwoEdges(a: NodeRef, b: NodeRef, c: NodeRef)
    requires b != a && c != a
    ensures SuccessorsIn([(a, b), (a, c)], a) == [b, c]
    ensures PredecessorsIn([(b, a), (c, a)], a) == [b, c]
    ensures SuccessorsIn([(b, a), (c, a)], a) == []
  {
    var out, into := [(a, b), (a, c)], [(b, a), (c, a)];
    assert out[..1] == [(a, b)] && into[..1] == [(b, a)];
    assert [(a, b)][..0] == [] && [(b, a)][..0] == [];
    assert SuccessorsIn([(a, b)], a) == [b];
    assert SuccessorsIn(out, a) == SuccessorsIn([(a, b)], a) + [c];
    assert PredecessorsIn([(b, a)], a) == [b];
    assert PredecessorsIn(into, a) == PredecessorsIn([(b, a)], a) + [c];
    assert SuccessorsIn([(b, a)], a) == [];
    assert SuccessorsIn(into, a) == SuccessorsIn([(b, a)], a);
  }

  /** The unit tests: two successors, then two predecessors, of the start
      node come out in the order they were added. */
  lemma SuccessorsInOrder()
    ensures var (g0, s) := AddVertex(New<string>(), "foo");
            var g1 := AddSuccessor(g0, s, "succ1").0;
            var g2 := AddSuccessor(g1, s, "succ2").0;
            && g2.start == Some(s)
            && Successors(g2, s) == [1, 2]
            && Data(g2, 1) == "succ1" && Data(g2, 2) == "succ2"
  {
    var (g0, s) := AddVertex(New<string>(), "foo");
    assert s == 0 && g0.edges == [];
    var g1 := AddSuccessor(g0, s, "succ1").0;
    assert g1.edges == [(0, 1)] && g1.vertices == ["foo", "succ1"];
    var g2 := AddSuccessor(g1, s, "succ2").0;
    assert (0, 2) !in g1.edges;
    assert g2.edges == [(0, 1), (0, 2)];
    assert g2.vertices == ["foo", "succ1", "succ2"];
    assert Data(g2, 1) == "succ1" && Data(g2, 2) == "succ2";
    assert g2.start == Some(0);
    TwoEdges(0, 1, 2);
  }

  lemma PredecessorsInOrder()
    ensures var (g0, s) := AddVertex(New<string>(), "foo");
            var g1 := AddPredecessor(g0, s, "pred1").0;
            var g2 := AddPredecessor(g1, s, "pred2").0;
            && Predecessors(g2, s) == [1, 2]
            && Successors(g2, s) == []
  {
    var (g0, s) := AddVertex(New<string>(), "foo");
    assert s == 0 && g0.edges == [];
    var g1 := AddPredecessor(g0, s, "pred1").0;
    assert g1.edges == [(1, 0)] && |g1.vertices| == 2;
    var g2 := AddPredecessor(g1, s, "pred2").0;
    assert (2, 0) !in g1.edges;
    assert g2.edges == [(1, 0), (2, 0)];
    TwoEdges(0, 1, 2);
  }
}

=== FILE: wrappers.dfy ===
/**
  Option and Result types shared by every module of the model. The Rust
  code's `Option<T>` maps to `Option<T>`; its `Result<T, E>` and the panics
  it documents map to `Result<T, E>`.
 */
module Wrappers {

  datatype Option<+T> = None | Some(value: T) {
    predicate IsSome() {
      Some?
    }

    function UnwrapOr(default: T): T {
      match this
      case Some(v) => v
      case None => default
    }
  }

  datatype Result<+T, +E> = Ok(value: T) | Err(error: E) {
    predicate IsOk() {
      Ok?
    }
  }
}

/**
  Slices under a name. A contract that says which part of the input a
  result covers reads `Slice(s, lo, hi)` where the bounds come from the
  result.
 */
module Slices {
  /** `s[lo..hi]`. */
  function Slice<T>(s: seq<T>, lo: nat, hi: nat): seq<T>
    requires lo <= hi <= |s|
  {
    s[lo..hi]
  }

  /** `s[..n]`. */
  function Prefix<T>(s: seq<T>, n: nat): seq<T>
    requires n <= |s|
  {
    s[..n]
  }

  /** The number of '\n' characters in a text. */
  function Newlines(s: string): nat
  {
    if s == [] then 0 else Newlines(s[..|s| - 1]) + (if s[|s| - 1] == '\n' then 1 else 0)
  }

  lemma {:induction false} NewlinesAppend(a: string, b: string)
    ensures Newlines(a + b) == Newlines(a) + Newlines(b)
    decreases |b|
  {
    if b == [] {
      assert a + b == a;
    } else {
      var b' := b[..|b| - 1];
      assert (a + b)[..|a + b| - 1] == a + b';
      NewlinesAppend(a, b');
    }
  }
}
